=== FILE: README.md ===
# Leapfrog Triejoin and pushdown aggregation, modelled in Dafny

The repository computes, for a database of relations joined naturally on
their shared attribute names, the aggregate SUM(x * y) for every pair x, y
of the distinct attribute names with x at or before y, x = y included. It does this in three ways:

- AggOne walks the join one result tuple at a time;
- AggTwo first summarises every relation by its join attributes (COUNT,
  column sums, pair-product sums), then joins the summaries and scales;
- Naive writes the equivalent SQL text.

The join is a Leapfrog Triejoin over sorted tuple arrays. Each array is
read through a trie cursor (SequentialIterator), with one unary leapfrog
join per join condition.

The Dafny modules follow that structure:

| module | models |
|---|---|
| `Seqs` | sums, products, the upper-triangle pair list and its index arithmetic |
| `Relation` | a relation's rows, the row comparator, the sort, and loading a `\|`-separated file |
| `Cursor` | SequentialIterator; each mutating call becomes a function from the old cursor value to the new one |
| `Unary` | UnaryLeapfrogTriejoin over a shared sequence of cursors, one per relation |
| `Levels` | LeapfrogTriejoin's state (cursors, one unary join per level, depth, end flag) and its open/next/up per level |
| `Triejoin` | findNext, init, overallNext and resultTuple, with termination and soundness |
| `Database` | schema analysis: attribute name pairs, attribute positions, all pairs of attributes, explicit join conditions, the test and housing schemas |
| `AggOne` | tuple-at-a-time aggregation over a sequence of join tuples |
| `AggTwo` | join-attribute detection, per-relation summarisation, instructions, calculateFromInstruction, and the proof that the pushdown equals AggOne |
| `Naive` | the SQL strings of buildQueryAll, buildQueryOne and buildNaturalJoin |

Integers are unbounded. Java's integer division, which truncates, is written
out as `AggTwo.Div`. Exceptions the source can throw become `None`,
`Malformed` or an explicit precondition.

## Model

| member | source | states |
|---|---|---|
| Seqs.UpperPairsLength | src/org/candidate697229/database/Database.java:111-118 | the nested j <= k loop emits n(n+1)/2 pairs |
| Seqs.UpperPairsAt | src/org/candidate697229/database/Database.java:111-118 | pair (a, b) with a <= b sits at index PairIndex(n, a, b) and holds (s[a], s[b]) |
| Seqs.UpperPairsInverse | src/org/candidate697229/database/Database.java:111-118 | every emitted index is PairIndex(n, a, b) of some a <= b |
| Seqs.PairIndexInjective | src/org/candidate697229/database/Database.java:111-118 | two pairs a <= b with the same index are the same pair, so each index names exactly one pair |
| Seqs.RowsBeforeClosedForm | src/org/candidate697229/algorithms/AggTwo.java:80-85 | the sum of (n - i) for i < k is k(2n - k + 1)/2 |
| Relation.CompareFirstDifference | src/org/candidate697229/database/Relation.java:48-50 | at the first differing column the comparator returns that column's Long.compare |
| Relation.ComparePrefix | src/org/candidate697229/database/Relation.java:52 | when one row is a prefix of the other the comparator returns the length difference |
| Relation.CompareZeroIffEqual | src/org/candidate697229/database/Relation.java:47-53 | the comparator is 0 exactly on equal rows |
| Relation.CompareAntisymmetric | src/org/candidate697229/database/Relation.java:47-53 | swapping the rows flips the sign |
| Relation.CompareTransitive | src/org/candidate697229/database/Relation.java:47-53 | "sorts no later than" is transitive |
| Relation.CompareTotal | src/org/candidate697229/database/Relation.java:47-53 | any two rows are comparable |
| Relation.Insert | src/org/candidate697229/database/Relation.java:47-53 | inserting into sorted rows keeps them sorted and adds exactly the row |
| Relation.SortRows | src/org/candidate697229/database/Relation.java:47-53 | the sorted rows are sorted and a permutation of the input |
| Relation.SortedUnique | src/org/candidate697229/database/Relation.java:47-56 | two sorted permutations of the same rows are equal, so any sorting algorithm stores the same array |
| Relation.SortSortedIsIdentity | src/org/candidate697229/database/Relation.java:47-53 | sorting rows already in order changes nothing |
| Relation.SplitAll | src/org/candidate697229/database/Relation.java:37 | the pieces between separators are at least one and contain no separator |
| Relation.SplitAllJoin | src/org/candidate697229/database/Relation.java:37 | joining the pieces with the separator gives the line back |
| Relation.JoinSplitAll | src/org/candidate697229/database/Relation.java:37 | splitting separator-free pieces joined by the separator gives the pieces back |
| Relation.DropTrailingEmpty | src/org/candidate697229/database/Relation.java:37 | String.split drops exactly the trailing empty pieces and keeps the rest as a prefix |
| Relation.ParseLong | src/org/candidate697229/database/Relation.java:41 | exactly the numerals (an optional sign, then at least one digit) whose value fits a long parse, and they parse to that value |
| Relation.DecimalIsPositional | src/org/candidate697229/database/Relation.java:41 | the digit loop's value is the positional base-ten value of the digits |
| Relation.ParseShow | src/org/candidate697229/database/Relation.java:41 | parsing the decimal text of any long gives that long |
| Relation.ParseFields | src/org/candidate697229/database/Relation.java:39-41 | a parsed row has one value per field, each the parse of its field; a failure names a field that does not parse |
| Relation.LoadLine | src/org/candidate697229/database/Relation.java:37-42 | a loaded row has the relation's arity and each value parses from its field; a wrong field count is reported |
| Relation.LoadLines | src/org/candidate697229/database/Relation.java:36-43 | the load succeeds exactly when every line parses; row k is then line k's row, of the relation's arity; a failed load carries the error of the first line that fails |
| Relation.Collect | src/org/candidate697229/database/Relation.java:36-43 | all rows are collected in order when no line failed |
| Relation.CollectFirstFailure | src/org/candidate697229/database/Relation.java:36-43 | collecting from a line on succeeds exactly when no later line failed, and otherwise stops at the first failure with its error |
| Relation.LoadRows | src/org/candidate697229/database/Relation.java:33-57 | the stored tuple array is the parsed rows, sorted, and a permutation of them; the load fails exactly when parsing the lines fails, with that error |
| Relation.LoadFormattedLine | src/org/candidate697229/database/Relation.java:37-42 | loading a line written from a row gives the row back |
| Relation.LoadRoundTrip | src/org/candidate697229/database/Relation.java:33-57 | loading the text of sorted rows gives exactly those rows |
| Relation.CollectAll | src/org/candidate697229/database/Relation.java:36-43 | when every line loads, the collected rows are those lines' rows |
| Cursor.Next | src/org/candidate697229/structures/SequentialIterator.java:54-60 | next() stays in the block, skips only rows with the current key, and sets the end flag exactly when the key has not changed |
| Cursor.NextPosSpec | src/org/candidate697229/structures/SequentialIterator.java:56-57 | the scan stops inside the array and passes only rows holding the start key |
| Cursor.NextIncreases | src/org/candidate697229/structures/SequentialIterator.java:54-60 | on a sorted array next() strictly increases the key unless it ends |
| Cursor.Seek | src/org/candidate697229/structures/SequentialIterator.java:32-35 | seek(x) ends or reaches a key >= x, skips only keys < x, stays in the block, and moves nothing when the key is already >= x |
| Cursor.SeekReaches | src/org/candidate697229/structures/SequentialIterator.java:32-35 | on a sorted array seek(x) keeps every key >= x still ahead in the block, and adds none |
| Cursor.NextReaches | src/org/candidate697229/structures/SequentialIterator.java:54-60 | on a sorted array next() keeps every other key still ahead in the block, and adds none |
| Cursor.ReachesAbove | src/org/candidate697229/structures/SequentialIterator.java:111-119 | on a sorted array every key still ahead in the block is at least the current key |
| Cursor.RewindPos | src/org/candidate697229/structures/SequentialIterator.java:71-72 | the rewind never moves past row 0 or forward |
| Cursor.RewindSpec | src/org/candidate697229/structures/SequentialIterator.java:86-94 | the rewind stops on the first row of the block agreeing on the bound columns |
| Cursor.Open | src/org/candidate697229/structures/SequentialIterator.java:68-73 | open() binds one more column, moves back to the start of the current block and keeps the end flag |
| Cursor.Up | src/org/candidate697229/structures/SequentialIterator.java:76-79 | up() unbinds a column, keeps the row and clears the end flag |
| Cursor.FreshOpen | src/org/candidate697229/structures/SequentialIterator.java:68-73 | opening a new cursor binds column 0 on row 0 |
| Cursor.OpenUp | src/org/candidate697229/structures/SequentialIterator.java:68-79 | open() then up() returns to the same depth and the same key |
| Cursor.NextInBlock | src/org/candidate697229/structures/SequentialIterator.java:43-45 | nextInBlock() moves one row forward and changes nothing else |
| Cursor.Back | src/org/candidate697229/structures/SequentialIterator.java:48-51 | back(n) moves n rows back and clears the end flag |
| Cursor.NextInBlockKeepsPrefix | src/org/candidate697229/structures/SequentialIterator.java:38-45 | when isNextInBlock() holds, nextInBlock() keeps every bound column's value |
| Cursor.BackUndoesAdvance | src/org/candidate697229/structures/SequentialIterator.java:43-51 | back(n) undoes n calls of nextInBlock(), apart from the end flag |
| Cursor.BlockEndSame | src/org/candidate697229/structures/SequentialIterator.java:111-119 | in a sorted array two rows with the same prefix share one block |
| Cursor.NextLeavesBlock | src/org/candidate697229/structures/SequentialIterator.java:54-60 | on a sorted array next() either ends or leaves the block of its key |
| Cursor.BlockEndMonotone | src/org/candidate697229/structures/SequentialIterator.java:54-60 | a later row never has an earlier block end, so next() only moves forward |
| Unary.TurnsAreFloorMod | src/org/candidate697229/join/UnaryLeapfrogTriejoin.java:45-57 | the turn successor and predecessor equal Math.floorMod(p + 1, k) and Math.floorMod(p - 1, k) |
| Unary.Search | src/org/candidate697229/join/UnaryLeapfrogTriejoin.java:44-61 | leapfrogSearch terminates, keeps every cursor ready, keeps depths and keeps the turn in range |
| Unary.SearchFrame | src/org/candidate697229/join/UnaryLeapfrogTriejoin.java:44-61 | the search moves only member cursors, only forward, and sets the join's end flag exactly when the cursor whose turn it is ends |
| Unary.SearchMatch | src/org/candidate697229/join/UnaryLeapfrogTriejoin.java:47-49 | a search that returns without ending has the turn's key equal to the previous member's key |
| Unary.SearchAgrees | src/org/candidate697229/join/UnaryLeapfrogTriejoin.java:44-61 | from keys in cyclic order, a search that has not ended leaves all members on one key |
| Unary.SearchComplete | src/org/candidate697229/join/UnaryLeapfrogTriejoin.java:40-61 | the search skips no key common to all members, ends only when no common key remains, and otherwise leaves every member at or below each common key |
| Unary.SearchFindsLeast | src/org/candidate697229/join/UnaryLeapfrogTriejoin.java:40-61 | from keys in cyclic order the search ends exactly when no key is common to all members, and otherwise stops on the least common key |
| Unary.SearchKeysGrow | src/org/candidate697229/join/UnaryLeapfrogTriejoin.java:51-57 | over sorted tables the search never lowers a member's key |
| Unary.SearchPrefix | src/org/candidate697229/join/UnaryLeapfrogTriejoin.java:44-61 | the search keeps each cursor within the block of its bound columns |
| Unary.RotStep | src/org/candidate697229/join/UnaryLeapfrogTriejoin.java:51-57 | raising the least key to at least the greatest keeps the cyclic order from the next turn |
| Unary.CyclicMeet | src/org/candidate697229/join/UnaryLeapfrogTriejoin.java:47-49 | in cyclic order, a least key equal to the greatest makes all keys equal |
| Unary.OpenAll | src/org/candidate697229/join/UnaryLeapfrogTriejoin.java:88 | open() opens exactly the member cursors |
| Unary.UpAll | src/org/candidate697229/join/UnaryLeapfrogTriejoin.java:95-97 | up() moves exactly the member cursors up |
| Unary.Init | src/org/candidate697229/join/UnaryLeapfrogTriejoin.java:30-38 | init() ends the join when some member has ended, and otherwise searches, leaving other cursors alone |
| Unary.InitComplete | src/org/candidate697229/join/UnaryLeapfrogTriejoin.java:30-61 | with no member ended and sorted tables, init() keeps the set of common keys, ends only when there is none, and otherwise leaves every member at or below each common key |
| Unary.Open | src/org/candidate697229/join/UnaryLeapfrogTriejoin.java:87-90 | open() as written binds one more column of every member and nothing else |
| Unary.Up | src/org/candidate697229/join/UnaryLeapfrogTriejoin.java:95-97 | up() unbinds a column of every member, keeps rows, turn and end flag |
| Unary.Next | src/org/candidate697229/join/UnaryLeapfrogTriejoin.java:66-74 | next() keeps every cursor ready and keeps depths and the turn in range |
| Unary.NextAdvances | src/org/candidate697229/join/UnaryLeapfrogTriejoin.java:66-74 | from members agreeing on a key, next() over sorted tables ends or agrees again on a strictly larger key |
| Unary.NextComplete | src/org/candidate697229/join/UnaryLeapfrogTriejoin.java:66-74 | next() skips no common key above the current one, ends only when none remains, and otherwise leaves every member at or below each of them |
| Unary.NextFindsLeast | src/org/candidate697229/join/UnaryLeapfrogTriejoin.java:40-74 | from members agreeing on a key, next() ends exactly when no larger key is common to all members, and otherwise stops on the least such key |
| Unary.NextPrefix | src/org/candidate697229/join/UnaryLeapfrogTriejoin.java:66-74 | next() moves only member cursors, each within its block |
| Unary.NextLeaves | src/org/candidate697229/join/UnaryLeapfrogTriejoin.java:66-74 | next() moves no cursor back and takes the turn's cursor past its key's block unless it ends the join |
| Unary.InitPrefix | src/org/candidate697229/join/UnaryLeapfrogTriejoin.java:30-38 | init() keeps every cursor within its block |
| Unary.SortMembersSpec | src/org/candidate697229/join/UnaryLeapfrogTriejoin.java:30-38 | the corrected init orders the same members by key and keeps them distinct |
| Unary.OpenSorted | src/org/candidate697229/join/UnaryLeapfrogTriejoin.java:87-90 | the corrected open() binds one more column of every member and reorders the members only |
| Unary.OpenSortedAgrees | src/org/candidate697229/join/UnaryLeapfrogTriejoin.java:30-38 | after the corrected open(), a join that has not ended has all members on one key |
| Unary.OpenSortedPrefix | src/org/candidate697229/join/UnaryLeapfrogTriejoin.java:87-90 | the corrected open() keeps every cursor within the block of the columns bound before it |
| Unary.OpenAsWrittenDisagrees | src/org/candidate697229/join/UnaryLeapfrogTriejoin.java:30-38 | open() as written on {5}, {1, 5}, {5} reports a binding with keys 5, 1, 5 |
| Unary.OpenSortedExample | src/org/candidate697229/join/UnaryLeapfrogTriejoin.java:30-38 | the corrected open() on the same tables binds all members to 5 |
| Levels.BuildWf | src/org/candidate697229/join/LeapfrogTriejoin.java:22-33 | the constructor gives every relation a fresh cursor and every condition a unary join |
| Levels.BuildInv | src/org/candidate697229/join/LeapfrogTriejoin.java:22-33 | over sorted tables the constructed join satisfies the search invariant |
| Levels.LevelNext | src/org/candidate697229/join/LeapfrogTriejoin.java:85-87 | next() changes only the current level |
| Levels.LevelOpen | src/org/candidate697229/join/LeapfrogTriejoin.java:89-91 | open(), with the corrected unary open, goes one level down and changes only the new level |
| Levels.LevelUp | src/org/candidate697229/join/LeapfrogTriejoin.java:93-95 | up() goes one level up, keeps every row and moves only the level's cursors |
| Levels.LevelNextInv | src/org/candidate697229/join/LeapfrogTriejoin.java:85-87 | next() on a level with a binding keeps the invariant |
| Levels.LevelOpenInv | src/org/candidate697229/join/LeapfrogTriejoin.java:89-91 | open() below a binding keeps the invariant |
| Levels.LevelUpInv | src/org/candidate697229/join/LeapfrogTriejoin.java:93-95 | up() keeps the invariant |
| Levels.KeysAgreed | src/org/candidate697229/join/LeapfrogTriejoin.java:81-83 | a level whose members all hold one key makes its condition's relations agree |
| Levels.LevelNextMoves | src/org/candidate697229/join/LeapfrogTriejoin.java:85-87 | next() moves no cursor back and either ends the level or takes the turn's cursor past its block |
| Levels.LevelNextDigits | src/org/candidate697229/join/LeapfrogTriejoin.java:85-87 | next() on a level with a binding moves the state lexicographically down at that level |
| Levels.LevelOpenFrame | src/org/candidate697229/join/LeapfrogTriejoin.java:89-91 | open() moves only the cursors the new level's condition names |
| Levels.LevelOpenUnused | src/org/candidate697229/join/LeapfrogTriejoin.java:89-91 | open() never moves a relation that no condition names |
| Levels.MeasureLess | src/org/candidate697229/join/LeapfrogTriejoin.java:57-79 | a lexicographically lower state has a smaller termination measure |
| Triejoin.Backtrack | src/org/candidate697229/join/LeapfrogTriejoin.java:59-64 | the up-and-next loop keeps the invariant, stops at level 0 or on a binding, and cancels the pending advance when it finds one |
| Triejoin.BacktrackProgress | src/org/candidate697229/join/LeapfrogTriejoin.java:59-64 | each up-and-next moves the state lexicographically down at the level it stops on |
| Triejoin.Descend | src/org/candidate697229/join/LeapfrogTriejoin.java:73-77 | the open loop keeps the invariant and stops at the last level or on an ended level |
| Triejoin.EndInv | src/org/candidate697229/join/LeapfrogTriejoin.java:65-68 | ending the whole join once level 0 has ended keeps the invariant |
| Triejoin.Advance | src/org/candidate697229/join/LeapfrogTriejoin.java:69-72 | the pending advance moves the current level and stays pending only if that ended it |
| Triejoin.Pass | src/org/candidate697229/join/LeapfrogTriejoin.java:58-78 | one do-while pass keeps the invariant and raises the overall end only with level 0 ended |
| Triejoin.Rest | src/org/candidate697229/join/LeapfrogTriejoin.java:78 | the repeated passes of the do-while, entered on an ended level, stop at a binding or the overall end |
| Triejoin.FindNext | src/org/candidate697229/join/LeapfrogTriejoin.java:57-79 | findNext stops either at a binding of every level or at the overall end |
| Triejoin.Init | src/org/candidate697229/join/LeapfrogTriejoin.java:45-47 | over relations that all have rows, init(), with the corrected unary open, reaches the first binding or the overall end (Triejoin.Start covers empty relations) |
| Triejoin.Start | src/org/candidate697229/join/LeapfrogTriejoin.java:45-79 | init() over relations that may be empty runs exactly when no condition names an empty relation, and then settles with every empty relation unused on a fresh cursor; it ends cleanly when the levels above the first such level end; otherwise it reads key() of an empty array on opening that level |
| Triejoin.PrefixInitSettled | src/org/candidate697229/join/LeapfrogTriejoin.java:57-79 | findNext over the first n levels reaches a binding of those levels or the overall end |
| Triejoin.PrefixInitWhole | src/org/candidate697229/join/LeapfrogTriejoin.java:45-47 | with no empty relation, init() over all the levels is Triejoin.Init |
| Triejoin.SchemaPrefix | src/org/candidate697229/join/LeapfrogTriejoin.java:28-32 | the first n join conditions are a valid set of join conditions on their own, binding the same columns |
| Triejoin.StartUnused | src/org/candidate697229/join/LeapfrogTriejoin.java:22-33 | when no condition names an empty relation, each empty relation has no unary join and keeps the cursor the constructor gave it |
| Triejoin.OverallNext | src/org/candidate697229/join/LeapfrogTriejoin.java:53-55 | overallNext() reaches the next binding or the overall end |
| Triejoin.ResultTuple | src/org/candidate697229/join/LeapfrogTriejoin.java:39-43 | resultTuple() holds one row per relation, the row its cursor is on |
| Triejoin.PassProgress | src/org/candidate697229/join/LeapfrogTriejoin.java:58-78 | a pass never raises the measure, and lowers it unless the join ends |
| Triejoin.RestProgress | src/org/candidate697229/join/LeapfrogTriejoin.java:78 | the later passes of the do-while never raise the measure |
| Triejoin.FindNextStays | src/org/candidate697229/join/LeapfrogTriejoin.java:57-79 | findNext(false) at a binding stays there |
| Triejoin.OverallNextEnded | src/org/candidate697229/join/LeapfrogTriejoin.java:53-55 | overallNext() after the end changes nothing |
| Triejoin.OverallNextProgress | src/org/candidate697229/join/LeapfrogTriejoin.java:53-55 | overallNext() from a binding strictly lowers the measure, so the enumeration terminates |
| Triejoin.ResultSound | src/org/candidate697229/join/LeapfrogTriejoin.java:39-43 | with the corrected unary open, every reported tuple agrees on every join condition |
| Triejoin.ResultUnused | src/org/candidate697229/join/LeapfrogTriejoin.java:39-43 | a relation no condition names reports its first row |
| Triejoin.ResultsSound | src/org/candidate697229/join/LeapfrogTriejoin.java:39-55 | with the corrected unary open, every tuple reported from a binding on has one row per relation and satisfies the conditions |
| Triejoin.EnumerateSound | src/org/candidate697229/join/LeapfrogTriejoin.java:39-55 | with the corrected unary open, every tuple of the whole enumeration from init() satisfies the join conditions |
| Database.DedupSpec | src/org/candidate697229/database/Database.java:91-94 | distinct() keeps every name once and adds none |
| Database.IndexOfName | src/org/candidate697229/database/Database.java:128 | containsKey finds the entry holding the name, or reports none |
| Database.AddOccurrence | src/org/candidate697229/database/Database.java:128-131 | a known name gets the occurrence appended; a new name gets a new entry at the end |
| Database.PositionsOfSpec | src/org/candidate697229/database/Database.java:123-135 | the map's keys are the distinct names in first-seen order, each holding all its occurrences |
| Database.PositionsOfExplicit | src/org/candidate697229/database/Database.java:123-135 | the map is one entry per distinct name holding exactly that name's occurrences |
| Database.ColumnsNamed | src/org/candidate697229/database/Database.java:125-127 | each visited occurrence carries the name at that position |
| Database.ColumnsIncreasing | src/org/candidate697229/database/Database.java:125-127 | occurrences are visited relation-major, position-minor |
| Database.OccsOfElements | src/org/candidate697229/database/Database.java:123-135 | every occurrence listed for a name is a column with that name |
| Database.OccsOfIncreasing | src/org/candidate697229/database/Database.java:123-135 | each name's occurrences come in visiting order |
| Database.FirstOccurrencesNamed | src/org/candidate697229/database/Database.java:108 | the first occurrence of each entry names that entry |
| Database.FirstsIncreasing | src/org/candidate697229/database/Database.java:108 | the first occurrences come in visiting order |
| Database.AllPairsCount | src/org/candidate697229/database/Database.java:106-121 | there are n(n+1)/2 pairs for n distinct names, as many as name pairs |
| Database.NamePairsMatchPositions | src/org/candidate697229/database/Database.java:90-121 | getAttributeNamePairs and getAllPairsOfAttributes list the same pairs in the same order |
| Database.PairsOrdered | src/org/candidate697229/database/Database.java:111-118 | in every pair the first occurrence comes no later than the second |
| Database.FindRel | src/org/candidate697229/database/Database.java:141-143 | the inner loop finds the first occurrence in the given relation, or none |
| Database.CompareConditionsAt | src/org/candidate697229/database/Database.java:141-144 | the comparator compares positions at the first shared relation |
| Database.CompareConditionsDisjoint | src/org/candidate697229/database/Database.java:147 | with no shared relation the longer condition sorts first |
| Database.CompareConditionsAntisymmetric | src/org/candidate697229/database/Database.java:140-148 | on relation-sorted conditions the comparator is antisymmetric |
| Database.InsertCondition | src/org/candidate697229/database/Database.java:140-148 | the insertion step keeps exactly the inserted conditions |
| Database.SortConditions | src/org/candidate697229/database/Database.java:140-148 | the sorted conditions are a permutation of the input |
| Database.InsertConditionSorted | src/org/candidate697229/database/Database.java:140-148 | insertion keeps conditions sorted where the comparator is consistent |
| Database.SortConditionsSorted | src/org/candidate697229/database/Database.java:140-148 | the sort yields sorted conditions where the comparator is consistent |
| Database.SharedOccurrencesSpec | src/org/candidate697229/database/Database.java:139 | the filter keeps exactly the lists of more than one occurrence |
| Database.JoinConditionsOrdered | src/org/candidate697229/database/Database.java:137-149 | every join condition lists its occurrences relation-major |
| Database.JoinConditionsExact | src/org/candidate697229/database/Database.java:137-149 | a list is a join condition exactly when it is all occurrences of a name occurring twice or more |
| Database.JoinConditionIsShared | src/org/candidate697229/database/Database.java:137-149 | every join condition is the occurrence list of a shared name |
| Database.SharedIsJoinCondition | src/org/candidate697229/database/Database.java:137-149 | every shared name's occurrence list is a join condition |
| Database.TestColumns | src/org/candidate697229/database/Database.java:81-88 | the test schema's columns in visiting order |
| Database.TestNames | src/org/candidate697229/database/Database.java:90-94 | the test schema's distinct names are A to F |
| Database.TestMap | src/org/candidate697229/database/Database.java:123-135 | findAttributePositions on the test schema, spelled out |
| Database.TestShared | src/org/candidate697229/database/Database.java:139 | the test schema's shared occurrence lists are those of A, B and E |
| Database.TestCompares | src/org/candidate697229/database/Database.java:140-148 | the comparator's values on the test schema's conditions |
| Database.TestSort | src/org/candidate697229/database/Database.java:140-148 | the test conditions are already in sorted order |
| Database.TestJoinConditions | src/org/candidate697229/database/Database.java:137-149 | the test schema joins on A, then B, then E |
| AggOne.TotalSnoc | src/org/candidate697229/algorithms/AggOne.java:24-25 | one more tuple adds its product to the total |
| AggOne.AddTuple | src/org/candidate697229/algorithms/AggOne.java:22-27 | one tuple adds its product to every pair's accumulator |
| AggOne.ComputeAll | src/org/candidate697229/algorithms/AggOne.java:18-30 | entry k is SUM(x * y) of pair k over the join, 0 for an empty join |
| AggOne.ComputeOne | src/org/candidate697229/algorithms/AggOne.java:36-46 | the single aggregate is the first pair's total over the join; an empty join gives 0, with or without pairs |
| AggOne.SchemaPairsFit | src/org/candidate697229/algorithms/AggOne.java:32-34 | the schema's attribute pairs never read outside a tuple |
| AggTwo.CompareJoinKeys | src/org/candidate697229/algorithms/AggTwo.java:147-153 | true exactly when the tuple differs from the remembered key at a join attribute |
| AggTwo.CopyJoinKeys | src/org/candidate697229/algorithms/AggTwo.java:155-160 | writes the tuple's join-attribute cells into the key and the summary row, nothing else |
| AggTwo.CalculatePosition | src/org/candidate697229/algorithms/AggTwo.java:80-85 | the loop's result equals k(2n - k + 1)/2, the number of pairs before row k |
| AggTwo.ColumnPairs | src/org/candidate697229/algorithms/AggTwo.java:108-112 | pair (a, b) of the pair list sits at PairIndex(n, a, b); there are n(n+1)/2 pairs |
| AggTwo.PairListIndex | src/org/candidate697229/algorithms/AggTwo.java:108-112 | entry k of the pair list is the pair whose index is k |
| AggTwo.PairListAt | src/org/candidate697229/algorithms/AggTwo.java:108-112 | pair (a, b) with a <= b is at its PairIndex in the pair list |
| AggTwo.ContributionCount | src/org/candidate697229/algorithms/AggTwo.java:128 | a row adds 1 to COUNT and nothing to the key slots |
| AggTwo.ContributionSum | src/org/candidate697229/algorithms/AggTwo.java:129-130 | a row adds its column value to that column's SUM slot |
| AggTwo.SummedColumn | src/org/candidate697229/algorithms/AggTwo.java:129-130 | the SUM slot an instruction reads for column a holds the column total of the group |
| AggTwo.ContributionPairAt | src/org/candidate697229/algorithms/AggTwo.java:131-133 | a row adds the product of columns a and b to SUM(a * b) |
| AggTwo.AccumulateRow | src/org/candidate697229/algorithms/AggTwo.java:128-133 | the loop body adds the row's contribution to every slot |
| AggTwo.GroupsSpec | src/org/candidate697229/algorithms/AggTwo.java:122-127 | the groups split the rows in order into non-empty runs of equal key, consecutive runs differing |
| AggTwo.GroupsKeys | src/org/candidate697229/algorithms/AggTwo.java:122-127 | every row of a group has the group's key |
| AggTwo.GroupsBreaks | src/org/candidate697229/algorithms/AggTwo.java:123 | consecutive groups have different keys |
| AggTwo.GroupsStep | src/org/candidate697229/algorithms/AggTwo.java:123-127 | a row extends the last group on an equal key and opens a new one otherwise |
| AggTwo.FirstStep | src/org/candidate697229/algorithms/AggTwo.java:119-121 | the first row opens the first group with its key |
| AggTwo.SameGroupStep | src/org/candidate697229/algorithms/AggTwo.java:128-133 | a row with the remembered key is added into the open group |
| AggTwo.NewGroupStep | src/org/candidate697229/algorithms/AggTwo.java:123-127 | a row with a new key closes the open group and opens one holding just that row |
| AggTwo.SummaryLayout | src/org/candidate697229/algorithms/AggTwo.java:118-135 | a group's summary holds its key, its size in COUNT, every column total and every pair total in its slot |
| AggTwo.FinishStep | src/org/candidate697229/algorithms/AggTwo.java:135 | adding the open group after the loop yields the summaries of all groups |
| AggTwo.SummarySnoc | src/org/candidate697229/algorithms/AggTwo.java:128-133 | one more row adds that row into the group's summary |
| AggTwo.CopiedKeys | src/org/candidate697229/algorithms/AggTwo.java:125-126 | copying keys into a fresh row gives the row's key row and a matching remembered key |
| AggTwo.RowStep | src/org/candidate697229/algorithms/AggTwo.java:122-133 | after a row the loop state holds the summaries of the closed groups and the open group |
| AggTwo.SummariseRow | src/org/candidate697229/algorithms/AggTwo.java:122-133 | one loop pass keeps the loop invariant |
| AggTwo.Summarise | src/org/candidate697229/algorithms/AggTwo.java:118-139 | the summarised relation is one summary per group, in order |
| AggTwo.SummaryRowsTotals | src/org/candidate697229/algorithms/AggTwo.java:122-135 | over any non-empty groups, the COUNT slots add up to the number of rows and each SUM slot adds up to its column's total |
| AggTwo.SummaryTotals | src/org/candidate697229/algorithms/AggTwo.java:122-135 | the COUNTs of the summarised relation sum to its row count, and each SUM column summed over the groups equals the column total |
| AggTwo.JoinAttributesSpec | src/org/candidate697229/algorithms/AggTwo.java:92-100 | a position is a join attribute of relation k exactly when some condition names it there |
| AggTwo.TestJoinAttributes | src/org/candidate697229/algorithms/AggTwo.java:92-100 | on the test schema every relation's join attributes are its leading columns |
| AggTwo.SummedAttributesLayout | src/org/candidate697229/algorithms/AggTwo.java:101-116 | each summary slot is named for what it holds: key names, COUNT, SUM(a), SUM(a*b) |
| AggTwo.SummariesExample | src/org/candidate697229/algorithms/AggTwo.java:118-139 | rows (1,1,5) and (1,2,6) keyed on column 0 summarise to one row with COUNT 2 and the right sums |
| AggTwo.InstructionSlots | src/org/candidate697229/algorithms/AggTwo.java:65-73 | each instruction names exactly the summary slots that hold its pair's totals |
| AggTwo.GetInstructions | src/org/candidate697229/algorithms/AggTwo.java:61-78 | one instruction per pair, in pair order |
| AggTwo.SchemaPairsIn | src/org/candidate697229/algorithms/AggTwo.java:61-73 | every attribute pair of a schema can be encoded over the schema's arities |
| AggTwo.DivExact | src/org/candidate697229/algorithms/AggTwo.java:40-45 | truncating division of a multiple by a non-zero count is exact |
| AggTwo.CountProductOf | src/org/candidate697229/algorithms/AggTwo.java:27-29 | the loop computes the product of the tuple's COUNT slots |
| AggTwo.SummedCounts | src/org/candidate697229/algorithms/AggTwo.java:27-29 | the COUNT slots hold the group sizes, so the count product is the number of row combinations |
| AggTwo.CombosShape | src/org/candidate697229/algorithms/AggTwo.java:38-46 | the row combinations number the product of the group sizes, one row from each group |
| AggTwo.OneFactor | src/org/candidate697229/algorithms/AggTwo.java:38-46 | summed over the combinations, one occurrence's value is its column total times the other groups' sizes |
| AggTwo.TwoFactors | src/org/candidate697229/algorithms/AggTwo.java:38-46 | summed over the combinations, a pair's product is its pair total, or the two column totals, times the other sizes |
| AggTwo.DistributesWithin | src/org/candidate697229/algorithms/AggTwo.java:39-41 | the within-relation instruction gives the pair's sum over all combinations |
| AggTwo.DistributesAcross | src/org/candidate697229/algorithms/AggTwo.java:42-45 | the across-relation instruction gives the pair's sum over all combinations |
| AggTwo.Distributes | src/org/candidate697229/algorithms/AggTwo.java:38-46 | calculateFromInstruction on a summarised tuple equals the pair's sum over the combinations of its groups |
| AggTwo.ComputeAll | src/org/candidate697229/algorithms/AggTwo.java:23-36 | entry k is the aggregate of instruction k over the summarised join |
| AggTwo.ComputeOne | src/org/candidate697229/algorithms/AggTwo.java:48-59 | the single aggregate is instruction 0's aggregate over the join; an empty join gives 0, with or without instructions |
| AggTwo.SummedReadable | src/org/candidate697229/algorithms/AggTwo.java:38-46 | every instruction of an in-bounds pair reads inside every summarised tuple with non-zero counts |
| AggTwo.PushdownStep | src/org/candidate697229/algorithms/AggTwo.java:23-36 | one more join result adds the same amount to the pushdown and to the tuple-at-a-time aggregate |
| AggTwo.PushdownExact | src/org/candidate697229/algorithms/AggTwo.java:23-46 | for an in-bounds pair the pushdown aggregate equals SUM(x * y) over the full join |
| AggTwo.AllPairsPushdown | src/org/candidate697229/algorithms/AggTwo.java:16-46 | for every attribute pair of a schema the pushdown aggregate equals AggOne's |
| Naive.LastIndexOf | src/org/candidate697229/algorithms/Naive.java:71 | the last index of the character, or -1 exactly when it is absent |
| Naive.DeleteCharAt | src/org/candidate697229/algorithms/Naive.java:71 | removes exactly the character at an index inside the text, and fails otherwise |
| Naive.TermsWithCommasJoin | src/org/candidate697229/algorithms/Naive.java:65-70 | a term and a comma per pair is the comma-joined terms plus a trailing comma |
| Naive.BuildQueryAllShape | src/org/candidate697229/algorithms/Naive.java:63-73 | the query is SELECT, the comma-joined terms with none trailing, and the join clause; with no pair it fails |
| Naive.QueryTermsMatchPairs | src/org/candidate697229/algorithms/Naive.java:65-70 | term k is SUM of the names of attribute pair k, so all three algorithms answer in one order |
| Naive.QueryOneIsFirstTerm | src/org/candidate697229/algorithms/Naive.java:75-83 | buildQueryOne fails exactly without a first attribute; otherwise its term is buildQueryAll's first |
| Naive.TestNaturalJoin | src/org/candidate697229/algorithms/Naive.java:85-91 | the join clause of the test schema names R1 to R4 in order |

## Left out

- Reading files and directories (Relation.readFromFile's `Files.lines`, Database.readFromDirectory and makeFromDirectory, the USE_TEST_DATABASE switch) is not modelled. A relation file is given as its sequence of lines.
- Naive.makeSQLiteDatabase, makeTable and runQuery are not modelled. They only talk to SQLite over JDBC. Only the query strings are.
- TrieJoin.java, BTree.java and Table.java are not part of this model. AggOne is modelled over any sequence of join tuples, each with one row per relation. AggTwo is modelled over the matched groups of the summarised relations (`AggTwo.Matched`); PushdownExact ties it to AggOne. That a join engine over summarised relations produces exactly those group combinations is taken as given.
- Triejoin.EnumerateSound: proves soundness and termination only. Completeness of the whole triejoin (every tuple of the natural join is reported) is not proved. Completeness of one unary join is proved (`Unary.SearchFindsLeast`, `Unary.NextFindsLeast`).
- Levels.LevelOpen: the triejoin is modelled over the corrected unary open (`Unary.OpenSorted`), not over UnaryLeapfrogTriejoin.java:30-38 and 87-90 as written. With the source's init, the 5, 1, 5 trace under "## Findings" would make the triejoin report a tuple that does not satisfy the join conditions. So Levels.LevelOpen, Triejoin.Init and the soundness lemmas describe the corrected join.
- The LeapfrogTriejoin model assumes the join attributes are leading columns, in the order of the join conditions (`Levels.Schema`). The source binds a relation's columns in order, one per condition, so it needs that layout too. It also assumes at least one join condition; the source indexes level -1 otherwise. Each condition must name distinct relations.
- AggTwo.Summarise: requires the join attributes to be the leading columns (`KeysBelow(js, |js|)`). compareJoinKeys and copyJoinKeys index the key array by tuple position, which is only in range then. AggTwo.TestJoinAttributes shows this holds for the test schema.
- AggTwo.ComputeAll: requires every instruction to read inside every tuple, with non-zero counts. Where that fails the source throws; `AggTwo.Aggregate` then counts the tuple as 0.
- AggOne.ComputeAll: requires every pair to fit every tuple (`AggOne.AllFit`). `AggOne.Total` gives 0 for a tuple that does not fit, where the source would throw.
- Triejoin.Init: requires every relation to have rows, through `Cursor.Rect` in `Unary.Tables` and `Levels.Schema`. Empty relations are modelled by `Triejoin.Start` instead. With one, the source either ends cleanly (LeapfrogTriejoin.java:65-67, when the levels above end first) or throws from key() (UnaryLeapfrogTriejoin.java:45-47 reading SequentialIterator.java:28 on an empty array). `Triejoin.Start` follows the corrected unary open, which reads every member's key; the open as written can end a level before it reaches the empty member. resultTuple() would also throw on an empty relation that no condition names; that is not modelled. AggTwo.Summarise likewise requires rows: AggTwo.java:121 reads getTuples()[0], which throws on an empty relation.
- Relation.ParseLong: accepts only the ASCII digits '0' to '9'. Long.valueOf also accepts the other Unicode decimal digits (through Character.digit), which the model rejects. Relation files hold ASCII numbers, and Relation.ParseShow covers every number the program writes.
- 64-bit arithmetic: sums and products are unbounded integers, so long overflow in the aggregations is not modelled. Long.valueOf's range check is modelled in Relation.ParseLong.
- Relation.LoadLine: the arity check at Relation.java:38 is a Java `assert`. The model treats it as enabled and reports WrongFieldCount. The `assert (!atEnd)` in SequentialIterator.open is treated as disabled; Cursor.Open keeps the end flag.
- Relation.SortRows: Java's List.sort is modelled as insertion sort. Relation.SortedUnique shows every sort stores the same array.
- Database.SortConditions: Stream.sorted is modelled as a stable insertion sort. The sortedness proof needs the comparator to be transitive on the given conditions (`ConsistentOn`). The comparator is not transitive on every input.
- AggTwo calls getAllPairsOfColums and AggOne calls getAllPairs. Neither is in Database.java at this revision, so both are modelled as getAllPairsOfAttributes.
- The housing schema is defined (`Database.HousingTables`) with no property of its own.
- The Iterator interface is modelled only through its one implementation, `Cursor`. value() is the row at the cursor.

## Findings

| source | as written | input that shows it | evidently intended | confidence | as-written member | corrected member |
|---|---|---|---|---|---|---|
| src/org/candidate697229/join/UnaryLeapfrogTriejoin.java:30-38 | init() starts leapfrogSearch from turn p without first ordering the iterators by key, as the Leapfrog Triejoin paper's init does | three one-column relations {5}, {1, 5} and {5} joined on their column: open() stops at once with keys 5, 1, 5 and atEnd false, reporting a match the middle relation does not have | sort the iterators by key and set p = 0 before searching; then a join that has not ended has every iterator on one key | high, not executed | Unary.OpenAsWrittenDisagrees | Unary.OpenSortedAgrees |

The rest of the model uses the corrected initialisation (`Unary.OpenSorted`, used by `Levels.LevelOpen`).

=== FILE: aggone.dfy ===
/** The tuple-at-a-time aggregation: for every pair of distinct attributes,
    the sum over the tuples of the natural join of the product of the two
    values. The join is taken as the sequence of its result tuples, each
    holding one row per relation, in the order the join reports them. */
module AggOne {
  import opened Seqs
  import opened Relation
  import opened Database

  /** One result of the join: the row of every relation, by relation index. */
  type JoinTuple = seq<Row>

  /** Both occurrences of the pair name a cell of the tuple. */
  predicate Fits(p: (Occ, Occ), t: JoinTuple)
  {
    p.0.rel < |t| && p.0.pos < |t[p.0.rel]| && p.1.rel < |t| && p.1.pos < |t[p.1.rel]|
  }

  /** Every pair fits every tuple: no aggregate reads outside a row. */
  predicate AllFit(pairs: seq<(Occ, Occ)>, tuples: seq<JoinTuple>)
  {
    forall i, k :: 0 <= i < |tuples| && 0 <= k < |pairs| ==> Fits(pairs[k], tuples[i])
  }

  /** calculateFromInstruction: the product of the two attribute values the
      pair names. */
  function Calculate(p: (Occ, Occ), t: JoinTuple): int
    requires Fits(p, t)
  {
    t[p.0.rel][p.0.pos] * t[p.1.rel][p.1.pos]
  }

  /** The product of one pair in every tuple, in join order; a tuple the
      pair does not fit contributes nothing (the aggregations below require
      every pair to fit every tuple, so this case does not arise there). */
  function Products(p: (Occ, Occ), tuples: seq<JoinTuple>): (r: seq<int>)
    ensures |r| == |tuples|
  {
    seq(|tuples|, i requires 0 <= i < |tuples| => if Fits(p, tuples[i]) then Calculate(p, tuples[i]) else 0)
  }

  /** SUM(x * y) over the join: the aggregate a pair stands for. */
  function Total(p: (Occ, Occ), tuples: seq<JoinTuple>): int
  {
    Sum(Products(p, tuples))
  }

  /** One more tuple adds its product to the total. */
  lemma TotalSnoc(p: (Occ, Occ), tuples: seq<JoinTuple>, i: nat)
    requires i < |tuples| && Fits(p, tuples[i])
    ensures Total(p, tuples[..i + 1]) == Total(p, tuples[..i]) + Calculate(p, tuples[i])
  {
    var s := Products(p, tuples[..i + 1]);
    assert s[..i] == Products(p, tuples[..i]);
  }

  /** The total over two runs of tuples is the sum of their totals. */
  lemma TotalAppend(p: (Occ, Occ), a: seq<JoinTuple>, b: seq<JoinTuple>)
    ensures Total(p, a + b) == Total(p, a) + Total(p, b)
  {
    assert Products(p, a + b) == Products(p, a) + Products(p, b);
    SumAppend(Products(p, a), Products(p, b));
  }

  /** The inner loop of computeAllAggregatesOfNaturalJoin: tuple i adds its
      product to the accumulator of every pair. */
  method AddTuple(pairs: seq<(Occ, Occ)>, tuples: seq<JoinTuple>, i: nat, result: seq<int>) returns (result': seq<int>)
    requires i < |tuples| && AllFit(pairs, tuples) && |result| == |pairs|
    requires forall k :: 0 <= k < |pairs| ==> result[k] == Total(pairs[k], tuples[..i])
    ensures |result'| == |pairs|
    ensures forall k :: 0 <= k < |pairs| ==> result'[k] == Total(pairs[k], tuples[..i + 1])
  {
    result' := result;
    var agg := 0;
    while agg < |pairs|
      invariant 0 <= agg <= |pairs| && |result'| == |pairs|
      invariant forall k :: 0 <= k < agg ==> result'[k] == Total(pairs[k], tuples[..i + 1])
      invariant forall k :: agg <= k < |pairs| ==> result'[k] == result[k]
    {
      TotalSnoc(pairs[agg], tuples, i);
      result' := result'[agg := result'[agg] + Calculate(pairs[agg], tuples[i])];
      agg := agg + 1;
    }
  }

  /** computeAllAggregatesOfNaturalJoin: one accumulator per pair, each
      tuple adding its product to every accumulator. */
  method ComputeAll(pairs: seq<(Occ, Occ)>, tuples: seq<JoinTuple>) returns (result: seq<int>)
    requires AllFit(pairs, tuples)
    ensures |result| == |pairs|
    ensures forall k :: 0 <= k < |pairs| ==> result[k] == Total(pairs[k], tuples)
    ensures |tuples| == 0 ==> forall k :: 0 <= k < |pairs| ==> result[k] == 0
  {
    assert forall k :: 0 <= k < |pairs| ==> Total(pairs[k], tuples[..0]) == 0;
    hide Total, Products, Calculate;
    result := seq(|pairs|, _ => 0);
    var i := 0;
    while i < |tuples|
      invariant 0 <= i <= |tuples| && |result| == |pairs|
      invariant forall k :: 0 <= k < |pairs| ==> result[k] == Total(pairs[k], tuples[..i])
    {
      result := AddTuple(pairs, tuples, i, result);
      i := i + 1;
    }
    assert tuples[..i] == tuples;
  }

  /** computeOneAggregateOfNaturalJoin: the accumulator of the first pair
      alone, which is entry 0 of ComputeAll on the same join. The pair is
      only looked up for a tuple, so an empty join with no pair gives 0. */
  method ComputeOne(pairs: seq<(Occ, Occ)>, tuples: seq<JoinTuple>) returns (result: int)
    requires |tuples| > 0 ==> |pairs| > 0
    requires |pairs| > 0 ==> forall i :: 0 <= i < |tuples| ==> Fits(pairs[0], tuples[i])
    ensures |pairs| > 0 ==> result == Total(pairs[0], tuples)
    ensures |tuples| == 0 ==> result == 0
  {
    result := 0;
    var i := 0;
    while i < |tuples|
      invariant 0 <= i <= |tuples|
      invariant |pairs| > 0 ==> result == Total(pairs[0], tuples[..i])
      invariant i == 0 ==> result == 0
    {
      TotalSnoc(pairs[0], tuples, i);
      result := result + Calculate(pairs[0], tuples[i]);
      i := i + 1;
    }
    assert tuples[..i] == tuples;
  }

  /** The attribute pairs of a schema fit every tuple whose rows have the
      schema's widths: the aggregation never reads outside a row. */
  lemma SchemaPairsFit(attrs: seq<seq<string>>, tuples: seq<JoinTuple>)
    requires forall i :: 0 <= i < |tuples| ==>
               |tuples[i]| == |attrs| && forall r :: 0 <= r < |attrs| ==> |tuples[i][r]| == |attrs[r]|
    ensures AllFit(AllPairsOfAttributes(attrs), tuples)
  {
    var firsts := FirstOccurrences(FindAttributePositions(attrs));
    FirstOccurrencesNamed(attrs);
    var pairs := AllPairsOfAttributes(attrs);
    forall i, k | 0 <= i < |tuples| && 0 <= k < |pairs|
      ensures Fits(pairs[k], tuples[i])
    {
      UpperPairsInverse(firsts, k);
      var a: nat, b: nat :| a <= b < |firsts| && k == PairIndex(|firsts|, a, b);
      UpperPairsAt(firsts, a, b);
    }
  }
}

=== FILE: aggtwo.dfy ===
/** The pushdown aggregation. Every relation is first summarised: its rows
    are grouped by the values of its join attributes, and each group
    becomes one row [keys, COUNT, SUM(a) for every column a, SUM(a * b)
    for every pair of columns a <= b]. The join then runs over the
    summarised relations, and every matched combination of groups
    contributes its pair aggregates, scaled by the sizes of the other
    groups. */
module AggTwo {
  import opened Seqs
  import opened Relation
  import opened Database
  import AggOne

  /** The value of column i of row t, or 0 outside the row. */
  function Cell(t: Row, i: int): int
  {
    if 0 <= i < |t| then t[i] else 0
  }

  // ---------------------------------------------------------------------
  // Join keys
  // ---------------------------------------------------------------------

  /** Every join-attribute position is below w. */
  predicate KeysBelow(js: seq<nat>, w: nat)
  {
    forall i :: 0 <= i < |js| ==> js[i] < w
  }

  /** Rows a and b hold the same value at every join-attribute position
      both of them have. */
  predicate SameKeys(a: Row, b: Row, js: seq<nat>)
  {
    forall i :: 0 <= i < |js| && js[i] < |a| && js[i] < |b| ==> a[js[i]] == b[js[i]]
  }

  /** compareJoinKeys: true exactly when the tuple differs from the
      remembered key at some join attribute. */
  method CompareJoinKeys(t: Row, key: Row, js: seq<nat>) returns (differ: bool)
    requires KeysBelow(js, |t|) && KeysBelow(js, |key|)
    ensures differ <==> !SameKeys(t, key, js)
  {
    var k := 0;
    while k < |js|
      invariant 0 <= k <= |js|
      invariant forall i :: 0 <= i < k ==> t[js[i]] == key[js[i]]
    {
      if t[js[k]] != key[js[k]] {
        return true;
      }
      k := k + 1;
    }
    return false;
  }

  /** copyJoinKeys: the tuple's join-attribute cells are written into the
      remembered key and into the summary row; every other cell keeps its
      value. */
  method CopyJoinKeys(t: Row, key: Row, cur: Row, js: seq<nat>) returns (key': Row, cur': Row)
    requires KeysBelow(js, |t|) && KeysBelow(js, |key|) && KeysBelow(js, |cur|)
    ensures |key'| == |key| && |cur'| == |cur|
    ensures forall x: nat :: x < |key| ==> key'[x] == if x in js then t[x] else key[x]
    ensures forall x: nat :: x < |cur| ==> cur'[x] == if x in js then t[x] else cur[x]
  {
    key', cur' := key, cur;
    var k := 0;
    while k < |js|
      invariant 0 <= k <= |js| && |key'| == |key| && |cur'| == |cur|
      invariant forall x: nat :: x < |key| ==> key'[x] == if x in js[..k] then t[x] else key[x]
      invariant forall x: nat :: x < |cur| ==> cur'[x] == if x in js[..k] then t[x] else cur[x]
    {
      assert js[..k + 1] == js[..k] + [js[k]];
      key' := key'[js[k] := t[js[k]]];
      cur' := cur'[js[k] := t[js[k]]];
      k := k + 1;
    }
    assert js[..k] == js;
  }

  // ---------------------------------------------------------------------
  // Layout of a summarised row
  // ---------------------------------------------------------------------

  /** Width of the summary of a relation with nj join attributes and n
      columns: the keys, COUNT, n column sums and Triangle(n) pair sums. */
  function Width(nj: nat, n: nat): nat
  {
    nj + 1 + n + Triangle(n)
  }

  /** Slot of SUM(column i). */
  function SumSlot(nj: nat, i: nat): nat
  {
    nj + 1 + i
  }

  /** Slot of SUM(column a * column b), a <= b. */
  function PairSlot(nj: nat, n: nat, a: nat, b: nat): nat
    requires a <= b < n
  {
    nj + 1 + n + PairIndex(n, a, b)
  }

  lemma RowsBeforeMonotone(n: nat, a: nat, c: nat)
    requires a <= c <= n
    ensures RowsBefore(n, a) <= RowsBefore(n, c)
    decreases c - a
  {
    if a < c {
      RowsBeforeMonotone(n, a + 1, c);
    }
  }

  /** Every pair index lies inside the Triangle(n) pair slots. */
  lemma PairIndexBelow(n: nat, a: nat, b: nat)
    requires a <= b < n
    ensures PairIndex(n, a, b) < Triangle(n)
  {
    RowsBeforeMonotone(n, a + 1, n);
    RowsBeforeClosedForm(n, n);
  }

  /** The column pairs (a, b), a <= b < n, of a relation with n columns,
      in the order the summary lays out their sums. */
  function PairList(n: nat): seq<(nat, nat)>
  {
    UpperPairs(Range(n))
  }

  /** Pair (a, b) is entry PairIndex(n, a, b) of the pair list. */
  lemma PairListAt(n: nat, a: nat, b: nat)
    requires a <= b < n
    ensures PairIndex(n, a, b) < |PairList(n)| && PairList(n)[PairIndex(n, a, b)] == (a, b)
  {
    UpperPairsAt(Range(n), a, b);
  }

  /** The pair list has Triangle(n) entries, each a pair a <= b < n. */
  lemma PairListBounds(n: nat)
    ensures |PairList(n)| == Triangle(n)
    ensures forall k :: 0 <= k < |PairList(n)| ==> PairList(n)[k].0 <= PairList(n)[k].1 < n
  {
    PairListIndex(n);
  }

  /** Entry k of the pair list is the pair whose PairIndex is k. */
  lemma PairListIndex(n: nat)
    ensures |PairList(n)| == Triangle(n)
    ensures forall k :: 0 <= k < |PairList(n)| ==>
              PairList(n)[k].0 <= PairList(n)[k].1 < n &&
              k == PairIndex(n, PairList(n)[k].0, PairList(n)[k].1)
  {
    UpperPairsLength(Range(n));
    forall k | 0 <= k < |PairList(n)|
      ensures PairList(n)[k].0 <= PairList(n)[k].1 < n &&
              k == PairIndex(n, PairList(n)[k].0, PairList(n)[k].1)
    {
      UpperPairsInverse(Range(n), k);
      var a: nat, b: nat :| a <= b < n && k == PairIndex(n, a, b);
      PairListAt(n, a, b);
    }
  }

  /** The pairs (i, j), i <= j < n, of one relation's columns, built row by
      row as computeSumDatabase does: pair (a, b) sits at PairIndex(n, a, b),
      which makes the list the UpperPairs enumeration of the columns. */
  method ColumnPairs(n: nat) returns (pairs: seq<(nat, nat)>)
    ensures |pairs| == Triangle(n)
    ensures forall a, b :: 0 <= a <= b < n ==> PairIndex(n, a, b) < |pairs| && pairs[PairIndex(n, a, b)] == (a, b)
    ensures pairs == PairList(n)
  {
    pairs := [];
    var i := 0;
    while i < n
      invariant 0 <= i <= n && |pairs| == RowsBefore(n, i)
      invariant forall a, b :: 0 <= a < i && a <= b < n ==>
                  PairIndex(n, a, b) < |pairs| && pairs[PairIndex(n, a, b)] == (a, b)
    {
      var j := i;
      while j < n
        invariant i <= j <= n && |pairs| == RowsBefore(n, i) + (j - i)
        invariant forall a, b :: 0 <= a < i && a <= b < n ==>
                    PairIndex(n, a, b) < |pairs| && pairs[PairIndex(n, a, b)] == (a, b)
        invariant forall b :: i <= b < j ==> pairs[PairIndex(n, i, b)] == (i, b)
      {
        pairs := pairs + [(i, j)];
        j := j + 1;
      }
      i := i + 1;
    }
    RowsBeforeClosedForm(n, n);
    PairListIndex(n);
    forall k | 0 <= k < |pairs|
      ensures pairs[k] == PairList(n)[k]
    {
      var a, b := PairList(n)[k].0, PairList(n)[k].1;
      assert pairs[PairIndex(n, a, b)] == (a, b);
    }
  }

  /** calculatePosition: the number of pairs in the rows before row k of
      the pair list of n columns, in closed form k * (2n - k + 1) / 2. */
  method CalculatePosition(k: nat, n: nat) returns (r: int)
    ensures 2 * r == k * (2 * n - k + 1)
    ensures k <= n ==> r == RowsBefore(n, k)
  {
    r := 0;
    var i := 0;
    while i < k
      invariant 0 <= i <= k
      invariant 2 * r == i * (2 * n - i + 1)
      invariant i <= n ==> r == RowsBefore(n, i)
    {
      assert (i + 1) * (2 * n - (i + 1) + 1) == i * (2 * n - i + 1) + 2 * (n - i);
      r := r + (n - i);
      i := i + 1;
    }
  }

  /** What one source row t of n columns adds to slot x of its group's
      summary: 1 to COUNT, its values to the column sums, its products to
      the pair sums and nothing to the keys. */
  function Contribution(t: Row, nj: nat, n: nat, x: int): int
  {
    var ps := PairList(n);
    if x == nj then 1
    else if nj < x <= nj + n then Cell(t, x - nj - 1)
    else if nj + n < x && x - nj - 1 - n < |ps| then
      var p := ps[x - nj - 1 - n]; Cell(t, p.0) * Cell(t, p.1)
    else 0
  }

  /** The summary row cur with row t added in. */
  function AddRow(cur: Row, t: Row, nj: nat, n: nat): (r: Row)
    ensures |r| == |cur|
  {
    seq(|cur|, x requires 0 <= x < |cur| => cur[x] + Contribution(t, nj, n, x))
  }

  /** A row contributes 1 to COUNT and nothing to the key slots. */
  lemma ContributionCount(t: Row, nj: nat)
    ensures Contribution(t, nj, |t|, nj) == 1
    ensures forall x :: 0 <= x < nj ==> Contribution(t, nj, |t|, x) == 0
  {
  }

  /** A row contributes its value of column i to SUM(column i). */
  lemma ContributionSum(t: Row, nj: nat, i: nat)
    requires i < |t|
    ensures Contribution(t, nj, |t|, SumSlot(nj, i)) == t[i]
  {
  }

  /** A row contributes to pair-sum slot q the product of the columns of
      entry q of the pair list. */
  lemma ContributionPair(t: Row, nj: nat, q: nat)
    requires q < |PairList(|t|)|
    ensures Contribution(t, nj, |t|, nj + 1 + |t| + q) ==
            Cell(t, PairList(|t|)[q].0) * Cell(t, PairList(|t|)[q].1)
  {
  }

  /** A row contributes to SUM(column a * column b) the product of its
      values in columns a and b. */
  lemma ContributionPairAt(t: Row, nj: nat, a: nat, b: nat)
    requires a <= b < |t|
    ensures Contribution(t, nj, |t|, PairSlot(nj, |t|, a, b)) == t[a] * t[b]
  {
    PairListAt(|t|, a, b);
    ContributionPair(t, nj, PairIndex(|t|, a, b));
  }

  /** The accumulation of one source row into the summary row (the body of
      the loop over a relation's tuples): COUNT, then the column sums, then
      the pair sums in pair-list order. */
  method AccumulateRow(cur: Row, t: Row, nj: nat, pairs: seq<(nat, nat)>) returns (cur': Row)
    requires |cur| == Width(nj, |t|) && pairs == PairList(|t|)
    ensures cur' == AddRow(cur, t, nj, |t|)
  {
    var n := |t|;
    PairListBounds(n);
    ContributionCount(t, nj);
    hide Contribution;
    cur' := cur[nj := cur[nj] + 1];
    var i := 0;
    while i < n
      invariant 0 <= i <= n && |cur'| == |cur|
      invariant forall x :: 0 <= x < |cur| ==>
                  cur'[x] == if x <= nj + i then cur[x] + Contribution(t, nj, n, x) else cur[x]
    {
      ContributionSum(t, nj, i);
      cur' := cur'[i + 1 + nj := cur'[i + 1 + nj] + t[i]];
      i := i + 1;
    }
    var pos := n + 1 + nj;
    var q := 0;
    while q < |pairs|
      invariant 0 <= q <= |pairs| && pos == n + 1 + nj + q && |cur'| == |cur|
      invariant forall x :: 0 <= x < |cur| ==>
                  cur'[x] == if x < pos then cur[x] + Contribution(t, nj, n, x) else cur[x]
    {
      ContributionPair(t, nj, q);
      cur' := cur'[pos := cur'[pos] + t[pairs[q].0] * t[pairs[q].1]];
      pos := pos + 1;
      q := q + 1;
    }
    assert forall x :: 0 <= x < |cur| ==> cur'[x] == AddRow(cur, t, nj, n)[x];
  }

  // ---------------------------------------------------------------------
  // Groups and their summaries
  // ---------------------------------------------------------------------

  /** The rows of a relation cut into runs of consecutive rows: a row joins
      the current run when its join key matches the run's first row, and
      starts a new run otherwise. */
  function Groups(rows: seq<Row>, js: seq<nat>): seq<seq<Row>>
  {
    if |rows| == 0 then []
    else
      var gs := Groups(rows[..|rows| - 1], js);
      var t := rows[|rows| - 1];
      if |gs| > 0 && |gs[|gs| - 1]| > 0 && SameKeys(t, gs[|gs| - 1][0], js)
      then gs[..|gs| - 1] + [gs[|gs| - 1] + [t]]
      else gs + [[t]]
  }

  /** The groups' rows, back to back. */
  function Concat(gs: seq<seq<Row>>): seq<Row>
  {
    if |gs| == 0 then [] else Concat(gs[..|gs| - 1]) + gs[|gs| - 1]
  }

  /** The groups partition the rows in order into non-empty runs; every row
      of a run has the key of the run's first row, and consecutive runs
      start with different keys, so no run could be extended. */
  lemma GroupsSpec(rows: seq<Row>, js: seq<nat>)
    ensures Concat(Groups(rows, js)) == rows
    ensures |rows| > 0 ==> |Groups(rows, js)| > 0
    ensures forall k :: 0 <= k < |Groups(rows, js)| ==> |Groups(rows, js)[k]| > 0
    ensures forall k, i :: 0 <= k < |Groups(rows, js)| && 0 <= i < |Groups(rows, js)[k]| ==>
              SameKeys(Groups(rows, js)[k][i], Groups(rows, js)[k][0], js)
    ensures forall k :: 0 <= k < |Groups(rows, js)| - 1 ==>
              !SameKeys(Groups(rows, js)[k + 1][0], Groups(rows, js)[k][0], js)
  {
    GroupsConcat(rows, js);
    GroupsKeys(rows, js);
    GroupsBreaks(rows, js);
  }

  /** How one more row changes the groups: it extends the last group when
      its key matches that group's first row, and starts a new one otherwise. */
  lemma GroupsStep(rows: seq<Row>, js: seq<nat>)
    requires |rows| > 0
    ensures var gs, t := Groups(rows[..|rows| - 1], js), rows[|rows| - 1];
      if |gs| > 0 && |gs[|gs| - 1]| > 0 && SameKeys(t, gs[|gs| - 1][0], js)
      then Groups(rows, js) == gs[..|gs| - 1] + [gs[|gs| - 1] + [t]]
      else Groups(rows, js) == gs + [[t]]
  {
  }

  /** The groups are non-empty and hold the rows in order. */
  lemma {:induction false} GroupsConcat(rows: seq<Row>, js: seq<nat>)
    ensures Concat(Groups(rows, js)) == rows
    ensures |rows| > 0 ==> |Groups(rows, js)| > 0
    ensures forall k :: 0 <= k < |Groups(rows, js)| ==> |Groups(rows, js)[k]| > 0
  {
    if |rows| > 0 {
      hide Groups, SameKeys, Concat;
      var init, t := rows[..|rows| - 1], rows[|rows| - 1];
      GroupsConcat(init, js);
      GroupsStep(rows, js);
      var gs := Groups(init, js);
      assert rows == init + [t];
      if |gs| > 0 && |gs[|gs| - 1]| > 0 && SameKeys(t, gs[|gs| - 1][0], js) {
        ConcatJoin(gs, t);
      } else {
        ConcatNew(gs, t);
      }
    }
  }

  /** Adding a row to the last group adds it to the end of the rows. */
  lemma ConcatJoin(gs: seq<seq<Row>>, t: Row)
    requires |gs| > 0 && forall k :: 0 <= k < |gs| ==> |gs[k]| > 0
    ensures var gs' := gs[..|gs| - 1] + [gs[|gs| - 1] + [t]];
      Concat(gs') == Concat(gs) + [t] && |gs'| > 0 && forall k :: 0 <= k < |gs'| ==> |gs'[k]| > 0
  {
    var m := |gs| - 1;
    var gs' := gs[..m] + [gs[m] + [t]];
    assert gs'[..m] == gs[..m];
    assert Concat(gs') == Concat(gs[..m]) + (gs[m] + [t]);
  }

  /** A new group holding one row adds the row to the end of the rows. */
  lemma ConcatNew(gs: seq<seq<Row>>, t: Row)
    requires forall k :: 0 <= k < |gs| ==> |gs[k]| > 0
    ensures var gs' := gs + [[t]];
      Concat(gs') == Concat(gs) + [t] && forall k :: 0 <= k < |gs'| ==> |gs'[k]| > 0
  {
    assert (gs + [[t]])[..|gs|] == gs;
  }

  /** Every row of a group has the key of the group's first row. */
  lemma {:induction false} GroupsKeys(rows: seq<Row>, js: seq<nat>)
    ensures forall k, i :: 0 <= k < |Groups(rows, js)| && 0 <= i < |Groups(rows, js)[k]| ==>
              SameKeys(Groups(rows, js)[k][i], Groups(rows, js)[k][0], js)
  {
    if |rows| > 0 {
      var init, t := rows[..|rows| - 1], rows[|rows| - 1];
      GroupsKeys(init, js);
      var gs := Groups(init, js);
      if |gs| > 0 && |gs[|gs| - 1]| > 0 && SameKeys(t, gs[|gs| - 1][0], js) {
        var m := |gs| - 1;
        var gs' := gs[..m] + [gs[m] + [t]];
        assert Groups(rows, js) == gs';
        hide Groups;
        forall k, i | 0 <= k < |gs'| && 0 <= i < |gs'[k]|
          ensures SameKeys(gs'[k][i], gs'[k][0], js)
        {
          if k < m {
            assert gs'[k] == gs[k];
          } else {
            assert gs'[k] == gs[m] + [t];
          }
        }
      } else {
        var gs' := gs + [[t]];
        assert Groups(rows, js) == gs';
        hide Groups;
        forall k, i | 0 <= k < |gs'| && 0 <= i < |gs'[k]|
          ensures SameKeys(gs'[k][i], gs'[k][0], js)
        {
          if k < |gs| {
            assert gs'[k] == gs[k];
          }
        }
      }
    }
  }

  /** Consecutive groups start with different keys. */
  lemma {:induction false} GroupsBreaks(rows: seq<Row>, js: seq<nat>)
    ensures forall k :: 0 <= k < |Groups(rows, js)| - 1 && |Groups(rows, js)[k]| > 0 && |Groups(rows, js)[k + 1]| > 0 ==>
              !SameKeys(Groups(rows, js)[k + 1][0], Groups(rows, js)[k][0], js)
  {
    if |rows| > 0 {
      var init, t := rows[..|rows| - 1], rows[|rows| - 1];
      GroupsBreaks(init, js);
      GroupsConcat(init, js);
      GroupsStep(rows, js);
      var gs := Groups(init, js);
      hide Groups;
      if |gs| > 0 && |gs[|gs| - 1]| > 0 && SameKeys(t, gs[|gs| - 1][0], js) {
        var m := |gs| - 1;
        var gs' := gs[..m] + [gs[m] + [t]];
        hide SameKeys;
        forall k | 0 <= k < |gs'| - 1
          ensures !SameKeys(gs'[k + 1][0], gs'[k][0], js)
        {
          assert gs'[k] == gs[k];
          assert gs'[k + 1][0] == gs[k + 1][0];
        }
      } else {
        var gs' := gs + [[t]];
        forall k | 0 <= k < |gs'| - 1
          ensures !SameKeys(gs'[k + 1][0], gs'[k][0], js)
        {
          assert gs'[k] == gs[k];
          if k + 1 < |gs| {
            assert gs'[k + 1] == gs[k + 1];
          }
        }
      }
    }
  }

  /** Row t's join-key cells at their own positions and zero elsewhere: a
      new summary row once copyJoinKeys has run. */
  function KeyRow(t: Row, js: seq<nat>, w: nat): (r: Row)
    ensures |r| == w
  {
    seq(w, x requires 0 <= x < w => if x in js then Cell(t, x) else 0)
  }

  /** base with the rows of g added in order. */
  function Accumulate(base: Row, g: seq<Row>, nj: nat, n: nat): (r: Row)
    ensures |r| == |base|
  {
    if |g| == 0 then base else AddRow(Accumulate(base, g[..|g| - 1], nj, n), g[|g| - 1], nj, n)
  }

  /** The summarised row of one group of rows with n columns. */
  function Summary(g: seq<Row>, js: seq<nat>, n: nat): (r: Row)
    ensures |r| == Width(|js|, n)
  {
    if |g| == 0 then KeyRow([], js, Width(|js|, n))
    else Accumulate(KeyRow(g[0], js, Width(|js|, n)), g, |js|, n)
  }

  /** The summarised rows of a sequence of groups, in order. */
  function SummaryRows(gs: seq<seq<Row>>, js: seq<nat>, n: nat): seq<Row>
  {
    seq(|gs|, k requires 0 <= k < |gs| => Summary(gs[k], js, n))
  }

  /** The summarised relation: one row per group. */
  function Summaries(rows: seq<Row>, js: seq<nat>, n: nat): seq<Row>
  {
    SummaryRows(Groups(rows, js), js, n)
  }

  /** SUM(column i) over a sequence of rows. */
  function ColumnSum(g: seq<Row>, i: int): int
  {
    if |g| == 0 then 0 else ColumnSum(g[..|g| - 1], i) + Cell(g[|g| - 1], i)
  }

  /** SUM(column a * column b) over a sequence of rows. */
  function PairSum(g: seq<Row>, a: int, b: int): int
  {
    if |g| == 0 then 0 else PairSum(g[..|g| - 1], a, b) + Cell(g[|g| - 1], a) * Cell(g[|g| - 1], b)
  }

  lemma {:induction false} ColumnSumAppend(g: seq<Row>, h: seq<Row>, i: int)
    ensures ColumnSum(g + h, i) == ColumnSum(g, i) + ColumnSum(h, i)
    decreases |h|
  {
    if |h| > 0 {
      assert (g + h)[..|g + h| - 1] == g + h[..|h| - 1];
      ColumnSumAppend(g, h[..|h| - 1], i);
    } else {
      assert g + h == g;
    }
  }

  lemma {:induction false} PairSumAppend(g: seq<Row>, h: seq<Row>, a: int, b: int)
    ensures PairSum(g + h, a, b) == PairSum(g, a, b) + PairSum(h, a, b)
    decreases |h|
  {
    if |h| > 0 {
      assert (g + h)[..|g + h| - 1] == g + h[..|h| - 1];
      PairSumAppend(g, h[..|h| - 1], a, b);
    } else {
      assert g + h == g;
    }
  }

  /** Every row has n columns. */
  predicate Rect(g: seq<Row>, n: nat)
  {
    forall k :: 0 <= k < |g| ==> |g[k]| == n
  }

  /** Accumulating rows into a row whose non-key slots are zero leaves the
      keys alone, counts the rows into COUNT and sums every column and every
      pair product into its slot. */
  lemma {:induction false} AccumulateLayout(base: Row, g: seq<Row>, nj: nat, n: nat)
    requires Rect(g, n) && |base| == Width(nj, n)
    requires forall x :: nj <= x < |base| ==> base[x] == 0
    ensures forall x :: 0 <= x < nj ==> Accumulate(base, g, nj, n)[x] == base[x]
    ensures Accumulate(base, g, nj, n)[nj] == |g|
    ensures forall i :: 0 <= i < n ==> Accumulate(base, g, nj, n)[SumSlot(nj, i)] == ColumnSum(g, i)
    ensures forall a, b :: 0 <= a <= b < n ==>
              PairSlot(nj, n, a, b) < |base| && Accumulate(base, g, nj, n)[PairSlot(nj, n, a, b)] == PairSum(g, a, b)
  {
    forall a, b | 0 <= a <= b < n
      ensures PairSlot(nj, n, a, b) < |base|
    {
      PairIndexBelow(n, a, b);
    }
    if |g| > 0 {
      var init, t := g[..|g| - 1], g[|g| - 1];
      AccumulateLayout(base, init, nj, n);
      var r := Accumulate(base, init, nj, n);
      assert Accumulate(base, g, nj, n) == AddRow(r, t, nj, n);
      ContributionCount(t, nj);
      forall i | 0 <= i < n
        ensures Accumulate(base, g, nj, n)[SumSlot(nj, i)] == ColumnSum(g, i)
      {
        ContributionSum(t, nj, i);
      }
      forall a, b | 0 <= a <= b < n
        ensures Accumulate(base, g, nj, n)[PairSlot(nj, n, a, b)] == PairSum(g, a, b)
      {
        ContributionPairAt(t, nj, a, b);
      }
    }
  }

  /** The summarised row of a group: its key in the key slots, its size in
      COUNT, every column total in that column's SUM slot and every pair
      product total in that pair's slot. */
  lemma SummaryLayout(g: seq<Row>, js: seq<nat>, n: nat)
    requires |g| > 0 && Rect(g, n) && KeysBelow(js, |js|) && KeysBelow(js, n)
    ensures forall x :: 0 <= x < |js| ==> Summary(g, js, n)[x] == if x in js then g[0][x] else 0
    ensures Summary(g, js, n)[|js|] == |g| >= 1
    ensures forall i :: 0 <= i < n ==> Summary(g, js, n)[SumSlot(|js|, i)] == ColumnSum(g, i)
    ensures forall a, b :: 0 <= a <= b < n ==>
              PairSlot(|js|, n, a, b) < Width(|js|, n) && Summary(g, js, n)[PairSlot(|js|, n, a, b)] == PairSum(g, a, b)
  {
    var base := KeyRow(g[0], js, Width(|js|, n));
    AccumulateLayout(base, g, |js|, n);
  }

  /** Summed over the summaries of a sequence of groups, the COUNT slot
      gives the number of rows and each SUM slot the column's total over
      all of them. */
  lemma {:induction false} SummaryRowsTotals(gs: seq<seq<Row>>, js: seq<nat>, n: nat)
    requires forall k :: 0 <= k < |gs| ==> |gs[k]| > 0
    requires Rect(Concat(gs), n) && KeysBelow(js, |js|) && KeysBelow(js, n)
    ensures ColumnSum(SummaryRows(gs, js, n), |js|) == |Concat(gs)|
    ensures forall i :: 0 <= i < n ==>
              ColumnSum(SummaryRows(gs, js, n), SumSlot(|js|, i)) == ColumnSum(Concat(gs), i)
    decreases |gs|
  {
    hide Summary, Accumulate, KeyRow, AddRow, PairSum, PairSlot, Triangle, KeysBelow;
    if |gs| > 0 {
      var m := |gs| - 1;
      var init, g := gs[..m], gs[m];
      var ss := SummaryRows(gs, js, n);
      assert Concat(gs) == Concat(init) + g;
      assert Rect(Concat(init), n) && Rect(g, n) by {
        forall k | 0 <= k < |g| ensures |g[k]| == n {
          assert g[k] == Concat(gs)[|Concat(init)| + k];
        }
        forall k | 0 <= k < |Concat(init)| ensures |Concat(init)[k]| == n {
          assert Concat(init)[k] == Concat(gs)[k];
        }
      }
      SummaryRowsTotals(init, js, n);
      SummaryLayout(g, js, n);
      assert ss[..m] == SummaryRows(init, js, n);
      assert ss[m] == Summary(g, js, n);
      forall i | 0 <= i < n
        ensures ColumnSum(ss, SumSlot(|js|, i)) == ColumnSum(Concat(gs), i)
      {
        ColumnSumAppend(Concat(init), g, i);
      }
    }
  }

  /** summariseRelation keeps the relation's totals: the COUNTs add up to
      the number of rows, and every SUM column added over the groups is the
      column's total over the relation. */
  lemma SummaryTotals(rows: seq<Row>, js: seq<nat>, n: nat)
    requires Rect(rows, n) && KeysBelow(js, |js|) && KeysBelow(js, n)
    ensures ColumnSum(Summaries(rows, js, n), |js|) == |rows|
    ensures forall i :: 0 <= i < n ==>
              ColumnSum(Summaries(rows, js, n), SumSlot(|js|, i)) == ColumnSum(rows, i)
  {
    GroupsSpec(rows, js);
    SummaryRowsTotals(Groups(rows, js), js, n);
  }

  // ---------------------------------------------------------------------
  // Summarising a relation
  // ---------------------------------------------------------------------

  /** The state of the summarising loop after a prefix of the rows: out
      holds the summaries of the finished groups, cur the summary of the
      last group so far and key that group's join key. */
  predicate Pending(rows: seq<Row>, js: seq<nat>, n: nat, out: seq<Row>, cur: Row, key: Row)
  {
    var gs := Groups(rows, js);
    |gs| > 0 && |gs[|gs| - 1]| > 0 && |gs[|gs| - 1][0]| == n &&
    out == SummaryRows(gs[..|gs| - 1], js, n) &&
    cur == Summary(gs[|gs| - 1], js, n) &&
    SameKeys(gs[|gs| - 1][0], key, js)
  }

  /** The summary of a single row: its key row with the row added. */
  lemma SummarySingle(t: Row, js: seq<nat>, n: nat)
    ensures Summary([t], js, n) == AddRow(KeyRow(t, js, Width(|js|, n)), t, |js|, n)
  {
    var base := KeyRow(t, js, Width(|js|, n));
    assert [t][..0] == [];
    assert Summary([t], js, n) == Accumulate(base, [t], |js|, n);
    assert Accumulate(base, [t], |js|, n) == AddRow(Accumulate(base, [], |js|, n), t, |js|, n);
  }

  /** One more row in a group adds that row to the group's summary. */
  lemma SummarySnoc(g: seq<Row>, t: Row, js: seq<nat>, n: nat)
    requires |g| > 0
    ensures Summary(g + [t], js, n) == AddRow(Summary(g, js, n), t, |js|, n)
  {
    assert (g + [t])[..|g|] == g;
  }

  /** The first row opens the first group. */
  lemma FirstStep(t: Row, js: seq<nat>, n: nat, key: Row)
    requires |t| == n && SameKeys(t, key, js)
    ensures Pending([t], js, n, [], AddRow(KeyRow(t, js, Width(|js|, n)), t, |js|, n), key)
  {
    assert [t][..0] == [];
    assert Groups([t], js) == [[t]];
    assert [[t]][..0] == [];
    SummarySingle(t, js, n);
  }

  /** A row with the remembered key extends the last group. */
  lemma SameGroupStep(rows: seq<Row>, js: seq<nat>, n: nat, out: seq<Row>, cur: Row, key: Row)
    requires |rows| > 1 && |rows[|rows| - 1]| == n && KeysBelow(js, |js|) && |key| == |js|
    requires Pending(rows[..|rows| - 1], js, n, out, cur, key)
    requires SameKeys(rows[|rows| - 1], key, js)
    ensures Pending(rows, js, n, out, AddRow(cur, rows[|rows| - 1], |js|, n), key)
  {
    var init, t := rows[..|rows| - 1], rows[|rows| - 1];
    var gs := Groups(init, js);
    var m := |gs| - 1;
    var g := gs[m];
    assert SameKeys(t, g[0], js);
    GroupsStep(rows, js);
    var gs' := gs[..m] + [g + [t]];
    assert Groups(rows, js) == gs';
    SummarySnoc(g, t, js, n);
    hide Groups, Summary, SummaryRows, SameKeys;
    assert gs'[..m] == gs[..m];
  }

  /** A row with a different key closes the last group and opens a new one
      holding just that row. */
  lemma NewGroupStep(rows: seq<Row>, js: seq<nat>, n: nat, out: seq<Row>, cur: Row, key: Row, key': Row)
    requires |rows| > 1 && |rows[|rows| - 1]| == n && KeysBelow(js, |js|) && KeysBelow(js, n) && |key| == |js|
    requires Pending(rows[..|rows| - 1], js, n, out, cur, key)
    requires !SameKeys(rows[|rows| - 1], key, js) && SameKeys(rows[|rows| - 1], key', js)
    ensures Pending(rows, js, n, out + [cur], AddRow(KeyRow(rows[|rows| - 1], js, Width(|js|, n)), rows[|rows| - 1], |js|, n), key')
  {
    var init, t := rows[..|rows| - 1], rows[|rows| - 1];
    var gs := Groups(init, js);
    var m := |gs| - 1;
    assert !SameKeys(t, gs[m][0], js);
    GroupsStep(rows, js);
    var gs' := gs + [[t]];
    assert Groups(rows, js) == gs';
    SummarySingle(t, js, n);
    assert gs[..m + 1] == gs;
    assert SummaryRows(gs, js, n) == SummaryRows(gs[..m], js, n) + [Summary(gs[m], js, n)];
    hide Groups, Summary, SummaryRows, SameKeys;
    assert gs'[..|gs|] == gs;
    assert gs'[|gs'| - 1] == [t];
  }

  /** copyJoinKeys on a zeroed row yields the row's key row, and the
      remembered key then matches the row. */
  lemma CopiedKeys(t: Row, js: seq<nat>, w: nat, key: Row, cur: Row)
    requires KeysBelow(js, |t|) && KeysBelow(js, |key|) && |cur| == w
    requires forall x: nat :: x < |key| ==> key[x] == if x in js then t[x] else 0
    requires forall x: nat :: x < w ==> cur[x] == if x in js then t[x] else 0
    ensures cur == KeyRow(t, js, w) && SameKeys(t, key, js)
  {
    forall i | 0 <= i < |js|
      ensures key[js[i]] == t[js[i]]
    {
      assert js[i] in js;
    }
  }

  /** Once the last row is in, closing the last group yields the summaries
      of all groups. */
  lemma FinishStep(rows: seq<Row>, js: seq<nat>, n: nat, out: seq<Row>, cur: Row, key: Row)
    requires Pending(rows, js, n, out, cur, key)
    ensures out + [cur] == Summaries(rows, js, n)
  {
    var gs := Groups(rows, js);
    assert gs[..|gs| - 1 + 1] == gs;
    assert SummaryRows(gs, js, n) == SummaryRows(gs[..|gs| - 1], js, n) + [Summary(gs[|gs| - 1], js, n)];
  }

  /** The loop state before row i: before the first row, the key row of
      the first row and its key; afterwards, the state Pending describes. */
  predicate Before(rows: seq<Row>, i: nat, js: seq<nat>, n: nat, w: nat, out: seq<Row>, cur: Row, key: Row)
    requires 0 < |rows| && i <= |rows|
  {
    |key| == |js| && |cur| == w &&
    (i == 0 ==> out == [] && cur == KeyRow(rows[0], js, w) && SameKeys(rows[0], key, js)) &&
    (i > 0 ==> Pending(rows[..i], js, n, out, cur, key))
  }

  /** The loop state after one more row: a row with a new key closes the
      last group and opens one holding just its key, a row with the same
      key joins the last group; either way the row is then added in. */
  lemma RowStep(rows: seq<Row>, i: nat, js: seq<nat>, n: nat, out: seq<Row>, cur: Row, key: Row,
                out': seq<Row>, open: Row, key': Row)
    requires i < |rows| && Rect(rows, n) && KeysBelow(js, |js|) && KeysBelow(js, n)
    requires Before(rows, i, js, n, Width(|js|, n), out, cur, key)
    requires if SameKeys(rows[i], key, js) then out' == out && open == cur && key' == key
             else (out' == out + [cur] && open == KeyRow(rows[i], js, Width(|js|, n)) &&
                   SameKeys(rows[i], key', js) && |key'| == |js|)
    ensures Before(rows, i + 1, js, n, Width(|js|, n), out', AddRow(open, rows[i], |js|, n), key')
  {
    hide Pending, Groups, Summary, Summaries, KeyRow, AddRow, SameKeys;
    var t := rows[i];
    assert rows[..i + 1][..i] == rows[..i];
    assert |t| == n;
    if !SameKeys(t, key, js) {
      NewGroupStep(rows[..i + 1], js, n, out, cur, key, key');
    } else if i == 0 {
      FirstStep(t, js, n, key);
      assert rows[..1] == [t];
    } else {
      SameGroupStep(rows[..i + 1], js, n, out, cur, key);
    }
  }

  /** One pass of the loop over a relation's rows: close the group and
      start a new one when the key changes, then add the row in. */
  method SummariseRow(rows: seq<Row>, i: nat, js: seq<nat>, n: nat, pairs: seq<(nat, nat)>,
                      out: seq<Row>, cur: Row, key: Row)
    returns (out': seq<Row>, cur': Row, key': Row)
    requires i < |rows| && Rect(rows, n) && KeysBelow(js, |js|) && KeysBelow(js, n) && pairs == PairList(n)
    requires Before(rows, i, js, n, Width(|js|, n), out, cur, key)
    ensures Before(rows, i + 1, js, n, Width(|js|, n), out', cur', key')
  {
    var w := Width(|js|, n);
    var t := rows[i];
    assert |t| == n && |key| == |js| && |cur| == w;
    var differ := CompareJoinKeys(t, key, js);
    var open := cur;
    out', key' := out, key;
    if differ {
      var k, c := CopyJoinKeys(t, seq(|js|, _ => 0), seq(w, _ => 0), js);
      CopiedKeys(t, js, w, k, c);
      out', open, key' := out + [cur], c, k;
    }
    RowStep(rows, i, js, n, out, cur, key, out', open, key');
    cur' := AccumulateRow(open, t, |js|, pairs);
  }

  /** computeSumDatabase for one relation: the rows of a non-empty relation
      with n columns, in storage order, become one summarised row per group
      of consecutive rows with equal join keys. The join-attribute positions
      must lie below their own number, since the remembered key has one
      cell per join attribute and is indexed by position. */
  method Summarise(rows: seq<Row>, js: seq<nat>, n: nat) returns (out: seq<Row>)
    requires |rows| > 0 && Rect(rows, n)
    requires KeysBelow(js, |js|) && KeysBelow(js, n)
    ensures out == Summaries(rows, js, n)
  {
    var pairs := ColumnPairs(n);
    var w := |js| + 1 + n + |pairs|;
    var key, cur := CopyJoinKeys(rows[0], seq(|js|, _ => 0), seq(w, _ => 0), js);
    CopiedKeys(rows[0], js, w, key, cur);
    out := [];
    var i := 0;
    while i < |rows|
      invariant 0 <= i <= |rows| && Before(rows, i, js, n, w, out, cur, key)
    {
      out, cur, key := SummariseRow(rows, i, js, n, pairs, out, cur, key);
      i := i + 1;
    }
    assert rows[..i] == rows;
    FinishStep(rows, js, n, out, cur, key);
    out := out + [cur];
  }

  // ---------------------------------------------------------------------
  // Combinations of matched groups
  // ---------------------------------------------------------------------

  /** The value occurrence o names in a combination of rows (one row per
      relation), or 0 when there is no such cell. */
  function Val(c: seq<Row>, o: Occ): int
  {
    if o.rel < |c| then Cell(c[o.rel], o.pos) else 0
  }

  /** The product pair p names in a combination of rows. */
  function Term(c: seq<Row>, p: (Occ, Occ)): int
  {
    Val(c, p.0) * Val(c, p.1)
  }

  /** Every combination of one row from each group, the last group varying
      fastest: the rows of the natural join that one matched key stands
      for. */
  function Combos(gs: seq<seq<Row>>): seq<seq<Row>>
  {
    if |gs| == 0 then [[]] else Extend(Combos(gs[..|gs| - 1]), gs[|gs| - 1])
  }

  /** Each combination of cs followed by each row of g. */
  function Extend(cs: seq<seq<Row>>, g: seq<Row>): seq<seq<Row>>
  {
    if |cs| == 0 then [] else Extend(cs[..|cs| - 1], g) + Attach(cs[|cs| - 1], g)
  }

  /** Combination c followed by each row of g. */
  function Attach(c: seq<Row>, g: seq<Row>): seq<seq<Row>>
  {
    seq(|g|, k requires 0 <= k < |g| => c + [g[k]])
  }

  /** The sum of f over a sequence of combinations. */
  function SumOver(cs: seq<seq<Row>>, f: seq<Row> -> int): int
  {
    if |cs| == 0 then 0 else SumOver(cs[..|cs| - 1], f) + f(cs[|cs| - 1])
  }

  /** The group sizes, with the groups in ex counted as 1. */
  function Sizes(gs: seq<seq<Row>>, ex: set<nat>): seq<int>
  {
    seq(|gs|, i requires 0 <= i < |gs| => if i in ex then 1 else |gs[i]|)
  }

  /** The product of the sizes of the groups outside ex: how often a row
      of the groups in ex recurs among the combinations. */
  function Scale(gs: seq<seq<Row>>, ex: set<nat>): int
  {
    Product(Sizes(gs, ex))
  }

  lemma ScaleSnoc(gs: seq<seq<Row>>, ex: set<nat>)
    requires |gs| > 0
    ensures Scale(gs, ex) == Scale(gs[..|gs| - 1], ex) * (if |gs| - 1 in ex then 1 else |gs[|gs| - 1]|)
  {
    assert Sizes(gs, ex)[..|gs| - 1] == Sizes(gs[..|gs| - 1], ex);
  }

  /** Excluding a group beyond the end changes nothing. */
  lemma ScaleBeyond(gs: seq<seq<Row>>, ex: set<nat>, m: nat)
    requires m >= |gs|
    ensures Scale(gs, ex + {m}) == Scale(gs, ex)
  {
    assert Sizes(gs, ex + {m}) == Sizes(gs, ex);
  }

  /** Taking group r out of the product divides it by that group's size. */
  lemma {:induction false} ScaleSplit(gs: seq<seq<Row>>, ex: set<nat>, r: nat)
    requires r < |gs| && r !in ex
    ensures Scale(gs, ex) == |gs[r]| * Scale(gs, ex + {r})
    decreases |gs|
  {
    var m := |gs| - 1;
    var init := gs[..m];
    ScaleSnoc(gs, ex);
    ScaleSnoc(gs, ex + {r});
    if r < m {
      ScaleSplit(init, ex, r);
      var e := if m in ex then 1 else |gs[m]|;
      assert Scale(gs, ex) == (|gs[r]| * Scale(init, ex + {r})) * e;
      MulAssoc(|gs[r]|, Scale(init, ex + {r}), e);
    } else {
      ScaleBeyond(init, ex, r);
    }
  }

  lemma {:induction false} SumOverAppend(a: seq<seq<Row>>, b: seq<seq<Row>>, f: seq<Row> -> int)
    ensures SumOver(a + b, f) == SumOver(a, f) + SumOver(b, f)
    decreases |b|
  {
    if |b| > 0 {
      assert (a + b)[..|a + b| - 1] == a + b[..|b| - 1];
      SumOverAppend(a, b[..|b| - 1], f);
    } else {
      assert a + b == a;
    }
  }

  /** Summing f, where f is k times h on every combination. */
  lemma {:induction false} SumOverScale(cs: seq<seq<Row>>, f: seq<Row> -> int, h: seq<Row> -> int, k: int)
    requires forall i :: 0 <= i < |cs| ==> f(cs[i]) == k * h(cs[i])
    ensures SumOver(cs, f) == k * SumOver(cs, h)
  {
    if |cs| > 0 {
      SumOverScale(cs[..|cs| - 1], f, h, k);
    }
  }

  /** Summing a function that is v on every combination. */
  lemma {:induction false} SumOverConst(cs: seq<seq<Row>>, f: seq<Row> -> int, v: int)
    requires forall i :: 0 <= i < |cs| ==> f(cs[i]) == v
    ensures SumOver(cs, f) == |cs| * v
  {
    if |cs| > 0 {
      SumOverConst(cs[..|cs| - 1], f, v);
    }
  }

  /** Over the extensions of c by the rows of g, f sums like v times
      column i of g when it is v times that column on each of them. */
  lemma {:induction false} AttachColumn(c: seq<Row>, g: seq<Row>, f: seq<Row> -> int, i: int, v: int)
    requires forall k :: 0 <= k < |g| ==> f(c + [g[k]]) == v * Cell(g[k], i)
    ensures SumOver(Attach(c, g), f) == v * ColumnSum(g, i)
  {
    if |g| > 0 {
      assert Attach(c, g)[..|g| - 1] == Attach(c, g[..|g| - 1]);
      AttachColumn(c, g[..|g| - 1], f, i, v);
    }
  }

  /** Over the extensions of c by the rows of g, f sums like the pair
      products of g when it is that product on each of them. */
  lemma {:induction false} AttachPair(c: seq<Row>, g: seq<Row>, f: seq<Row> -> int, a: int, b: int)
    requires forall k :: 0 <= k < |g| ==> f(c + [g[k]]) == Cell(g[k], a) * Cell(g[k], b)
    ensures SumOver(Attach(c, g), f) == PairSum(g, a, b)
  {
    if |g| > 0 {
      assert Attach(c, g)[..|g| - 1] == Attach(c, g[..|g| - 1]);
      AttachPair(c, g[..|g| - 1], f, a, b);
    }
  }

  /** Over the extensions of c by the rows of g, a function that is v on
      each sums to |g| * v. */
  lemma AttachConst(c: seq<Row>, g: seq<Row>, f: seq<Row> -> int, v: int)
    requires forall k :: 0 <= k < |g| ==> f(c + [g[k]]) == v
    ensures SumOver(Attach(c, g), f) == |g| * v
  {
    SumOverConst(Attach(c, g), f, v);
  }

  /** Summing over the extensions of cs by g: first over the rows of g for
      each combination, then over the combinations. */
  lemma {:induction false} ExtendSum(cs: seq<seq<Row>>, g: seq<Row>, f: seq<Row> -> int, h: seq<Row> -> int)
    requires forall i :: 0 <= i < |cs| ==> h(cs[i]) == SumOver(Attach(cs[i], g), f)
    ensures SumOver(Extend(cs, g), f) == SumOver(cs, h)
  {
    if |cs| > 0 {
      ExtendSum(cs[..|cs| - 1], g, f, h);
      SumOverAppend(Extend(cs[..|cs| - 1], g), Attach(cs[|cs| - 1], g), f);
    }
  }

  lemma {:induction false} ExtendShape(cs: seq<seq<Row>>, g: seq<Row>, m: nat)
    requires forall i :: 0 <= i < |cs| ==> |cs[i]| == m
    ensures |Extend(cs, g)| == |cs| * |g|
    ensures forall i :: 0 <= i < |Extend(cs, g)| ==> |Extend(cs, g)[i]| == m + 1
    ensures forall i :: 0 <= i < |Extend(cs, g)| ==>
              Extend(cs, g)[i][..m] in cs && Extend(cs, g)[i][m] in g
  {
    if |cs| > 0 {
      var init, c := cs[..|cs| - 1], cs[|cs| - 1];
      ExtendShape(init, g, m);
      var e := Extend(cs, g);
      var e0 := Extend(init, g);
      assert e == e0 + Attach(c, g);
      forall i | 0 <= i < |e|
        ensures |e[i]| == m + 1 && e[i][..m] in cs && e[i][m] in g
      {
        if i < |e0| {
          assert e[i] == e0[i];
          assert e0[i][..m] in init;
        } else {
          assert e[i] == c + [g[i - |e0|]];
          assert e[i][..m] == c;
        }
      }
    }
  }

  /** There are as many combinations as the product of the group sizes;
      each picks one row from every group. */
  lemma {:induction false} CombosShape(gs: seq<seq<Row>>)
    ensures |Combos(gs)| == Scale(gs, {})
    ensures forall i :: 0 <= i < |Combos(gs)| ==> |Combos(gs)[i]| == |gs|
    ensures forall i, r :: 0 <= i < |Combos(gs)| && 0 <= r < |gs| ==> Combos(gs)[i][r] in gs[r]
  {
    if |gs| > 0 {
      hide Extend, Attach, Scale, Sizes;
      var m := |gs| - 1;
      var init := gs[..m];
      CombosShape(init);
      ExtendShape(Combos(init), gs[m], m);
      ScaleSnoc(gs, {});
      var cs := Combos(gs);
      forall i, r | 0 <= i < |cs| && 0 <= r < |gs|
        ensures cs[i][r] in gs[r]
      {
        if r < m {
          var c := cs[i][..m];
          var j :| 0 <= j < |Combos(init)| && Combos(init)[j] == c;
          assert cs[i][r] == c[r] == Combos(init)[j][r];
          assert init[r] == gs[r];
        }
      }
    }
  }

  /** Appending a row keeps the values of the earlier relations and makes
      the row the value source of the next one. */
  lemma ValSnoc(c: seq<Row>, x: Row, o: Occ)
    ensures o.rel < |c| ==> Val(c + [x], o) == Val(c, o)
    ensures o.rel == |c| ==> Val(c + [x], o) == Cell(x, o.pos)
  {
  }

  /** Extending by g repeats every combination |g| times, so a function
      that ignores the appended row sums to |g| times its old sum. */
  lemma ExtendKeeps(cs: seq<seq<Row>>, g: seq<Row>, f: seq<Row> -> int, m: nat)
    requires forall i :: 0 <= i < |cs| ==> |cs[i]| == m
    requires forall d: seq<Row>, x: Row :: |d| == m ==> f(d + [x]) == f(d)
    ensures SumOver(Extend(cs, g), f) == |g| * SumOver(cs, f)
  {
    var h := c => SumOver(Attach(c, g), f);
    ExtendSum(cs, g, f, h);
    forall i | 0 <= i < |cs|
      ensures h(cs[i]) == |g| * f(cs[i])
    {
      AttachConst(cs[i], g, f, f(cs[i]));
    }
    SumOverScale(cs, h, f, |g|);
  }

  /** Over the extensions of c by g, a function that is u of c times a
      value of the appended relation sums to u of c times its column total. */
  lemma AttachScaled(c: seq<Row>, g: seq<Row>, f: seq<Row> -> int, u: seq<Row> -> int, o: Occ)
    requires |c| == o.rel
    requires forall d :: f(d) == u(d) * Val(d, o)
    requires forall d: seq<Row>, x: Row :: |d| == o.rel ==> u(d + [x]) == u(d)
    ensures SumOver(Attach(c, g), f) == u(c) * ColumnSum(g, o.pos)
  {
    var v := u(c);
    forall k | 0 <= k < |g|
      ensures f(c + [g[k]]) == v * Cell(g[k], o.pos)
    {
      ValSnoc(c, g[k], o);
      assert u(c + [g[k]]) == v;
    }
    hide Val;
    AttachColumn(c, g, f, o.pos, v);
  }

  /** A function that is u of the old combination times a value of the
      appended relation sums to u's sum times that value's column total. */
  lemma ExtendColumn(cs: seq<seq<Row>>, g: seq<Row>, f: seq<Row> -> int, u: seq<Row> -> int, o: Occ)
    requires forall i :: 0 <= i < |cs| ==> |cs[i]| == o.rel
    requires forall d :: f(d) == u(d) * Val(d, o)
    requires forall d: seq<Row>, x: Row :: |d| == o.rel ==> u(d + [x]) == u(d)
    ensures SumOver(Extend(cs, g), f) == SumOver(cs, u) * ColumnSum(g, o.pos)
  {
    var col := ColumnSum(g, o.pos);
    var h := c => SumOver(Attach(c, g), f);
    hide Val, SumOver, Attach, Extend, ColumnSum;
    ExtendSum(cs, g, f, h);
    forall i | 0 <= i < |cs|
      ensures h(cs[i]) == col * u(cs[i])
    {
      AttachScaled(cs[i], g, f, u, o);
      assert h(cs[i]) == u(cs[i]) * col;
    }
    SumOverScale(cs, h, u, col);
  }

  /** A product of two values of the appended relation sums to its pair
      total once per old combination. */
  lemma ExtendPair(cs: seq<seq<Row>>, g: seq<Row>, f: seq<Row> -> int, p: (Occ, Occ))
    requires forall i :: 0 <= i < |cs| ==> |cs[i]| == p.0.rel
    requires p.1.rel == p.0.rel && forall d :: f(d) == Term(d, p)
    ensures SumOver(Extend(cs, g), f) == |cs| * PairSum(g, p.0.pos, p.1.pos)
  {
    var h := c => SumOver(Attach(c, g), f);
    ExtendSum(cs, g, f, h);
    forall i | 0 <= i < |cs|
      ensures h(cs[i]) == PairSum(g, p.0.pos, p.1.pos)
    {
      var c := cs[i];
      forall k | 0 <= k < |g|
        ensures f(c + [g[k]]) == Cell(g[k], p.0.pos) * Cell(g[k], p.1.pos)
      {
        ValSnoc(c, g[k], p.0);
        ValSnoc(c, g[k], p.1);
      }
      AttachPair(c, g, f, p.0.pos, p.1.pos);
    }
    SumOverConst(cs, h, PairSum(g, p.0.pos, p.1.pos));
  }

  /** The combinations of the groups are those of all but the last,
      extended by the last; all have the length of the shorter list. */
  lemma CombosSnoc(gs: seq<seq<Row>>, m: nat)
    requires |gs| == m + 1
    ensures Combos(gs) == Extend(Combos(gs[..m]), gs[m])
    ensures forall i :: 0 <= i < |Combos(gs[..m])| ==> |Combos(gs[..m])[i]| == m
    ensures |Combos(gs[..m])| == Scale(gs[..m], {})
  {
    CombosShape(gs[..m]);
  }

  /** A value of an earlier relation: the last group repeats every old
      combination. */
  lemma OneKeep(gs: seq<seq<Row>>, f: seq<Row> -> int, o: Occ)
    requires |gs| > 0 && o.rel < |gs| - 1
    requires forall d :: f(d) == Val(d, o)
    ensures SumOver(Combos(gs), f) == |gs[|gs| - 1]| * SumOver(Combos(gs[..|gs| - 1]), f)
  {
    var m := |gs| - 1;
    CombosSnoc(gs, m);
    forall d: seq<Row>, x: Row | |d| == m
      ensures f(d + [x]) == f(d)
    {
      ValSnoc(d, x, o);
    }
    hide Val, Combos, Extend, SumOver;
    ExtendKeeps(Combos(gs[..m]), gs[m], f, m);
  }

  /** A value of the last relation: its column total, once per combination
      of the other groups. */
  lemma OneLast(gs: seq<seq<Row>>, f: seq<Row> -> int, o: Occ)
    requires |gs| > 0 && o.rel == |gs| - 1
    requires forall d :: f(d) == Val(d, o)
    ensures SumOver(Combos(gs), f) == Scale(gs, {o.rel}) * ColumnSum(gs[o.rel], o.pos)
  {
    var m := |gs| - 1;
    var init := gs[..m];
    CombosSnoc(gs, m);
    ScaleSnoc(gs, {m});
    ScaleBeyond(init, {}, m);
    assert {} + {m} == {m};
    var one := c => 1;
    hide Val, Combos, Extend, SumOver, Scale, Sizes, ColumnSum;
    ExtendColumn(Combos(init), gs[m], f, one, o);
    SumOverConst(Combos(init), one, 1);
  }

  /** Summed over all combinations of the groups, the value of one
      occurrence is its column total in its own group, repeated once for
      every choice of rows in the other groups. */
  lemma {:induction false} OneFactor(gs: seq<seq<Row>>, o: Occ)
    requires o.rel < |gs|
    ensures SumOver(Combos(gs), c => Val(c, o)) == Scale(gs, {o.rel}) * ColumnSum(gs[o.rel], o.pos)
    decreases |gs|
  {
    var m := |gs| - 1;
    var f := c => Val(c, o);
    if o.rel < m {
      var init := gs[..m];
      assert init[o.rel] == gs[o.rel];
      ScaleSnoc(gs, {o.rel});
      hide *;
      OneKeep(gs, f, o);
      OneFactor(init, o);
      var sc, col := Scale(init, {o.rel}), ColumnSum(gs[o.rel], o.pos);
      RepeatStep(SumOver(Combos(gs), f), |gs[m]|, SumOver(Combos(init), f), Scale(gs, {o.rel}) * col, sc, col);
    } else {
      hide *;
      OneLast(gs, f, o);
    }
  }

  /** A product of values of the first m relations ignores a row appended
      after them. */
  lemma TermKeeps(f: seq<Row> -> int, p: (Occ, Occ), m: nat)
    requires p.0.rel < m && p.1.rel < m
    requires forall d :: f(d) == Term(d, p)
    ensures forall d: seq<Row>, x: Row :: |d| == m ==> f(d + [x]) == f(d)
  {
    forall d: seq<Row>, x: Row | |d| == m
      ensures f(d + [x]) == f(d)
    {
      ValSnoc(d, x, p.0);
      ValSnoc(d, x, p.1);
    }
  }

  /** A term is the product of its two values, in either order. */
  lemma TermParts(f: seq<Row> -> int, p: (Occ, Occ))
    requires forall d :: f(d) == Term(d, p)
    ensures forall d :: f(d) == Val(d, p.0) * Val(d, p.1)
    ensures forall d :: f(d) == Val(d, p.1) * Val(d, p.0)
  {
  }

  /** A product of values of earlier relations: the last group repeats
      every old combination. */
  lemma FactorsKeep(gs: seq<seq<Row>>, f: seq<Row> -> int, p: (Occ, Occ))
    requires |gs| > 0 && p.0.rel < |gs| - 1 && p.1.rel < |gs| - 1
    requires forall d :: f(d) == Term(d, p)
    ensures SumOver(Combos(gs), f) == |gs[|gs| - 1]| * SumOver(Combos(gs[..|gs| - 1]), f)
  {
    var m := |gs| - 1;
    CombosSnoc(gs, m);
    TermKeeps(f, p, m);
    hide Val, Term, Combos, Extend, SumOver;
    ExtendKeeps(Combos(gs[..m]), gs[m], f, m);
  }

  /** A product of two values of the last relation: its pair total, once
      per combination of the other groups. */
  lemma FactorsLast(gs: seq<seq<Row>>, f: seq<Row> -> int, p: (Occ, Occ))
    requires |gs| > 0 && p.0.rel == |gs| - 1 && p.1.rel == |gs| - 1
    requires forall d :: f(d) == Term(d, p)
    ensures SumOver(Combos(gs), f) == Scale(gs, {p.0.rel}) * PairSum(gs[p.0.rel], p.0.pos, p.1.pos)
  {
    var m := |gs| - 1;
    CombosSnoc(gs, m);
    ScaleSnoc(gs, {m});
    ScaleBeyond(gs[..m], {}, m);
    assert {} + {m} == {m};
    hide Val, Term, Combos, Extend, SumOver, Scale, PairSum;
    ExtendPair(Combos(gs[..m]), gs[m], f, p);
  }

  /** A product of a value of an earlier relation and one of the last:
      the two column totals, once per choice of rows elsewhere. */
  lemma FactorsMixed(gs: seq<seq<Row>>, f: seq<Row> -> int, o1: Occ, o2: Occ)
    requires |gs| > 0 && o1.rel < |gs| - 1 && o2.rel == |gs| - 1
    requires forall d :: f(d) == Val(d, o1) * Val(d, o2)
    ensures SumOver(Combos(gs), f) ==
      Scale(gs, {o1.rel, o2.rel}) * (ColumnSum(gs[o1.rel], o1.pos) * ColumnSum(gs[o2.rel], o2.pos))
  {
    var m := |gs| - 1;
    var init := gs[..m];
    CombosSnoc(gs, m);
    ScaleSnoc(gs, {o1.rel, m});
    ScaleBeyond(init, {o1.rel}, m);
    assert {o1.rel} + {m} == {o1.rel, m};
    assert init[o1.rel] == gs[o1.rel];
    var u := c => Val(c, o1);
    forall d: seq<Row>, x: Row | |d| == m
      ensures u(d + [x]) == u(d)
    {
      ValSnoc(d, x, o1);
    }
    hide Val, Combos, Extend, SumOver, Scale, Sizes, ColumnSum;
    ExtendColumn(Combos(init), gs[m], f, u, o2);
    OneFactor(init, o1);
    var sc, x, y := Scale(init, {o1.rel}), ColumnSum(gs[o1.rel], o1.pos), ColumnSum(gs[m], o2.pos);
    assert SumOver(Combos(gs), f) == (sc * x) * y;
    MulAssoc(sc, x, y);
  }

  /** What a pair sums to over all combinations of the groups: the pair
      total of a relation's group, or the product of two column totals,
      times the number of choices of rows in the other groups. */
  function FactorTotal(gs: seq<seq<Row>>, p: (Occ, Occ)): int
    requires p.0.rel < |gs| && p.1.rel < |gs|
  {
    if p.0.rel == p.1.rel then Scale(gs, {p.0.rel}) * PairSum(gs[p.0.rel], p.0.pos, p.1.pos)
    else Scale(gs, {p.0.rel, p.1.rel}) * (ColumnSum(gs[p.0.rel], p.0.pos) * ColumnSum(gs[p.1.rel], p.1.pos))
  }

  /** The arithmetic of one repetition step: a total taken g times, whose
      scale factor grows by g. */
  lemma RepeatStep(total: int, g: int, before: int, after: int, sc: int, v: int)
    requires total == g * before && before == sc * v && after == (sc * g) * v
    ensures total == after
  {
    MulAssoc(g, sc, v);
  }

  /** The pair's value and scale factor are unchanged by a later group,
      which only multiplies the scale by its size. */
  lemma EarlierTotals(gs: seq<seq<Row>>, p: (Occ, Occ)) returns (sc: int, v: int)
    requires |gs| > 0 && p.0.rel < |gs| - 1 && p.1.rel < |gs| - 1
    ensures FactorTotal(gs[..|gs| - 1], p) == sc * v
    ensures FactorTotal(gs, p) == (sc * |gs[|gs| - 1]|) * v
  {
    var m := |gs| - 1;
    var init := gs[..m];
    var r1, r2 := p.0.rel, p.1.rel;
    assert init[r1] == gs[r1] && init[r2] == gs[r2];
    if r1 == r2 {
      ScaleSnoc(gs, {r1});
      sc, v := Scale(init, {r1}), PairSum(gs[r1], p.0.pos, p.1.pos);
    } else {
      ScaleSnoc(gs, {r1, r2});
      sc, v := Scale(init, {r1, r2}), ColumnSum(gs[r1], p.0.pos) * ColumnSum(gs[r2], p.1.pos);
    }
  }

  /** The inductive step for a pair within earlier relations: the last
      group repeats the total once per row. */
  lemma EarlierStep(gs: seq<seq<Row>>, f: seq<Row> -> int, p: (Occ, Occ))
    requires |gs| > 0 && p.0.rel < |gs| - 1 && p.1.rel < |gs| - 1
    requires forall d :: f(d) == Term(d, p)
    requires SumOver(Combos(gs[..|gs| - 1]), f) == FactorTotal(gs[..|gs| - 1], p)
    ensures SumOver(Combos(gs), f) == FactorTotal(gs, p)
  {
    var sc, v := EarlierTotals(gs, p);
    FactorsKeep(gs, f, p);
    hide *;
    RepeatStep(SumOver(Combos(gs), f), |gs[|gs| - 1]|, FactorTotal(gs[..|gs| - 1], p), FactorTotal(gs, p), sc, v);
  }

  /** Summed over all combinations of the groups, the product of two
      occurrences in one relation is that group's pair total, and of
      occurrences in two relations the product of their column totals,
      each repeated once for every choice of rows in the remaining groups. */
  lemma {:induction false} TwoFactors(gs: seq<seq<Row>>, p: (Occ, Occ))
    requires p.0.rel < |gs| && p.1.rel < |gs|
    ensures SumOver(Combos(gs), c => Term(c, p)) == FactorTotal(gs, p)
    decreases |gs|
  {
    hide Val, Term, Combos, Extend, SumOver, Scale, Sizes, ColumnSum, PairSum;
    var m := |gs| - 1;
    var r1, r2 := p.0.rel, p.1.rel;
    var f := c => Term(c, p);
    TermParts(f, p);
    if r1 < m && r2 < m {
      TwoFactors(gs[..m], p);
      EarlierStep(gs, f, p);
    } else if r1 == m && r2 == m {
      FactorsLast(gs, f, p);
    } else if r1 < m {
      FactorsMixed(gs, f, p.0, p.1);
    } else {
      FactorsMixed(gs, f, p.1, p.0);
      assert {r2, r1} == {r1, r2};
      var x, y := ColumnSum(gs[r1], p.0.pos), ColumnSum(gs[r2], p.1.pos);
      assert y * x == x * y;
    }
  }

  // ---------------------------------------------------------------------
  // The summarised schema
  // ---------------------------------------------------------------------

  /** The positions relation k takes part in within one join condition, in
      the condition's order. */
  function PositionsIn(c: seq<Occ>, k: nat): seq<nat>
  {
    if |c| == 0 then []
    else PositionsIn(c[..|c| - 1], k) + (if c[|c| - 1].rel == k then [c[|c| - 1].pos] else [])
  }

  /** The join attributes of relation k in computeSumDatabase: over the
      join conditions of more than one occurrence, in order, every
      position of relation k. */
  function JoinAttributes(conds: seq<seq<Occ>>, k: nat): seq<nat>
  {
    if |conds| == 0 then []
    else
      var c := conds[|conds| - 1];
      JoinAttributes(conds[..|conds| - 1], k) + (if |c| > 1 then PositionsIn(c, k) else [])
  }

  lemma {:induction false} PositionsInSpec(c: seq<Occ>, k: nat)
    ensures forall x :: x in PositionsIn(c, k) <==> Occ(k, x) in c
  {
    if |c| > 0 {
      PositionsInSpec(c[..|c| - 1], k);
      assert c == c[..|c| - 1] + [c[|c| - 1]];
    }
  }

  /** A position is a join attribute of relation k exactly when some join
      condition of more than one occurrence names it in relation k. */
  lemma {:induction false} JoinAttributesSpec(conds: seq<seq<Occ>>, k: nat)
    ensures forall x :: x in JoinAttributes(conds, k) <==> InSomeCondition(conds, k, x)
  {
    if |conds| > 0 {
      var init, c := conds[..|conds| - 1], conds[|conds| - 1];
      JoinAttributesSpec(init, k);
      PositionsInSpec(c, k);
      assert JoinAttributes(conds, k) == JoinAttributes(init, k) + (if |c| > 1 then PositionsIn(c, k) else []);
      hide JoinAttributes, PositionsIn;
      forall x
        ensures InSomeCondition(conds, k, x) <==> InSomeCondition(init, k, x) || (|c| > 1 && Occ(k, x) in c)
      {
        InSomeConditionSnoc(conds, k, x);
      }
    }
  }

  /** Some join condition of more than one occurrence names position x of
      relation k. */
  predicate InSomeCondition(conds: seq<seq<Occ>>, k: nat, x: nat)
  {
    exists j :: 0 <= j < |conds| && |conds[j]| > 1 && Occ(k, x) in conds[j]
  }

  lemma InSomeConditionSnoc(conds: seq<seq<Occ>>, k: nat, x: nat)
    requires |conds| > 0
    ensures var init, c := conds[..|conds| - 1], conds[|conds| - 1];
      InSomeCondition(conds, k, x) <==> InSomeCondition(init, k, x) || (|c| > 1 && Occ(k, x) in c)
  {
    var init, c := conds[..|conds| - 1], conds[|conds| - 1];
    if InSomeCondition(conds, k, x) {
      var j :| 0 <= j < |conds| && |conds[j]| > 1 && Occ(k, x) in conds[j];
      if j < |init| {
        assert init[j] == conds[j];
      }
    }
    if InSomeCondition(init, k, x) {
      var j :| 0 <= j < |init| && |init[j]| > 1 && Occ(k, x) in init[j];
      assert conds[j] == init[j];
    }
  }

  /** In the test schema every relation's join attributes are its leading
      columns, as the summarising loop needs: A, B of R1 and R2, A, E of R3
      and E of R4. */
  lemma TestJoinAttributes()
    ensures var conds := JoinConditions(AttributeLists(TestTables()));
      JoinAttributes(conds, 0) == [0, 1] && JoinAttributes(conds, 1) == [0, 1] &&
      JoinAttributes(conds, 2) == [0, 1] && JoinAttributes(conds, 3) == [0]
  {
    hide JoinConditions, AttributeLists, TestTables, JoinAttributes, PositionsIn;
    TestJoinConditions();
    var c0, c1, c2 := [Occ(0, 0), Occ(1, 0), Occ(2, 0)], [Occ(0, 1), Occ(1, 1)], [Occ(2, 1), Occ(3, 0)];
    forall k: nat
      ensures JoinAttributes([c0, c1, c2], k) == PositionsIn(c0, k) + PositionsIn(c1, k) + PositionsIn(c2, k)
    {
      JoinAttributesThree(c0, c1, c2, k);
    }
    forall k: nat
      ensures PositionsIn(c0, k) == Here(c0[0], k) + Here(c0[1], k) + Here(c0[2], k)
      ensures PositionsIn(c1, k) == Here(c1[0], k) + Here(c1[1], k)
      ensures PositionsIn(c2, k) == Here(c2[0], k) + Here(c2[1], k)
    {
      PositionsInThree(c0, k);
      PositionsInTwo(c1, k);
      PositionsInTwo(c2, k);
    }
  }

  /** The position of an occurrence when it belongs to relation k. */
  function Here(o: Occ, k: nat): seq<nat>
  {
    if o.rel == k then [o.pos] else []
  }

  lemma PositionsInTwo(c: seq<Occ>, k: nat)
    requires |c| == 2
    ensures PositionsIn(c, k) == Here(c[0], k) + Here(c[1], k)
  {
    assert c[..1] == [c[0]] && [c[0]][..0] == [];
    assert PositionsIn([c[0]], k) == Here(c[0], k);
  }

  lemma PositionsInThree(c: seq<Occ>, k: nat)
    requires |c| == 3
    ensures PositionsIn(c, k) == Here(c[0], k) + Here(c[1], k) + Here(c[2], k)
  {
    PositionsInTwo(c[..2], k);
  }

  lemma JoinAttributesThree(c0: seq<Occ>, c1: seq<Occ>, c2: seq<Occ>, k: nat)
    requires |c0| > 1 && |c1| > 1 && |c2| > 1
    ensures JoinAttributes([c0, c1, c2], k) == PositionsIn(c0, k) + PositionsIn(c1, k) + PositionsIn(c2, k)
  {
    var conds := [c0, c1, c2];
    assert conds[..2] == [c0, c1] && [c0, c1][..1] == [c0] && [c0][..0] == [];
    assert JoinAttributes([c0], k) == PositionsIn(c0, k);
  }

  /** The attribute names of the summarised relation: the join attributes,
      COUNT(name), SUM(a) for every attribute and SUM(a*b) for every pair
      of attributes a <= b, in the layout of the summary rows. */
  function SummedAttributes(name: string, attrs: seq<string>, js: seq<nat>): (r: seq<string>)
    requires KeysBelow(js, |attrs|)
  {
    var n := |attrs|;
    var ps := PairList(n);
    seq(|js|, i requires 0 <= i < |js| => attrs[js[i]]) +
    ["COUNT(" + name + ")"] +
    seq(n, i requires 0 <= i < n => "SUM(" + attrs[i] + ")") +
    seq(|ps|, k requires 0 <= k < |ps| =>
      if ps[k].0 < n && ps[k].1 < n then "SUM(" + attrs[ps[k].0] + "*" + attrs[ps[k].1] + ")" else "")
  }

  /** Every summary slot carries the name of what it holds: the key names,
      COUNT, the column sums and the pair sums, at the slots the summary
      rows use. */
  lemma SummedAttributesLayout(name: string, attrs: seq<string>, js: seq<nat>)
    requires KeysBelow(js, |attrs|)
    ensures |SummedAttributes(name, attrs, js)| == Width(|js|, |attrs|)
    ensures forall i :: 0 <= i < |js| ==> SummedAttributes(name, attrs, js)[i] == attrs[js[i]]
    ensures SummedAttributes(name, attrs, js)[|js|] == "COUNT(" + name + ")"
    ensures forall i :: 0 <= i < |attrs| ==>
              SummedAttributes(name, attrs, js)[SumSlot(|js|, i)] == "SUM(" + attrs[i] + ")"
    ensures forall a, b :: 0 <= a <= b < |attrs| ==>
              PairSlot(|js|, |attrs|, a, b) < Width(|js|, |attrs|) &&
              SummedAttributes(name, attrs, js)[PairSlot(|js|, |attrs|, a, b)] == "SUM(" + attrs[a] + "*" + attrs[b] + ")"
  {
    var n := |attrs|;
    var ps := PairList(n);
    PairListBounds(n);
    var r := SummedAttributes(name, attrs, js);
    var head := seq(|js|, i requires 0 <= i < |js| => attrs[js[i]]) + ["COUNT(" + name + ")"];
    var sums := seq(n, i requires 0 <= i < n => "SUM(" + attrs[i] + ")");
    var prods := seq(|ps|, k requires 0 <= k < |ps| =>
      if ps[k].0 < n && ps[k].1 < n then "SUM(" + attrs[ps[k].0] + "*" + attrs[ps[k].1] + ")" else "");
    assert r == head + sums + prods;
    hide SummedAttributes, PairList;
    forall a, b | 0 <= a <= b < n
      ensures PairSlot(|js|, n, a, b) < Width(|js|, n) && r[PairSlot(|js|, n, a, b)] == "SUM(" + attrs[a] + "*" + attrs[b] + ")"
    {
      PairListAt(n, a, b);
    }
  }

  /** A relation with rows (1, 1, 5) and (1, 2, 6), joined on its first
      column: one group, summarised as key 1, COUNT 2, sums 2, 3, 11 and
      pair sums 2, 3, 11, 5, 17, 61. */
  lemma SummariesExample()
    ensures Summaries([[1, 1, 5], [1, 2, 6]], [0], 3) == [[1, 2, 2, 3, 11, 2, 3, 11, 5, 17, 61]]
  {
    var rows: seq<Row> := [[1, 1, 5], [1, 2, 6]];
    var js: seq<nat> := [0];
    ExampleGroups(rows, js);
    ExampleSummary(rows, js);
  }

  lemma ExampleGroups(rows: seq<Row>, js: seq<nat>)
    requires rows == [[1, 1, 5], [1, 2, 6]] && js == [0]
    ensures Groups(rows, js) == [rows]
  {
    var a, b := rows[0], rows[1];
    assert rows[..1] == [a] && [a][..0] == [];
    GroupsStep([a], js);
    assert Groups([a], js) == [[a]];
    assert SameKeys(b, a, js);
    GroupsStep(rows, js);
    assert [[a]][..0] == [];
    assert [a] + [b] == rows;
  }

  /** Column and pair sums over two rows. */
  lemma TwoRowSums(a: Row, b: Row, i: int, j: int)
    ensures ColumnSum([a, b], i) == Cell(a, i) + Cell(b, i)
    ensures PairSum([a, b], i, j) == Cell(a, i) * Cell(a, j) + Cell(b, i) * Cell(b, j)
  {
    assert [a, b][..1] == [a] && [a][..0] == [];
    assert ColumnSum([a], i) == Cell(a, i);
    assert PairSum([a], i, j) == Cell(a, i) * Cell(a, j);
  }

  lemma ExampleSummary(rows: seq<Row>, js: seq<nat>)
    requires rows == [[1, 1, 5], [1, 2, 6]] && js == [0]
    ensures Summary(rows, js, 3) == [1, 2, 2, 3, 11, 2, 3, 11, 5, 17, 61]
  {
    hide Summary, Accumulate, KeyRow, AddRow, ColumnSum, PairSum, SumSlot, PairSlot, Width, Triangle, PairIndex, RowsBefore;
    SummaryLayout(rows, js, 3);
    ExampleSums(rows);
    ExamplePairSlots();
    var s := Summary(rows, js, 3);
    assert s[1] == 2 && s[2] == 2 && s[3] == 3 && s[4] == 11;
    assert s[5] == 2 && s[6] == 3 && s[7] == 11 && s[8] == 5 && s[9] == 17 && s[10] == 61;
  }

  lemma ExampleSums(rows: seq<Row>)
    requires rows == [[1, 1, 5], [1, 2, 6]]
    ensures ColumnSum(rows, 0) == 2 && ColumnSum(rows, 1) == 3 && ColumnSum(rows, 2) == 11
    ensures PairSum(rows, 0, 0) == 2 && PairSum(rows, 0, 1) == 3 && PairSum(rows, 0, 2) == 11
    ensures PairSum(rows, 1, 1) == 5 && PairSum(rows, 1, 2) == 17 && PairSum(rows, 2, 2) == 61
  {
    forall i, j | 0 <= i < 3 && 0 <= j < 3
      ensures ColumnSum(rows, i) == rows[0][i] + rows[1][i]
      ensures PairSum(rows, i, j) == rows[0][i] * rows[0][j] + rows[1][i] * rows[1][j]
    {
      TwoRowSums(rows[0], rows[1], i, j);
    }
  }

  lemma ExamplePairSlots()
    ensures Width(1, 3) == 11
    ensures SumSlot(1, 0) == 2 && SumSlot(1, 1) == 3 && SumSlot(1, 2) == 4
    ensures PairSlot(1, 3, 0, 0) == 5 && PairSlot(1, 3, 0, 1) == 6 && PairSlot(1, 3, 0, 2) == 7
    ensures PairSlot(1, 3, 1, 1) == 8 && PairSlot(1, 3, 1, 2) == 9 && PairSlot(1, 3, 2, 2) == 10
  {
    assert RowsBefore(3, 1) == 3;
    assert RowsBefore(3, 2) == 5;
  }

  // ---------------------------------------------------------------------
  // Instructions
  // ---------------------------------------------------------------------

  /** How one aggregate is read off a tuple of summarised rows. Slots are
      counted from the COUNT column of the relation's summary, as the
      number of join attributes is known only per relation. */
  datatype Instruction =
    | Within(rel: nat, slot: int)                              // [0, rel, slot]
    | Across(rel1: nat, slot1: int, rel2: nat, slot2: int)     // [1, rel1, slot1, rel2, slot2]

  /** The instruction for one attribute pair given the column count of
      every relation: a pair inside one relation reads its pair-sum slot,
      whose place is 1 + n + calculatePosition(a, n) + (b - a); a pair
      across two relations reads the two column-sum slots 1 + a and 1 + b. */
  function InstructionOf(p: (Occ, Occ), arities: seq<nat>): Instruction
    requires p.0.rel == p.1.rel ==> p.0.rel < |arities|
  {
    if p.0.rel == p.1.rel then
      var n, a, b := arities[p.0.rel], p.0.pos, p.1.pos;
      Within(p.0.rel, 1 + n + a * (2 * n - a + 1) / 2 + (b - a))
    else Across(p.0.rel, 1 + p.0.pos, p.1.rel, 1 + p.1.pos)
  }

  /** For a pair within bounds and in order, the instruction names exactly
      the summary slots the layout gives that pair. */
  lemma InstructionSlots(p: (Occ, Occ), arities: seq<nat>)
    requires p.0.rel < |arities| && p.1.rel < |arities|
    requires p.0.pos < arities[p.0.rel] && p.1.pos < arities[p.1.rel]
    requires p.0.rel == p.1.rel ==> p.0.pos <= p.1.pos
    ensures p.0.rel == p.1.rel ==>
              InstructionOf(p, arities) == Within(p.0.rel, PairSlot(0, arities[p.0.rel], p.0.pos, p.1.pos))
    ensures p.0.rel != p.1.rel ==>
              InstructionOf(p, arities) == Across(p.0.rel, SumSlot(0, p.0.pos), p.1.rel, SumSlot(0, p.1.pos))
  {
    if p.0.rel == p.1.rel {
      var n, a := arities[p.0.rel], p.0.pos;
      RowsBeforeClosedForm(n, a);
      assert a * (2 * n - a + 1) / 2 == RowsBefore(n, a);
    }
  }

  /** getInstructionsForSummedDatabase: one instruction per pair, in the
      order of the pairs, each built with the calculatePosition loop. */
  method GetInstructions(pairs: seq<(Occ, Occ)>, arities: seq<nat>) returns (ins: seq<Instruction>)
    requires forall k :: 0 <= k < |pairs| && pairs[k].0.rel == pairs[k].1.rel ==> pairs[k].0.rel < |arities|
    ensures |ins| == |pairs|
    ensures forall k :: 0 <= k < |pairs| ==> ins[k] == InstructionOf(pairs[k], arities)
  {
    ins := [];
    var k := 0;
    while k < |pairs|
      invariant 0 <= k <= |pairs| && |ins| == k
      invariant forall j :: 0 <= j < k ==> ins[j] == InstructionOf(pairs[j], arities)
    {
      var p := pairs[k];
      var i: Instruction;
      if p.0.rel == p.1.rel {
        var n := arities[p.0.rel];
        var position := CalculatePosition(p.0.pos, n);
        i := Within(p.0.rel, 1 + n + position + (p.1.pos - p.0.pos));
      } else {
        i := Across(p.0.rel, 1 + p.0.pos, p.1.rel, 1 + p.1.pos);
      }
      ins := ins + [i];
      k := k + 1;
    }
  }

  /** Java's long division: the quotient truncated toward zero. */
  function Div(a: int, b: int): (q: int)
    requires b != 0
  {
    var m := (if a < 0 then -a else a) / (if b < 0 then -b else b);
    if (a < 0) == (b < 0) then m else -m
  }

  /** Euclidean division of a multiple of a positive number by it. */
  lemma MulDivCancel(b: int, c: int)
    requires b > 0
    ensures (b * c) / b == c
  {
    var a := b * c;
    var q, r := a / b, a % b;
    assert a == b * q + r && 0 <= r < b;
    var d := c - q;
    assert b * d == r by {
      assert b * d == b * c - b * q;
    }
  }

  /** Dividing a multiple of a positive number by it is exact, whatever
      the sign of the multiple. */
  lemma DivExact(b: int, c: int)
    requires b > 0
    ensures Div(b * c, b) == c
  {
    if c >= 0 {
      MulDivCancel(b, c);
    } else {
      MulDivCancel(b, -c);
      assert -(b * c) == b * (-c);
    }
  }

  // ---------------------------------------------------------------------
  // Reading aggregates off a tuple of summarised rows
  // ---------------------------------------------------------------------

  /** Every row of the tuple has its COUNT slot, nJ[i] being the number of
      join attributes of relation i. */
  predicate HasCounts(t: seq<Row>, nJ: seq<nat>)
  {
    |nJ| == |t| && forall i :: 0 <= i < |t| ==> nJ[i] < |t[i]|
  }

  /** The COUNT values of a tuple of summarised rows. */
  function Counts(t: seq<Row>, nJ: seq<nat>): seq<int>
    requires HasCounts(t, nJ)
  {
    seq(|t|, i requires 0 <= i < |t| => t[i][nJ[i]])
  }

  /** countProduct: the product of the COUNT values of the tuple. */
  function CountProduct(t: seq<Row>, nJ: seq<nat>): int
    requires HasCounts(t, nJ)
  {
    Product(Counts(t, nJ))
  }

  /** The loop computing countProduct in computeAllAggregatesOfNaturalJoin. */
  method CountProductOf(t: seq<Row>, nJ: seq<nat>) returns (cp: int)
    requires HasCounts(t, nJ)
    ensures cp == CountProduct(t, nJ)
  {
    cp := 1;
    var i := 0;
    while i < |t|
      invariant 0 <= i <= |t|
      invariant cp == Product(Counts(t, nJ)[..i])
    {
      assert Counts(t, nJ)[..i + 1][..i] == Counts(t, nJ)[..i];
      cp := cp * t[i][nJ[i]];
      i := i + 1;
    }
    assert Counts(t, nJ)[..i] == Counts(t, nJ);
  }

  /** Every slot an instruction reads exists, and the COUNT values it
      divides by are non-zero (Java would throw otherwise). */
  predicate Readable(ins: Instruction, t: seq<Row>, nJ: seq<nat>)
  {
    HasCounts(t, nJ) &&
    match ins
    case Within(r, s) =>
      r < |t| && 0 <= s + nJ[r] < |t[r]| && t[r][nJ[r]] != 0
    case Across(r1, s1, r2, s2) =>
      r1 < |t| && 0 <= s1 + nJ[r1] < |t[r1]| && t[r1][nJ[r1]] != 0 &&
      r2 < |t| && 0 <= s2 + nJ[r2] < |t[r2]| && t[r2][nJ[r2]] != 0
  }

  /** calculateFromInstruction: the count product divided by the COUNT of
      every relation the instruction reads, times the slots it reads. */
  function CalculateFromInstruction(ins: Instruction, t: seq<Row>, nJ: seq<nat>, cp: int): int
    requires Readable(ins, t, nJ)
  {
    match ins
    case Within(r, s) =>
      Div(cp, t[r][nJ[r]]) * t[r][s + nJ[r]]
    case Across(r1, s1, r2, s2) =>
      Div(Div(cp, t[r1][nJ[r1]]), t[r2][nJ[r2]]) * t[r1][s1 + nJ[r1]] * t[r2][s2 + nJ[r2]]
  }

  // ---------------------------------------------------------------------
  // The pushdown is exact
  // ---------------------------------------------------------------------

  /** The groups matched by one join result, one per relation, with the
      join keys of relation r at positions js[r] (the leading columns) and
      ns[r] columns: the summaries the join of the summarised relations
      returns come from such groups. */
  predicate Matched(gs: seq<seq<Row>>, js: seq<seq<nat>>, ns: seq<nat>)
  {
    |js| == |gs| && |ns| == |gs| &&
    forall r :: 0 <= r < |gs| ==>
      |gs[r]| > 0 && Rect(gs[r], ns[r]) && KeysBelow(js[r], |js[r]|) && KeysBelow(js[r], ns[r])
  }

  /** The tuple of summarised rows standing for the matched groups. */
  function SummedTuple(gs: seq<seq<Row>>, js: seq<seq<nat>>, ns: seq<nat>): (t: seq<Row>)
    requires Matched(gs, js, ns)
    ensures |t| == |gs| && forall r :: 0 <= r < |gs| ==> t[r] == Summary(gs[r], js[r], ns[r])
  {
    seq(|gs|, r requires 0 <= r < |gs| => Summary(gs[r], js[r], ns[r]))
  }

  /** The pair's occurrences name columns of the relations, in order
      within one relation, as getAllPairsOfColums produces them. */
  predicate PairIn(p: (Occ, Occ), ns: seq<nat>)
  {
    p.0.rel < |ns| && p.1.rel < |ns| && p.0.pos < ns[p.0.rel] && p.1.pos < ns[p.1.rel] &&
    (p.0.rel == p.1.rel ==> p.0.pos <= p.1.pos)
  }

  /** Every attribute pair of a schema is one the instructions can encode
      over the schema's arities: both occurrences lie inside their
      relations, and within one relation the first position is the
      smaller. */
  lemma SchemaPairsIn(attrs: seq<seq<string>>)
    ensures forall k :: 0 <= k < |AllPairsOfAttributes(attrs)| ==>
              PairIn(AllPairsOfAttributes(attrs)[k], Lengths(attrs))
  {
    NamePairsMatchPositions(attrs);
    PairsOrdered(attrs);
  }

  /** The COUNT slots of the summarised tuple hold the group sizes, and so
      the count product is the number of combinations. */
  lemma SummedCounts(gs: seq<seq<Row>>, js: seq<seq<nat>>, ns: seq<nat>)
    requires Matched(gs, js, ns)
    ensures HasCounts(SummedTuple(gs, js, ns), Lengths(js))
    ensures forall r :: 0 <= r < |gs| ==> SummedTuple(gs, js, ns)[r][|js[r]|] == |gs[r]|
    ensures CountProduct(SummedTuple(gs, js, ns), Lengths(js)) == Scale(gs, {})
  {
    var t, nJ := SummedTuple(gs, js, ns), Lengths(js);
    forall r | 0 <= r < |gs|
      ensures |js[r]| < |t[r]| && t[r][|js[r]|] == |gs[r]|
    {
      SummaryLayout(gs[r], js[r], ns[r]);
    }
    assert Counts(t, nJ) == Sizes(gs, {});
  }

  /** Column a's SUM slot of relation r in the summarised tuple, counted
      from its COUNT slot as instructions count, holds the column total of
      r's group. */
  lemma SummedColumn(gs: seq<seq<Row>>, js: seq<seq<nat>>, ns: seq<nat>, r: nat, a: nat)
    requires Matched(gs, js, ns) && r < |gs| && a < ns[r]
    ensures 1 + a + Lengths(js)[r] < |SummedTuple(gs, js, ns)[r]|
    ensures SummedTuple(gs, js, ns)[r][1 + a + Lengths(js)[r]] == ColumnSum(gs[r], a)
  {
    SummaryLayout(gs[r], js[r], ns[r]);
    assert SumSlot(|js[r]|, a) == 1 + a + Lengths(js)[r];
  }

  /** Taking two distinct groups out of the number of combinations. */
  lemma ScaleTwo(gs: seq<seq<Row>>, r1: nat, r2: nat)
    requires r1 < |gs| && r2 < |gs| && r1 != r2
    ensures Scale(gs, {}) == |gs[r1]| * (|gs[r2]| * Scale(gs, {r1, r2}))
  {
    ScaleSplit(gs, {}, r1);
    ScaleSplit(gs, {r1}, r2);
    assert {} + {r1} == {r1} && {r1} + {r2} == {r1, r2};
  }

  /** The arithmetic of an instruction across two relations: dividing out
      both counts leaves the scale of the other groups. */
  lemma AcrossArith(cp: int, c1: int, c2: int, sc: int, x: int, y: int)
    requires c1 > 0 && c2 > 0 && cp == c1 * (c2 * sc)
    ensures Div(Div(cp, c1), c2) * x * y == sc * (x * y)
  {
    DivExact(c1, c2 * sc);
    DivExact(c2, sc);
    MulAssoc(sc, x, y);
  }

  /** A pair within relation r: the pair-sum slot of r's summary, times
      the sizes of the other groups, is the pair's sum over the
      combinations. */
  lemma DistributesWithin(gs: seq<seq<Row>>, js: seq<seq<nat>>, ns: seq<nat>, p: (Occ, Occ))
    requires Matched(gs, js, ns) && PairIn(p, ns) && p.0.rel == p.1.rel
    ensures Readable(InstructionOf(p, ns), SummedTuple(gs, js, ns), Lengths(js))
    ensures CalculateFromInstruction(InstructionOf(p, ns), SummedTuple(gs, js, ns), Lengths(js),
                                     CountProduct(SummedTuple(gs, js, ns), Lengths(js)))
            == FactorTotal(gs, p)
  {
    hide Summary, Scale, ColumnSum, CountProduct, Sizes, Product, Rect, KeysBelow,
      Accumulate, KeyRow, Width, SumSlot, Counts;
    var t, nJ := SummedTuple(gs, js, ns), Lengths(js);
    var r, a, b := p.0.rel, p.0.pos, p.1.pos;
    var n := ns[r];
    SummedCounts(gs, js, ns);
    InstructionSlots(p, ns);
    SummaryLayout(gs[r], js[r], n);
    assert PairSlot(0, n, a, b) + nJ[r] == PairSlot(|js[r]|, n, a, b);
    assert t[r][PairSlot(|js[r]|, n, a, b)] == PairSum(gs[r], a, b);
    ScaleSplit(gs, {}, r);
    assert {} + {r} == {r};
    DivExact(|gs[r]|, Scale(gs, {r}));
  }

  /** A pair across relations r1 and r2: the two column-sum slots, times
      the sizes of the other groups, are the pair's sum over the
      combinations. */
  lemma DistributesAcross(gs: seq<seq<Row>>, js: seq<seq<nat>>, ns: seq<nat>, p: (Occ, Occ))
    requires Matched(gs, js, ns) && PairIn(p, ns) && p.0.rel != p.1.rel
    ensures Readable(InstructionOf(p, ns), SummedTuple(gs, js, ns), Lengths(js))
    ensures CalculateFromInstruction(InstructionOf(p, ns), SummedTuple(gs, js, ns), Lengths(js),
                                     CountProduct(SummedTuple(gs, js, ns), Lengths(js)))
            == FactorTotal(gs, p)
  {
    hide Summary, SummedTuple, Scale, ColumnSum, CountProduct, Sizes, Product, Lengths, Rect, KeysBelow,
      Accumulate, KeyRow, Width, SumSlot, PairSlot, Counts;
    var t, nJ := SummedTuple(gs, js, ns), Lengths(js);
    var r1, a, r2, b := p.0.rel, p.0.pos, p.1.rel, p.1.pos;
    SummedCounts(gs, js, ns);
    InstructionSlots(p, ns);
    var ins := InstructionOf(p, ns);
    assert ins == Across(r1, 1 + a, r2, 1 + b);
    SummedColumn(gs, js, ns, r1, a);
    SummedColumn(gs, js, ns, r2, b);
    var x, y := ColumnSum(gs[r1], a), ColumnSum(gs[r2], b);
    ScaleTwo(gs, r1, r2);
    var sc := Scale(gs, {r1, r2});
    var cp := CountProduct(t, nJ);
    AcrossArith(cp, |gs[r1]|, |gs[r2]|, sc, x, y);
  }

  /** The pushdown is exact: the instruction of a pair, applied to the
      summaries of the groups one join result matches, gives the sum of
      the pair's product over every combination of their rows, which are
      the results of the natural join of the source relations those groups
      stand for. */
  lemma Distributes(gs: seq<seq<Row>>, js: seq<seq<nat>>, ns: seq<nat>, p: (Occ, Occ))
    requires Matched(gs, js, ns) && PairIn(p, ns)
    ensures Readable(InstructionOf(p, ns), SummedTuple(gs, js, ns), Lengths(js))
    ensures CalculateFromInstruction(InstructionOf(p, ns), SummedTuple(gs, js, ns), Lengths(js),
                                     CountProduct(SummedTuple(gs, js, ns), Lengths(js)))
            == SumOver(Combos(gs), c => Term(c, p))
  {
    TwoFactors(gs, p);
    if p.0.rel == p.1.rel {
      DistributesWithin(gs, js, ns, p);
    } else {
      DistributesAcross(gs, js, ns, p);
    }
  }

  // ---------------------------------------------------------------------
  // The aggregation over the join of the summarised relations
  // ---------------------------------------------------------------------

  /** The sum of what an instruction reads off every tuple, in join order;
      a tuple it cannot read contributes nothing (the aggregations below
      require every tuple to be readable, so this case does not arise
      there). */
  function Aggregate(ins: Instruction, tuples: seq<seq<Row>>, nJ: seq<nat>): int
  {
    if |tuples| == 0 then 0
    else
      var t := tuples[|tuples| - 1];
      Aggregate(ins, tuples[..|tuples| - 1], nJ) +
      (if Readable(ins, t, nJ) then CalculateFromInstruction(ins, t, nJ, CountProduct(t, nJ)) else 0)
  }

  lemma AggregateSnoc(ins: Instruction, tuples: seq<seq<Row>>, nJ: seq<nat>, i: nat)
    requires i < |tuples| && Readable(ins, tuples[i], nJ)
    ensures Aggregate(ins, tuples[..i + 1], nJ) ==
            Aggregate(ins, tuples[..i], nJ) + CalculateFromInstruction(ins, tuples[i], nJ, CountProduct(tuples[i], nJ))
  {
    assert tuples[..i + 1][..i] == tuples[..i];
  }

  /** computeAllAggregatesOfNaturalJoin on the summarised join: for every
      result tuple the count product, then one accumulator per instruction. */
  method ComputeAll(ins: seq<Instruction>, tuples: seq<seq<Row>>, nJ: seq<nat>) returns (result: seq<int>)
    requires forall i :: 0 <= i < |tuples| ==> HasCounts(tuples[i], nJ)
    requires forall i, k :: 0 <= i < |tuples| && 0 <= k < |ins| ==> Readable(ins[k], tuples[i], nJ)
    ensures |result| == |ins|
    ensures forall k :: 0 <= k < |ins| ==> result[k] == Aggregate(ins[k], tuples, nJ)
  {
    result := seq(|ins|, _ => 0);
    var i := 0;
    while i < |tuples|
      invariant 0 <= i <= |tuples| && |result| == |ins|
      invariant forall k :: 0 <= k < |ins| ==> result[k] == Aggregate(ins[k], tuples[..i], nJ)
    {
      var t := tuples[i];
      var cp := CountProductOf(t, nJ);
      var pos := 0;
      while pos < |ins|
        invariant 0 <= pos <= |ins| && |result| == |ins|
        invariant forall k :: 0 <= k < pos ==> result[k] == Aggregate(ins[k], tuples[..i + 1], nJ)
        invariant forall k :: pos <= k < |ins| ==> result[k] == Aggregate(ins[k], tuples[..i], nJ)
      {
        AggregateSnoc(ins[pos], tuples, nJ, i);
        result := result[pos := result[pos] + CalculateFromInstruction(ins[pos], t, nJ, cp)];
        pos := pos + 1;
      }
      i := i + 1;
    }
    assert tuples[..i] == tuples;
  }

  /** computeOneAggregateOfNaturalJoin: the first instruction alone. The
      instruction is only looked up for a tuple, so an empty join with no
      instruction gives 0. */
  method ComputeOne(ins: seq<Instruction>, tuples: seq<seq<Row>>, nJ: seq<nat>) returns (result: int)
    requires |tuples| > 0 ==> |ins| > 0
    requires |ins| > 0 ==> forall i :: 0 <= i < |tuples| ==> Readable(ins[0], tuples[i], nJ)
    ensures |ins| > 0 ==> result == Aggregate(ins[0], tuples, nJ)
    ensures |tuples| == 0 ==> result == 0
  {
    result := 0;
    var i := 0;
    while i < |tuples|
      invariant 0 <= i <= |tuples|
      invariant |ins| > 0 ==> result == Aggregate(ins[0], tuples[..i], nJ)
      invariant i == 0 ==> result == 0
    {
      var t := tuples[i];
      var cp := CountProductOf(t, nJ);
      AggregateSnoc(ins[0], tuples, nJ, i);
      result := result + CalculateFromInstruction(ins[0], t, nJ, cp);
      i := i + 1;
    }
    assert tuples[..i] == tuples;
  }

  // ---------------------------------------------------------------------
  // Agreement with the tuple-at-a-time aggregation
  // ---------------------------------------------------------------------

  /** The rows of the natural join of the source relations, grouped by the
      join results of the summarised relations: for each matched set of
      groups, every combination of their rows. */
  function JoinOf(gss: seq<seq<seq<Row>>>): seq<seq<Row>>
  {
    if |gss| == 0 then [] else JoinOf(gss[..|gss| - 1]) + Combos(gss[|gss| - 1])
  }

  /** Every combination of matched groups has one row per relation, of
      that relation's width, so every pair within bounds fits it. */
  lemma CombosFit(gs: seq<seq<Row>>, js: seq<seq<nat>>, ns: seq<nat>, p: (Occ, Occ))
    requires Matched(gs, js, ns) && PairIn(p, ns)
    ensures forall i :: 0 <= i < |Combos(gs)| ==> AggOne.Fits(p, Combos(gs)[i])
  {
    CombosShape(gs);
    forall i | 0 <= i < |Combos(gs)|
      ensures AggOne.Fits(p, Combos(gs)[i])
    {
      var c := Combos(gs)[i];
      var k1 :| 0 <= k1 < |gs[p.0.rel]| && gs[p.0.rel][k1] == c[p.0.rel];
      var k2 :| 0 <= k2 < |gs[p.1.rel]| && gs[p.1.rel][k2] == c[p.1.rel];
    }
  }

  /** Every pair within bounds fits every row of the join. */
  lemma {:induction false} JoinFits(gss: seq<seq<seq<Row>>>, js: seq<seq<nat>>, ns: seq<nat>, p: (Occ, Occ))
    requires forall i :: 0 <= i < |gss| ==> Matched(gss[i], js, ns)
    requires PairIn(p, ns)
    ensures forall i :: 0 <= i < |JoinOf(gss)| ==> AggOne.Fits(p, JoinOf(gss)[i])
  {
    if |gss| > 0 {
      var m := |gss| - 1;
      JoinFits(gss[..m], js, ns, p);
      CombosFit(gss[m], js, ns, p);
      var a, b := JoinOf(gss[..m]), Combos(gss[m]);
      assert JoinOf(gss) == a + b;
      forall i | 0 <= i < |a + b|
        ensures AggOne.Fits(p, (a + b)[i])
      {
        if i < |a| {
          assert (a + b)[i] == a[i];
        } else {
          assert (a + b)[i] == b[i - |a|];
        }
      }
    }
  }

  /** Where the pair fits every combination, its sum of products is the
      tuple-at-a-time total. */
  lemma {:induction false} SumOverTotal(cs: seq<seq<Row>>, f: seq<Row> -> int, p: (Occ, Occ))
    requires forall i :: 0 <= i < |cs| ==> AggOne.Fits(p, cs[i])
    requires forall d :: f(d) == Term(d, p)
    ensures SumOver(cs, f) == AggOne.Total(p, cs)
  {
    if |cs| > 0 {
      var n := |cs| - 1;
      SumOverTotal(cs[..n], f, p);
      AggOne.TotalSnoc(p, cs, n);
      assert cs[..n + 1] == cs;
      assert f(cs[n]) == AggOne.Calculate(p, cs[n]);
    }
  }

  /** The summarised tuples of the matched group sets, in join order. */
  function SummedTuples(gss: seq<seq<seq<Row>>>, js: seq<seq<nat>>, ns: seq<nat>): (ts: seq<seq<Row>>)
    requires forall i :: 0 <= i < |gss| ==> Matched(gss[i], js, ns)
    ensures |ts| == |gss| && forall i :: 0 <= i < |gss| ==> ts[i] == SummedTuple(gss[i], js, ns)
  {
    seq(|gss|, i requires 0 <= i < |gss| => SummedTuple(gss[i], js, ns))
  }

  /** Every instruction of a pair within bounds can be applied to every
      summarised tuple. */
  lemma SummedReadable(gss: seq<seq<seq<Row>>>, js: seq<seq<nat>>, ns: seq<nat>, p: (Occ, Occ))
    requires forall i :: 0 <= i < |gss| ==> Matched(gss[i], js, ns)
    requires PairIn(p, ns)
    ensures forall i :: 0 <= i < |gss| ==> Readable(InstructionOf(p, ns), SummedTuples(gss, js, ns)[i], Lengths(js))
  {
    forall i | 0 <= i < |gss|
      ensures Readable(InstructionOf(p, ns), SummedTuples(gss, js, ns)[i], Lengths(js))
    {
      Distributes(gss[i], js, ns, p);
    }
  }

  lemma JoinSnoc(gss: seq<seq<seq<Row>>>, gs: seq<seq<Row>>)
    ensures JoinOf(gss + [gs]) == JoinOf(gss) + Combos(gs)
  {
    assert (gss + [gs])[..|gss|] == gss;
  }

  lemma SummedSnoc(gss: seq<seq<seq<Row>>>, gs: seq<seq<Row>>, js: seq<seq<nat>>, ns: seq<nat>)
    requires forall i :: 0 <= i < |gss| ==> Matched(gss[i], js, ns)
    requires Matched(gs, js, ns)
    ensures forall i :: 0 <= i < |gss + [gs]| ==> Matched((gss + [gs])[i], js, ns)
    ensures SummedTuples(gss + [gs], js, ns) == SummedTuples(gss, js, ns) + [SummedTuple(gs, js, ns)]
  {
    assert forall i :: 0 <= i < |gss + [gs]| ==> (gss + [gs])[i] == if i < |gss| then gss[i] else gs;
  }

  lemma AggregateAppend(ins: Instruction, ts: seq<seq<Row>>, t: seq<Row>, nJ: seq<nat>)
    requires Readable(ins, t, nJ)
    ensures Aggregate(ins, ts + [t], nJ) == Aggregate(ins, ts, nJ) + CalculateFromInstruction(ins, t, nJ, CountProduct(t, nJ))
  {
    assert (ts + [t])[..|ts|] == ts;
  }

  lemma MatchedSnoc(gss: seq<seq<seq<Row>>>, gs: seq<seq<Row>>, js: seq<seq<nat>>, ns: seq<nat>)
    requires forall i :: 0 <= i < |gss| ==> Matched(gss[i], js, ns)
    requires Matched(gs, js, ns)
    ensures forall i :: 0 <= i < |gss + [gs]| ==> Matched((gss + [gs])[i], js, ns)
  {
  }

  lemma PairInRel(p: (Occ, Occ), ns: seq<nat>)
    requires PairIn(p, ns)
    ensures p.0.rel < |ns| && p.1.rel < |ns|
  {
  }

  /** One more join result: its summarised tuple adds, to both sides, the
      pair's sum over the combinations of its groups. */
  lemma PushdownStep(gss: seq<seq<seq<Row>>>, gs: seq<seq<Row>>, js: seq<seq<nat>>, ns: seq<nat>, p: (Occ, Occ))
    requires forall i :: 0 <= i < |gss| ==> Matched(gss[i], js, ns)
    requires Matched(gs, js, ns) && PairIn(p, ns)
    requires Aggregate(InstructionOf(p, ns), SummedTuples(gss, js, ns), Lengths(js)) == AggOne.Total(p, JoinOf(gss))
    ensures forall i :: 0 <= i < |gss + [gs]| ==> Matched((gss + [gs])[i], js, ns)
    ensures Aggregate(InstructionOf(p, ns), SummedTuples(gss + [gs], js, ns), Lengths(js))
            == AggOne.Total(p, JoinOf(gss + [gs]))
  {
    hide *;
    MatchedSnoc(gss, gs, js, ns);
    PairInRel(p, ns);
    var ins, nJ := InstructionOf(p, ns), Lengths(js);
    SummedSnoc(gss, gs, js, ns);
    Distributes(gs, js, ns, p);
    AggregateAppend(ins, SummedTuples(gss, js, ns), SummedTuple(gs, js, ns), nJ);
    JoinSnoc(gss, gs);
    CombosFit(gs, js, ns, p);
    var f := c => Term(c, p);
    SumOverTotal(Combos(gs), f, p);
    AggOne.TotalAppend(p, JoinOf(gss), Combos(gs));
  }

  /** The pushdown aggregation computes what the tuple-at-a-time
      aggregation computes: for every pair of attributes of the schema,
      every summarised tuple can be read, and the instruction summed over
      the join of the summarised relations is SUM(x * y) over the natural
      join of the source relations. */
  lemma {:induction false} PushdownExact(gss: seq<seq<seq<Row>>>, js: seq<seq<nat>>, ns: seq<nat>, p: (Occ, Occ))
    requires forall i :: 0 <= i < |gss| ==> Matched(gss[i], js, ns)
    requires PairIn(p, ns)
    ensures forall i :: 0 <= i < |gss| ==> Readable(InstructionOf(p, ns), SummedTuples(gss, js, ns)[i], Lengths(js))
    ensures forall i :: 0 <= i < |JoinOf(gss)| ==> AggOne.Fits(p, JoinOf(gss)[i])
    ensures Aggregate(InstructionOf(p, ns), SummedTuples(gss, js, ns), Lengths(js)) == AggOne.Total(p, JoinOf(gss))
    decreases |gss|
  {
    SummedReadable(gss, js, ns, p);
    JoinFits(gss, js, ns, p);
    if |gss| == 0 {
      assert AggOne.Total(p, JoinOf(gss)) == 0;
    } else {
      hide *;
      var m := |gss| - 1;
      PushdownExact(gss[..m], js, ns, p);
      PushdownStep(gss[..m], gss[m], js, ns, p);
      assert gss[..m] + [gss[m]] == gss;
    }
  }

  /** For every attribute pair of a schema, the aggregate its instruction
      computes over the summarised join equals SUM(x * y) over the full
      join: the pushdown and the tuple-at-a-time aggregation agree on
      every answer. */
  lemma AllPairsPushdown(attrs: seq<seq<string>>, gss: seq<seq<seq<Row>>>, js: seq<seq<nat>>)
    requires forall i :: 0 <= i < |gss| ==> Matched(gss[i], js, Lengths(attrs))
    ensures forall k :: 0 <= k < |AllPairsOfAttributes(attrs)| ==>
              var p := AllPairsOfAttributes(attrs)[k];
              PairIn(p, Lengths(attrs)) &&
              Aggregate(InstructionOf(p, Lengths(attrs)), SummedTuples(gss, js, Lengths(attrs)), Lengths(js)) ==
              AggOne.Total(p, JoinOf(gss))
  {
    SchemaPairsIn(attrs);
    var pairs := AllPairsOfAttributes(attrs);
    forall k | 0 <= k < |pairs|
      ensures Aggregate(InstructionOf(pairs[k], Lengths(attrs)), SummedTuples(gss, js, Lengths(attrs)), Lengths(js)) ==
              AggOne.Total(pairs[k], JoinOf(gss))
    {
      PushdownExact(gss, js, Lengths(attrs), pairs[k]);
    }
  }
}

=== FILE: cursor.dfy ===
/** The trie cursor over a relation's sorted tuple array
    (SequentialIterator). A cursor is a position in the array, a depth (the
    column currently bound, -1 before the first open) and an end flag. Each
    operation of the mutable Java object is a function from the old cursor
    value to the new one; the array itself never changes. */
module Cursor {
  import opened Seqs
  import Relation

  type Table = seq<Relation.Row>

  datatype Cursor = Cursor(pos: int, depth: int, atEnd: bool)

  /** A new cursor: first row, no column bound, not at end. */
  function Fresh(): Cursor
  {
    Cursor(0, -1, false)
  }

  /** A non-empty table whose rows all have width w. */
  predicate Rect(t: Table, w: nat)
  {
    |t| > 0 && forall i :: 0 <= i < |t| ==> |t[i]| == w
  }

  /** The cursor points at a row of t and its depth is a column of t or -1. */
  predicate Valid(t: Table, w: nat, c: Cursor)
  {
    Rect(t, w) && 0 <= c.pos < |t| && -1 <= c.depth < w
  }

  /** The cursor has a bound column, so key() is defined. */
  predicate Keyed(t: Table, w: nat, c: Cursor)
  {
    Valid(t, w, c) && 0 <= c.depth
  }

  /** key(): the bound column of the current row. */
  function Key(t: Table, w: nat, c: Cursor): int
    requires Keyed(t, w, c)
  {
    t[c.pos][c.depth]
  }

  /** value(): the current row. */
  function Value(t: Table, w: nat, c: Cursor): Relation.Row
    requires Valid(t, w, c)
  {
    t[c.pos]
  }

  /** Rows i and j agree on the columns before lim. */
  predicate SamePrefix(t: Table, i: int, j: int, lim: int)
    requires 0 <= i < |t| && 0 <= j < |t|
  {
    forall k :: 0 <= k < lim && k < |t[i]| && k < |t[j]| ==> t[i][k] == t[j][k]
  }

  /** isNextSameUpToDepth: there is a next row and it agrees with the
      current one on the columns before lim. */
  function NextSame(t: Table, pos: int, lim: int): bool
    requires 0 <= pos < |t|
  {
    pos != |t| - 1 && SamePrefix(t, pos, pos + 1, lim)
  }

  /** isPreviousInView: there is a previous row and it agrees with the
      current one on the columns before d. */
  function PreviousSame(t: Table, pos: int, d: int): bool
    requires 0 <= pos < |t|
  {
    pos != 0 && SamePrefix(t, pos, pos - 1, d)
  }

  // ---------------------------------------------------------------------
  // next
  // ---------------------------------------------------------------------

  /** The loop of next(): step forward while the next row is in view and the
      current row still carries the start value. */
  function NextPos(t: Table, d: int, start: int, pos: int): int
    requires 0 <= d && 0 <= pos < |t| && d < |t[pos]|
    requires forall i :: 0 <= i < |t| ==> d < |t[i]|
    decreases |t| - pos
  {
    if NextSame(t, pos, d) && t[pos][d] == start then NextPos(t, d, start, pos + 1) else pos
  }

  /** next(): move to the next row whose bound column differs from the
      current key while the earlier columns stay fixed; when the block has
      no such row, stay on its last row and set the end flag. */
  function Next(t: Table, w: nat, c: Cursor): (r: Cursor)
    requires Keyed(t, w, c)
    ensures Keyed(t, w, r) && r.depth == c.depth && c.pos <= r.pos
    ensures forall q :: c.pos <= q < r.pos ==> t[q][c.depth] == Key(t, w, c)
    ensures forall q :: c.pos <= q <= r.pos ==> SamePrefix(t, c.pos, q, c.depth)
    ensures r.atEnd <==> c.atEnd || Key(t, w, r) == Key(t, w, c)
    ensures Key(t, w, r) == Key(t, w, c) ==> !NextSame(t, r.pos, c.depth)
  {
    var p := NextPos(t, c.depth, Key(t, w, c), c.pos);
    NextPosSpec(t, c.depth, Key(t, w, c), c.pos, c.pos);
    Cursor(p, c.depth, c.atEnd || t[p][c.depth] == Key(t, w, c))
  }

  lemma {:induction false} NextPosSpec(t: Table, d: int, start: int, from: int, pos: int)
    requires 0 <= d && 0 <= from <= pos < |t| && d < |t[pos]|
    requires forall i :: 0 <= i < |t| ==> d < |t[i]|
    requires forall q :: from <= q < pos ==> t[q][d] == start
    requires forall q :: from <= q <= pos ==> SamePrefix(t, from, q, d)
    ensures pos <= NextPos(t, d, start, pos) < |t|
    ensures forall q :: from <= q < NextPos(t, d, start, pos) ==> t[q][d] == start
    ensures forall q :: from <= q <= NextPos(t, d, start, pos) ==> SamePrefix(t, from, q, d)
    ensures t[NextPos(t, d, start, pos)][d] == start ==> !NextSame(t, NextPos(t, d, start, pos), d)
    decreases |t| - pos
  {
    if NextSame(t, pos, d) && t[pos][d] == start {
      assert SamePrefix(t, from, pos + 1, d) by {
        assert SamePrefix(t, from, pos, d) && SamePrefix(t, pos, pos + 1, d);
      }
      NextPosSpec(t, d, start, from, pos + 1);
    }
  }

  /** On a sorted table the columns before d fix a block in which column d
      never decreases. */
  lemma SortedColumn(t: Table, w: nat, i: int, j: int, d: int)
    requires Rect(t, w) && Relation.Sorted(t)
    requires 0 <= i <= j < |t| && 0 <= d < w && SamePrefix(t, i, j, d)
    ensures t[i][d] <= t[j][d]
  {
    if i < j && t[i][d] > t[j][d] {
      assert t[i][..d] == t[j][..d];
      Relation.CompareFirstDifference(t[i], t[j], d);
    }
  }

  /** On a sorted table next() strictly increases the key, unless it ends. */
  lemma NextIncreases(t: Table, w: nat, c: Cursor)
    requires Keyed(t, w, c) && Relation.Sorted(t)
    ensures !Next(t, w, c).atEnd ==> Key(t, w, Next(t, w, c)) > Key(t, w, c)
  {
    var r := Next(t, w, c);
    SortedColumn(t, w, c.pos, r.pos, c.depth);
  }

  // ---------------------------------------------------------------------
  // seek
  // ---------------------------------------------------------------------

  /** seek(x): call next() until the end flag is set or the key reaches x. */
  function Seek(t: Table, w: nat, c: Cursor, x: int): (r: Cursor)
    requires Keyed(t, w, c)
    ensures Keyed(t, w, r) && r.depth == c.depth && c.pos <= r.pos
    ensures r.atEnd || Key(t, w, r) >= x
    ensures c.atEnd || Key(t, w, c) >= x ==> r == c
    ensures forall q :: c.pos <= q < r.pos ==> t[q][c.depth] < x
    ensures forall q :: c.pos <= q <= r.pos ==> SamePrefix(t, c.pos, q, c.depth)
    ensures r.atEnd && !c.atEnd ==> Key(t, w, r) < x && !NextSame(t, r.pos, c.depth)
    ensures r == c || r.atEnd || r.pos > c.pos
    decreases |t| - c.pos + (if c.atEnd then 0 else 1)
  {
    if c.atEnd || Key(t, w, c) >= x then c
    else
      var n := Next(t, w, c);
      var r := Seek(t, w, n, x);
      assert forall q :: c.pos <= q <= r.pos ==> SamePrefix(t, c.pos, q, c.depth) by {
        forall q | c.pos <= q <= r.pos ensures SamePrefix(t, c.pos, q, c.depth) {
          if q > n.pos {
            assert SamePrefix(t, c.pos, n.pos, c.depth) && SamePrefix(t, n.pos, q, c.depth);
          }
        }
      }
      r
  }

  // ---------------------------------------------------------------------
  // open and up
  // ---------------------------------------------------------------------

  /** The loop of open(): step back while the previous row agrees on the
      columns before d. */
  function RewindPos(t: Table, d: int, pos: int): (r: int)
    requires 0 <= pos < |t|
    ensures 0 <= r <= pos
    decreases pos
  {
    if PreviousSame(t, pos, d) then RewindPos(t, d, pos - 1) else pos
  }

  /** The rewind stops on the first row of the block of rows agreeing with
      the start row on the columns before d. */
  lemma {:induction false} RewindSpec(t: Table, d: int, pos: int)
    requires 0 <= pos < |t| && forall i :: 0 <= i < |t| ==> d <= |t[i]|
    ensures forall q :: RewindPos(t, d, pos) <= q <= pos ==> SamePrefix(t, q, pos, d)
    ensures !PreviousSame(t, RewindPos(t, d, pos), d)
    decreases pos
  {
    if PreviousSame(t, pos, d) {
      RewindSpec(t, d, pos - 1);
      forall q | RewindPos(t, d, pos) <= q <= pos ensures SamePrefix(t, q, pos, d) {
        if q < pos {
          assert SamePrefix(t, q, pos - 1, d) && SamePrefix(t, pos, pos - 1, d);
        }
      }
    }
  }

  /** open(): bind the next column and go back to the first row that agrees
      with the current one on all columns bound so far. The end flag is
      left alone. */
  function Open(t: Table, w: nat, c: Cursor): (r: Cursor)
    requires Valid(t, w, c) && c.depth + 1 < w
    ensures Keyed(t, w, r) && r.depth == c.depth + 1 && r.atEnd == c.atEnd
    ensures r.pos <= c.pos
    ensures forall q :: r.pos <= q <= c.pos ==> SamePrefix(t, q, c.pos, r.depth)
    ensures r.pos == 0 || !SamePrefix(t, r.pos, r.pos - 1, r.depth)
  {
    RewindSpec(t, c.depth + 1, c.pos);
    Cursor(RewindPos(t, c.depth + 1, c.pos), c.depth + 1, c.atEnd)
  }

  /** up(): unbind the deepest column and clear the end flag. */
  function Up(c: Cursor): (r: Cursor)
    ensures r.pos == c.pos && r.depth == c.depth - 1 && !r.atEnd
  {
    Cursor(c.pos, c.depth - 1, false)
  }

  /** Opening a fresh cursor binds the first column on the first row. */
  lemma FreshOpen(t: Table, w: nat)
    requires Rect(t, w) && 0 < w
    ensures Open(t, w, Fresh()) == Cursor(0, 0, false)
  {
  }

  /** open() followed by up() returns to the same depth and keeps the key:
      the rewind never leaves the current block. */
  lemma OpenUp(t: Table, w: nat, c: Cursor)
    requires Valid(t, w, c) && c.depth + 1 < w
    ensures Up(Open(t, w, c)).depth == c.depth && !Up(Open(t, w, c)).atEnd
    ensures 0 <= c.depth ==> Key(t, w, Up(Open(t, w, c))) == Key(t, w, c)
  {
    var r := Open(t, w, c);
    assert SamePrefix(t, r.pos, c.pos, r.depth);
  }

  // ---------------------------------------------------------------------
  // Block operations
  // ---------------------------------------------------------------------

  /** isNextInBlock(): the next row agrees on every bound column. */
  function IsNextInBlock(t: Table, w: nat, c: Cursor): (b: bool)
    requires Valid(t, w, c)
  {
    NextSame(t, c.pos, c.depth + 1)
  }

  /** nextInBlock(): step to the following row. */
  function NextInBlock(c: Cursor): (r: Cursor)
    ensures r.pos == c.pos + 1 && r.depth == c.depth && r.atEnd == c.atEnd
  {
    c.(pos := c.pos + 1)
  }

  /** back(n): step back n rows and clear the end flag. */
  function Back(c: Cursor, n: int): (r: Cursor)
    ensures r.pos == c.pos - n && r.depth == c.depth && !r.atEnd
  {
    Cursor(c.pos - n, c.depth, false)
  }

  /** When the next row is in the block, stepping to it keeps the cursor
      valid and every bound column unchanged. */
  lemma NextInBlockKeepsPrefix(t: Table, w: nat, c: Cursor)
    requires Valid(t, w, c) && IsNextInBlock(t, w, c)
    ensures Valid(t, w, NextInBlock(c))
    ensures forall k :: 0 <= k <= c.depth ==> Value(t, w, NextInBlock(c))[k] == Value(t, w, c)[k]
  {
  }

  /** n steps of nextInBlock. */
  function Advance(c: Cursor, n: nat): (r: Cursor)
  {
    if n == 0 then c else NextInBlock(Advance(c, n - 1))
  }

  /** back(n) undoes n steps of nextInBlock, apart from the end flag. */
  lemma {:induction false} BackUndoesAdvance(c: Cursor, n: nat)
    ensures Back(Advance(c, n), n) == c.(atEnd := false)
  {
    if n > 0 {
      BackUndoesAdvance(c, n - 1);
    }
  }

  // ---------------------------------------------------------------------
  // Blocks of a sorted table
  // ---------------------------------------------------------------------

  /** One past the last row of the run of rows from pos on that agree with
      their predecessor on the columns before lim. */
  function BlockEnd(t: Table, pos: int, lim: int): (e: int)
    requires 0 <= pos < |t|
    ensures pos < e <= |t|
    decreases |t| - pos
  {
    if NextSame(t, pos, lim) then BlockEnd(t, pos + 1, lim) else pos + 1
  }

  /** Moving forward never moves the block end back. */
  lemma {:induction false} BlockEndMonotone(t: Table, i: int, j: int, lim: int)
    requires 0 <= i <= j < |t|
    ensures BlockEnd(t, i, lim) <= BlockEnd(t, j, lim)
    decreases j - i
  {
    if i < j && NextSame(t, i, lim) {
      BlockEndMonotone(t, i + 1, j, lim);
    }
  }

  /** In a sorted table, rows between two rows with the same prefix have
      that prefix too. */
  lemma {:induction false} Sandwich(t: Table, w: nat, i: int, q: int, j: int, lim: int)
    requires Rect(t, w) && Relation.Sorted(t) && 0 <= lim <= w
    requires 0 <= i <= q <= j < |t| && SamePrefix(t, i, j, lim)
    ensures SamePrefix(t, i, q, lim)
    decreases lim
  {
    if lim > 0 {
      Sandwich(t, w, i, q, j, lim - 1);
      assert SamePrefix(t, q, j, lim - 1);
      SortedColumn(t, w, i, q, lim - 1);
      SortedColumn(t, w, q, j, lim - 1);
    }
  }

  /** In a sorted table, two rows with the same prefix share a block. */
  lemma {:induction false} BlockEndSame(t: Table, w: nat, i: int, j: int, lim: int)
    requires Rect(t, w) && Relation.Sorted(t) && 0 <= lim <= w
    requires 0 <= i <= j < |t| && SamePrefix(t, i, j, lim)
    ensures BlockEnd(t, i, lim) == BlockEnd(t, j, lim)
    decreases j - i
  {
    if i < j {
      Sandwich(t, w, i, i + 1, j, lim);
      assert SamePrefix(t, i + 1, j, lim);
      BlockEndSame(t, w, i + 1, j, lim);
    }
  }

  /** Every row before the block end shares the prefix of the first. */
  lemma {:induction false} BlockEndCovers(t: Table, w: nat, pos: int, q: int, lim: int)
    requires Rect(t, w) && 0 <= pos <= q < |t| && q < BlockEnd(t, pos, lim)
    ensures SamePrefix(t, pos, q, lim)
    decreases q - pos
  {
    if pos < q {
      BlockEndCovers(t, w, pos + 1, q, lim);
      assert SamePrefix(t, pos, pos + 1, lim);
    }
  }

  /** On a sorted table next() leaves the block of its bound columns
      exactly when it does not end: the block end then strictly grows. */
  lemma NextLeavesBlock(t: Table, w: nat, c: Cursor)
    requires Keyed(t, w, c) && Relation.Sorted(t)
    ensures var n := Next(t, w, c);
      !n.atEnd ==> BlockEnd(t, n.pos, c.depth + 1) > BlockEnd(t, c.pos, c.depth + 1)
  {
    var n := Next(t, w, c);
    var lim := c.depth + 1;
    if !n.atEnd && n.pos < BlockEnd(t, c.pos, lim) {
      BlockEndCovers(t, w, c.pos, n.pos, lim);
    }
  }

  // ---------------------------------------------------------------------
  // The keys a cursor can still reach
  // ---------------------------------------------------------------------

  /** v is a key the cursor can still reach without leaving the block of
      its bound prefix: the key of its row or of a later row of the block.
      A cursor at its end reaches nothing. */
  predicate Reaches(t: Table, w: nat, c: Cursor, v: int)
    requires Keyed(t, w, c)
  {
    !c.atEnd && exists q :: c.pos <= q < BlockEnd(t, c.pos, c.depth) && t[q][c.depth] == v
  }

  /** A cursor that is not at its end reaches its own key. */
  lemma ReachesKey(t: Table, w: nat, c: Cursor)
    requires Keyed(t, w, c) && !c.atEnd
    ensures Reaches(t, w, c, Key(t, w, c))
  {
    assert c.pos < BlockEnd(t, c.pos, c.depth);
  }

  /** On a sorted table every key a cursor reaches is at least its key. */
  lemma ReachesAbove(t: Table, w: nat, c: Cursor, v: int)
    requires Keyed(t, w, c) && Relation.Sorted(t) && Reaches(t, w, c, v)
    ensures v >= Key(t, w, c)
  {
    var q :| c.pos <= q < BlockEnd(t, c.pos, c.depth) && t[q][c.depth] == v;
    BlockEndCovers(t, w, c.pos, q, c.depth);
    SortedColumn(t, w, c.pos, q, c.depth);
  }

  /** seek(x) passes over no key of x or more: on a sorted table the
      cursor reaches the same keys >= x before and after. */
  lemma SeekReaches(t: Table, w: nat, c: Cursor, x: int)
    requires Keyed(t, w, c) && Relation.Sorted(t)
    ensures forall v :: v >= x ==> (Reaches(t, w, c, v) <==> Reaches(t, w, Seek(t, w, c, x), v))
  {
    hide Seek, Relation.Sorted;
    var r := Seek(t, w, c, x);
    var d := c.depth;
    if r != c {
      BlockEndSame(t, w, c.pos, r.pos, d);
      var e := BlockEnd(t, c.pos, d);
      if r.atEnd {
        assert e == r.pos + 1;
        assert forall q :: c.pos <= q < e ==> t[q][d] < x;
      } else {
        forall v | v >= x && Reaches(t, w, c, v) ensures Reaches(t, w, r, v) {
          var q :| c.pos <= q < e && t[q][d] == v;
          assert r.pos <= q;
        }
      }
    }
  }

  /** next() passes over rows holding its key only: on a sorted table the
      cursor reaches the same other keys before and after. */
  lemma NextReaches(t: Table, w: nat, c: Cursor)
    requires Keyed(t, w, c) && Relation.Sorted(t)
    ensures forall v :: v != Key(t, w, c) ==> (Reaches(t, w, c, v) <==> Reaches(t, w, Next(t, w, c), v))
  {
    hide Next, Relation.Sorted;
    var n := Next(t, w, c);
    var d := c.depth;
    if !c.atEnd {
      BlockEndSame(t, w, c.pos, n.pos, d);
      var e := BlockEnd(t, c.pos, d);
      if n.atEnd {
        assert e == n.pos + 1;
        assert forall q :: c.pos <= q < e ==> t[q][d] == Key(t, w, c);
      } else {
        forall v | v != Key(t, w, c) && Reaches(t, w, c, v) ensures Reaches(t, w, n, v) {
          var q :| c.pos <= q < e && t[q][d] == v;
          assert n.pos <= q;
        }
      }
    }
  }
}

=== FILE: database.dfy ===
/** Schema analysis of a database (a list of relations): where each
    attribute name occurs, the distinct attribute pairs whose products are
    aggregated, and the join conditions with their global order. Only the
    attribute-name lists matter here; tuples play no part. */
module Database {
  import opened Seqs
  import Relation

  /** Where an attribute occurs: relation index and column position. */
  datatype Occ = Occ(rel: nat, pos: nat)

  /** One entry of the attribute-occurrence map: a name and every place it
      occurs. */
  datatype Entry = Entry(name: string, occs: seq<Occ>)

  /** Attribute-name lists of a database's relations. */
  function AttributeLists(db: seq<Relation.Relation>): seq<seq<string>>
  {
    seq(|db|, i requires 0 <= i < |db| => db[i].attributes)
  }

  /** The attribute name at an occurrence. */
  function NameAt(attrs: seq<seq<string>>, o: Occ): string
    requires o.rel < |attrs| && o.pos < |attrs[o.rel]|
  {
    attrs[o.rel][o.pos]
  }

  // ---------------------------------------------------------------------
  // Occurrence map (findAttributePositions)
  // ---------------------------------------------------------------------

  /** Every column of every relation with its name, relation-major and
      position-minor: the visiting order of the two nested loops. */
  function Columns(attrs: seq<seq<string>>): seq<(string, Occ)>
  {
    if |attrs| == 0 then []
    else Columns(attrs[..|attrs| - 1]) + RowColumns(|attrs| - 1, attrs[|attrs| - 1])
  }

  function RowColumns(i: nat, names: seq<string>): seq<(string, Occ)>
  {
    seq(|names|, j requires 0 <= j < |names| => (names[j], Occ(i, j)))
  }

  /** The names of the relations, concatenated (flatMap). */
  function Flatten(attrs: seq<seq<string>>): seq<string>
  {
    if |attrs| == 0 then [] else Flatten(attrs[..|attrs| - 1]) + attrs[|attrs| - 1]
  }

  function ColumnNames(cols: seq<(string, Occ)>): seq<string>
  {
    seq(|cols|, k requires 0 <= k < |cols| => cols[k].0)
  }

  function Names(m: seq<Entry>): seq<string>
  {
    seq(|m|, k requires 0 <= k < |m| => m[k].name)
  }

  /** Stream.distinct: each name once, at its first appearance. */
  function Dedup(s: seq<string>): seq<string>
  {
    if |s| == 0 then []
    else
      var d := Dedup(s[..|s| - 1]);
      if s[|s| - 1] in d then d else d + [s[|s| - 1]]
  }

  /** Dedup keeps every name and repeats none. */
  lemma {:induction false} DedupSpec(s: seq<string>)
    ensures Distinct(Dedup(s))
    ensures forall x :: x in Dedup(s) <==> x in s
  {
    if |s| > 0 {
      DedupSpec(s[..|s| - 1]);
      assert s == s[..|s| - 1] + [s[|s| - 1]];
    }
  }

  /** The occurrences of one name, in visiting order: the reference the
      occurrence map is checked against. */
  function OccsOf(cols: seq<(string, Occ)>, name: string): seq<Occ>
  {
    if |cols| == 0 then []
    else OccsOf(cols[..|cols| - 1], name) + (if cols[|cols| - 1].0 == name then [cols[|cols| - 1].1] else [])
  }

  /** Index of the entry holding `name`, or -1 (containsKey). */
  function IndexOfName(m: seq<Entry>, name: string, from: nat): (k: int)
    requires from <= |m|
    ensures k == -1 || from <= k < |m|
    ensures k >= 0 ==> m[k].name == name
    ensures k >= 0 ==> forall j :: from <= j < k ==> m[j].name != name
    ensures k == -1 ==> forall j :: from <= j < |m| ==> m[j].name != name
    decreases |m| - from
  {
    if from == |m| then -1
    else if m[from].name == name then from
    else IndexOfName(m, name, from + 1)
  }

  /** One step of the loop: append the occurrence to its name's list, or
      add a new entry at the end for a name not seen before. */
  function AddOccurrence(m: seq<Entry>, name: string, o: Occ): (r: seq<Entry>)
    requires Distinct(Names(m))
    ensures name in Names(m) ==> Names(r) == Names(m)
    ensures name !in Names(m) ==> Names(r) == Names(m) + [name] && r[|m|] == Entry(name, [o])
    ensures forall k :: 0 <= k < |m| ==> r[k].occs == (if m[k].name == name then m[k].occs + [o] else m[k].occs)
    ensures Distinct(Names(r))
  {
    var k := IndexOfName(m, name, 0);
    if k < 0 then
      assert forall j :: 0 <= j < |m| ==> Names(m)[j] != name;
      m + [Entry(name, [o])]
    else
      var r := m[k := Entry(name, m[k].occs + [o])];
      assert Names(m)[k] == name;
      assert Names(r) == Names(m);
      forall j | 0 <= j < |m| && m[j].name == name ensures j == k {
        assert Names(m)[j] == Names(m)[k];
      }
      r
  }

  function PositionsOf(cols: seq<(string, Occ)>): (m: seq<Entry>)
    ensures Distinct(Names(m))
    ensures forall k :: 0 <= k < |m| ==> |m[k].occs| > 0
  {
    if |cols| == 0 then []
    else AddOccurrence(PositionsOf(cols[..|cols| - 1]), cols[|cols| - 1].0, cols[|cols| - 1].1)
  }

  /** The occurrence map (LinkedHashMap) of a database schema. */
  function FindAttributePositions(attrs: seq<seq<string>>): seq<Entry>
  {
    PositionsOf(Columns(attrs))
  }

  /** The map's keys are the distinct names in order of first appearance,
      and each key holds all its occurrences, relation-major and
      position-minor. */
  lemma {:induction false} PositionsOfSpec(cols: seq<(string, Occ)>)
    ensures Names(PositionsOf(cols)) == Dedup(ColumnNames(cols))
    ensures forall k :: 0 <= k < |PositionsOf(cols)| ==>
              PositionsOf(cols)[k].occs == OccsOf(cols, PositionsOf(cols)[k].name)
  {
    if |cols| > 0 {
      hide PositionsOf, Dedup, OccsOf, ColumnNames, AddOccurrence;
      var init := cols[..|cols| - 1];
      assert cols == init + [cols[|cols| - 1]];
      PositionsOfSpec(init);
      PositionsOfStep(init, cols[|cols| - 1]);
    }
  }

  lemma PositionsOfStep(init: seq<(string, Occ)>, last: (string, Occ))
    requires Names(PositionsOf(init)) == Dedup(ColumnNames(init))
    requires forall k :: 0 <= k < |PositionsOf(init)| ==> PositionsOf(init)[k].occs == OccsOf(init, PositionsOf(init)[k].name)
    ensures Names(PositionsOf(init + [last])) == Dedup(ColumnNames(init + [last]))
    ensures forall k :: 0 <= k < |PositionsOf(init + [last])| ==>
              PositionsOf(init + [last])[k].occs == OccsOf(init + [last], PositionsOf(init + [last])[k].name)
  {
    hide Dedup, AddOccurrence, OccsOf, PositionsOf;
    var cols := init + [last];
    assert cols[..|cols| - 1] == init;
    PositionsOfNames(cols);
    PositionsOfOccs(init, last);
  }

  lemma PositionsOfNames(cols: seq<(string, Occ)>)
    requires |cols| > 0
    requires Names(PositionsOf(cols[..|cols| - 1])) == Dedup(ColumnNames(cols[..|cols| - 1]))
    ensures Names(PositionsOf(cols)) == Dedup(ColumnNames(cols))
  {
    var init, last := cols[..|cols| - 1], cols[|cols| - 1];
    assert PositionsOf(cols) == AddOccurrence(PositionsOf(init), last.0, last.1);
    hide PositionsOf, Dedup, AddOccurrence;
    assert ColumnNames(cols) == ColumnNames(init) + [last.0];
    DedupSnoc(ColumnNames(init), last.0);
  }

  lemma PositionsOfOccs(init: seq<(string, Occ)>, last: (string, Occ))
    requires forall k :: 0 <= k < |PositionsOf(init)| ==>
               PositionsOf(init)[k].occs == OccsOf(init, PositionsOf(init)[k].name)
    requires Names(PositionsOf(init)) == Dedup(ColumnNames(init))
    ensures forall k :: 0 <= k < |PositionsOf(init + [last])| ==>
              PositionsOf(init + [last])[k].occs == OccsOf(init + [last], PositionsOf(init + [last])[k].name)
  {
    var cols := init + [last];
    assert cols[..|cols| - 1] == init;
    var m := PositionsOf(init);
    var r := PositionsOf(cols);
    assert r == AddOccurrence(m, last.0, last.1);
    forall k | 0 <= k < |r| ensures r[k].occs == OccsOf(cols, r[k].name) {
      if k < |m| {
        assert r[k].name == Names(r)[k] == Names(m)[k] == m[k].name;
      } else {
        assert last.0 !in Names(m);
        DedupSpec(ColumnNames(init));
        assert r[k] == Entry(last.0, [last.1]);
        assert last.0 !in ColumnNames(init);
        OccsOfAbsent(init, last.0);
      }
    }
  }

  lemma {:induction false} OccsOfAbsent(cols: seq<(string, Occ)>, name: string)
    requires name !in ColumnNames(cols)
    ensures OccsOf(cols, name) == []
  {
    if |cols| > 0 {
      assert ColumnNames(cols[..|cols| - 1]) == ColumnNames(cols)[..|cols| - 1];
      assert ColumnNames(cols)[|cols| - 1] == cols[|cols| - 1].0;
      OccsOfAbsent(cols[..|cols| - 1], name);
    }
  }

  /** The name recorded with a column is the name at that occurrence. */
  lemma {:induction false} ColumnsNamed(attrs: seq<seq<string>>)
    ensures forall k :: 0 <= k < |Columns(attrs)| ==>
              Columns(attrs)[k].1.rel < |attrs| &&
              Columns(attrs)[k].1.pos < |attrs[Columns(attrs)[k].1.rel]| &&
              NameAt(attrs, Columns(attrs)[k].1) == Columns(attrs)[k].0
    ensures ColumnNames(Columns(attrs)) == Flatten(attrs)
  {
    if |attrs| > 0 {
      var init := attrs[..|attrs| - 1];
      ColumnsNamed(init);
      assert forall i :: 0 <= i < |init| ==> attrs[i] == init[i];
      var n := |Columns(init)|;
      var row := RowColumns(|attrs| - 1, attrs[|attrs| - 1]);
      assert Columns(attrs) == Columns(init) + row;
      forall k | 0 <= k < |Columns(attrs)|
        ensures Columns(attrs)[k].1.rel < |attrs|
        ensures Columns(attrs)[k].1.pos < |attrs[Columns(attrs)[k].1.rel]|
        ensures NameAt(attrs, Columns(attrs)[k].1) == Columns(attrs)[k].0
      {
        if k < n {
          assert Columns(attrs)[k] == Columns(init)[k];
        } else {
          assert Columns(attrs)[k] == row[k - n];
        }
      }
      assert ColumnNames(Columns(attrs)) == ColumnNames(Columns(init)) + attrs[|attrs| - 1];
    }
  }

  /** Relation-major, position-minor order of occurrences. */
  predicate OccLess(a: Occ, b: Occ)
  {
    a.rel < b.rel || (a.rel == b.rel && a.pos < b.pos)
  }

  predicate Increasing(cols: seq<(string, Occ)>)
  {
    forall i, j :: 0 <= i < j < |cols| ==> OccLess(cols[i].1, cols[j].1)
  }

  lemma {:induction false} ColumnsIncreasing(attrs: seq<seq<string>>)
    ensures Increasing(Columns(attrs))
  {
    if |attrs| > 0 {
      var init := attrs[..|attrs| - 1];
      ColumnsIncreasing(init);
      ColumnsNamed(init);
      var c := Columns(init);
      var row := RowColumns(|attrs| - 1, attrs[|attrs| - 1]);
      var all := c + row;
      assert Columns(attrs) == all;
      forall i, j | 0 <= i < j < |all| ensures OccLess(all[i].1, all[j].1) {
        if j < |c| {
          assert all[i] == c[i] && all[j] == c[j];
        } else if i < |c| {
          assert all[i] == c[i] && all[j] == row[j - |c|];
        } else {
          assert all[i] == row[i - |c|] && all[j] == row[j - |c|];
        }
      }
    }
  }

  /** Every occurrence listed for a name is a column with that name. */
  lemma {:induction false} OccsOfElements(cols: seq<(string, Occ)>, name: string)
    ensures forall i :: 0 <= i < |OccsOf(cols, name)| ==> (name, OccsOf(cols, name)[i]) in cols
  {
    if |cols| > 0 {
      var init := cols[..|cols| - 1];
      OccsOfElements(init, name);
      var o := OccsOf(cols, name);
      assert o == OccsOf(init, name) + (if cols[|cols| - 1].0 == name then [cols[|cols| - 1].1] else []);
      forall i | 0 <= i < |o| ensures (name, o[i]) in cols {
        if i < |OccsOf(init, name)| {
          assert (name, o[i]) in init;
        } else {
          assert cols[|cols| - 1] == (name, o[i]);
        }
      }
    }
  }

  /** The occurrences of a name come in visiting order. */
  lemma {:induction false} OccsOfIncreasing(cols: seq<(string, Occ)>, name: string)
    requires Increasing(cols)
    ensures forall i, j :: 0 <= i < j < |OccsOf(cols, name)| ==> OccLess(OccsOf(cols, name)[i], OccsOf(cols, name)[j])
  {
    if |cols| > 0 {
      var init := cols[..|cols| - 1];
      assert Increasing(init) by {
        forall i, j | 0 <= i < j < |init| ensures OccLess(init[i].1, init[j].1) {
          assert init[i] == cols[i] && init[j] == cols[j];
        }
      }
      OccsOfIncreasing(init, name);
      OccsOfElements(init, name);
      var o := OccsOf(cols, name);
      var p := OccsOf(init, name);
      forall i, j | 0 <= i < j < |o| ensures OccLess(o[i], o[j]) {
        if j >= |p| {
          assert (name, p[i]) in init;
          var k :| 0 <= k < |init| && init[k] == (name, p[i]);
          assert cols[k] == init[k];
        }
      }
    }
  }

  // ---------------------------------------------------------------------
  // Distinct attribute pairs
  // ---------------------------------------------------------------------

  /** The first occurrence of each distinct name, in map order. */
  function FirstOccurrences(m: seq<Entry>): seq<Occ>
    requires forall k :: 0 <= k < |m| ==> |m[k].occs| > 0
  {
    seq(|m|, k requires 0 <= k < |m| => m[k].occs[0])
  }

  /** getAllPairsOfAttributes: for every distinct name j and every distinct
      name k at or after it, the pair of their first occurrences. */
  function AllPairsOfAttributes(attrs: seq<seq<string>>): seq<(Occ, Occ)>
  {
    UpperPairs(FirstOccurrences(FindAttributePositions(attrs)))
  }

  /** getAttributeNamePairs: the same enumeration over the distinct names. */
  function AttributeNamePairs(attrs: seq<seq<string>>): seq<(string, string)>
  {
    UpperPairs(Dedup(Flatten(attrs)))
  }

  /** The first occurrence of each entry names that entry. */
  lemma FirstOccurrencesNamed(attrs: seq<seq<string>>)
    ensures |FirstOccurrences(FindAttributePositions(attrs))| == |Dedup(Flatten(attrs))|
    ensures forall k :: 0 <= k < |FirstOccurrences(FindAttributePositions(attrs))| ==>
              var o := FirstOccurrences(FindAttributePositions(attrs))[k];
              o.rel < |attrs| && o.pos < |attrs[o.rel]| && NameAt(attrs, o) == Dedup(Flatten(attrs))[k]
  {
    var cols := Columns(attrs);
    var m := FindAttributePositions(attrs);
    PositionsOfSpec(cols);
    ColumnsNamed(attrs);
    var f := FirstOccurrences(m);
    assert |Names(m)| == |m|;
    forall k | 0 <= k < |f|
      ensures f[k].rel < |attrs| && f[k].pos < |attrs[f[k].rel]| && NameAt(attrs, f[k]) == Dedup(Flatten(attrs))[k]
    {
      OccsOfElements(cols, m[k].name);
      assert (m[k].name, OccsOf(cols, m[k].name)[0]) in cols;
      var i :| 0 <= i < |cols| && cols[i] == (m[k].name, OccsOf(cols, m[k].name)[0]);
      assert Names(m)[k] == m[k].name;
    }
  }

  /** There are n(n+1)/2 pairs for n distinct attribute names. */
  lemma AllPairsCount(attrs: seq<seq<string>>)
    ensures |AllPairsOfAttributes(attrs)| == Triangle(|Dedup(Flatten(attrs))|)
    ensures |AttributeNamePairs(attrs)| == |AllPairsOfAttributes(attrs)|
  {
    FirstOccurrencesNamed(attrs);
    UpperPairsLength(FirstOccurrences(FindAttributePositions(attrs)));
    UpperPairsLength(Dedup(Flatten(attrs)));
  }

  /** The name pairs and the position pairs list the same attribute pairs
      in the same order. */
  lemma NamePairsMatchPositions(attrs: seq<seq<string>>)
    ensures |AttributeNamePairs(attrs)| == |AllPairsOfAttributes(attrs)|
    ensures forall k :: 0 <= k < |AllPairsOfAttributes(attrs)| ==>
              var p := AllPairsOfAttributes(attrs)[k];
              p.0.rel < |attrs| && p.0.pos < |attrs[p.0.rel]| &&
              p.1.rel < |attrs| && p.1.pos < |attrs[p.1.rel]| &&
              AttributeNamePairs(attrs)[k] == (NameAt(attrs, p.0), NameAt(attrs, p.1))
  {
    AllPairsCount(attrs);
    FirstOccurrencesNamed(attrs);
    var f := FirstOccurrences(FindAttributePositions(attrs));
    var d := Dedup(Flatten(attrs));
    forall k | 0 <= k < |UpperPairs(f)|
      ensures UpperPairs(f)[k].0.rel < |attrs| && UpperPairs(f)[k].0.pos < |attrs[UpperPairs(f)[k].0.rel]|
      ensures UpperPairs(f)[k].1.rel < |attrs| && UpperPairs(f)[k].1.pos < |attrs[UpperPairs(f)[k].1.rel]|
      ensures UpperPairs(d)[k] == (NameAt(attrs, UpperPairs(f)[k].0), NameAt(attrs, UpperPairs(f)[k].1))
    {
      UpperPairsInverse(f, k);
      var a: nat, b: nat :| a <= b < |f| && k == PairIndex(|f|, a, b);
      UpperPairsAt(f, a, b);
      UpperPairsAt(d, a, b);
    }
  }

  /** First occurrences come in visiting order. */
  lemma {:induction false} FirstsIncreasing(cols: seq<(string, Occ)>)
    requires Increasing(cols)
    ensures forall a, b :: 0 <= a < b < |PositionsOf(cols)| ==>
              OccLess(PositionsOf(cols)[a].occs[0], PositionsOf(cols)[b].occs[0])
    ensures forall a :: 0 <= a < |PositionsOf(cols)| ==>
              (PositionsOf(cols)[a].name, PositionsOf(cols)[a].occs[0]) in cols
  {
    hide PositionsOf, AddOccurrence, OccLess, Increasing, Names, Distinct;
    PositionsOfEmpty(cols);
    if |cols| > 0 {
      var init, last := cols[..|cols| - 1], cols[|cols| - 1];
      PositionsOfSnoc(cols);
      assert cols == init + [last];
      IncreasingSplit(cols);
      FirstsIncreasing(init);
      FirstsStep(init, last, PositionsOf(init));
    }
  }

  lemma PositionsOfEmpty(cols: seq<(string, Occ)>)
    ensures |cols| == 0 ==> PositionsOf(cols) == []
  {
  }

  lemma PositionsOfSnoc(cols: seq<(string, Occ)>)
    requires |cols| > 0
    ensures PositionsOf(cols) == AddOccurrence(PositionsOf(cols[..|cols| - 1]), cols[|cols| - 1].0, cols[|cols| - 1].1)
  {
  }

  /** Dropping the last column keeps the order, and every earlier column
      comes before the last. */
  lemma IncreasingSplit(cols: seq<(string, Occ)>)
    requires |cols| > 0 && Increasing(cols)
    ensures Increasing(cols[..|cols| - 1])
    ensures forall k :: 0 <= k < |cols| - 1 ==> OccLess(cols[k].1, cols[|cols| - 1].1)
  {
    var init := cols[..|cols| - 1];
    forall i, j | 0 <= i < j < |init| ensures OccLess(init[i].1, init[j].1) {
      assert init[i] == cols[i] && init[j] == cols[j];
    }
  }

  /** One more column that comes after every earlier one keeps the first
      occurrences in visiting order: it either extends an entry, leaving
      its first occurrence alone, or opens the last entry. */
  lemma FirstsStep(init: seq<(string, Occ)>, last: (string, Occ), m: seq<Entry>)
    requires Distinct(Names(m)) && forall k :: 0 <= k < |m| ==> |m[k].occs| > 0
    requires forall k :: 0 <= k < |init| ==> OccLess(init[k].1, last.1)
    requires forall a, b :: 0 <= a < b < |m| ==> OccLess(m[a].occs[0], m[b].occs[0])
    requires forall a :: 0 <= a < |m| ==> (m[a].name, m[a].occs[0]) in init
    ensures var r := AddOccurrence(m, last.0, last.1);
      (forall a, b :: 0 <= a < b < |r| ==> OccLess(r[a].occs[0], r[b].occs[0])) &&
      (forall a :: 0 <= a < |r| ==> (r[a].name, r[a].occs[0]) in init + [last])
  {
    var r := AddOccurrence(m, last.0, last.1);
    var cols := init + [last];
    hide AddOccurrence;
    assert |r| == |Names(r)| && |m| == |Names(m)|;
    assert forall a :: 0 <= a < |m| ==> r[a].occs[0] == m[a].occs[0];
    assert |r| > |m| ==> last.0 !in Names(m) && r[|m|] == Entry(last.0, [last.1]);
    forall a | 0 <= a < |r| ensures (r[a].name, r[a].occs[0]) in cols {
      if a < |m| {
        assert r[a].name == Names(r)[a] == Names(m)[a] == m[a].name;
        assert (m[a].name, m[a].occs[0]) in init;
      } else {
        assert r[a] == Entry(last.0, [last.1]);
        assert cols[|cols| - 1] == last;
      }
    }
    forall a, b | 0 <= a < b < |r| ensures OccLess(r[a].occs[0], r[b].occs[0]) {
      if b >= |m| {
        assert (m[a].name, m[a].occs[0]) in init;
        var k :| 0 <= k < |init| && init[k] == (m[a].name, m[a].occs[0]);
        assert r[b].occs[0] == last.1;
      }
    }
  }

  /** In every emitted pair the first member comes no later than the second
      in relation-major order, so when both lie in one relation the first
      position is the smaller. */
  lemma PairsOrdered(attrs: seq<seq<string>>)
    ensures forall k :: 0 <= k < |AllPairsOfAttributes(attrs)| ==>
              var p := AllPairsOfAttributes(attrs)[k];
              p.0 == p.1 || OccLess(p.0, p.1)
  {
    var cols := Columns(attrs);
    ColumnsIncreasing(attrs);
    FirstsIncreasing(cols);
    var f := FirstOccurrences(FindAttributePositions(attrs));
    forall k | 0 <= k < |UpperPairs(f)| ensures UpperPairs(f)[k].0 == UpperPairs(f)[k].1 || OccLess(UpperPairs(f)[k].0, UpperPairs(f)[k].1) {
      UpperPairsInverse(f, k);
      var a: nat, b: nat :| a <= b < |f| && k == PairIndex(|f|, a, b);
      UpperPairsAt(f, a, b);
    }
  }

  // ---------------------------------------------------------------------
  // Join conditions (getAllExplicitJoinConditions)
  // ---------------------------------------------------------------------

  /** Occurrences listed by non-decreasing relation index. */
  predicate RelSorted(c: seq<Occ>)
  {
    forall i, j :: 0 <= i < j < |c| ==> c[i].rel <= c[j].rel
  }

  /** Index of the first occurrence in relation `rel` at or after `from`,
      or -1. */
  function FindRel(b: seq<Occ>, rel: nat, from: nat): (j: int)
    requires from <= |b|
    ensures j == -1 || from <= j < |b|
    ensures j >= 0 ==> b[j].rel == rel && forall k :: from <= k < j ==> b[k].rel != rel
    ensures j == -1 ==> forall k :: from <= k < |b| ==> b[k].rel != rel
    decreases |b| - from
  {
    if from == |b| then -1
    else if b[from].rel == rel then from
    else FindRel(b, rel, from + 1)
  }

  /** The comparator of the condition sort, from the i-th occurrence of a
      on: the first occurrence of a whose relation also appears in b
      decides, by comparing positions within that relation; when no
      relation is shared, the condition with more occurrences comes first. */
  function CompareConditionsFrom(a: seq<Occ>, b: seq<Occ>, i: nat): int
    requires i <= |a|
    decreases |a| - i
  {
    if i == |a| then CompareInt(|b|, |a|)
    else
      var j := FindRel(b, a[i].rel, 0);
      if j >= 0 then CompareInt(a[i].pos, b[j].pos) else CompareConditionsFrom(a, b, i + 1)
  }

  function CompareConditions(a: seq<Occ>, b: seq<Occ>): int
  {
    CompareConditionsFrom(a, b, 0)
  }

  /** When a[i] and b[j] are the first occurrences, in a and in b, of the
      lowest relation the two conditions share, the comparator compares
      their positions. */
  lemma CompareConditionsAt(a: seq<Occ>, b: seq<Occ>, i: nat, j: nat)
    requires i < |a| && j < |b| && a[i].rel == b[j].rel
    requires forall i' :: 0 <= i' < i ==> a[i'].rel < a[i].rel
    requires forall j' :: 0 <= j' < j ==> b[j'].rel < b[j].rel
    requires forall i', j' :: 0 <= i' < |a| && 0 <= j' < |b| && a[i'].rel == b[j'].rel ==> a[i].rel <= a[i'].rel
    ensures CompareConditions(a, b) == CompareInt(a[i].pos, b[j].pos)
  {
    CompareConditionsSkip(a, b, i, j, 0);
  }

  lemma {:induction false} CompareConditionsSkip(a: seq<Occ>, b: seq<Occ>, i: nat, j: nat, k: nat)
    requires k <= i < |a| && j < |b| && a[i].rel == b[j].rel
    requires forall i' :: 0 <= i' < i ==> a[i'].rel < a[i].rel
    requires forall j' :: 0 <= j' < j ==> b[j'].rel < b[j].rel
    requires forall i', j' :: 0 <= i' < |a| && 0 <= j' < |b| && a[i'].rel == b[j'].rel ==> a[i].rel <= a[i'].rel
    ensures CompareConditionsFrom(a, b, k) == CompareInt(a[i].pos, b[j].pos)
    decreases i - k
  {
    var f := FindRel(b, a[k].rel, 0);
    if k < i {
      assert f == -1;
      CompareConditionsSkip(a, b, i, j, k + 1);
    } else {
      assert f == j;
    }
  }

  /** With no shared relation, the longer condition sorts first. */
  lemma {:induction false} CompareConditionsDisjoint(a: seq<Occ>, b: seq<Occ>, k: nat)
    requires k <= |a|
    requires forall i, j :: 0 <= i < |a| && 0 <= j < |b| ==> a[i].rel != b[j].rel
    ensures CompareConditionsFrom(a, b, k) == CompareInt(|b|, |a|)
    decreases |a| - k
  {
    if k < |a| {
      assert FindRel(b, a[k].rel, 0) == -1;
      CompareConditionsDisjoint(a, b, k + 1);
    }
  }

  /** The first occurrence in a whose relation b also mentions, and the
      first occurrence of that relation in b. */
  lemma FirstShared(a: seq<Occ>, b: seq<Occ>) returns (i: nat, j: nat)
    requires exists i, j :: 0 <= i < |a| && 0 <= j < |b| && a[i].rel == b[j].rel
    ensures i < |a| && j < |b| && a[i].rel == b[j].rel
    ensures forall i', j' :: 0 <= i' < i && 0 <= j' < |b| ==> a[i'].rel != b[j'].rel
    ensures forall j' :: 0 <= j' < j ==> b[j'].rel != b[j].rel
  {
    i := 0;
    while FindRel(b, a[i].rel, 0) < 0
      invariant i < |a|
      invariant forall i', j' :: 0 <= i' < i && 0 <= j' < |b| ==> a[i'].rel != b[j'].rel
      decreases |a| - i
    {
      if i + 1 == |a| {
        var x, y :| 0 <= x < |a| && 0 <= y < |b| && a[x].rel == b[y].rel;
        assert x <= i;
      }
      i := i + 1;
    }
    j := FindRel(b, a[i].rel, 0);
  }

  /** The comparator is antisymmetric on relation-sorted conditions (which
      every condition the schema yields is): both directions settle on the
      same lowest shared relation. */
  lemma CompareConditionsAntisymmetric(a: seq<Occ>, b: seq<Occ>)
    requires RelSorted(a) && RelSorted(b)
    ensures CompareConditions(a, b) == -CompareConditions(b, a)
  {
    if exists i, j :: 0 <= i < |a| && 0 <= j < |b| && a[i].rel == b[j].rel {
      var i, j := FirstShared(a, b);
      var r := a[i].rel;
      forall i' | 0 <= i' < i ensures a[i'].rel < r {
        assert a[i'].rel != b[j].rel;
      }
      CompareConditionsAt(a, b, i, j);
      CompareConditionsAt(b, a, j, i);
    } else {
      CompareConditionsDisjoint(a, b, 0);
      CompareConditionsDisjoint(b, a, 0);
    }
  }

  /** Insert into a sorted list before the first element it compares below:
      the step of a stable insertion sort. */
  function InsertCondition(x: seq<Occ>, s: seq<seq<Occ>>): (r: seq<seq<Occ>>)
    ensures multiset(r) == multiset(s) + multiset{x}
  {
    if |s| == 0 then [x]
    else if CompareConditions(x, s[0]) < 0 then [x] + s
    else
      assert s == [s[0]] + s[1..];
      [s[0]] + InsertCondition(x, s[1..])
  }

  /** Stable sort of the conditions by CompareConditions. */
  function SortConditions(xs: seq<seq<Occ>>): (r: seq<seq<Occ>>)
    ensures multiset(r) == multiset(xs)
  {
    if |xs| == 0 then []
    else
      assert xs == xs[..|xs| - 1] + [xs[|xs| - 1]];
      InsertCondition(xs[|xs| - 1], SortConditions(xs[..|xs| - 1]))
  }

  predicate ConditionsSorted(s: seq<seq<Occ>>)
  {
    forall i, j :: 0 <= i < j < |s| ==> CompareConditions(s[i], s[j]) <= 0
  }

  /** The comparator is transitive on the given conditions. */
  predicate ConsistentOn(xs: seq<seq<Occ>>)
  {
    (forall a :: a in xs ==> RelSorted(a)) &&
    forall a, b, c :: a in xs && b in xs && c in xs && CompareConditions(a, b) <= 0 && CompareConditions(b, c) <= 0
      ==> CompareConditions(a, c) <= 0
  }

  lemma {:induction false} InsertConditionSorted(x: seq<Occ>, s: seq<seq<Occ>>, xs: seq<seq<Occ>>)
    requires ConsistentOn(xs) && x in xs && forall y :: y in s ==> y in xs
    requires ConditionsSorted(s)
    ensures ConditionsSorted(InsertCondition(x, s))
    decreases |s|
  {
    if |s| > 0 {
      if CompareConditions(x, s[0]) < 0 {
        InsertFrontSorted(x, s, xs);
      } else {
        var t := s[1..];
        assert ConditionsSorted(t) by {
          forall i, j | 0 <= i < j < |t| ensures CompareConditions(t[i], t[j]) <= 0 {
            assert t[i] == s[i + 1] && t[j] == s[j + 1];
          }
        }
        InsertConditionSorted(x, t, xs);
        assert s[0] in s;
        InsertBehindSorted(x, s);
      }
    }
  }

  lemma InsertFrontSorted(x: seq<Occ>, s: seq<seq<Occ>>, xs: seq<seq<Occ>>)
    requires ConsistentOn(xs) && x in xs && forall y :: y in s ==> y in xs
    requires ConditionsSorted(s) && |s| > 0 && CompareConditions(x, s[0]) < 0
    ensures ConditionsSorted([x] + s)
  {
    hide ConsistentOn, CompareConditions;
    var r := [x] + s;
    assert s[0] in s;
    forall i, j | 0 <= i < j < |r| ensures CompareConditions(r[i], r[j]) <= 0 {
      assert r[j] == s[j - 1] && s[j - 1] in s;
      if i == 0 {
        if j > 1 {
          assert CompareConditions(s[0], s[j - 1]) <= 0;
          ConsistentStep(xs, x, s[0], s[j - 1]);
        }
      } else {
        assert r[i] == s[i - 1];
      }
    }
  }

  lemma ConsistentStep(xs: seq<seq<Occ>>, a: seq<Occ>, b: seq<Occ>, c: seq<Occ>)
    requires ConsistentOn(xs) && a in xs && b in xs && c in xs
    requires CompareConditions(a, b) <= 0 && CompareConditions(b, c) <= 0
    ensures CompareConditions(a, c) <= 0
  {
  }

  lemma InsertBehindSorted(x: seq<Occ>, s: seq<seq<Occ>>)
    requires ConditionsSorted(s) && |s| > 0 && CompareConditions(x, s[0]) >= 0
    requires RelSorted(x) && RelSorted(s[0])
    requires ConditionsSorted(InsertCondition(x, s[1..]))
    ensures ConditionsSorted([s[0]] + InsertCondition(x, s[1..]))
  {
    hide CompareConditions, InsertCondition, RelSorted;
    CompareConditionsAntisymmetric(x, s[0]);
    var rest := InsertCondition(x, s[1..]);
    var r := [s[0]] + rest;
    forall i, j | 0 <= i < j < |r| ensures CompareConditions(r[i], r[j]) <= 0 {
      assert r[j] == rest[j - 1];
      if i == 0 {
        assert rest[j - 1] in multiset(rest);
        if rest[j - 1] != x {
          assert rest[j - 1] in multiset(s[1..]);
          var k :| 0 <= k < |s[1..]| && s[1..][k] == rest[j - 1];
          assert s[1..][k] == s[k + 1];
        }
      } else {
        assert r[i] == rest[i - 1];
      }
    }
  }

  lemma {:induction false} SortConditionsSorted(xs: seq<seq<Occ>>)
    requires ConsistentOn(xs)
    ensures ConditionsSorted(SortConditions(xs))
  {
    if |xs| > 0 {
      var init := xs[..|xs| - 1];
      assert forall y :: y in init ==> y in xs;
      assert ConsistentOn(init);
      SortConditionsSorted(init);
      forall y | y in SortConditions(init) ensures y in xs {
        assert y in multiset(SortConditions(init));
      }
      InsertConditionSorted(xs[|xs| - 1], SortConditions(init), xs);
    }
  }

  /** The occurrence lists of names that occur more than once, in map order. */
  function SharedOccurrences(m: seq<Entry>): seq<seq<Occ>>
  {
    if |m| == 0 then []
    else SharedOccurrences(m[..|m| - 1]) + (if |m[|m| - 1].occs| > 1 then [m[|m| - 1].occs] else [])
  }

  /** The filter keeps exactly the lists of more than one occurrence. */
  lemma {:induction false} SharedOccurrencesSpec(m: seq<Entry>)
    ensures forall c :: c in SharedOccurrences(m) <==> exists k :: 0 <= k < |m| && m[k].occs == c && |c| > 1
  {
    if |m| > 0 {
      SharedOccurrencesSpec(m[..|m| - 1]);
      assert forall k :: 0 <= k < |m| - 1 ==> m[..|m| - 1][k] == m[k];
    }
  }

  /** The join conditions of a schema: for every attribute name occurring
      more than once, all its occurrences, sorted by CompareConditions. */
  function JoinConditions(attrs: seq<seq<string>>): seq<seq<Occ>>
  {
    SortConditions(SharedOccurrences(FindAttributePositions(attrs)))
  }

  /** Every join condition lists its occurrences relation-major and
      position-minor. */
  lemma JoinConditionsOrdered(attrs: seq<seq<string>>)
    ensures forall c :: c in JoinConditions(attrs) ==>
              |c| > 1 && forall i, j :: 0 <= i < j < |c| ==> OccLess(c[i], c[j])
  {
    var cols := Columns(attrs);
    var m := FindAttributePositions(attrs);
    ColumnsIncreasing(attrs);
    PositionsOfSpec(cols);
    forall c | c in JoinConditions(attrs)
      ensures |c| > 1 && forall i, j :: 0 <= i < j < |c| ==> OccLess(c[i], c[j])
    {
      assert c in multiset(JoinConditions(attrs));
      SharedOccurrencesSpec(m);
      var k :| 0 <= k < |m| && m[k].occs == c && |c| > 1;
      OccsOfIncreasing(cols, m[k].name);
    }
  }

  /** A list of occurrences is a join condition exactly when it is the full
      occurrence list of an attribute name that occurs at least twice. */
  lemma JoinConditionsExact(attrs: seq<seq<string>>, c: seq<Occ>)
    ensures c in JoinConditions(attrs) <==>
              exists name :: name in Flatten(attrs) && c == OccsOf(Columns(attrs), name) && |c| > 1
  {
    if c in JoinConditions(attrs) {
      JoinConditionIsShared(attrs, c);
    }
    if exists name :: name in Flatten(attrs) && c == OccsOf(Columns(attrs), name) && |c| > 1 {
      var name :| name in Flatten(attrs) && c == OccsOf(Columns(attrs), name) && |c| > 1;
      SharedIsJoinCondition(attrs, name);
    }
  }

  lemma JoinConditionIsShared(attrs: seq<seq<string>>, c: seq<Occ>)
    requires c in JoinConditions(attrs)
    ensures exists name :: name in Flatten(attrs) && c == OccsOf(Columns(attrs), name) && |c| > 1
  {
    var cols := Columns(attrs);
    var m := FindAttributePositions(attrs);
    PositionsOfSpec(cols);
    ColumnsNamed(attrs);
    assert c in multiset(JoinConditions(attrs));
    SharedOccurrencesSpec(m);
    var k :| 0 <= k < |m| && m[k].occs == c && |c| > 1;
    DedupSpec(ColumnNames(cols));
    assert Names(m)[k] == m[k].name;
    assert m[k].name in Flatten(attrs);
  }

  lemma SharedIsJoinCondition(attrs: seq<seq<string>>, name: string)
    requires name in Flatten(attrs) && |OccsOf(Columns(attrs), name)| > 1
    ensures OccsOf(Columns(attrs), name) in JoinConditions(attrs)
  {
    var cols := Columns(attrs);
    var m := FindAttributePositions(attrs);
    var c := OccsOf(cols, name);
    PositionsOfSpec(cols);
    ColumnsNamed(attrs);
    DedupSpec(ColumnNames(cols));
    assert name in Names(m);
    var k :| 0 <= k < |m| && Names(m)[k] == name;
    assert m[k].occs == c;
    SharedOccurrencesSpec(m);
    assert c in SharedOccurrences(m);
    assert c in multiset(SharedOccurrences(m));
    assert c in multiset(JoinConditions(attrs));
  }

  // ---------------------------------------------------------------------
  // The two shipped schemas
  // ---------------------------------------------------------------------

  function Schema(names: seq<string>, attrs: seq<seq<string>>): seq<Relation.Relation>
    requires |names| == |attrs|
  {
    seq(|names|, i requires 0 <= i < |names| => Relation.Relation(names[i], attrs[i], []))
  }

  /** The four-relation test schema R1(A,B,C), R2(A,B,D), R3(A,E), R4(E,F). */
  function TestTables(): seq<Relation.Relation>
  {
    Schema(["R1", "R2", "R3", "R4"], [["A", "B", "C"], ["A", "B", "D"], ["A", "E"], ["E", "F"]])
  }

  /** The six-relation housing schema, all joined on postcode. */
  function HousingTables(): seq<Relation.Relation>
  {
    Schema(["House", "Shop", "Institution", "Restaurant", "Demographics", "Transport"],
      [["postcode", "area", "price", "bedrooms", "bathrooms", "kitchen", "house", "flat", "condo", "garden", "parking"],
       ["postcode", "openinghoursshop", "pricerangeshop", "sainsburys", "tesco", "ms"],
       ["postcode", "typeeducation", "sizeinstitution"],
       ["postcode", "openinghoursrest", "pricerangerest"],
       ["postcode", "averagesalary", "crimesperyear", "unemployment", "nbhospitals"],
       ["postcode", "nbbuslines", "nbtrainstations", "distancecitycentre"]])
  }

  /** The occurrence map spelled out: one entry per distinct name, in order
      of first appearance, holding that name's occurrences. */
  lemma PositionsOfExplicit(cols: seq<(string, Occ)>)
    ensures PositionsOf(cols) ==
      seq(|Dedup(ColumnNames(cols))|, k requires 0 <= k < |Dedup(ColumnNames(cols))| =>
        Entry(Dedup(ColumnNames(cols))[k], OccsOf(cols, Dedup(ColumnNames(cols))[k])))
  {
    var m := PositionsOf(cols);
    PositionsOfSpec(cols);
    assert |m| == |Names(m)|;
    forall k | 0 <= k < |m| ensures m[k].name == Dedup(ColumnNames(cols))[k] {
      assert Names(m)[k] == m[k].name;
    }
  }

  /** The columns of a schema extended by one relation. */
  lemma ColumnsSnoc(attrs: seq<seq<string>>, row: seq<string>)
    ensures Columns(attrs + [row]) == Columns(attrs) + RowColumns(|attrs|, row)
  {
    assert (attrs + [row])[..|attrs|] == attrs;
  }

  /** The test schema's columns, in visiting order. */
  lemma TestColumns()
    ensures Columns(AttributeLists(TestTables())) == [("A", Occ(0, 0)), ("B", Occ(0, 1)), ("C", Occ(0, 2)), ("A", Occ(1, 0)), ("B", Occ(1, 1)), ("D", Occ(1, 2)), ("A", Occ(2, 0)), ("E", Occ(2, 1)), ("E", Occ(3, 0)), ("F", Occ(3, 1))]
  {
    hide *;
    var r0, r1, r2, r3 := ["A", "B", "C"], ["A", "B", "D"], ["A", "E"], ["E", "F"];
    TestAttributeLists();
    TestRowColumns();
    ColumnsSingle(r0);
    ColumnsSnoc([r0], r1);
    assert [r0] + [r1] == [r0, r1];
    ColumnsSnoc([r0, r1], r2);
    assert [r0, r1] + [r2] == [r0, r1, r2];
    ColumnsSnoc([r0, r1, r2], r3);
    assert [r0, r1, r2] + [r3] == [r0, r1, r2, r3];
  }

  lemma TestAttributeLists()
    ensures AttributeLists(TestTables()) == [["A", "B", "C"], ["A", "B", "D"], ["A", "E"], ["E", "F"]]
  {
  }

  lemma TestRowColumns()
    ensures RowColumns(0, ["A", "B", "C"]) == [("A", Occ(0, 0)), ("B", Occ(0, 1)), ("C", Occ(0, 2))]
    ensures RowColumns(1, ["A", "B", "D"]) == [("A", Occ(1, 0)), ("B", Occ(1, 1)), ("D", Occ(1, 2))]
    ensures RowColumns(2, ["A", "E"]) == [("A", Occ(2, 0)), ("E", Occ(2, 1))]
    ensures RowColumns(3, ["E", "F"]) == [("E", Occ(3, 0)), ("F", Occ(3, 1))]
  {
  }

  lemma ColumnsSingle(row: seq<string>)
    ensures Columns([row]) == RowColumns(0, row)
  {
    assert [row][..0] == [];
  }

  lemma TestColumnNames(c: seq<(string, Occ)>)
    requires c == [("A", Occ(0, 0)), ("B", Occ(0, 1)), ("C", Occ(0, 2)), ("A", Occ(1, 0)), ("B", Occ(1, 1)), ("D", Occ(1, 2)), ("A", Occ(2, 0)), ("E", Occ(2, 1)), ("E", Occ(3, 0)), ("F", Occ(3, 1))]
    ensures ColumnNames(c) == ["A", "B", "C", "A", "B", "D", "A", "E", "E", "F"]
  {
  }

  /** The occurrence a column contributes to a name's list. */
  function Hit(x: (string, Occ), name: string): seq<Occ>
  {
    if x.0 == name then [x.1] else []
  }

  lemma OccsOfPrefix(c: seq<(string, Occ)>, k: nat, name: string)
    requires 0 < k <= |c|
    ensures OccsOf(c[..k], name) == OccsOf(c[..k - 1], name) + Hit(c[k - 1], name)
  {
    assert c[..k][..k - 1] == c[..k - 1];
  }

  /** The occurrences of a name among ten columns, column by column. */
  lemma OccsOfTen(c: seq<(string, Occ)>, name: string)
    requires |c| == 10
    ensures OccsOf(c, name) == Hit(c[0], name) + Hit(c[1], name) + Hit(c[2], name) + Hit(c[3], name) + Hit(c[4], name) +
                               Hit(c[5], name) + Hit(c[6], name) + Hit(c[7], name) + Hit(c[8], name) + Hit(c[9], name)
  {
    assert OccsOf(c[..0], name) == [];
    assert c[..10] == c;
    assert [] + Hit(c[0], name) == Hit(c[0], name);
    hide *;
    OccsOfPrefix(c, 1, name);
    OccsOfPrefix(c, 2, name);
    OccsOfPrefix(c, 3, name);
    OccsOfPrefix(c, 4, name);
    OccsOfPrefix(c, 5, name);
    OccsOfPrefix(c, 6, name);
    OccsOfPrefix(c, 7, name);
    OccsOfPrefix(c, 8, name);
    OccsOfPrefix(c, 9, name);
    OccsOfPrefix(c, 10, name);
  }

  lemma TestOccurrences(c: seq<(string, Occ)>)
    requires c == [("A", Occ(0, 0)), ("B", Occ(0, 1)), ("C", Occ(0, 2)), ("A", Occ(1, 0)), ("B", Occ(1, 1)), ("D", Occ(1, 2)), ("A", Occ(2, 0)), ("E", Occ(2, 1)), ("E", Occ(3, 0)), ("F", Occ(3, 1))]
    ensures ColumnNames(c) == ["A", "B", "C", "A", "B", "D", "A", "E", "E", "F"]
    ensures OccsOf(c, "A") == [Occ(0, 0), Occ(1, 0), Occ(2, 0)]
    ensures OccsOf(c, "B") == [Occ(0, 1), Occ(1, 1)]
    ensures OccsOf(c, "C") == [Occ(0, 2)]
    ensures OccsOf(c, "D") == [Occ(1, 2)]
    ensures OccsOf(c, "E") == [Occ(2, 1), Occ(3, 0)]
    ensures OccsOf(c, "F") == [Occ(3, 1)]
  {
    TestColumnNames(c);
    OccsOfTen(c, "A");
    OccsOfTen(c, "B");
    OccsOfTen(c, "C");
    OccsOfTen(c, "D");
    OccsOfTen(c, "E");
    OccsOfTen(c, "F");
  }

  lemma TestNamesFirst()
    ensures Dedup(["A", "B", "C", "A", "B"]) == ["A", "B", "C"]
  {
    assert ["A"][..0] == [];
    assert ["A", "B"][..1] == ["A"];
    assert ["A", "B", "C"][..2] == ["A", "B"];
    assert ["A", "B", "C", "A"][..3] == ["A", "B", "C"];
    assert ["A", "B", "C", "A", "B"][..4] == ["A", "B", "C", "A"];
  }

  lemma TestNames()
    ensures Dedup(["A", "B", "C", "A", "B", "D", "A", "E", "E", "F"]) == ["A", "B", "C", "D", "E", "F"]
  {
    TestNamesFirst();
    hide Dedup;
    DedupSnoc(["A", "B", "C", "A", "B"], "D");
    assert ["A", "B", "C", "A", "B"] + ["D"] == ["A", "B", "C", "A", "B", "D"];
    DedupSnoc(["A", "B", "C", "A", "B", "D"], "A");
    assert ["A", "B", "C", "A", "B", "D"] + ["A"] == ["A", "B", "C", "A", "B", "D", "A"];
    DedupSnoc(["A", "B", "C", "A", "B", "D", "A"], "E");
    assert ["A", "B", "C", "A", "B", "D", "A"] + ["E"] == ["A", "B", "C", "A", "B", "D", "A", "E"];
    DedupSnoc(["A", "B", "C", "A", "B", "D", "A", "E"], "E");
    assert ["A", "B", "C", "A", "B", "D", "A", "E"] + ["E"] == ["A", "B", "C", "A", "B", "D", "A", "E", "E"];
    DedupSnoc(["A", "B", "C", "A", "B", "D", "A", "E", "E"], "F");
    assert ["A", "B", "C", "A", "B", "D", "A", "E", "E"] + ["F"] == ["A", "B", "C", "A", "B", "D", "A", "E", "E", "F"];
  }

  /** Dedup of a list extended by one name. */
  lemma DedupSnoc(s: seq<string>, x: string)
    ensures Dedup(s + [x]) == if x in Dedup(s) then Dedup(s) else Dedup(s) + [x]
  {
    assert (s + [x])[..|s|] == s;
  }

  lemma TestMap()
    ensures FindAttributePositions(AttributeLists(TestTables())) ==
      [Entry("A", [Occ(0, 0), Occ(1, 0), Occ(2, 0)]), Entry("B", [Occ(0, 1), Occ(1, 1)]),
       Entry("C", [Occ(0, 2)]), Entry("D", [Occ(1, 2)]),
       Entry("E", [Occ(2, 1), Occ(3, 0)]), Entry("F", [Occ(3, 1)])]
  {
    TestColumns();
    TestOccurrences(Columns(AttributeLists(TestTables())));
    TestPositions(Columns(AttributeLists(TestTables())));
  }

  lemma TestPositions(c: seq<(string, Occ)>)
    requires ColumnNames(c) == ["A", "B", "C", "A", "B", "D", "A", "E", "E", "F"]
    requires OccsOf(c, "A") == [Occ(0, 0), Occ(1, 0), Occ(2, 0)]
    requires OccsOf(c, "B") == [Occ(0, 1), Occ(1, 1)]
    requires OccsOf(c, "C") == [Occ(0, 2)]
    requires OccsOf(c, "D") == [Occ(1, 2)]
    requires OccsOf(c, "E") == [Occ(2, 1), Occ(3, 0)]
    requires OccsOf(c, "F") == [Occ(3, 1)]
    ensures PositionsOf(c) ==
      [Entry("A", [Occ(0, 0), Occ(1, 0), Occ(2, 0)]), Entry("B", [Occ(0, 1), Occ(1, 1)]),
       Entry("C", [Occ(0, 2)]), Entry("D", [Occ(1, 2)]),
       Entry("E", [Occ(2, 1), Occ(3, 0)]), Entry("F", [Occ(3, 1)])]
  {
    TestNames();
    PositionsOfExplicit(c);
    TestEntries(c, Dedup(ColumnNames(c)), PositionsOf(c));
  }

  lemma TestEntries(c: seq<(string, Occ)>, d: seq<string>, m: seq<Entry>)
    requires d == ["A", "B", "C", "D", "E", "F"]
    requires m == seq(|d|, k requires 0 <= k < |d| => Entry(d[k], OccsOf(c, d[k])))
    requires OccsOf(c, "A") == [Occ(0, 0), Occ(1, 0), Occ(2, 0)]
    requires OccsOf(c, "B") == [Occ(0, 1), Occ(1, 1)]
    requires OccsOf(c, "C") == [Occ(0, 2)]
    requires OccsOf(c, "D") == [Occ(1, 2)]
    requires OccsOf(c, "E") == [Occ(2, 1), Occ(3, 0)]
    requires OccsOf(c, "F") == [Occ(3, 1)]
    ensures m ==
      [Entry("A", [Occ(0, 0), Occ(1, 0), Occ(2, 0)]), Entry("B", [Occ(0, 1), Occ(1, 1)]),
       Entry("C", [Occ(0, 2)]), Entry("D", [Occ(1, 2)]),
       Entry("E", [Occ(2, 1), Occ(3, 0)]), Entry("F", [Occ(3, 1)])]
  {
  }

  lemma TestShared(m: seq<Entry>)
    requires m == [Entry("A", [Occ(0, 0), Occ(1, 0), Occ(2, 0)]), Entry("B", [Occ(0, 1), Occ(1, 1)]),
                   Entry("C", [Occ(0, 2)]), Entry("D", [Occ(1, 2)]),
                   Entry("E", [Occ(2, 1), Occ(3, 0)]), Entry("F", [Occ(3, 1)])]
    ensures SharedOccurrences(m) == [[Occ(0, 0), Occ(1, 0), Occ(2, 0)], [Occ(0, 1), Occ(1, 1)], [Occ(2, 1), Occ(3, 0)]]
  {
    assert SharedOccurrences(m[..1]) == [[Occ(0, 0), Occ(1, 0), Occ(2, 0)]] by {
      assert m[..1][..0] == [];
    }
    assert SharedOccurrences(m[..2]) == [[Occ(0, 0), Occ(1, 0), Occ(2, 0)], [Occ(0, 1), Occ(1, 1)]] by {
      assert m[..2][..1] == m[..1];
    }
    assert SharedOccurrences(m[..3]) == [[Occ(0, 0), Occ(1, 0), Occ(2, 0)], [Occ(0, 1), Occ(1, 1)]] by {
      assert m[..3][..2] == m[..2];
    }
    assert SharedOccurrences(m[..4]) == [[Occ(0, 0), Occ(1, 0), Occ(2, 0)], [Occ(0, 1), Occ(1, 1)]] by {
      assert m[..4][..3] == m[..3];
    }
    assert SharedOccurrences(m[..5]) == [[Occ(0, 0), Occ(1, 0), Occ(2, 0)], [Occ(0, 1), Occ(1, 1)], [Occ(2, 1), Occ(3, 0)]] by {
      assert m[..5][..4] == m[..4];
    }
  }

  lemma TestCompares(a: seq<Occ>, b: seq<Occ>, c: seq<Occ>)
    requires a == [Occ(0, 0), Occ(1, 0), Occ(2, 0)] && b == [Occ(0, 1), Occ(1, 1)] && c == [Occ(2, 1), Occ(3, 0)]
    ensures CompareConditions(b, a) == 1 && CompareConditions(c, a) == 1 && CompareConditions(c, b) == 0
  {
    assert FindRel(a, 0, 0) == 0;
    assert FindRel(a, 2, 2) == 2 && FindRel(a, 2, 1) == 2 && FindRel(a, 2, 0) == 2;
    assert FindRel(b, 2, 2) == -1 && FindRel(b, 2, 1) == -1 && FindRel(b, 2, 0) == -1;
    assert FindRel(b, 3, 2) == -1 && FindRel(b, 3, 1) == -1 && FindRel(b, 3, 0) == -1;
    assert CompareConditionsFrom(c, b, 2) == 0;
    assert CompareConditionsFrom(c, b, 1) == 0;
  }

  lemma TestSort(xs: seq<seq<Occ>>)
    requires xs == [[Occ(0, 0), Occ(1, 0), Occ(2, 0)], [Occ(0, 1), Occ(1, 1)], [Occ(2, 1), Occ(3, 0)]]
    ensures SortConditions(xs) == xs
  {
    var a, b, c := xs[0], xs[1], xs[2];
    TestCompares(a, b, c);
    hide CompareConditions;
    assert SortConditions([a]) == [a] by {
      assert [a][..0] == [];
      assert SortConditions([]) == [];
    }
    assert SortConditions([a, b]) == [a, b] by {
      assert [a, b][..1] == [a];
      assert InsertCondition(b, [a]) == [a] + InsertCondition(b, []);
    }
    assert InsertCondition(c, [b]) == [b, c] by {
      assert [b][1..] == [];
    }
    assert InsertCondition(c, [a, b]) == [a, b, c] by {
      assert [a, b][1..] == [b];
    }
    assert xs == [a, b, c] && [a, b, c][..2] == [a, b];
  }

  /** The test schema joins R1, R2, R3 on A, R1 and R2 on B, and R3 and R4
      on E, in that order: A is the first column of R1, B its second, and
      E is decided at R3, where it follows A. */
  lemma TestJoinConditions()
    ensures JoinConditions(AttributeLists(TestTables())) ==
      [[Occ(0, 0), Occ(1, 0), Occ(2, 0)], [Occ(0, 1), Occ(1, 1)], [Occ(2, 1), Occ(3, 0)]]
  {
    TestMap();
    TestShared(FindAttributePositions(AttributeLists(TestTables())));
    TestSort(SharedOccurrences(FindAttributePositions(AttributeLists(TestTables()))));
  }
}

=== FILE: levels.dfy ===
/** The Leapfrog Triejoin (LeapfrogTriejoin): one cursor per relation and
    one unary join per join condition, the levels of a depth-first search.
    Level l binds the l-th join variable; a unary join at level l works on
    the cursors of the relations that condition names, which the levels
    share. The search stops on every binding of all the variables that each
    relation's current row agrees with. */
module Levels {
  import opened Seqs
  import Relation
  import Cursor
  import Unary

  type Cur = Cursor.Cursor
  type Table = Cursor.Table

  /** The cursors, the unary join of each level, the deepest open level
      (-1 before the first open) and the overall end flag. */
  datatype Join = Join(cursors: seq<Cur>, levels: seq<Unary.Unary>, depth: int, overallAtEnd: bool)

  /** The constructor: a fresh cursor for each of n relations and a unary
      join over the relations each condition names. */
  function Build(n: nat, conds: seq<seq<nat>>): Join
  {
    Join(seq(n, r => Cursor.Fresh()),
         seq(|conds|, l requires 0 <= l < |conds| => Unary.Unary(conds[l], 0, false)),
         -1, false)
  }

  // ---------------------------------------------------------------------
  // Levels and columns
  // ---------------------------------------------------------------------

  /** The number of levels 0 .. d whose condition names relation r. */
  function CountUpTo(conds: seq<seq<nat>>, r: nat, d: int): nat
    requires d < |conds|
    decreases d + 1
  {
    if d < 0 then 0 else CountUpTo(conds, r, d - 1) + (if r in conds[d] then 1 else 0)
  }

  /** The column relation r binds at level l: one column per earlier level
      that names it. */
  function Col(conds: seq<seq<nat>>, r: nat, l: int): nat
    requires 0 <= l < |conds|
  {
    CountUpTo(conds, r, l - 1)
  }

  lemma {:induction false} CountUpToMonotone(conds: seq<seq<nat>>, r: nat, d: int, d': int)
    requires d <= d' < |conds|
    ensures CountUpTo(conds, r, d) <= CountUpTo(conds, r, d')
    decreases d' - d
  {
    if d < d' {
      CountUpToMonotone(conds, r, d, d' - 1);
    }
  }

  /** A relation binds a later column at every later level that names it. */
  lemma ColIncreasing(conds: seq<seq<nat>>, r: nat, l: int, l': int)
    requires 0 <= l < l' < |conds| && r in conds[l]
    ensures Col(conds, r, l) < Col(conds, r, l')
  {
    CountUpToMonotone(conds, r, l, l' - 1);
  }

  /** The tables have the widths ws, there is at least one join condition,
      every condition names distinct relations, and every relation has a
      column for each level that names it. */
  predicate Schema(ts: seq<Table>, ws: seq<nat>, conds: seq<seq<nat>>)
  {
    Unary.Tables(ts, ws) && |conds| > 0 &&
    (forall l :: 0 <= l < |conds| ==> |conds[l]| > 0 && Distinct(conds[l])) &&
    (forall l, i :: 0 <= l < |conds| && 0 <= i < |conds[l]| ==>
       conds[l][i] < |ts| && Col(conds, conds[l][i], l) < ws[conds[l][i]])
  }

  /** A level's unary join ranges over the relations of its condition, in
      some order, with its turn in range. */
  predicate LevelOk(cond: seq<nat>, u: Unary.Unary)
  {
    |u.members| == |cond| && Distinct(u.members) && (forall r :: r in u.members ==> r in cond) && (forall r :: r in cond ==> r in u.members) &&
    0 <= u.p < |u.members|
  }

  /** The state is well formed: valid cursors, one level per condition, the
      depth in range, and each cursor bound one column per open level that
      names its relation. */
  predicate Wf(ts: seq<Table>, ws: seq<nat>, conds: seq<seq<nat>>, j: Join)
  {
    Schema(ts, ws, conds) && Unary.CursorsValid(ts, ws, j.cursors) &&
    |j.levels| == |conds| && -1 <= j.depth < |conds| &&
    (forall l :: 0 <= l < |conds| ==> LevelOk(conds[l], j.levels[l])) &&
    (forall r :: 0 <= r < |j.cursors| ==> j.cursors[r].depth == CountUpTo(conds, r, j.depth) - 1)
  }

  /** The constructed join is well formed. */
  lemma BuildWf(ts: seq<Table>, ws: seq<nat>, conds: seq<seq<nat>>)
    requires Schema(ts, ws, conds)
    ensures Wf(ts, ws, conds, Build(|ts|, conds))
    ensures forall r :: 0 <= r < |ts| ==> Build(|ts|, conds).cursors[r] == Cursor.Fresh()
  {
    var j := Build(|ts|, conds);
    forall r | 0 <= r < |ts| ensures Cursor.Valid(ts[r], ws[r], j.cursors[r]) {
      assert Cursor.Rect(ts[r], ws[r]);
    }
  }

  // ---------------------------------------------------------------------
  // The private operations on the current level
  // ---------------------------------------------------------------------

  /** atEnd(): the current level's unary join has ended. */
  function AtEnd(j: Join): bool
    requires 0 <= j.depth < |j.levels|
  {
    j.levels[j.depth].atEnd
  }

  /** The current level's unary join is over its condition's relations,
      each with a bound column. */
  lemma CurrentReady(ts: seq<Table>, ws: seq<nat>, conds: seq<seq<nat>>, j: Join)
    requires Wf(ts, ws, conds, j) && 0 <= j.depth
    ensures Unary.Ready(ts, ws, j.cursors, j.levels[j.depth].members)
    ensures 0 <= j.levels[j.depth].p < |j.levels[j.depth].members|
  {
    var d := j.depth;
    var u := j.levels[d];
    assert LevelOk(conds[d], u);
    forall i | 0 <= i < |u.members| ensures u.members[i] < |j.cursors| && j.cursors[u.members[i]].depth >= 0 {
      assert u.members[i] in conds[d];
      var i' :| 0 <= i' < |conds[d]| && conds[d][i'] == u.members[i];
    }
  }

  /** The next level's relations can all bind one more column. */
  lemma NextOpenable(ts: seq<Table>, ws: seq<nat>, conds: seq<seq<nat>>, j: Join)
    requires Wf(ts, ws, conds, j) && j.depth + 1 < |conds|
    ensures Unary.Openable(ts, ws, j.cursors, j.levels[j.depth + 1].members)
  {
    var d := j.depth + 1;
    var u := j.levels[d];
    assert LevelOk(conds[d], u);
    forall i | 0 <= i < |u.members|
      ensures u.members[i] < |j.cursors| && j.cursors[u.members[i]].depth + 1 < ws[u.members[i]]
    {
      assert u.members[i] in conds[d];
      var i' :| 0 <= i' < |conds[d]| && conds[d][i'] == u.members[i];
    }
  }

  /** next(): advance the current level. */
  function LevelNext(ts: seq<Table>, ws: seq<nat>, conds: seq<seq<nat>>, j: Join): (j': Join)
    requires Wf(ts, ws, conds, j) && 0 <= j.depth
    ensures Wf(ts, ws, conds, j') && j'.depth == j.depth && j'.overallAtEnd == j.overallAtEnd
    ensures forall l :: 0 <= l < |conds| && l != j.depth ==> j'.levels[l] == j.levels[l]
  {
    var d := j.depth;
    var u := j.levels[d];
    CurrentReady(ts, ws, conds, j);
    var s := Unary.Next(ts, ws, j.cursors, u);
    j.(cursors := s.cursors, levels := j.levels[d := s.u])
  }

  /** open(): open the next level. The sorted initialisation is used, see
      Unary.OpenSorted. */
  function LevelOpen(ts: seq<Table>, ws: seq<nat>, conds: seq<seq<nat>>, j: Join): (j': Join)
    requires Wf(ts, ws, conds, j) && j.depth + 1 < |conds|
    ensures Wf(ts, ws, conds, j') && j'.depth == j.depth + 1 && j'.overallAtEnd == j.overallAtEnd
    ensures forall l :: 0 <= l < |conds| && l != j'.depth ==> j'.levels[l] == j.levels[l]
  {
    hide Unary.OpenSorted;
    var d := j.depth + 1;
    var u := j.levels[d];
    NextOpenable(ts, ws, conds, j);
    var s := Unary.OpenSorted(ts, ws, j.cursors, u);
    OpenedWf(ts, ws, conds, j, s.cursors, s.u);
    j.(cursors := s.cursors, levels := j.levels[d := s.u], depth := d)
  }

  /** Replacing the cursors and the next level's unary join by those its
      opening produced keeps the state well formed one level deeper. */
  lemma OpenedWf(ts: seq<Table>, ws: seq<nat>, conds: seq<seq<nat>>, j: Join, cs': seq<Cur>, u': Unary.Unary)
    requires Wf(ts, ws, conds, j) && j.depth + 1 < |conds|
    requires var u := j.levels[j.depth + 1];
      Unary.CursorsValid(ts, ws, cs') && |cs'| == |j.cursors| &&
      |u'.members| == |u.members| && Distinct(u'.members) && 0 <= u'.p < |u'.members| &&
      (forall r :: r in u'.members <==> r in u.members) &&
      (forall r {:trigger cs'[r]} :: 0 <= r < |j.cursors| && r in u.members ==> cs'[r].depth == j.cursors[r].depth + 1) &&
      (forall r {:trigger cs'[r]} :: 0 <= r < |j.cursors| && r !in u.members ==> cs'[r] == j.cursors[r])
    ensures Wf(ts, ws, conds, j.(cursors := cs', levels := j.levels[j.depth + 1 := u'], depth := j.depth + 1))
  {
    var d := j.depth + 1;
    var u := j.levels[d];
    assert LevelOk(conds[d], u);
    assert LevelOk(conds[d], u');
    OpenDepths(conds, j.cursors, cs', d, u.members);
  }

  /** Opening the members of level d, exactly the relations its condition
      names, binds one more column of each. */
  lemma OpenDepths(conds: seq<seq<nat>>, cs: seq<Cur>, cs': seq<Cur>, d: int, ms: seq<nat>)
    requires 0 <= d < |conds| && |cs'| == |cs|
    requires forall r :: r in ms ==> r in conds[d]
    requires forall r :: r in conds[d] ==> r in ms
    requires forall r :: 0 <= r < |cs| ==> cs[r].depth == CountUpTo(conds, r, d - 1) - 1
    requires forall r :: 0 <= r < |cs| && r in ms ==> cs'[r].depth == cs[r].depth + 1
    requires forall r :: 0 <= r < |cs| && r !in ms ==> cs'[r] == cs[r]
    ensures forall r :: 0 <= r < |cs| ==> cs'[r].depth == CountUpTo(conds, r, d) - 1
  {
  }

  /** up(): close the current level. */
  function LevelUp(ts: seq<Table>, ws: seq<nat>, conds: seq<seq<nat>>, j: Join): (j': Join)
    requires Wf(ts, ws, conds, j) && 0 <= j.depth
    ensures Wf(ts, ws, conds, j') && j'.depth == j.depth - 1 && j'.overallAtEnd == j.overallAtEnd
    ensures j'.levels == j.levels
    ensures forall r :: 0 <= r < |j.cursors| ==> j'.cursors[r].pos == j.cursors[r].pos
    ensures forall r :: 0 <= r < |j.cursors| && r !in conds[j.depth] ==> j'.cursors[r] == j.cursors[r]
  {
    assert LevelOk(conds[j.depth], j.levels[j.depth]);
    var s := Unary.Up(j.cursors, j.levels[j.depth]);
    j.(cursors := s.cursors, depth := j.depth - 1)
  }

  // ---------------------------------------------------------------------
  // Bound values
  // ---------------------------------------------------------------------

  /** The value relation r's current row holds in the column it binds at
      level l. */
  function Val(ts: seq<Table>, ws: seq<nat>, conds: seq<seq<nat>>, cs: seq<Cur>, r: nat, l: int): int
    requires Schema(ts, ws, conds) && Unary.CursorsValid(ts, ws, cs) && 0 <= l < |conds| && r in conds[l]
  {
    ts[r][cs[r].pos][Col(conds, r, l)]
  }

  /** The relations of condition l agree on the value they bind there. */
  predicate Agreed(ts: seq<Table>, ws: seq<nat>, conds: seq<seq<nat>>, cs: seq<Cur>, l: int)
    requires Schema(ts, ws, conds) && Unary.CursorsValid(ts, ws, cs) && 0 <= l < |conds|
  {
    forall r, r' :: r in conds[l] && r' in conds[l] ==> Val(ts, ws, conds, cs, r, l) == Val(ts, ws, conds, cs, r', l)
  }

  /** Every relation of condition l moved, if at all, within the block of
      the columns it binds up to and including level l. */
  predicate PrefixKept(ts: seq<Table>, ws: seq<nat>, conds: seq<seq<nat>>, cs: seq<Cur>, cs': seq<Cur>, l: int)
    requires Schema(ts, ws, conds) && Unary.CursorsValid(ts, ws, cs) && Unary.CursorsValid(ts, ws, cs') && 0 <= l < |conds|
  {
    forall r :: r in conds[l] ==> Cursor.SamePrefix(ts[r], cs[r].pos, cs'[r].pos, Col(conds, r, l) + 1)
  }

  /** A relation that no condition names. */
  predicate Unused(conds: seq<seq<nat>>, r: nat)
  {
    forall l :: 0 <= l < |conds| ==> r !in conds[l]
  }

  /** The cursor of relation r binds, at the current depth, the column of
      level l. */
  lemma DepthIsCol(ts: seq<Table>, ws: seq<nat>, conds: seq<seq<nat>>, j: Join, r: nat)
    requires Wf(ts, ws, conds, j) && 0 <= j.depth && r in conds[j.depth]
    ensures r < |j.cursors| && j.cursors[r].depth == Col(conds, r, j.depth)
  {
    var i :| 0 <= i < |conds[j.depth]| && conds[j.depth][i] == r;
  }

  /** A unary join whose keys all agree makes its condition agree. */
  lemma KeysAgreed(ts: seq<Table>, ws: seq<nat>, conds: seq<seq<nat>>, j: Join)
    requires Wf(ts, ws, conds, j) && 0 <= j.depth
    requires Unary.Ready(ts, ws, j.cursors, j.levels[j.depth].members)
    requires Unary.AllEqual(Unary.Keys(ts, ws, j.cursors, j.levels[j.depth].members))
    ensures Agreed(ts, ws, conds, j.cursors, j.depth)
  {
    var d := j.depth;
    var ms := j.levels[d].members;
    assert LevelOk(conds[d], j.levels[d]);
    var ks := Unary.Keys(ts, ws, j.cursors, ms);
    forall r, r' | r in conds[d] && r' in conds[d]
      ensures Val(ts, ws, conds, j.cursors, r, d) == Val(ts, ws, conds, j.cursors, r', d)
    {
      var i :| 0 <= i < |ms| && ms[i] == r;
      var i' :| 0 <= i' < |ms| && ms[i'] == r';
      DepthIsCol(ts, ws, conds, j, r);
      DepthIsCol(ts, ws, conds, j, r');
      assert ks[i] == Val(ts, ws, conds, j.cursors, r, d);
      assert ks[i'] == Val(ts, ws, conds, j.cursors, r', d);
    }
  }

  /** Rows that keep their bound prefix keep their bound values. */
  lemma AgreedKept(ts: seq<Table>, ws: seq<nat>, conds: seq<seq<nat>>, cs: seq<Cur>, cs': seq<Cur>, l: int)
    requires Schema(ts, ws, conds) && Unary.CursorsValid(ts, ws, cs) && Unary.CursorsValid(ts, ws, cs') && 0 <= l < |conds|
    requires PrefixKept(ts, ws, conds, cs, cs', l) && Agreed(ts, ws, conds, cs, l)
    ensures Agreed(ts, ws, conds, cs', l)
  {
    forall r | r in conds[l] ensures Val(ts, ws, conds, cs', r, l) == Val(ts, ws, conds, cs, r, l) {
      assert Cursor.SamePrefix(ts[r], cs[r].pos, cs'[r].pos, Col(conds, r, l) + 1);
    }
  }

  // ---------------------------------------------------------------------
  // Progress: one digit per level, read lexicographically
  // ---------------------------------------------------------------------

  /** Rows of relation r past the block of its current row on the columns
      it binds up to and including level l. */
  function Ahead(ts: seq<Table>, ws: seq<nat>, conds: seq<seq<nat>>, cs: seq<Cur>, r: nat, l: int): nat
    requires Unary.CursorsValid(ts, ws, cs) && r < |cs| && 0 <= l < |conds|
  {
    |ts[r]| - Cursor.BlockEnd(ts[r], cs[r].pos, Col(conds, r, l) + 1)
  }

  /** Ahead summed over the relations ms. */
  function AheadSum(ts: seq<Table>, ws: seq<nat>, conds: seq<seq<nat>>, cs: seq<Cur>, ms: seq<nat>, l: int): nat
    requires Unary.CursorsValid(ts, ws, cs) && 0 <= l < |conds|
    requires forall i :: 0 <= i < |ms| ==> ms[i] < |cs|
  {
    if |ms| == 0 then 0
    else AheadSum(ts, ws, conds, cs, ms[..|ms| - 1], l) + Ahead(ts, ws, conds, cs, ms[|ms| - 1], l)
  }

  /** The rows of the relations ms. */
  function Rows(ts: seq<Table>, ms: seq<nat>): nat
    requires forall i :: 0 <= i < |ms| ==> ms[i] < |ts|
  {
    if |ms| == 0 then 0 else Rows(ts, ms[..|ms| - 1]) + |ts[ms[|ms| - 1]]|
  }

  lemma {:induction false} AheadSumBound(ts: seq<Table>, ws: seq<nat>, conds: seq<seq<nat>>, cs: seq<Cur>, ms: seq<nat>, l: int)
    requires Unary.CursorsValid(ts, ws, cs) && 0 <= l < |conds|
    requires forall i :: 0 <= i < |ms| ==> ms[i] < |cs|
    ensures AheadSum(ts, ws, conds, cs, ms, l) <= Rows(ts, ms)
  {
    if |ms| > 0 {
      AheadSumBound(ts, ws, conds, cs, ms[..|ms| - 1], l);
    }
  }

  /** If no relation of ms has more rows ahead after a move, the sum has
      not grown; if relation ms[k] has fewer, it has shrunk. */
  lemma {:induction false} AheadSumMono(ts: seq<Table>, ws: seq<nat>, conds: seq<seq<nat>>, cs: seq<Cur>, cs': seq<Cur>, ms: seq<nat>, l: int, k: int)
    requires Unary.CursorsValid(ts, ws, cs) && Unary.CursorsValid(ts, ws, cs') && 0 <= l < |conds|
    requires forall i :: 0 <= i < |ms| ==> ms[i] < |cs|
    requires forall i :: 0 <= i < |ms| ==> Ahead(ts, ws, conds, cs', ms[i], l) <= Ahead(ts, ws, conds, cs, ms[i], l)
    ensures AheadSum(ts, ws, conds, cs', ms, l) <= AheadSum(ts, ws, conds, cs, ms, l)
    ensures 0 <= k < |ms| && Ahead(ts, ws, conds, cs', ms[k], l) < Ahead(ts, ws, conds, cs, ms[k], l) ==>
      AheadSum(ts, ws, conds, cs', ms, l) < AheadSum(ts, ws, conds, cs, ms, l)
  {
    if |ms| > 0 {
      AheadSumMono(ts, ws, conds, cs, cs', ms[..|ms| - 1], l, k);
    }
  }

  /** The digit of level l: twice the rows its relations have ahead, plus
      one while the level has not ended. */
  function Digit(ts: seq<Table>, ws: seq<nat>, conds: seq<seq<nat>>, j: Join, l: int): nat
    requires Wf(ts, ws, conds, j) && 0 <= l < |conds|
  {
    2 * AheadSum(ts, ws, conds, j.cursors, conds[l], l) + (if j.levels[l].atEnd then 0 else 1)
  }

  /** The base of level l's digit. */
  function Base(ts: seq<Table>, ws: seq<nat>, conds: seq<seq<nat>>, l: int): nat
    requires Schema(ts, ws, conds) && 0 <= l < |conds|
  {
    2 * Rows(ts, conds[l]) + 2
  }

  function Digits(ts: seq<Table>, ws: seq<nat>, conds: seq<seq<nat>>, j: Join): (ds: seq<nat>)
    requires Wf(ts, ws, conds, j)
    ensures |ds| == |conds|
  {
    seq(|conds|, l requires 0 <= l < |conds| => Digit(ts, ws, conds, j, l))
  }

  function Bases(ts: seq<Table>, ws: seq<nat>, conds: seq<seq<nat>>): (bs: seq<nat>)
    requires Schema(ts, ws, conds)
    ensures |bs| == |conds|
  {
    seq(|conds|, l requires 0 <= l < |conds| => Base(ts, ws, conds, l))
  }

  /** The digits ds read in the mixed radix bs, most significant first. */
  function Encode(ds: seq<nat>, bs: seq<nat>): nat
    requires |ds| == |bs|
  {
    if |ds| == 0 then 0 else Encode(ds[..|ds| - 1], bs[..|bs| - 1]) * bs[|bs| - 1] + ds[|ds| - 1]
  }

  /** a is below b in the lexicographic order, first differing at e. */
  predicate LexBelow(a: seq<nat>, b: seq<nat>, e: int)
  {
    |a| == |b| && 0 <= e < |a| && Agree(a, b, e) && a[e] < b[e]
  }

  lemma LexTrans(a: seq<nat>, b: seq<nat>, c: seq<nat>, e: int, e': int)
    requires LexBelow(a, b, e) && LexBelow(b, c, e')
    ensures LexBelow(a, c, if e < e' then e else e')
  {
  }

  /** A smaller leading part outweighs any last digit below the base. */
  lemma Carry(x: nat, y: nat, base: nat, da: nat, db: nat)
    requires x < y && da < base
    ensures x * base + da < y * base + db
  {
    var k := y - x;
    assert y * base == x * base + k * base;
    assert k * base >= base by {
      assert k * base == (k - 1) * base + base;
    }
  }

  /** Digits below their bases encode lexicographic order. */
  lemma {:induction false} EncodeLess(a: seq<nat>, b: seq<nat>, bs: seq<nat>, e: int)
    requires |bs| == |a| && LexBelow(a, b, e)
    requires forall i :: 0 <= i < |a| ==> a[i] < bs[i]
    ensures Encode(a, bs) < Encode(b, bs)
    decreases |a|
  {
    var n := |a|;
    var a', b', bs' := a[..n - 1], b[..n - 1], bs[..n - 1];
    if e == n - 1 {
      assert a' == b' by {
        forall i | 0 <= i < n - 1 ensures a'[i] == b'[i] {
          assert a[i] == b[i];
        }
      }
    } else {
      EncodeLess(a', b', bs', e);
      Carry(Encode(a', bs'), Encode(b', bs'), bs[n - 1], a[n - 1], b[n - 1]);
    }
  }

  /** Every digit is below its base. */
  lemma DigitsBelow(ts: seq<Table>, ws: seq<nat>, conds: seq<seq<nat>>, j: Join)
    requires Wf(ts, ws, conds, j)
    ensures forall l :: 0 <= l < |conds| ==> Digits(ts, ws, conds, j)[l] < Bases(ts, ws, conds)[l]
  {
    forall l | 0 <= l < |conds| ensures Digits(ts, ws, conds, j)[l] < Bases(ts, ws, conds)[l] {
      AheadSumBound(ts, ws, conds, j.cursors, conds[l], l);
    }
  }

  /** The termination measure of findNext. */
  function Measure(ts: seq<Table>, ws: seq<nat>, conds: seq<seq<nat>>, j: Join): nat
    requires Wf(ts, ws, conds, j)
  {
    Encode(Digits(ts, ws, conds, j), Bases(ts, ws, conds))
  }

  /** A state lexicographically below another has the smaller measure. */
  lemma MeasureLess(ts: seq<Table>, ws: seq<nat>, conds: seq<seq<nat>>, j: Join, j': Join, e: int)
    requires Wf(ts, ws, conds, j) && Wf(ts, ws, conds, j')
    requires LexBelow(Digits(ts, ws, conds, j'), Digits(ts, ws, conds, j), e)
    ensures Measure(ts, ws, conds, j') < Measure(ts, ws, conds, j)
  {
    DigitsBelow(ts, ws, conds, j');
    EncodeLess(Digits(ts, ws, conds, j'), Digits(ts, ws, conds, j), Bases(ts, ws, conds), e);
  }

  /** Over sorted tables, rows that keep their bound prefix keep the rows
      ahead of their block. */
  lemma AheadKept(ts: seq<Table>, ws: seq<nat>, conds: seq<seq<nat>>, cs: seq<Cur>, cs': seq<Cur>, l: int)
    requires Schema(ts, ws, conds) && Unary.CursorsValid(ts, ws, cs) && Unary.CursorsValid(ts, ws, cs') && 0 <= l < |conds|
    requires Unary.AllSorted(ts) && PrefixKept(ts, ws, conds, cs, cs', l)
    ensures AheadSum(ts, ws, conds, cs', conds[l], l) == AheadSum(ts, ws, conds, cs, conds[l], l)
  {
    forall i | 0 <= i < |conds[l]|
      ensures Ahead(ts, ws, conds, cs', conds[l][i], l) == Ahead(ts, ws, conds, cs, conds[l][i], l)
    {
      var r := conds[l][i];
      var lim := Col(conds, r, l) + 1;
      assert Cursor.Rect(ts[r], ws[r]) && Relation.Sorted(ts[r]) && lim <= ws[r];
      assert Cursor.SamePrefix(ts[r], cs[r].pos, cs'[r].pos, lim);
      if cs[r].pos <= cs'[r].pos {
        Cursor.BlockEndSame(ts[r], ws[r], cs[r].pos, cs'[r].pos, lim);
      } else {
        Cursor.BlockEndSame(ts[r], ws[r], cs'[r].pos, cs[r].pos, lim);
      }
    }
    AheadSumMono(ts, ws, conds, cs, cs', conds[l], l, -1);
    AheadSumMono(ts, ws, conds, cs', cs, conds[l], l, -1);
  }

  // ---------------------------------------------------------------------
  // What each level operation keeps and changes
  // ---------------------------------------------------------------------

  /** next() at level d moves cursors only within the blocks bound by the
      levels above d. */
  lemma LevelNextKeeps(ts: seq<Table>, ws: seq<nat>, conds: seq<seq<nat>>, j: Join)
    requires Wf(ts, ws, conds, j) && 0 <= j.depth
    ensures forall l :: 0 <= l < j.depth ==> PrefixKept(ts, ws, conds, j.cursors, LevelNext(ts, ws, conds, j).cursors, l)
    ensures forall r :: 0 <= r < |j.cursors| && r !in conds[j.depth] ==> LevelNext(ts, ws, conds, j).cursors[r] == j.cursors[r]
  {
    hide Unary.Next;
    var d := j.depth;
    var u := j.levels[d];
    CurrentReady(ts, ws, conds, j);
    Unary.NextPrefix(ts, ws, j.cursors, u);
    var cs := j.cursors;
    var cs' := LevelNext(ts, ws, conds, j).cursors;
    assert cs' == Unary.Next(ts, ws, cs, u).cursors;
    assert LevelOk(conds[d], u);
    forall l, r | 0 <= l < d && r in conds[l]
      ensures Cursor.SamePrefix(ts[r], cs[r].pos, cs'[r].pos, Col(conds, r, l) + 1)
    {
      if r in conds[d] {
        ColIncreasing(conds, r, l, d);
        DepthIsCol(ts, ws, conds, j, r);
      }
    }
  }

  /** The keys of an agreeing current level are all equal. */
  lemma AgreedKeys(ts: seq<Table>, ws: seq<nat>, conds: seq<seq<nat>>, j: Join)
    requires Wf(ts, ws, conds, j) && 0 <= j.depth && Agreed(ts, ws, conds, j.cursors, j.depth)
    ensures Unary.Ready(ts, ws, j.cursors, j.levels[j.depth].members)
    ensures Unary.AllEqual(Unary.Keys(ts, ws, j.cursors, j.levels[j.depth].members))
  {
    var d := j.depth;
    var ms := j.levels[d].members;
    CurrentReady(ts, ws, conds, j);
    assert LevelOk(conds[d], j.levels[d]);
    var ks := Unary.Keys(ts, ws, j.cursors, ms);
    forall i, i' | 0 <= i < |ks| && 0 <= i' < |ks| ensures ks[i] == ks[i'] {
      assert ms[i] in conds[d] && ms[i'] in conds[d];
      DepthIsCol(ts, ws, conds, j, ms[i]);
      DepthIsCol(ts, ws, conds, j, ms[i']);
      assert ks[i] == Val(ts, ws, conds, j.cursors, ms[i], d);
      assert ks[i'] == Val(ts, ws, conds, j.cursors, ms[i'], d);
    }
  }

  /** next() leaves the digits of the levels above the current one. */
  lemma LevelNextAbove(ts: seq<Table>, ws: seq<nat>, conds: seq<seq<nat>>, j: Join)
    requires Wf(ts, ws, conds, j) && Unary.AllSorted(ts) && 0 <= j.depth
    ensures Agree(Digits(ts, ws, conds, LevelNext(ts, ws, conds, j)), Digits(ts, ws, conds, j), j.depth)
  {
    hide LevelNext;
    var j' := LevelNext(ts, ws, conds, j);
    LevelNextKeeps(ts, ws, conds, j);
    forall l | 0 <= l < j.depth ensures Digits(ts, ws, conds, j')[l] == Digits(ts, ws, conds, j)[l] {
      AheadKept(ts, ws, conds, j.cursors, j'.cursors, l);
    }
  }

  /** next() moves no cursor back; it ends the level, or takes the cursor
      whose turn it was past the block of its bound columns. */
  lemma LevelNextMoves(ts: seq<Table>, ws: seq<nat>, conds: seq<seq<nat>>, j: Join)
    requires Wf(ts, ws, conds, j) && Unary.AllSorted(ts) && 0 <= j.depth
    ensures var j' := LevelNext(ts, ws, conds, j);
      forall r :: 0 <= r < |j.cursors| ==> j.cursors[r].pos <= j'.cursors[r].pos
    ensures var d := j.depth; var j' := LevelNext(ts, ws, conds, j); var rp := j.levels[d].members[j.levels[d].p];
      rp in conds[d] &&
      (j'.levels[d].atEnd ||
       Cursor.BlockEnd(ts[rp], j'.cursors[rp].pos, Col(conds, rp, d) + 1) > Cursor.BlockEnd(ts[rp], j.cursors[rp].pos, Col(conds, rp, d) + 1))
  {
    hide Unary.Next;
    var d := j.depth;
    var u := j.levels[d];
    CurrentReady(ts, ws, conds, j);
    var s := Unary.Next(ts, ws, j.cursors, u);
    assert LevelNext(ts, ws, conds, j) == j.(cursors := s.cursors, levels := j.levels[d := s.u]);
    Unary.NextLeaves(ts, ws, j.cursors, u);
    var rp := u.members[u.p];
    assert LevelOk(conds[d], u);
    DepthIsCol(ts, ws, conds, j, rp);
  }

  /** next() leaves no relation of the current level more rows ahead, and
      the key-holding relation fewer unless the level has ended. */
  lemma LevelNextAheadSum(ts: seq<Table>, ws: seq<nat>, conds: seq<seq<nat>>, j: Join)
    requires Wf(ts, ws, conds, j) && Unary.AllSorted(ts) && 0 <= j.depth && !AtEnd(j)
    ensures var j' := LevelNext(ts, ws, conds, j);
      Wf(ts, ws, conds, j') &&
      AheadSum(ts, ws, conds, j'.cursors, conds[j.depth], j.depth) <= AheadSum(ts, ws, conds, j.cursors, conds[j.depth], j.depth) &&
      (j'.levels[j.depth].atEnd ||
       AheadSum(ts, ws, conds, j'.cursors, conds[j.depth], j.depth) < AheadSum(ts, ws, conds, j.cursors, conds[j.depth], j.depth))
  {
    hide LevelNext, Seqs.Distinct, Relation.Sorted, Relation.Compare, AheadSum, Unary.AllSorted;
    var d := j.depth;
    var j' := LevelNext(ts, ws, conds, j);
    var cs, cs' := j.cursors, j'.cursors;
    LevelNextMoves(ts, ws, conds, j);
    forall i | 0 <= i < |conds[d]|
      ensures Ahead(ts, ws, conds, cs', conds[d][i], d) <= Ahead(ts, ws, conds, cs, conds[d][i], d)
    {
      var r := conds[d][i];
      Cursor.BlockEndMonotone(ts[r], cs[r].pos, cs'[r].pos, Col(conds, r, d) + 1);
    }
    var rp := j.levels[d].members[j.levels[d].p];
    var k :| 0 <= k < |conds[d]| && conds[d][k] == rp;
    AheadSumMono(ts, ws, conds, cs, cs', conds[d], d, k);
  }

  /** next() on a level that has not ended lowers its digit. */
  lemma LevelNextOwn(ts: seq<Table>, ws: seq<nat>, conds: seq<seq<nat>>, j: Join)
    requires Wf(ts, ws, conds, j) && Unary.AllSorted(ts) && 0 <= j.depth && !AtEnd(j)
    ensures Digits(ts, ws, conds, LevelNext(ts, ws, conds, j))[j.depth] < Digits(ts, ws, conds, j)[j.depth]
  {
    hide LevelNext, Seqs.Distinct, Relation.Sorted, Relation.Compare, AheadSum;
    var d := j.depth;
    var j' := LevelNext(ts, ws, conds, j);
    LevelNextAheadSum(ts, ws, conds, j);
    assert Digits(ts, ws, conds, j)[d] == Digit(ts, ws, conds, j, d);
    assert Digits(ts, ws, conds, j')[d] == Digit(ts, ws, conds, j', d);
  }

  /** next() on a level that has not ended moves the state lexicographically
      down, first differing at the current level. */
  lemma LevelNextDigits(ts: seq<Table>, ws: seq<nat>, conds: seq<seq<nat>>, j: Join)
    requires Wf(ts, ws, conds, j) && Unary.AllSorted(ts) && 0 <= j.depth && !AtEnd(j)
    ensures LexBelow(Digits(ts, ws, conds, LevelNext(ts, ws, conds, j)), Digits(ts, ws, conds, j), j.depth)
  {
    hide LevelNext;
    LevelNextAbove(ts, ws, conds, j);
    LevelNextOwn(ts, ws, conds, j);
  }

  /** Cursors that move within the block of the columns they have bound
      keep the prefix of every level before d. */
  lemma PrefixKeptBelow(ts: seq<Table>, ws: seq<nat>, conds: seq<seq<nat>>, cs: seq<Cur>, cs': seq<Cur>, d: int)
    requires Schema(ts, ws, conds) && Unary.CursorsValid(ts, ws, cs) && Unary.CursorsValid(ts, ws, cs') && 0 <= d < |conds|
    requires forall r :: 0 <= r < |cs| ==> cs[r].depth == CountUpTo(conds, r, d - 1) - 1
    requires forall r :: 0 <= r < |cs| ==> Cursor.SamePrefix(ts[r], cs[r].pos, cs'[r].pos, cs[r].depth + 1)
    ensures forall l :: 0 <= l < d ==> PrefixKept(ts, ws, conds, cs, cs', l)
  {
    forall l, r | 0 <= l < d && r in conds[l]
      ensures Cursor.SamePrefix(ts[r], cs[r].pos, cs'[r].pos, Col(conds, r, l) + 1)
    {
      var i :| 0 <= i < |conds[l]| && conds[l][i] == r;
      CountUpToMonotone(conds, r, l, d - 1);
    }
  }

  /** open() of level d + 1 moves cursors only within the blocks bound by
      the levels down to d. */
  lemma LevelOpenKeeps(ts: seq<Table>, ws: seq<nat>, conds: seq<seq<nat>>, j: Join)
    requires Wf(ts, ws, conds, j) && j.depth + 1 < |conds|
    ensures forall l :: 0 <= l <= j.depth ==> PrefixKept(ts, ws, conds, j.cursors, LevelOpen(ts, ws, conds, j).cursors, l)
  {
    hide Unary.OpenSorted;
    var u := j.levels[j.depth + 1];
    NextOpenable(ts, ws, conds, j);
    Unary.OpenSortedPrefix(ts, ws, j.cursors, u);
    var cs' := LevelOpen(ts, ws, conds, j).cursors;
    assert cs' == Unary.OpenSorted(ts, ws, j.cursors, u).cursors;
    PrefixKeptBelow(ts, ws, conds, j.cursors, cs', j.depth + 1);
  }

  /** open() of level d + 1 moves only the cursors its condition names. */
  lemma LevelOpenFrame(ts: seq<Table>, ws: seq<nat>, conds: seq<seq<nat>>, j: Join)
    requires Wf(ts, ws, conds, j) && j.depth + 1 < |conds|
    ensures forall r :: 0 <= r < |j.cursors| && r !in conds[j.depth + 1] ==> LevelOpen(ts, ws, conds, j).cursors[r] == j.cursors[r]
  {
    hide Unary.OpenSorted;
    var u := j.levels[j.depth + 1];
    NextOpenable(ts, ws, conds, j);
    assert LevelOk(conds[j.depth + 1], u);
    assert LevelOpen(ts, ws, conds, j).cursors == Unary.OpenSorted(ts, ws, j.cursors, u).cursors;
  }

  /** open() leaves the digits of the levels down to the current one. */
  lemma LevelOpenDigits(ts: seq<Table>, ws: seq<nat>, conds: seq<seq<nat>>, j: Join)
    requires Wf(ts, ws, conds, j) && Unary.AllSorted(ts) && j.depth + 1 < |conds|
    ensures Agree(Digits(ts, ws, conds, LevelOpen(ts, ws, conds, j)), Digits(ts, ws, conds, j), j.depth + 1)
  {
    hide LevelOpen;
    var j' := LevelOpen(ts, ws, conds, j);
    LevelOpenKeeps(ts, ws, conds, j);
    forall l | 0 <= l <= j.depth ensures Digits(ts, ws, conds, j')[l] == Digits(ts, ws, conds, j)[l] {
      AheadKept(ts, ws, conds, j.cursors, j'.cursors, l);
    }
  }

  /** up() moves no cursor, so every level keeps its digit and agreement. */
  lemma LevelUpKeeps(ts: seq<Table>, ws: seq<nat>, conds: seq<seq<nat>>, j: Join)
    requires Wf(ts, ws, conds, j) && Unary.AllSorted(ts) && 0 <= j.depth
    ensures Digits(ts, ws, conds, LevelUp(ts, ws, conds, j)) == Digits(ts, ws, conds, j)
    ensures forall l :: 0 <= l < |conds| ==> PrefixKept(ts, ws, conds, j.cursors, LevelUp(ts, ws, conds, j).cursors, l)
  {
    hide LevelUp;
    var j' := LevelUp(ts, ws, conds, j);
    forall l | 0 <= l < |conds| ensures Digits(ts, ws, conds, j')[l] == Digits(ts, ws, conds, j)[l] {
      AheadKept(ts, ws, conds, j.cursors, j'.cursors, l);
    }
  }

  // ---------------------------------------------------------------------
  // The invariant of findNext
  // ---------------------------------------------------------------------

  /** Well formed over sorted tables; relations no condition names keep a
      fresh cursor; the levels above the current one have not ended and
      agree, and so does the current one unless it has ended; the overall
      end is only raised on an ended level 0. */
  predicate Inv(ts: seq<Table>, ws: seq<nat>, conds: seq<seq<nat>>, j: Join)
  {
    Wf(ts, ws, conds, j) && Unary.AllSorted(ts) &&
    (forall r :: 0 <= r < |j.cursors| && Unused(conds, r) ==> j.cursors[r] == Cursor.Fresh()) &&
    (forall l :: 0 <= l < j.depth ==> !j.levels[l].atEnd) &&
    (forall l :: 0 <= l <= j.depth && (l < j.depth || !j.levels[l].atEnd) ==> Agreed(ts, ws, conds, j.cursors, l)) &&
    (j.overallAtEnd ==> j.depth == 0 && j.levels[0].atEnd)
  }

  /** The constructed join satisfies the invariant over sorted tables. */
  lemma BuildInv(ts: seq<Table>, ws: seq<nat>, conds: seq<seq<nat>>)
    requires Schema(ts, ws, conds) && Unary.AllSorted(ts)
    ensures Inv(ts, ws, conds, Build(|ts|, conds))
  {
    BuildWf(ts, ws, conds);
  }

  lemma LevelUpInv(ts: seq<Table>, ws: seq<nat>, conds: seq<seq<nat>>, j: Join)
    requires Inv(ts, ws, conds, j) && 0 <= j.depth && !j.overallAtEnd
    ensures Inv(ts, ws, conds, LevelUp(ts, ws, conds, j))
  {
    hide LevelUp;
    var j' := LevelUp(ts, ws, conds, j);
    LevelUpKeeps(ts, ws, conds, j);
    forall l | 0 <= l <= j'.depth ensures Agreed(ts, ws, conds, j'.cursors, l) {
      AgreedKept(ts, ws, conds, j.cursors, j'.cursors, l);
    }
    forall r | 0 <= r < |j'.cursors| && Unused(conds, r) ensures j'.cursors[r] == Cursor.Fresh() {
      assert r !in conds[j.depth];
    }
  }

  /** next() keeps the agreement of the levels above. */
  lemma LevelNextAgreedAbove(ts: seq<Table>, ws: seq<nat>, conds: seq<seq<nat>>, j: Join)
    requires Inv(ts, ws, conds, j) && 0 <= j.depth
    ensures forall l :: 0 <= l < j.depth ==> Agreed(ts, ws, conds, LevelNext(ts, ws, conds, j).cursors, l)
  {
    hide LevelNext;
    var j' := LevelNext(ts, ws, conds, j);
    LevelNextKeeps(ts, ws, conds, j);
    forall l | 0 <= l < j.depth ensures Agreed(ts, ws, conds, j'.cursors, l) {
      AgreedKept(ts, ws, conds, j.cursors, j'.cursors, l);
    }
  }

  /** next() from an agreeing level either ends it or agrees again. */
  lemma LevelNextAgreedHere(ts: seq<Table>, ws: seq<nat>, conds: seq<seq<nat>>, j: Join)
    requires Inv(ts, ws, conds, j) && 0 <= j.depth && !AtEnd(j)
    ensures var j' := LevelNext(ts, ws, conds, j);
      !AtEnd(j') ==> Agreed(ts, ws, conds, j'.cursors, j.depth)
  {
    hide Unary.Next;
    var d := j.depth;
    var u := j.levels[d];
    var j' := LevelNext(ts, ws, conds, j);
    if !j'.levels[d].atEnd {
      AgreedKeys(ts, ws, conds, j);
      assert LevelOk(conds[d], u);
      Unary.NextAdvances(ts, ws, j.cursors, u);
      var s := Unary.Next(ts, ws, j.cursors, u);
      assert j' == j.(cursors := s.cursors, levels := j.levels[d := s.u]);
      CurrentReady(ts, ws, conds, j');
      KeysAgreed(ts, ws, conds, j');
    }
  }

  lemma LevelNextInv(ts: seq<Table>, ws: seq<nat>, conds: seq<seq<nat>>, j: Join)
    requires Inv(ts, ws, conds, j) && 0 <= j.depth && !AtEnd(j) && !j.overallAtEnd
    ensures Inv(ts, ws, conds, LevelNext(ts, ws, conds, j))
  {
    hide LevelNext;
    var j' := LevelNext(ts, ws, conds, j);
    LevelNextAgreedAbove(ts, ws, conds, j);
    LevelNextAgreedHere(ts, ws, conds, j);
    LevelNextKeeps(ts, ws, conds, j);
    forall r | 0 <= r < |j'.cursors| && Unused(conds, r) ensures j'.cursors[r] == Cursor.Fresh() {
      assert r !in conds[j.depth];
    }
  }

  /** open() keeps the agreement of the levels down to the current one. */
  lemma LevelOpenAgreedAt(ts: seq<Table>, ws: seq<nat>, conds: seq<seq<nat>>, j: Join, l: int)
    requires Wf(ts, ws, conds, j) && j.depth + 1 < |conds| && 0 <= l <= j.depth
    requires Agreed(ts, ws, conds, j.cursors, l)
    ensures Agreed(ts, ws, conds, LevelOpen(ts, ws, conds, j).cursors, l)
  {
    hide LevelOpen;
    LevelOpenKeeps(ts, ws, conds, j);
    AgreedKept(ts, ws, conds, j.cursors, LevelOpen(ts, ws, conds, j).cursors, l);
  }

  lemma LevelOpenAgreedAbove(ts: seq<Table>, ws: seq<nat>, conds: seq<seq<nat>>, j: Join)
    requires Inv(ts, ws, conds, j) && j.depth + 1 < |conds| && (j.depth == -1 || !AtEnd(j))
    ensures forall l :: 0 <= l <= j.depth ==> Agreed(ts, ws, conds, LevelOpen(ts, ws, conds, j).cursors, l)
  {
    hide LevelOpen;
    forall l | 0 <= l <= j.depth ensures Agreed(ts, ws, conds, LevelOpen(ts, ws, conds, j).cursors, l) {
      LevelOpenAgreedAt(ts, ws, conds, j, l);
    }
  }

  /** The opened level either ends at once or agrees. */
  lemma LevelOpenAgreedHere(ts: seq<Table>, ws: seq<nat>, conds: seq<seq<nat>>, j: Join)
    requires Wf(ts, ws, conds, j) && j.depth + 1 < |conds|
    ensures var j' := LevelOpen(ts, ws, conds, j);
      !AtEnd(j') ==> Agreed(ts, ws, conds, j'.cursors, j'.depth)
  {
    hide Unary.OpenSorted;
    var d := j.depth + 1;
    var u := j.levels[d];
    var j' := LevelOpen(ts, ws, conds, j);
    if !j'.levels[d].atEnd {
      NextOpenable(ts, ws, conds, j);
      Unary.OpenSortedAgrees(ts, ws, j.cursors, u);
      var s := Unary.OpenSorted(ts, ws, j.cursors, u);
      assert j' == j.(cursors := s.cursors, levels := j.levels[d := s.u], depth := d);
      CurrentReady(ts, ws, conds, j');
      KeysAgreed(ts, ws, conds, j');
    }
  }

  /** open() below a level that has not ended leaves no ended level above
      the new one. */
  lemma LevelOpenQuiet(ts: seq<Table>, ws: seq<nat>, conds: seq<seq<nat>>, j: Join)
    requires Wf(ts, ws, conds, j) && j.depth + 1 < |conds| && (j.depth == -1 || !AtEnd(j))
    requires forall l :: 0 <= l < j.depth ==> !j.levels[l].atEnd
    ensures forall l :: 0 <= l <= j.depth ==> !LevelOpen(ts, ws, conds, j).levels[l].atEnd
  {
    hide LevelOpen;
  }

  /** open() moves no cursor of a relation no condition names. */
  lemma LevelOpenUnused(ts: seq<Table>, ws: seq<nat>, conds: seq<seq<nat>>, j: Join)
    requires Wf(ts, ws, conds, j) && j.depth + 1 < |conds|
    ensures forall r :: 0 <= r < |j.cursors| && Unused(conds, r) ==> LevelOpen(ts, ws, conds, j).cursors[r] == j.cursors[r]
  {
    hide LevelOpen;
    LevelOpenFrame(ts, ws, conds, j);
    forall r | 0 <= r < |j.cursors| && Unused(conds, r) ensures LevelOpen(ts, ws, conds, j).cursors[r] == j.cursors[r] {
      assert r !in conds[j.depth + 1];
    }
  }

  lemma LevelOpenInv(ts: seq<Table>, ws: seq<nat>, conds: seq<seq<nat>>, j: Join)
    requires Inv(ts, ws, conds, j) && j.depth + 1 < |conds| && !j.overallAtEnd
    requires j.depth == -1 || !AtEnd(j)
    ensures Inv(ts, ws, conds, LevelOpen(ts, ws, conds, j))
  {
    hide LevelOpen;
    LevelOpenAgreedAbove(ts, ws, conds, j);
    LevelOpenAgreedHere(ts, ws, conds, j);
    LevelOpenQuiet(ts, ws, conds, j);
    LevelOpenUnused(ts, ws, conds, j);
  }
}

=== FILE: naive.dfy ===
/** The SQL text the naive baseline hands to the database engine: one
    SELECT of SUM(x*y) for every distinct pair of attribute names over the
    natural join of all relations, and the single-aggregate variant. Only
    the strings are modelled; running them is outside the model. */
module Naive {
  import opened Seqs
  import Relation
  import opened Database

  /** Collectors.joining(sep): the strings with sep between neighbours. */
  function Join(ss: seq<string>, sep: string): string
  {
    if |ss| == 0 then ""
    else if |ss| == 1 then ss[0]
    else Join(ss[..|ss| - 1], sep) + sep + ss[|ss| - 1]
  }

  /** The clause buildNaturalJoin appends: the relation names in relation
      order, separated by NATURAL JOIN. */
  function NaturalJoin(db: seq<Relation.Relation>): string
  {
    " FROM " + Join(RelationNames(db), " NATURAL JOIN ") + ";"
  }

  function RelationNames(db: seq<Relation.Relation>): (names: seq<string>)
    ensures |names| == |db| && forall i :: 0 <= i < |db| ==> names[i] == db[i].name
  {
    seq(|db|, i requires 0 <= i < |db| => db[i].name)
  }

  /** The aggregate term of one pair of attribute names. */
  function Term(pair: (string, string)): string
  {
    "SUM(" + pair.0 + "*" + pair.1 + ")"
  }

  function Terms(pairs: seq<(string, string)>): (ts: seq<string>)
    ensures |ts| == |pairs| && forall k :: 0 <= k < |pairs| ==> ts[k] == Term(pairs[k])
  {
    seq(|pairs|, k requires 0 <= k < |pairs| => Term(pairs[k]))
  }

  /** The builder's text after the forEach: every term followed by a comma. */
  function TermsWithCommas(pairs: seq<(string, string)>): string
  {
    if |pairs| == 0 then ""
    else TermsWithCommas(pairs[..|pairs| - 1]) + Term(pairs[|pairs| - 1]) + ","
  }

  /** StringBuilder.lastIndexOf for one character: the last index holding
      c, or -1 when there is none. */
  function LastIndexOf(s: string, c: char): (i: int)
    ensures -1 <= i < |s|
    ensures i == -1 <==> c !in s
    ensures i >= 0 ==> s[i] == c && forall j :: i < j < |s| ==> s[j] != c
  {
    if |s| == 0 then -1
    else if s[|s| - 1] == c then |s| - 1
    else LastIndexOf(s[..|s| - 1], c)
  }

  /** StringBuilder.deleteCharAt: None for an index outside the text,
      where the builder throws. */
  function DeleteCharAt(s: string, i: int): (r: Option<string>)
    ensures r.Some? <==> 0 <= i < |s|
    ensures r.Some? ==> |r.value| == |s| - 1 && r.value[..i] == s[..i] && r.value[i..] == s[i + 1..]
  {
    if 0 <= i < |s| then Some(s[..i] + s[i + 1..]) else None
  }

  /** buildQueryAll: "SELECT " and one "SUM(x*y)," per attribute-name pair,
      the last comma deleted, then the join clause. With no pair there is
      no comma, and the builder's deleteCharAt(-1) throws: None. */
  function BuildQueryAll(db: seq<Relation.Relation>): Option<string>
  {
    var q := "SELECT " + TermsWithCommas(AttributeNamePairs(AttributeLists(db)));
    var trimmed := DeleteCharAt(q, LastIndexOf(q, ','));
    if trimmed.Some? then Some(trimmed.value + NaturalJoin(db)) else None
  }

  /** buildQueryOne: the product of the first attribute of the first
      relation with itself. The source's get(0) throws when there is no
      relation or the first has no attribute: None. */
  function BuildQueryOne(db: seq<Relation.Relation>): Option<string>
  {
    if |db| == 0 || |db[0].attributes| == 0 then None
    else
      var a := db[0].attributes[0];
      Some("SELECT SUM(" + a + "*" + a + ")" + NaturalJoin(db))
  }

  // ---------------------------------------------------------------------
  // Properties
  // ---------------------------------------------------------------------

  /** Appending a term and a comma per pair, then dropping the final
      comma, is joining the terms with commas. */
  lemma {:induction false} TermsWithCommasJoin(pairs: seq<(string, string)>)
    requires |pairs| > 0
    ensures TermsWithCommas(pairs) == Join(Terms(pairs), ",") + ","
  {
    var init := pairs[..|pairs| - 1];
    if |pairs| == 1 {
      assert init == [];
    } else {
      TermsWithCommasJoin(init);
      assert Terms(pairs)[..|pairs| - 1] == Terms(init);
    }
  }

  /** Deleting the last comma of a text that ends in a comma leaves the
      text before it. */
  lemma TrimLastComma(body: string)
    ensures DeleteCharAt(body + ",", LastIndexOf(body + ",", ',')) == Some(body)
  {
    var q := body + ",";
    assert q[|q| - 1] == ',';
    assert LastIndexOf(q, ',') == |body|;
    assert q[..|body|] + q[|body| + 1..] == body;
  }

  /** With at least one pair the query is SELECT, the terms separated by
      commas with none trailing, and the join clause; with none it fails. */
  lemma BuildQueryAllShape(db: seq<Relation.Relation>)
    ensures var pairs := AttributeNamePairs(AttributeLists(db));
      (|pairs| == 0 ==> BuildQueryAll(db).None?) &&
      (|pairs| > 0 ==> BuildQueryAll(db) == Some("SELECT " + Join(Terms(pairs), ",") + NaturalJoin(db)))
  {
    hide Join, NaturalJoin, AttributeNamePairs, AttributeLists, UpperPairs, Dedup, Flatten;
    var pairs := AttributeNamePairs(AttributeLists(db));
    var q := "SELECT " + TermsWithCommas(pairs);
    assert BuildQueryAll(db) == var t := DeleteCharAt(q, LastIndexOf(q, ',')); if t.Some? then Some(t.value + NaturalJoin(db)) else None;
    if |pairs| == 0 {
      assert q == "SELECT ";
      assert forall k :: 0 <= k < |q| ==> q[k] != ',';
    } else {
      TermsWithCommasJoin(pairs);
      var body := "SELECT " + Join(Terms(pairs), ",");
      assert q == body + ",";
      TrimLastComma(body);
    }
  }

  /** Every term of the query is the SUM of the name pair at the same
      index of the position pairs the other aggregations compute, so all
      three algorithms list their answers in one order; there are
      n(n+1)/2 terms for n distinct attribute names. */
  lemma QueryTermsMatchPairs(db: seq<Relation.Relation>)
    ensures var attrs := AttributeLists(db);
      var pairs := AllPairsOfAttributes(attrs);
      var terms := Terms(AttributeNamePairs(attrs));
      |terms| == |pairs| == Triangle(|Dedup(Flatten(attrs))|) &&
      forall k :: 0 <= k < |pairs| ==>
        pairs[k].0.rel < |attrs| && pairs[k].0.pos < |attrs[pairs[k].0.rel]| &&
        pairs[k].1.rel < |attrs| && pairs[k].1.pos < |attrs[pairs[k].1.rel]| &&
        terms[k] == "SUM(" + NameAt(attrs, pairs[k].0) + "*" + NameAt(attrs, pairs[k].1) + ")"
  {
    AllPairsCount(AttributeLists(db));
    NamePairsMatchPositions(AttributeLists(db));
  }

  /** The first name of a non-empty concatenation is the first name of the
      first relation. */
  lemma {:induction false} FlattenFirst(attrs: seq<seq<string>>)
    requires |attrs| > 0 && |attrs[0]| > 0
    ensures |Flatten(attrs)| > 0 && Flatten(attrs)[0] == attrs[0][0]
  {
    if |attrs| > 1 {
      var init := attrs[..|attrs| - 1];
      FlattenFirst(init);
      assert Flatten(attrs) == Flatten(init) + attrs[|attrs| - 1];
    } else {
      assert attrs[..0] == [];
    }
  }

  /** Dedup keeps the first name first. */
  lemma {:induction false} DedupFirst(s: seq<string>)
    requires |s| > 0
    ensures |Dedup(s)| > 0 && Dedup(s)[0] == s[0]
  {
    if |s| > 1 {
      DedupFirst(s[..|s| - 1]);
    }
  }

  /** The first attribute-name pair is the first attribute of the first
      relation, twice. */
  lemma FirstNamePair(attrs: seq<seq<string>>)
    requires |attrs| > 0 && |attrs[0]| > 0
    ensures |AttributeNamePairs(attrs)| > 0 && AttributeNamePairs(attrs)[0] == (attrs[0][0], attrs[0][0])
  {
    FlattenFirst(attrs);
    DedupFirst(Flatten(attrs));
    UpperPairsAt(Dedup(Flatten(attrs)), 0, 0);
  }

  /** The single aggregate of buildQueryOne is the first aggregate of
      buildQueryAll: whenever the former is defined, so is the latter, and
      the first term of the latter is the former's term. */
  lemma QueryOneIsFirstTerm(db: seq<Relation.Relation>)
    ensures BuildQueryOne(db).Some? <==> |db| > 0 && |db[0].attributes| > 0
    ensures BuildQueryOne(db).Some? ==>
              var pairs := AttributeNamePairs(AttributeLists(db));
              |pairs| > 0 && BuildQueryAll(db).Some? &&
              BuildQueryOne(db) == Some("SELECT " + Terms(pairs)[0] + NaturalJoin(db))
  {
    hide Join, NaturalJoin, AttributeNamePairs, TermsWithCommas, LastIndexOf, DeleteCharAt, BuildQueryAll,
      UpperPairs, Dedup, Flatten;
    if |db| > 0 && |db[0].attributes| > 0 {
      var attrs := AttributeLists(db);
      var a := db[0].attributes[0];
      FirstNamePair(attrs);
      BuildQueryAllShape(db);
      var pairs := AttributeNamePairs(attrs);
      assert Terms(pairs)[0] == "SUM(" + a + "*" + a + ")";
      assert "SELECT SUM(" + a + "*" + a + ")" == "SELECT " + ("SUM(" + a + "*" + a + ")");
    }
  }

  lemma JoinFour(a: string, b: string, c: string, d: string, sep: string)
    ensures Join([a, b, c, d], sep) == a + sep + b + sep + c + sep + d
  {
    assert [a, b, c, d][..3] == [a, b, c];
    assert [a, b, c][..2] == [a, b];
    assert [a, b][..1] == [a];
    assert Join([a], sep) == a;
    assert Join([a, b], sep) == a + sep + b;
    assert Join([a, b, c], sep) == a + sep + b + sep + c;
  }

  lemma TestRelationNames()
    ensures RelationNames(TestTables()) == ["R1", "R2", "R3", "R4"]
  {
  }

  /** For the test schema the join clause names the four relations in
      order. */
  lemma TestNaturalJoin()
    ensures NaturalJoin(TestTables()) ==
              " FROM " + "R1" + " NATURAL JOIN " + "R2" + " NATURAL JOIN " + "R3" + " NATURAL JOIN " + "R4" + ";"
  {
    hide RelationNames, TestTables, Join;
    TestRelationNames();
    JoinFour("R1", "R2", "R3", "R4", " NATURAL JOIN ");
  }
}

=== FILE: relation.dfy ===
/** A relation as the loader leaves it: a name, its attribute names and its
    rows, each row one integer per attribute, sorted by the lexicographic
    tuple comparator. Loading parses '|'-separated text lines (the file
    reading itself is not modelled) and sorts the parsed rows. */
module Relation {
  import opened Seqs

  type Row = seq<int>

  datatype Relation = Relation(name: string, attributes: seq<string>, rows: seq<Row>)

  /** Range of Java's long, which Long.valueOf enforces. */
  const LongMin: int := -0x8000_0000_0000_0000
  const LongMax: int := 0x7FFF_FFFF_FFFF_FFFF

  predicate InLongRange(x: int)
  {
    LongMin <= x <= LongMax
  }

  // ---------------------------------------------------------------------
  // The tuple comparator of readFromFile
  // ---------------------------------------------------------------------

  /** The comparator's loop from column i on. */
  function CompareFrom(a: Row, b: Row, i: nat): int
    decreases |a| - i
  {
    if i < |a| && i < |b| then
      if a[i] != b[i] then CompareInt(a[i], b[i]) else CompareFrom(a, b, i + 1)
    else
      |a| - |b|
  }

  /** The comparator handed to the sort when a relation is loaded. */
  function Compare(a: Row, b: Row): int
  {
    CompareFrom(a, b, 0)
  }

  /** At the first column where two rows differ, the comparator returns the
      sign of that column's difference. */
  lemma CompareFirstDifference(a: Row, b: Row, k: nat)
    requires k < |a| && k < |b|
    requires a[..k] == b[..k] && a[k] != b[k]
    ensures Compare(a, b) == CompareInt(a[k], b[k])
  {
    CompareFromSkips(a, b, 0, k);
  }

  /** When one row is a prefix of the other the comparator returns the
      difference of their lengths; in particular equal rows compare 0. */
  lemma ComparePrefix(a: Row, b: Row)
    requires |a| <= |b| ==> a == b[..|a|]
    requires |b| <= |a| ==> b == a[..|b|]
    ensures Compare(a, b) == |a| - |b|
  {
    var m := if |a| <= |b| then |a| else |b|;
    CompareFromSkips(a, b, 0, m);
  }

  lemma CompareFromSkips(a: Row, b: Row, i: nat, k: nat)
    requires i <= k <= |a| && k <= |b|
    requires forall j :: i <= j < k ==> a[j] == b[j]
    ensures CompareFrom(a, b, i) == CompareFrom(a, b, k)
    decreases k - i
  {
    if i < k {
      CompareFromSkips(a, b, i + 1, k);
    }
  }

  /** The comparator is 0 exactly on equal rows. */
  lemma {:induction false} CompareZeroIffEqual(a: Row, b: Row)
    ensures Compare(a, b) == 0 <==> a == b
  {
    CompareFromZero(a, b, 0);
  }

  lemma {:induction false} CompareFromZero(a: Row, b: Row, i: nat)
    requires i <= |a| && i <= |b| && a[..i] == b[..i]
    ensures CompareFrom(a, b, i) == 0 <==> a == b
    decreases |a| - i
  {
    if i < |a| && i < |b| {
      if a[i] != b[i] {
      } else {
        assert a[..i + 1] == a[..i] + [a[i]];
        assert b[..i + 1] == b[..i] + [b[i]];
        CompareFromZero(a, b, i + 1);
      }
    } else if |a| == |b| {
      assert a == a[..i] && b == b[..i];
    }
  }

  /** Swapping the arguments flips the sign. */
  lemma {:induction false} CompareAntisymmetric(a: Row, b: Row)
    ensures Compare(a, b) < 0 <==> Compare(b, a) > 0
    ensures Compare(a, b) == 0 <==> Compare(b, a) == 0
  {
    CompareFromAntisymmetric(a, b, 0);
  }

  lemma {:induction false} CompareFromAntisymmetric(a: Row, b: Row, i: nat)
    ensures CompareFrom(a, b, i) < 0 <==> CompareFrom(b, a, i) > 0
    ensures CompareFrom(a, b, i) == 0 <==> CompareFrom(b, a, i) == 0
    decreases |a| - i
  {
    if i < |a| && i < |b| && a[i] == b[i] {
      CompareFromAntisymmetric(a, b, i + 1);
    }
  }

  /** "Sorts no later than" is transitive. */
  lemma {:induction false} CompareTransitive(a: Row, b: Row, c: Row)
    requires Compare(a, b) <= 0 && Compare(b, c) <= 0
    ensures Compare(a, c) <= 0
  {
    CompareFromTransitive(a, b, c, 0);
  }

  lemma {:induction false} CompareFromTransitive(a: Row, b: Row, c: Row, i: nat)
    requires CompareFrom(a, b, i) <= 0 && CompareFrom(b, c, i) <= 0
    ensures CompareFrom(a, c, i) <= 0
    decreases |a| - i
  {
    if i < |a| && i < |b| && i < |c| && a[i] == b[i] && b[i] == c[i] {
      CompareFromTransitive(a, b, c, i + 1);
    }
  }

  /** Any two rows are comparable. */
  lemma CompareTotal(a: Row, b: Row)
    ensures Compare(a, b) <= 0 || Compare(b, a) <= 0
  {
    CompareAntisymmetric(a, b);
  }

  // ---------------------------------------------------------------------
  // Storage order
  // ---------------------------------------------------------------------

  /** The order the cursors rely on: every row sorts no later than each
      later row. */
  predicate Sorted(rows: seq<Row>)
  {
    forall i, j :: 0 <= i < j < |rows| ==> Compare(rows[i], rows[j]) <= 0
  }

  /** Insert a row before the first row it sorts no later than. */
  function Insert(x: Row, s: seq<Row>): (r: seq<Row>)
    requires Sorted(s)
    ensures Sorted(r)
    ensures multiset(r) == multiset(s) + multiset{x}
    decreases |s|
  {
    if |s| == 0 then [x]
    else if Compare(x, s[0]) <= 0 then
      InsertFrontSorted(x, s);
      [x] + s
    else
      CompareTotal(x, s[0]);
      var t := Insert(x, s[1..]);
      assert s == [s[0]] + s[1..];
      InsertAfterHead(s[0], s[1..], x, t);
      [s[0]] + t
  }

  lemma InsertFrontSorted(x: Row, s: seq<Row>)
    requires Sorted(s) && |s| > 0 && Compare(x, s[0]) <= 0
    ensures Sorted([x] + s)
  {
    forall j | 0 <= j < |s|
      ensures Compare(x, s[j]) <= 0
    {
      if j > 0 {
        CompareTransitive(x, s[0], s[j]);
      }
    }
    var r := [x] + s;
    forall i, j | 0 <= i < j < |r|
      ensures Compare(r[i], r[j]) <= 0
    {
      if i > 0 {
        assert r[i] == s[i - 1] && r[j] == s[j - 1];
      } else {
        assert r[j] == s[j - 1];
      }
    }
  }

  lemma InsertAfterHead(h: Row, s: seq<Row>, x: Row, t: seq<Row>)
    requires Sorted([h] + s) && Sorted(t) && Compare(h, x) <= 0
    requires multiset(t) == multiset(s) + multiset{x}
    ensures Sorted([h] + t)
  {
    forall j | 0 <= j < |t|
      ensures Compare(h, t[j]) <= 0
    {
      assert t[j] in multiset(t);
      if t[j] != x {
        assert t[j] in multiset(s);
        var k :| 0 <= k < |s| && s[k] == t[j];
        assert ([h] + s)[0] == h && ([h] + s)[k + 1] == s[k];
      }
    }
    var r := [h] + t;
    forall i, j | 0 <= i < j < |r|
      ensures Compare(r[i], r[j]) <= 0
    {
      if i > 0 {
        assert r[i] == t[i - 1] && r[j] == t[j - 1];
      } else {
        assert r[j] == t[j - 1];
      }
    }
  }

  /** The sort applied to the parsed rows. */
  function SortRows(rows: seq<Row>): (r: seq<Row>)
    ensures Sorted(r)
    ensures multiset(r) == multiset(rows)
  {
    if |rows| == 0 then []
    else
      assert rows == [rows[0]] + rows[1..];
      Insert(rows[0], SortRows(rows[1..]))
  }

  /** Because the comparator is 0 only on equal rows, a multiset of rows has
      exactly one sorted arrangement: whatever sorting algorithm is used,
      the stored order is the same. */
  lemma {:induction false} SortedUnique(s: seq<Row>, t: seq<Row>)
    requires Sorted(s) && Sorted(t) && multiset(s) == multiset(t)
    ensures s == t
    decreases |s|
  {
    assert |s| == |multiset(s)| == |t|;
    if |s| > 0 {
      SortedHeadsEqual(s, t);
      assert s == [s[0]] + s[1..] && t == [t[0]] + t[1..];
      assert multiset(s[1..]) == multiset(s) - multiset{s[0]};
      assert multiset(t[1..]) == multiset(t) - multiset{t[0]};
      SortedTail(s);
      SortedTail(t);
      SortedUnique(s[1..], t[1..]);
    }
  }

  lemma SortedTail(s: seq<Row>)
    requires Sorted(s) && |s| > 0
    ensures Sorted(s[1..])
  {
    forall i, j | 0 <= i < j < |s| - 1
      ensures Compare(s[1..][i], s[1..][j]) <= 0
    {
      assert s[1..][i] == s[i + 1] && s[1..][j] == s[j + 1];
    }
  }

  lemma SortedHeadsEqual(s: seq<Row>, t: seq<Row>)
    requires Sorted(s) && Sorted(t) && multiset(s) == multiset(t) && |s| > 0
    ensures |t| > 0 && s[0] == t[0]
  {
    assert s[0] in multiset(t);
    var i :| 0 <= i < |t| && t[i] == s[0];
    assert t[0] in multiset(s);
    var j :| 0 <= j < |s| && s[j] == t[0];
    var c1 := Compare(t[0], t[i]);
    var c2 := Compare(s[0], s[j]);
    assert c1 <= 0 by {
      if i > 0 {
        assert Compare(t[0], t[i]) <= 0;
      } else {
        ComparePrefix(t[0], t[0]);
      }
    }
    assert c2 <= 0 by {
      if j > 0 {
        assert Compare(s[0], s[j]) <= 0;
      } else {
        ComparePrefix(s[0], s[0]);
      }
    }
    CompareAntisymmetric(s[0], t[0]);
    CompareZeroIffEqual(s[0], t[0]);
  }

  /** Sorting rows that are already in storage order leaves them alone. */
  lemma SortSortedIsIdentity(rows: seq<Row>)
    requires Sorted(rows)
    ensures SortRows(rows) == rows
  {
    SortedUnique(SortRows(rows), rows);
  }

  // ---------------------------------------------------------------------
  // Splitting a line at '|'
  // ---------------------------------------------------------------------

  const Separator: char := '|'

  /** All pieces between separators, empty ones included: a line with n
      separators has n + 1 pieces. */
  function SplitAll(s: string): (r: seq<string>)
    ensures |r| >= 1
    ensures forall k :: 0 <= k < |r| ==> Separator !in r[k]
  {
    if |s| == 0 then [""]
    else if s[0] == Separator then [""] + SplitAll(s[1..])
    else
      var rest := SplitAll(s[1..]);
      [[s[0]] + rest[0]] + rest[1..]
  }

  /** Pieces joined back with the separator between them. */
  function JoinPieces(ps: seq<string>): string
    requires |ps| >= 1
  {
    if |ps| == 1 then ps[0] else ps[0] + [Separator] + JoinPieces(ps[1..])
  }

  lemma {:induction false} SplitAllJoin(s: string)
    ensures JoinPieces(SplitAll(s)) == s
  {
    if |s| > 0 {
      SplitAllJoin(s[1..]);
      if s[0] != Separator {
        var rest := SplitAll(s[1..]);
        if |rest| > 1 {
          assert JoinPieces(rest) == rest[0] + [Separator] + JoinPieces(rest[1..]);
        }
        assert s == [s[0]] + s[1..];
      }
    }
  }

  lemma {:induction false} JoinSplitAll(ps: seq<string>)
    requires |ps| >= 1
    requires forall k :: 0 <= k < |ps| ==> Separator !in ps[k]
    ensures SplitAll(JoinPieces(ps)) == ps
    decreases |ps|, |ps[0]|
  {
    if |ps| == 1 {
      SplitSeparatorFree(ps[0]);
    } else {
      hide SplitAll, JoinPieces;
      JoinPiecesStep(ps);
      if |ps[0]| == 0 {
        JoinSplitAll(ps[1..]);
        var s := JoinPieces(ps);
        assert s == [Separator] + JoinPieces(ps[1..]);
        assert s[1..] == JoinPieces(ps[1..]);
        SplitAllSeparator(s);
        assert [""] + ps[1..] == ps;
      } else {
        var ps' := [ps[0][1..]] + ps[1..];
        assert ps'[1..] == ps[1..];
        assert Separator !in ps'[0];
        JoinSplitAll(ps');
        var s := JoinPieces(ps);
        if |ps'[0]| == 0 {
          JoinPiecesEmptyHead(ps');
        } else {
          JoinPiecesStep(ps');
        }
        assert s == [ps[0][0]] + JoinPieces(ps');
        assert s[1..] == JoinPieces(ps');
        SplitAllOther(s);
        assert [ps[0][0]] + ps[0][1..] == ps[0];
        assert [ps[0]] + ps[1..] == ps;
      }
    }
  }

  lemma JoinPiecesStep(ps: seq<string>)
    requires |ps| >= 2
    ensures JoinPieces(ps) == ps[0] + [Separator] + JoinPieces(ps[1..])
  {
  }

  lemma JoinPiecesEmptyHead(ps: seq<string>)
    requires |ps| >= 2 && ps[0] == ""
    ensures JoinPieces(ps) == [Separator] + JoinPieces(ps[1..])
  {
  }

  lemma SplitAllSeparator(s: string)
    requires |s| > 0 && s[0] == Separator
    ensures SplitAll(s) == [""] + SplitAll(s[1..])
  {
  }

  lemma SplitAllOther(s: string)
    requires |s| > 0 && s[0] != Separator
    ensures SplitAll(s) == [[s[0]] + SplitAll(s[1..])[0]] + SplitAll(s[1..])[1..]
  {
  }

  lemma {:induction false} SplitSeparatorFree(s: string)
    requires Separator !in s
    ensures SplitAll(s) == [s]
  {
    if |s| > 0 {
      SplitSeparatorFree(s[1..]);
      assert [s[0]] + s[1..] == s;
    }
  }

  /** Drop empty pieces at the end. */
  function DropTrailingEmpty(ps: seq<string>): (r: seq<string>)
    ensures |r| <= |ps| && r == ps[..|r|]
    ensures |r| > 0 ==> r[|r| - 1] != ""
    ensures forall k :: |r| <= k < |ps| ==> ps[k] == ""
  {
    if |ps| == 0 || ps[|ps| - 1] != "" then ps else DropTrailingEmpty(ps[..|ps| - 1])
  }

  /** String.split on "\\|": a line without separator is its own single
      field (even when empty); otherwise the pieces minus trailing empty
      ones. */
  function SplitFields(line: string): seq<string>
  {
    if Separator !in line then [line] else DropTrailingEmpty(SplitAll(line))
  }

  // ---------------------------------------------------------------------
  // Long.valueOf on one field
  // ---------------------------------------------------------------------

  predicate IsDigit(c: char)
  {
    '0' <= c <= '9'
  }

  function DigitValue(c: char): nat
    requires IsDigit(c)
  {
    c as int - '0' as int
  }

  /** Decimal value of a digit string, most significant digit first. */
  function DecimalValue(ds: string): nat
    requires forall k :: 0 <= k < |ds| ==> IsDigit(ds[k])
  {
    if |ds| == 0 then 0 else DecimalValue(ds[..|ds| - 1]) * 10 + DigitValue(ds[|ds| - 1])
  }

  predicate AllDigits(ds: string)
  {
    |ds| > 0 && forall k :: 0 <= k < |ds| ==> IsDigit(ds[k])
  }

  /** The text Long.valueOf accepts: an optional '-' or '+', then at
      least one decimal digit. */
  predicate IsNumeral(s: string)
  {
    AllDigits(s) || (|s| > 0 && (s[0] == '-' || s[0] == '+') && AllDigits(s[1..]))
  }

  /** The value a numeral denotes: its digits read in base ten, negated
      after a '-'. */
  function NumeralValue(s: string): int
    requires IsNumeral(s)
  {
    if s[0] == '-' then 0 - DecimalValue(s[1..])
    else if s[0] == '+' then DecimalValue(s[1..])
    else DecimalValue(s)
  }

  /** Long.valueOf(s): a numeral whose value fits a long; anything else is
      a NumberFormatException, here None. */
  function ParseLong(s: string): (r: Option<int>)
    ensures r.Some? <==> IsNumeral(s) && InLongRange(NumeralValue(s))
    ensures r.Some? ==> r.value == NumeralValue(s) && InLongRange(r.value)
  {
    if |s| > 0 && (s[0] == '-' || s[0] == '+') then
      if AllDigits(s[1..]) then
        var v := if s[0] == '-' then 0 - DecimalValue(s[1..]) else DecimalValue(s[1..]);
        if InLongRange(v) then Some(v) else None
      else None
    else if AllDigits(s) then
      var v := DecimalValue(s);
      if InLongRange(v) then Some(v) else None
    else None
  }

  function Pow10(n: nat): nat
  {
    if n == 0 then 1 else 10 * Pow10(n - 1)
  }

  /** The positional reading of a digit string: the first of n digits
      weighs 10^(n-1), the next 10^(n-2), and so on. */
  function Positional(ds: string): nat
    requires forall k :: 0 <= k < |ds| ==> IsDigit(ds[k])
  {
    if |ds| == 0 then 0 else DigitValue(ds[0]) * Pow10(|ds| - 1) + Positional(ds[1..])
  }

  lemma PositionalUnfold(ds: string)
    requires |ds| > 0 && forall k :: 0 <= k < |ds| ==> IsDigit(ds[k])
    ensures Positional(ds) == DigitValue(ds[0]) * Pow10(|ds| - 1) + Positional(ds[1..])
  {
  }

  lemma ShiftPlace(d: nat, p: nat, a: nat, e: nat)
    ensures d * (10 * p) + (a * 10 + e) == (d * p + a) * 10 + e
  {
  }

  /** Appending a digit shifts the positional value one place. */
  lemma {:induction false} PositionalSnoc(ds: string)
    requires |ds| > 0 && forall k :: 0 <= k < |ds| ==> IsDigit(ds[k])
    ensures Positional(ds) == Positional(ds[..|ds| - 1]) * 10 + DigitValue(ds[|ds| - 1])
    decreases |ds|
  {
    var n := |ds|;
    var init := ds[..n - 1];
    if n == 1 {
      assert init == [];
      assert ds[1..] == [];
      PositionalUnfold(ds);
    } else {
      var tail := ds[1..];
      PositionalSnoc(tail);
      assert tail[..|tail| - 1] == init[1..];
      assert tail[|tail| - 1] == ds[n - 1];
      assert init[0] == ds[0];
      PositionalUnfold(ds);
      PositionalUnfold(init);
      assert Pow10(n - 1) == 10 * Pow10(n - 2);
      ShiftPlace(DigitValue(ds[0]), Pow10(n - 2), Positional(init[1..]), DigitValue(ds[n - 1]));
    }
  }

  /** The digit loop of Long.valueOf, which multiplies by ten and adds the
      next digit, computes the positional value of the digits. */
  lemma {:induction false} DecimalIsPositional(ds: string)
    requires forall k :: 0 <= k < |ds| ==> IsDigit(ds[k])
    ensures DecimalValue(ds) == Positional(ds)
    decreases |ds|
  {
    if |ds| > 0 {
      DecimalIsPositional(ds[..|ds| - 1]);
      PositionalSnoc(ds);
    }
  }

  /** Decimal text of a natural number, no leading zeros. */
  function ShowNat(n: nat): (r: string)
    ensures AllDigits(r)
  {
    if n < 10 then [('0' as int + n) as char]
    else ShowNat(n / 10) + [('0' as int + n % 10) as char]
  }

  /** Decimal text of an integer, with a '-' sign when negative. */
  function ShowInt(x: int): string
  {
    if x < 0 then "-" + ShowNat(-x) else ShowNat(x)
  }

  lemma {:induction false} DecimalShowNat(n: nat)
    ensures DecimalValue(ShowNat(n)) == n
  {
    if n >= 10 {
      DecimalShowNat(n / 10);
      var s := ShowNat(n);
      assert s[..|s| - 1] == ShowNat(n / 10);
    }
  }

  /** Parsing the decimal text of a long gives the long back. */
  lemma ParseShow(x: int)
    requires InLongRange(x)
    ensures ParseLong(ShowInt(x)) == Some(x)
  {
    if x < 0 {
      DecimalShowNat(-x);
      assert ShowInt(x)[1..] == ShowNat(-x);
    } else {
      DecimalShowNat(x);
    }
  }

  // ---------------------------------------------------------------------
  // Loading
  // ---------------------------------------------------------------------

  datatype LoadError =
    | WrongFieldCount(line: nat, found: nat)
    | NotANumber(line: nat, field: nat)

  datatype Loaded<T> = Loaded(value: T) | Malformed(error: LoadError)

  /** Parse the fields of line number `line` from field i on. */
  function ParseFields(fields: seq<string>, line: nat, i: nat): (r: Loaded<Row>)
    requires i <= |fields|
    ensures r.Loaded? ==> |r.value| == |fields| - i
    ensures r.Loaded? ==> forall k :: 0 <= k < |r.value| ==> ParseLong(fields[i + k]) == Some(r.value[k])
    ensures r.Malformed? ==> exists k :: i <= k < |fields| && ParseLong(fields[k]).None?
    decreases |fields| - i
  {
    if i == |fields| then Loaded([])
    else
      match ParseLong(fields[i])
      case None => Malformed(NotANumber(line, i))
      case Some(v) =>
        match ParseFields(fields, line, i + 1)
        case Malformed(e) => Malformed(e)
        case Loaded(rest) => Loaded([v] + rest)
  }

  /** One line of a relation file becomes one row: the field count must
      match the relation's arity, then every field is parsed. */
  function LoadLine(line: string, lineNo: nat, arity: nat): (r: Loaded<Row>)
    ensures r.Loaded? ==> |SplitFields(line)| == arity == |r.value|
    ensures r.Loaded? ==> forall k :: 0 <= k < arity ==> ParseLong(SplitFields(line)[k]) == Some(r.value[k])
    ensures |SplitFields(line)| != arity ==> r == Malformed(WrongFieldCount(lineNo, |SplitFields(line)|))
  {
    var fields := SplitFields(line);
    if |fields| != arity then Malformed(WrongFieldCount(lineNo, |fields|))
    else ParseFields(fields, lineNo, 0)
  }

  /** Parse every line, in file order. The first line that fails stops
      the load, as the exception out of forEach does. */
  function LoadLines(lines: seq<string>, arity: nat): (r: Loaded<seq<Row>>)
    ensures r.Loaded? <==> forall i :: 0 <= i < |lines| ==> LoadLine(lines[i], i, arity).Loaded?
    ensures r.Loaded? ==> |r.value| == |lines|
    ensures r.Loaded? ==> forall k :: 0 <= k < |lines| ==> LoadLine(lines[k], k, arity) == Loaded(r.value[k])
    ensures r.Loaded? ==> forall k :: 0 <= k < |r.value| ==> |r.value[k]| == arity
    ensures r.Malformed? ==>
              exists i :: (0 <= i < |lines| && LoadLine(lines[i], i, arity) == Malformed(r.error) &&
                forall k :: 0 <= k < i ==> LoadLine(lines[k], k, arity).Loaded?)
  {
    var rs := LineResults(lines, arity);
    LineResultsCollect(lines, arity);
    Collect(rs, arity, 0)
  }

  /** The result of each line, in file order. */
  function LineResults(lines: seq<string>, arity: nat): (rs: seq<Loaded<Row>>)
    ensures |rs| == |lines| && forall i :: 0 <= i < |lines| ==> rs[i] == LoadLine(lines[i], i, arity)
    ensures forall i :: 0 <= i < |rs| && rs[i].Loaded? ==> |rs[i].value| == arity
  {
    seq(|lines|, i requires 0 <= i < |lines| => LoadLine(lines[i], i, arity))
  }

  lemma LineResultsCollect(lines: seq<string>, arity: nat)
    ensures var r := Collect(LineResults(lines, arity), arity, 0);
      (r.Loaded? <==> forall i :: 0 <= i < |lines| ==> LoadLine(lines[i], i, arity).Loaded?) &&
      (r.Loaded? ==> forall k :: 0 <= k < |lines| ==> LoadLine(lines[k], k, arity) == Loaded(r.value[k])) &&
      (r.Malformed? ==>
         exists i :: (0 <= i < |lines| && LoadLine(lines[i], i, arity) == Malformed(r.error) &&
           forall k :: 0 <= k < i ==> LoadLine(lines[k], k, arity).Loaded?))
  {
    hide LoadLine, Collect;
    var rs := LineResults(lines, arity);
    CollectFirstFailure(rs, arity, 0);
  }

  /** The first failure among the per-line results, or all rows. */
  function Collect(rs: seq<Loaded<Row>>, arity: nat, from: nat): (r: Loaded<seq<Row>>)
    requires from <= |rs|
    requires forall i :: 0 <= i < |rs| && rs[i].Loaded? ==> |rs[i].value| == arity
    ensures r.Loaded? ==> |r.value| == |rs| - from
    ensures r.Loaded? ==> forall k :: 0 <= k < |r.value| ==> rs[from + k] == Loaded(r.value[k])
    ensures r.Loaded? ==> forall k :: 0 <= k < |r.value| ==> |r.value[k]| == arity
    decreases |rs| - from
  {
    if from == |rs| then Loaded([])
    else if rs[from].Malformed? then Malformed(rs[from].error)
    else
      var rest := Collect(rs, arity, from + 1);
      if rest.Malformed? then rest else Loaded([rs[from].value] + rest.value)
  }

  /** Collect fails exactly when some line failed, and then with the error
      of the first line that failed. */
  lemma {:induction false} CollectFirstFailure(rs: seq<Loaded<Row>>, arity: nat, from: nat)
    requires from <= |rs|
    requires forall i :: 0 <= i < |rs| && rs[i].Loaded? ==> |rs[i].value| == arity
    ensures Collect(rs, arity, from).Loaded? <==> forall i :: from <= i < |rs| ==> rs[i].Loaded?
    ensures Collect(rs, arity, from).Malformed? ==>
              exists i :: from <= i < |rs| && rs[i] == Malformed(Collect(rs, arity, from).error) &&
                (forall k :: from <= k < i ==> rs[k].Loaded?)
    decreases |rs| - from
  {
    if from < |rs| {
      var c := Collect(rs, arity, from);
      if rs[from].Malformed? {
        assert c == Malformed(rs[from].error);
      } else {
        CollectFirstFailure(rs, arity, from + 1);
        var rest := Collect(rs, arity, from + 1);
        assert c.Loaded? <==> rest.Loaded?;
        if c.Malformed? {
          assert c == rest;
          var i :| from + 1 <= i < |rs| && rs[i] == Malformed(rest.error) &&
                   (forall k :: from + 1 <= k < i ==> rs[k].Loaded?);
          assert forall k :: from <= k < i ==> rs[k].Loaded?;
        }
      }
    }
  }

  /** The tuple array of a loaded relation: the parsed rows of the file,
      rearranged into storage order. */
  function LoadRows(lines: seq<string>, arity: nat): (r: Loaded<seq<Row>>)
    ensures r.Loaded? ==> Sorted(r.value)
    ensures r.Loaded? ==> |r.value| == |lines|
    ensures r.Loaded? ==> forall k :: 0 <= k < |r.value| ==> |r.value[k]| == arity
    ensures r.Loaded? ==> exists parsed :: LoadLines(lines, arity) == Loaded(parsed) && multiset(r.value) == multiset(parsed)
    ensures r.Malformed? <==> LoadLines(lines, arity).Malformed?
    ensures r.Malformed? ==> r == LoadLines(lines, arity)
  {
    match LoadLines(lines, arity)
    case Malformed(e) => Malformed(e)
    case Loaded(parsed) =>
      var sorted := SortRows(parsed);
      assert |sorted| == |multiset(sorted)| == |parsed|;
      forall k | 0 <= k < |sorted| ensures |sorted[k]| == arity {
        assert sorted[k] in multiset(parsed);
        var i :| 0 <= i < |parsed| && parsed[i] == sorted[k];
      }
      Loaded(sorted)
  }

  /** The text line the loader expects for a row. */
  function FormatRow(row: Row): string
    requires |row| >= 1
  {
    JoinPieces(seq(|row|, k requires 0 <= k < |row| => ShowInt(row[k])))
  }

  /** Loading a line written from a row gives the row back. */
  lemma LoadFormattedLine(row: Row, lineNo: nat)
    requires |row| >= 1
    requires forall k :: 0 <= k < |row| ==> InLongRange(row[k])
    ensures LoadLine(FormatRow(row), lineNo, |row|) == Loaded(row)
  {
    var ps := seq(|row|, k requires 0 <= k < |row| => ShowInt(row[k]));
    forall k | 0 <= k < |ps| ensures Separator !in ps[k] && ps[k] != "" {
      ShowIntShape(row[k]);
    }
    JoinSplitAll(ps);
    var line := FormatRow(row);
    if Separator in line {
      assert DropTrailingEmpty(ps) == ps;
    } else {
      assert |ps| == 1;
    }
    assert SplitFields(line) == ps;
    forall k | 0 <= k < |row| ensures ParseLong(ps[k]) == Some(row[k]) {
      ParseShow(row[k]);
    }
    ParseFieldsAll(ps, row, lineNo, 0);
  }

  lemma ShowIntShape(x: int)
    ensures Separator !in ShowInt(x) && ShowInt(x) != ""
  {
    var s := ShowNat(if x < 0 then -x else x);
    assert forall k :: 0 <= k < |s| ==> IsDigit(s[k]);
  }

  lemma {:induction false} ParseFieldsAll(fields: seq<string>, row: Row, line: nat, i: nat)
    requires |fields| == |row| && i <= |fields|
    requires forall k :: 0 <= k < |row| ==> ParseLong(fields[k]) == Some(row[k])
    ensures ParseFields(fields, line, i) == Loaded(row[i..])
    decreases |fields| - i
  {
    if i < |fields| {
      ParseFieldsAll(fields, row, line, i + 1);
      assert row[i..] == [row[i]] + row[i + 1..];
    }
  }

  /** Loading the text of rows that are already in storage order, one line
      per row, gives back exactly those rows. */
  lemma {:induction false} LoadRoundTrip(rows: seq<Row>, arity: nat)
    requires arity >= 1 && Sorted(rows)
    requires forall i :: 0 <= i < |rows| ==> |rows[i]| == arity
    requires forall i, k :: 0 <= i < |rows| && 0 <= k < arity ==> InLongRange(rows[i][k])
    ensures LoadRows(seq(|rows|, i requires 0 <= i < |rows| => FormatRow(rows[i])), arity) == Loaded(rows)
  {
    var lines := seq(|rows|, i requires 0 <= i < |rows| => FormatRow(rows[i]));
    var rs := seq(|lines|, i requires 0 <= i < |lines| => LoadLine(lines[i], i, arity));
    forall i | 0 <= i < |rows| ensures rs[i] == Loaded(rows[i]) {
      LoadFormattedLine(rows[i], i);
    }
    CollectAll(rs, rows, arity, 0);
    SortSortedIsIdentity(rows);
  }

  lemma {:induction false} CollectAll(rs: seq<Loaded<Row>>, rows: seq<Row>, arity: nat, from: nat)
    requires |rs| == |rows| && from <= |rs|
    requires forall i :: 0 <= i < |rows| ==> |rows[i]| == arity
    requires forall i :: 0 <= i < |rows| ==> rs[i] == Loaded(rows[i])
    ensures Collect(rs, arity, from) == Loaded(rows[from..])
    decreases |rs| - from
  {
    if from < |rs| {
      CollectAll(rs, rows, arity, from + 1);
      assert rows[from..] == [rows[from]] + rows[from + 1..];
    }
  }
}

=== FILE: seqs.dfy ===
/** Small sequence vocabulary shared by the other modules: sums, products,
    prefix agreement of rows and the enumeration of ordered pairs (i, j)
    with i <= j that several parts of the system use to lay out aggregates. */
module Seqs {

  datatype Option<T> = None | Some(value: T)

  /** Long.compare and Integer.compare: the sign of x - y as -1, 0 or 1. */
  function CompareInt(x: int, y: int): int
  {
    if x < y then -1 else if x == y then 0 else 1
  }

  /** Sum of a sequence of integers, folded from the left. */
  function Sum(s: seq<int>): int
  {
    if |s| == 0 then 0 else Sum(s[..|s| - 1]) + s[|s| - 1]
  }

  /** Product of a sequence of integers, folded from the left. */
  function Product(s: seq<int>): int
  {
    if |s| == 0 then 1 else Product(s[..|s| - 1]) * s[|s| - 1]
  }

  lemma SumAppend(s: seq<int>, t: seq<int>)
    ensures Sum(s + t) == Sum(s) + Sum(t)
    decreases |t|
  {
    if |t| == 0 {
      assert s + t == s;
    } else {
      assert (s + t)[..|s + t| - 1] == s + t[..|t| - 1];
      SumAppend(s, t[..|t| - 1]);
    }
  }

  lemma SumCons(x: int, s: seq<int>)
    ensures Sum([x] + s) == x + Sum(s)
  {
    SumAppend([x], s);
    assert [x][..0] == [];
  }

  lemma ProductAppend(s: seq<int>, t: seq<int>)
    ensures Product(s + t) == Product(s) * Product(t)
    decreases |t|
  {
    if |t| == 0 {
      assert s + t == s;
    } else {
      var init, last := t[..|t| - 1], t[|t| - 1];
      assert (s + t)[..|s + t| - 1] == s + init;
      ProductAppend(s, init);
      calc {
        Product(s + t);
        Product(s + init) * last;
        (Product(s) * Product(init)) * last;
        { MulAssoc(Product(s), Product(init), last); }
        Product(s) * (Product(init) * last);
      }
    }
  }

  lemma MulAssoc(x: int, y: int, z: int)
    ensures (x * y) * z == x * (y * z)
  {
  }

  /** Rows a and b agree on their first w columns. */
  predicate Agree(a: seq<int>, b: seq<int>, w: int)
  {
    forall i :: 0 <= i < w && i < |a| && i < |b| ==> a[i] == b[i]
  }

  /** Every element of s is below m. */
  predicate Below(s: seq<int>, m: int)
  {
    forall i :: 0 <= i < |s| ==> 0 <= s[i] < m
  }

  /** The pairs (s[i], s[j]) with i <= j, listed row by row: for each first
      element, every element from it to the end. */
  function UpperPairs<T>(s: seq<T>): seq<(T, T)>
    decreases |s|
  {
    if |s| == 0 then []
    else seq(|s|, k requires 0 <= k < |s| => (s[0], s[k])) + UpperPairs(s[1..])
  }

  /** Number of pairs (i, j) with i <= j < n. */
  function Triangle(n: nat): nat
  {
    n * (n + 1) / 2
  }

  /** Index of pair (a, b) in UpperPairs of a sequence of length n: the
      rows of the a earlier first elements hold n - i pairs each. */
  function PairIndex(n: nat, a: nat, b: nat): nat
    requires a <= b < n
  {
    RowsBefore(n, a) + (b - a)
  }

  /** Sum over i < a of (n - i). */
  function RowsBefore(n: nat, a: nat): nat
    requires a <= n
  {
    if a == 0 then 0 else RowsBefore(n, a - 1) + (n - (a - 1))
  }

  lemma RowsBeforeClosedForm(n: nat, a: nat)
    requires a <= n
    ensures 2 * RowsBefore(n, a) == a * (2 * n - a + 1)
  {
    if a > 0 {
      RowsBeforeClosedForm(n, a - 1);
    }
  }

  lemma {:induction false} UpperPairsLength<T>(s: seq<T>)
    ensures |UpperPairs(s)| == Triangle(|s|)
    decreases |s|
  {
    if |s| > 0 {
      UpperPairsLength(s[1..]);
      assert Triangle(|s|) == |s| + Triangle(|s| - 1);
    }
  }

  /** Pair (a, b) sits at PairIndex(|s|, a, b) of UpperPairs(s), which is
      how the summarised layout and the SQL text find the same pair. */
  lemma {:induction false} UpperPairsAt<T>(s: seq<T>, a: nat, b: nat)
    requires a <= b < |s|
    ensures PairIndex(|s|, a, b) < |UpperPairs(s)|
    ensures UpperPairs(s)[PairIndex(|s|, a, b)] == (s[a], s[b])
    decreases a
  {
    UpperPairsLength(s);
    RowsBeforeClosedForm(|s|, a);
    var head := seq(|s|, k requires 0 <= k < |s| => (s[0], s[k]));
    if a == 0 {
      assert UpperPairs(s)[b] == head[b];
    } else {
      UpperPairsAt(s[1..], a - 1, b - 1);
      RowsBeforeShift(|s|, a);
      assert UpperPairs(s)[PairIndex(|s|, a, b)]
          == UpperPairs(s[1..])[PairIndex(|s| - 1, a - 1, b - 1)];
    }
  }

  lemma RowsBeforeShift(n: nat, a: nat)
    requires 0 < a <= n
    ensures RowsBefore(n, a) == n + RowsBefore(n - 1, a - 1)
  {
    if a > 1 {
      RowsBeforeShift(n, a - 1);
    }
  }

  /** Every entry of UpperPairs(s) is some (s[a], s[b]) with a <= b, at the
      index PairIndex gives: the enumeration holds nothing else. */
  lemma {:induction false} UpperPairsInverse<T>(s: seq<T>, k: nat)
    requires k < |UpperPairs(s)|
    ensures exists a: nat, b: nat :: a <= b < |s| && k == PairIndex(|s|, a, b)
    decreases |s|
  {
    var head := seq(|s|, i requires 0 <= i < |s| => (s[0], s[i]));
    if k < |s| {
      assert k == PairIndex(|s|, 0, k);
    } else {
      assert UpperPairs(s) == head + UpperPairs(s[1..]);
      UpperPairsInverse(s[1..], k - |s|);
      var a: nat, b: nat :| a <= b < |s| - 1 && k - |s| == PairIndex(|s| - 1, a, b);
      RowsBeforeShift(|s|, a + 1);
      assert k == PairIndex(|s|, a + 1, b + 1);
    }
  }

  /** Distinct pairs a <= b have distinct indices, so each entry of
      UpperPairs names exactly one pair. */
  lemma PairIndexInjective(n: nat, a: nat, b: nat, c: nat, d: nat)
    requires a <= b < n && c <= d < n && PairIndex(n, a, b) == PairIndex(n, c, d)
    ensures a == c && b == d
  {
    UpperPairsAt(Range(n), a, b);
    UpperPairsAt(Range(n), c, d);
  }

  /** Indices 0 .. n-1 in order. */
  function Range(n: nat): seq<nat>
  {
    seq(n, i requires 0 <= i < n => i)
  }

  /** The length of every inner sequence: a schema's arities, or the
      number of join attributes of every relation. */
  function Lengths<T>(xs: seq<seq<T>>): (ns: seq<nat>)
    ensures |ns| == |xs| && forall r :: 0 <= r < |xs| ==> ns[r] == |xs[r]|
  {
    seq(|xs|, r requires 0 <= r < |xs| => |xs[r]|)
  }

  /** No element occurs twice. */
  predicate Distinct<T(==)>(s: seq<T>)
  {
    forall i, j :: 0 <= i < j < |s| ==> s[i] != s[j]
  }

  /** Number of occurrences of x in s. */
  function Count<T(==)>(s: seq<T>, x: T): nat
  {
    if |s| == 0 then 0 else Count(s[..|s| - 1], x) + (if s[|s| - 1] == x then 1 else 0)
  }
}

=== FILE: triejoin.dfy ===
/** The Leapfrog Triejoin's search (LeapfrogTriejoin.findNext and the
    public operations built on it). */
module Triejoin {
  import opened Seqs
  import Relation
  import Cursor
  import Unary
  import opened Levels

  // ---------------------------------------------------------------------
  // findNext
  // ---------------------------------------------------------------------

  /** Where findNext stops: at a binding of every level, or at the overall
      end with level 0 ended. */
  predicate Settled(ts: seq<Table>, ws: seq<nat>, conds: seq<seq<nat>>, j: Join)
  {
    Inv(ts, ws, conds, j) && 0 <= j.depth &&
    (if j.overallAtEnd then j.depth == 0 && j.levels[0].atEnd
     else j.depth == |conds| - 1 && !j.levels[j.depth].atEnd)
  }

  /** findNext's first inner loop: while below level 0 on an ended level,
      go up and advance the level above; a level that then has a binding
      cancels the pending advance. Returns the state and the flag. */
  function Backtrack(ts: seq<Table>, ws: seq<nat>, conds: seq<seq<nat>>, j: Join, adv: bool): (r: (Join, bool))
    requires Inv(ts, ws, conds, j)
    ensures Inv(ts, ws, conds, r.0) && r.0.depth <= j.depth && (0 <= j.depth ==> 0 <= r.0.depth)
    ensures r.0.depth <= 0 || !AtEnd(r.0)
    ensures r.0.overallAtEnd == j.overallAtEnd && (r.1 ==> adv)
    ensures !(j.depth > 0 && AtEnd(j)) ==> r == (j, adv)
    ensures j.depth > 0 && AtEnd(j) && !AtEnd(r.0) ==> !r.1
    decreases j.depth
  {
    if j.depth > 0 && AtEnd(j) then
      LevelUpInv(ts, ws, conds, j);
      var up := LevelUp(ts, ws, conds, j);
      LevelNextInv(ts, ws, conds, up);
      var j1 := LevelNext(ts, ws, conds, up);
      Backtrack(ts, ws, conds, j1, if AtEnd(j1) then adv else false)
    else (j, adv)
  }

  /** findNext's second inner loop: open levels until the last one, or
      until an opened level has ended at once. */
  function Descend(ts: seq<Table>, ws: seq<nat>, conds: seq<seq<nat>>, j: Join): (j': Join)
    requires Inv(ts, ws, conds, j) && !j.overallAtEnd
    requires j.depth < |conds| - 1 ==> j.depth == -1 || !AtEnd(j)
    ensures Inv(ts, ws, conds, j') && !j'.overallAtEnd && j.depth <= j'.depth && 0 <= j'.depth
    ensures j'.depth == |conds| - 1 || AtEnd(j')
    ensures j.depth == |conds| - 1 ==> j' == j
    decreases |conds| - j.depth
  {
    if j.depth < |conds| - 1 then
      LevelOpenInv(ts, ws, conds, j);
      var j1 := LevelOpen(ts, ws, conds, j);
      if AtEnd(j1) then j1 else Descend(ts, ws, conds, j1)
    else j
  }

  /** The pending advance of findNext: next() on the current level, and
      the flag stays raised only if that ended the level. */
  function Advance(ts: seq<Table>, ws: seq<nat>, conds: seq<seq<nat>>, j: Join, adv: bool): (r: (Join, bool))
    requires Inv(ts, ws, conds, j) && !j.overallAtEnd
    requires adv ==> 0 <= j.depth && !AtEnd(j)
    ensures Inv(ts, ws, conds, r.0) && r.0.depth == j.depth && !r.0.overallAtEnd
    ensures adv ==> r.1 == AtEnd(r.0)
    ensures !adv ==> r == (j, adv)
  {
    if adv then
      LevelNextInv(ts, ws, conds, j);
      var j1 := LevelNext(ts, ws, conds, j);
      (j1, AtEnd(j1))
    else (j, adv)
  }

  /** One pass of findNext's do-while body. When level 0 has ended it
      raises the overall end and returns, the flag then being dropped. */
  function Pass(ts: seq<Table>, ws: seq<nat>, conds: seq<seq<nat>>, j: Join, adv: bool): (r: (Join, bool))
    requires Inv(ts, ws, conds, j)
    requires adv ==> 0 <= j.depth && (j.depth == |conds| - 1 || AtEnd(j))
    ensures Inv(ts, ws, conds, r.0) && 0 <= r.0.depth
    ensures r.0.overallAtEnd || r.0.depth == |conds| - 1 || AtEnd(r.0)
    ensures r.1 ==> !r.0.overallAtEnd && r.0.depth == |conds| - 1 && AtEnd(r.0)
  {
    hide Backtrack, Advance, Descend, Inv;
    var b := Backtrack(ts, ws, conds, j, adv);
    BacktrackLands(ts, ws, conds, j, adv);
    var j1 := b.0;
    InvShape(ts, ws, conds, j1);
    if j1.depth == 0 && AtEnd(j1) then
      EndInv(ts, ws, conds, j1);
      (j1.(overallAtEnd := true), false)
    else
      var c := Advance(ts, ws, conds, j1, b.1);
      (Descend(ts, ws, conds, c.0), c.1)
  }

  /** The shape the invariant gives a state: one level per condition and
      the depth in range. */
  lemma InvShape(ts: seq<Table>, ws: seq<nat>, conds: seq<seq<nat>>, j: Join)
    requires Inv(ts, ws, conds, j)
    ensures Wf(ts, ws, conds, j) && Unary.AllSorted(ts) && |j.levels| == |conds| && -1 <= j.depth < |conds|
    ensures j.overallAtEnd ==> j.depth == 0 && j.levels[0].atEnd
  {
  }

  /** Raising the overall end once level 0 has ended keeps the invariant. */
  lemma EndInv(ts: seq<Table>, ws: seq<nat>, conds: seq<seq<nat>>, j: Join)
    requires Inv(ts, ws, conds, j) && j.depth == 0 && AtEnd(j)
    ensures Inv(ts, ws, conds, j.(overallAtEnd := true))
  {
    var j' := j.(overallAtEnd := true);
    assert Wf(ts, ws, conds, j');
  }

  /** Where Backtrack leaves findNext when level 0 has not ended: not at
      the overall end, on a level with a binding unless below level 0, and
      with the advance still pending only on the last level. */
  lemma BacktrackLands(ts: seq<Table>, ws: seq<nat>, conds: seq<seq<nat>>, j: Join, adv: bool)
    requires Inv(ts, ws, conds, j)
    requires adv ==> 0 <= j.depth && (j.depth == |conds| - 1 || AtEnd(j))
    ensures var b := Backtrack(ts, ws, conds, j, adv);
      !(b.0.depth == 0 && AtEnd(b.0)) ==>
        !b.0.overallAtEnd && (b.0.depth == -1 || !AtEnd(b.0)) &&
        (b.1 ==> b.0.depth == |conds| - 1 && !AtEnd(b.0))
  {
    assert -1 <= j.depth;
    hide Backtrack, Wf, Unary.AllSorted;
  }

  /** The later passes of the do-while, entered on an ended level. */
  function Rest(ts: seq<Table>, ws: seq<nat>, conds: seq<seq<nat>>, j: Join, adv: bool): (j': Join)
    requires Inv(ts, ws, conds, j) && 0 <= j.depth && AtEnd(j) && !j.overallAtEnd
    requires adv ==> j.depth == |conds| - 1
    ensures Settled(ts, ws, conds, j')
    decreases Measure(ts, ws, conds, j)
  {
    var r := Pass(ts, ws, conds, j, adv);
    if !r.0.overallAtEnd && AtEnd(r.0) then
      PassProgress(ts, ws, conds, j, adv);
      Rest(ts, ws, conds, r.0, r.1)
    else r.0
  }

  /** findNext(shouldAdvance): the first pass, then the loop while the
      current level has ended. */
  function FindNext(ts: seq<Table>, ws: seq<nat>, conds: seq<seq<nat>>, j: Join, adv: bool): (j': Join)
    requires Inv(ts, ws, conds, j)
    requires adv ==> 0 <= j.depth && (j.depth == |conds| - 1 || AtEnd(j))
    ensures Settled(ts, ws, conds, j')
  {
    var r := Pass(ts, ws, conds, j, adv);
    if !r.0.overallAtEnd && AtEnd(r.0) then Rest(ts, ws, conds, r.0, r.1) else r.0
  }

  /** init(): findNext without advancing, from the constructed join. */
  function Init(ts: seq<Table>, ws: seq<nat>, conds: seq<seq<nat>>): (j: Join)
    requires Schema(ts, ws, conds) && Unary.AllSorted(ts)
    ensures Settled(ts, ws, conds, j)
  {
    BuildInv(ts, ws, conds);
    FindNext(ts, ws, conds, Build(|ts|, conds), false)
  }

  // ---------------------------------------------------------------------
  // init() over relations that may be empty
  // ---------------------------------------------------------------------

  /** Some relation the condition names has no rows. */
  predicate NamesEmpty(ts: seq<Table>, cond: seq<nat>)
  {
    exists r :: r in cond && r < |ts| && |ts[r]| == 0
  }

  /** The first level whose condition names an empty relation, or the
      number of levels when none does. */
  function FirstEmptyLevel(ts: seq<Table>, conds: seq<seq<nat>>): (l: nat)
    ensures l <= |conds|
    ensures forall k :: 0 <= k < l ==> !NamesEmpty(ts, conds[k])
    ensures l < |conds| ==> NamesEmpty(ts, conds[l])
  {
    if |conds| == 0 then 0
    else
      var l := FirstEmptyLevel(ts, conds[..|conds| - 1]);
      if l < |conds| - 1 || NamesEmpty(ts, conds[|conds| - 1]) then l else |conds|
  }

  /** Every empty table replaced by a single row of zeros of its width. */
  function Pad(ts: seq<Table>, ws: seq<nat>): (ps: seq<Table>)
    requires |ts| == |ws|
    ensures |ps| == |ts|
    ensures forall r :: 0 <= r < |ts| && |ts[r]| > 0 ==> ps[r] == ts[r]
    ensures forall r :: 0 <= r < |ts| && |ts[r]| == 0 ==> |ps[r]| == 1 && |ps[r][0]| == ws[r]
  {
    seq(|ts|, r requires 0 <= r < |ts| => if |ts[r]| == 0 then [seq(ws[r], k => 0)] else ts[r])
  }

  lemma PadSorted(ts: seq<Table>, ws: seq<nat>)
    requires |ts| == |ws| && Unary.AllSorted(ts)
    ensures Unary.AllSorted(Pad(ts, ws))
  {
    forall r | 0 <= r < |ts| ensures Relation.Sorted(Pad(ts, ws)[r]) {
      if |ts[r]| > 0 {
        assert Relation.Sorted(ts[r]);
      }
    }
  }

  lemma {:induction false} CountUpToPrefix(conds: seq<seq<nat>>, r: nat, d: int, n: nat)
    requires d < n <= |conds|
    ensures CountUpTo(conds[..n], r, d) == CountUpTo(conds, r, d)
    decreases d + 1
  {
    if d >= 0 {
      CountUpToPrefix(conds, r, d - 1, n);
    }
  }

  /** The first n conditions of a schema form a schema of their own, with
      the same columns at each level. */
  lemma SchemaPrefix(ts: seq<Table>, ws: seq<nat>, conds: seq<seq<nat>>, n: nat)
    requires Schema(ts, ws, conds) && 0 < n <= |conds|
    ensures Schema(ts, ws, conds[..n])
  {
    forall l, i | 0 <= l < n && 0 <= i < |conds[l]|
      ensures Col(conds[..n], conds[l][i], l) == Col(conds, conds[l][i], l)
    {
      CountUpToPrefix(conds, conds[l][i], l - 1, n);
    }
  }

  /** init() on the first n levels only. Until init() opens level n, the
      join moves exactly the cursors this run moves: the later levels are
      not open yet, and a relation named only there keeps its fresh cursor.
      When no level below n names an empty relation, the padding is never
      read. */
  function PrefixInit(ts: seq<Table>, ws: seq<nat>, conds: seq<seq<nat>>, n: nat): (j: Join)
    requires |ts| == |ws| && Schema(Pad(ts, ws), ws, conds) && Unary.AllSorted(ts) && 0 < n <= |conds|
  {
    SchemaPrefix(Pad(ts, ws), ws, conds, n);
    PadSorted(ts, ws);
    Init(Pad(ts, ws), ws, conds[..n])
  }

  /** init() on the first n levels settles the join on those levels. */
  lemma PrefixInitSettled(ts: seq<Table>, ws: seq<nat>, conds: seq<seq<nat>>, n: nat)
    requires |ts| == |ws| && Schema(Pad(ts, ws), ws, conds) && Unary.AllSorted(ts) && 0 < n <= |conds|
    ensures Settled(Pad(ts, ws), ws, conds[..n], PrefixInit(ts, ws, conds, n))
  {
    SchemaPrefix(Pad(ts, ws), ws, conds, n);
    PadSorted(ts, ws);
  }

  /** How init() leaves a join whose relations may be empty: running, with
      the state it reached; ended before any level that names an empty
      relation was opened; or stopped by key() on the empty array of a
      relation that level `level` names, an ArrayIndexOutOfBoundsException. */
  datatype Started = Running(j: Join) | EndedEarly(j: Join) | KeyOfEmpty(level: nat)

  /** init() for any relations, empty ones included. Opening a level reads
      the key of every relation its condition names, so the first level
      that names an empty relation fails when it is opened; init() opens it
      unless the levels above it end first. The schema is stated over the
      padded tables, so an empty relation needs only its declared width. */
  method Start(ts: seq<Table>, ws: seq<nat>, conds: seq<seq<nat>>) returns (s: Started)
    requires |ts| == |ws| && Schema(Pad(ts, ws), ws, conds) && Unary.AllSorted(ts)
    ensures s.Running? <==> FirstEmptyLevel(ts, conds) == |conds|
    ensures s.Running? ==> Settled(Pad(ts, ws), ws, conds, s.j)
    ensures s.Running? ==>
              forall r :: 0 <= r < |ts| && |ts[r]| == 0 ==> Unused(conds, r) && s.j.cursors[r] == Cursor.Fresh()
    ensures (forall r :: 0 <= r < |ts| ==> |ts[r]| > 0) ==> s.Running?
    ensures s.Running? ==> s.j == PrefixInit(ts, ws, conds, |conds|)
    ensures s.EndedEarly? ==> 0 < FirstEmptyLevel(ts, conds) < |conds| && s.j.overallAtEnd
    ensures s.EndedEarly? ==> s.j == PrefixInit(ts, ws, conds, FirstEmptyLevel(ts, conds))
    ensures s.KeyOfEmpty? ==> s.level == FirstEmptyLevel(ts, conds) < |conds|
    ensures s.KeyOfEmpty? && 0 < s.level ==> !PrefixInit(ts, ws, conds, s.level).overallAtEnd
  {
    hide *;
    SchemaLevels(Pad(ts, ws), ws, conds);
    var n := FirstEmptyLevel(ts, conds);
    NoEmptyNoLevel(ts, conds);
    if n == 0 {
      s := KeyOfEmpty(0);
    } else if n == |conds| {
      var j := PrefixInit(ts, ws, conds, n);
      PrefixInitSettled(ts, ws, conds, n);
      assert conds[..n] == conds;
      StartUnused(ts, ws, conds, j);
      s := Running(j);
    } else {
      var j := PrefixInit(ts, ws, conds, n);
      if j.overallAtEnd {
        s := EndedEarly(j);
      } else {
        s := KeyOfEmpty(n);
      }
    }
  }

  /** A join has at least one level. */
  lemma SchemaLevels(ts: seq<Table>, ws: seq<nat>, conds: seq<seq<nat>>)
    requires Schema(ts, ws, conds)
    ensures 0 < |conds|
  {
  }

  /** With every relation non-empty, no level names an empty one. */
  lemma NoEmptyNoLevel(ts: seq<Table>, conds: seq<seq<nat>>)
    ensures (forall r :: 0 <= r < |ts| ==> |ts[r]| > 0) ==> FirstEmptyLevel(ts, conds) == |conds|
  {
    var l := FirstEmptyLevel(ts, conds);
    if l < |conds| {
      assert NamesEmpty(ts, conds[l]);
      var r :| r in conds[l] && r < |ts| && |ts[r]| == 0;
    }
  }

  /** With no empty relation, init() over all the levels of the padded
      tables is init() itself: the padding changes nothing. */
  lemma PrefixInitWhole(ts: seq<Table>, ws: seq<nat>, conds: seq<seq<nat>>)
    requires Schema(ts, ws, conds) && Unary.AllSorted(ts)
    requires forall r :: 0 <= r < |ts| ==> |ts[r]| > 0
    ensures Schema(Pad(ts, ws), ws, conds) && PrefixInit(ts, ws, conds, |conds|) == Init(ts, ws, conds)
  {
    hide Init, Unary.AllSorted, Settled;
    assert Pad(ts, ws) == ts;
    assert conds[..|conds|] == conds;
  }

  /** With no condition naming an empty relation, every empty relation is
      unused and keeps its fresh cursor; with no empty relation at all the
      padding changes nothing. */
  lemma StartUnused(ts: seq<Table>, ws: seq<nat>, conds: seq<seq<nat>>, j: Join)
    requires |ts| == |ws| && FirstEmptyLevel(ts, conds) == |conds| && Settled(Pad(ts, ws), ws, conds, j)
    ensures forall r :: 0 <= r < |ts| && |ts[r]| == 0 ==> Unused(conds, r) && j.cursors[r] == Cursor.Fresh()
    ensures (forall r :: 0 <= r < |ts| ==> |ts[r]| > 0) ==> Pad(ts, ws) == ts
  {
    forall r | 0 <= r < |ts| && |ts[r]| == 0 ensures Unused(conds, r) {
      forall l | 0 <= l < |conds| ensures r !in conds[l] {
        assert !NamesEmpty(ts, conds[l]);
      }
    }
  }

  /** overallNext(): findNext with an advance. */
  function OverallNext(ts: seq<Table>, ws: seq<nat>, conds: seq<seq<nat>>, j: Join): (j': Join)
    requires Settled(ts, ws, conds, j)
    ensures Settled(ts, ws, conds, j')
  {
    FindNext(ts, ws, conds, j, true)
  }

  /** resultTuple(): the row each relation's cursor is on. */
  function ResultTuple(ts: seq<Table>, ws: seq<nat>, conds: seq<seq<nat>>, j: Join): (t: seq<Relation.Row>)
    requires Wf(ts, ws, conds, j)
    ensures |t| == |ts| && forall r :: 0 <= r < |ts| ==> t[r] == ts[r][j.cursors[r].pos]
  {
    seq(|ts|, r requires 0 <= r < |ts| => ts[r][j.cursors[r].pos])
  }

  // ---------------------------------------------------------------------
  // Progress of findNext
  // ---------------------------------------------------------------------

  /** A lexicographic drop at e survives any change below e. */
  lemma LexPrefix(a: seq<nat>, a': seq<nat>, b: seq<nat>, e: int)
    requires LexBelow(a, b, e) && |a'| == |a| && Agree(a', a, e + 1)
    ensures LexBelow(a', b, e)
  {
  }

  /** Each ascent of Backtrack advances the level it lands on, so the state
      it leaves is lexicographically below the one it got, first differing
      at the level it stops on. */
  lemma {:induction false} BacktrackProgress(ts: seq<Table>, ws: seq<nat>, conds: seq<seq<nat>>, j: Join, adv: bool)
    requires Inv(ts, ws, conds, j) && j.depth > 0 && AtEnd(j)
    ensures var r := Backtrack(ts, ws, conds, j, adv);
      LexBelow(Digits(ts, ws, conds, r.0), Digits(ts, ws, conds, j), r.0.depth)
    decreases j.depth
  {
    var up := LevelUp(ts, ws, conds, j);
    LevelUpInv(ts, ws, conds, j);
    LevelUpKeeps(ts, ws, conds, j);
    LevelNextInv(ts, ws, conds, up);
    LevelNextDigits(ts, ws, conds, up);
    var j1 := LevelNext(ts, ws, conds, up);
    var adv1 := if AtEnd(j1) then adv else false;
    assert Backtrack(ts, ws, conds, j, adv) == Backtrack(ts, ws, conds, j1, adv1);
    if j1.depth > 0 && AtEnd(j1) {
      BacktrackProgress(ts, ws, conds, j1, adv1);
      var r := Backtrack(ts, ws, conds, j1, adv1);
      LexTrans(Digits(ts, ws, conds, r.0), Digits(ts, ws, conds, j1), Digits(ts, ws, conds, j), r.0.depth, j1.depth);
    }
  }

  /** Descend opens only levels below the one it starts on, so the digits
      down to that level stay. */
  lemma {:induction false} DescendKeeps(ts: seq<Table>, ws: seq<nat>, conds: seq<seq<nat>>, j: Join)
    requires Inv(ts, ws, conds, j) && !j.overallAtEnd
    requires j.depth < |conds| - 1 ==> j.depth == -1 || !AtEnd(j)
    ensures Agree(Digits(ts, ws, conds, Descend(ts, ws, conds, j)), Digits(ts, ws, conds, j), j.depth + 1)
    decreases |conds| - j.depth
  {
    hide LevelOpen, Digits;
    if j.depth < |conds| - 1 {
      LevelOpenInv(ts, ws, conds, j);
      LevelOpenDigits(ts, ws, conds, j);
      var j1 := LevelOpen(ts, ws, conds, j);
      if !AtEnd(j1) {
        assert Descend(ts, ws, conds, j) == Descend(ts, ws, conds, j1);
        DescendKeeps(ts, ws, conds, j1);
      } else {
        assert Descend(ts, ws, conds, j) == j1;
      }
    } else {
      assert Descend(ts, ws, conds, j) == j;
    }
  }

  /** The digits read the cursors and levels only. */
  lemma DigitsIgnoreEnd(ts: seq<Table>, ws: seq<nat>, conds: seq<seq<nat>>, j: Join, e: bool)
    requires Wf(ts, ws, conds, j)
    ensures Digits(ts, ws, conds, j.(overallAtEnd := e)) == Digits(ts, ws, conds, j)
  {
  }

  /** A pass that backtracks lands lexicographically below where it
      started, and the levels it then opens keep that. */
  lemma PassProgressUp(ts: seq<Table>, ws: seq<nat>, conds: seq<seq<nat>>, j: Join, adv: bool)
    requires Inv(ts, ws, conds, j) && 0 < j.depth && AtEnd(j) && !j.overallAtEnd
    ensures var r := Pass(ts, ws, conds, j, adv);
      Measure(ts, ws, conds, r.0) < Measure(ts, ws, conds, j)
  {
    hide Backtrack, Advance, Descend, Inv, Measure, Digits, LevelOpen, LevelNext, LevelUp;
    var r := Pass(ts, ws, conds, j, adv);
    var b := Backtrack(ts, ws, conds, j, adv);
    BacktrackProgress(ts, ws, conds, j, adv);
    var j1 := b.0;
    InvShape(ts, ws, conds, j);
    InvShape(ts, ws, conds, j1);
    if j1.depth == 0 && AtEnd(j1) {
      assert r.0 == j1.(overallAtEnd := true);
      EndInv(ts, ws, conds, j1);
      InvShape(ts, ws, conds, r.0);
      DigitsIgnoreEnd(ts, ws, conds, j1, true);
      MeasureLess(ts, ws, conds, j, r.0, j1.depth);
    } else {
      assert Advance(ts, ws, conds, j1, b.1) == (j1, false);
      assert r.0 == Descend(ts, ws, conds, j1);
      InvShape(ts, ws, conds, r.0);
      DescendKeeps(ts, ws, conds, j1);
      LexPrefix(Digits(ts, ws, conds, j1), Digits(ts, ws, conds, r.0), Digits(ts, ws, conds, j), j1.depth);
      MeasureLess(ts, ws, conds, j, r.0, j1.depth);
    }
  }

  /** A pass entered on an ended level never raises the measure, and
      lowers it unless it ends the join. */
  lemma PassProgress(ts: seq<Table>, ws: seq<nat>, conds: seq<seq<nat>>, j: Join, adv: bool)
    requires Inv(ts, ws, conds, j) && 0 <= j.depth && AtEnd(j) && !j.overallAtEnd
    ensures var r := Pass(ts, ws, conds, j, adv);
      Measure(ts, ws, conds, r.0) <= Measure(ts, ws, conds, j) &&
      (!r.0.overallAtEnd ==> Measure(ts, ws, conds, r.0) < Measure(ts, ws, conds, j))
  {
    if j.depth > 0 {
      PassProgressUp(ts, ws, conds, j, adv);
    } else {
      assert Pass(ts, ws, conds, j, adv).0 == j.(overallAtEnd := true);
      DigitsIgnoreEnd(ts, ws, conds, j, true);
    }
  }

  /** The later passes never raise the measure. */
  lemma {:induction false} RestProgress(ts: seq<Table>, ws: seq<nat>, conds: seq<seq<nat>>, j: Join, adv: bool)
    requires Inv(ts, ws, conds, j) && 0 <= j.depth && AtEnd(j) && !j.overallAtEnd
    requires adv ==> j.depth == |conds| - 1
    ensures Measure(ts, ws, conds, Rest(ts, ws, conds, j, adv)) <= Measure(ts, ws, conds, j)
    decreases Measure(ts, ws, conds, j)
  {
    var r := Pass(ts, ws, conds, j, adv);
    PassProgress(ts, ws, conds, j, adv);
    if !r.0.overallAtEnd && AtEnd(r.0) {
      RestProgress(ts, ws, conds, r.0, r.1);
    }
  }

  // ---------------------------------------------------------------------
  // What the public operations promise
  // ---------------------------------------------------------------------

  /** findNext(false) on a state at a binding leaves it where it is: the
      state init() reports is not advanced past. */
  lemma FindNextStays(ts: seq<Table>, ws: seq<nat>, conds: seq<seq<nat>>, j: Join)
    requires Settled(ts, ws, conds, j) && !j.overallAtEnd
    ensures FindNext(ts, ws, conds, j, false) == j
  {
    hide Backtrack, Advance, Descend, Inv;
    assert Backtrack(ts, ws, conds, j, false) == (j, false);
    assert Advance(ts, ws, conds, j, false) == (j, false);
    assert Descend(ts, ws, conds, j) == j;
    assert Pass(ts, ws, conds, j, false) == (j, false);
  }

  /** overallNext() once the join has ended changes nothing. */
  lemma OverallNextEnded(ts: seq<Table>, ws: seq<nat>, conds: seq<seq<nat>>, j: Join)
    requires Settled(ts, ws, conds, j) && j.overallAtEnd
    ensures OverallNext(ts, ws, conds, j) == j
  {
    hide Backtrack, Advance, Descend, Inv;
    assert Backtrack(ts, ws, conds, j, true) == (j, true);
    assert j.(overallAtEnd := true) == j;
    assert Pass(ts, ws, conds, j, true) == (j, false);
  }

  /** overallNext() from a binding first advances the deepest level, so the
      state it reports next (or its end) has a smaller measure. */
  lemma OverallNextProgress(ts: seq<Table>, ws: seq<nat>, conds: seq<seq<nat>>, j: Join)
    requires Settled(ts, ws, conds, j) && !j.overallAtEnd
    ensures Measure(ts, ws, conds, OverallNext(ts, ws, conds, j)) < Measure(ts, ws, conds, j)
  {
    hide Backtrack, Descend, Inv, Measure, Digits, LevelNext, Rest;
    InvShape(ts, ws, conds, j);
    var j1 := LevelNext(ts, ws, conds, j);
    assert Backtrack(ts, ws, conds, j, true) == (j, true);
    assert Advance(ts, ws, conds, j, true) == (j1, AtEnd(j1));
    assert Descend(ts, ws, conds, j1) == j1;
    var r := Pass(ts, ws, conds, j, true);
    assert r == (j1, AtEnd(j1));
    LevelNextDigits(ts, ws, conds, j);
    InvShape(ts, ws, conds, j1);
    MeasureLess(ts, ws, conds, j, j1, j.depth);
    if !j1.overallAtEnd && AtEnd(j1) {
      RestProgress(ts, ws, conds, j1, AtEnd(j1));
    }
  }

  /** A tuple satisfies every join condition: the relations a condition
      names hold one value in the columns it binds. */
  predicate Joined(conds: seq<seq<nat>>, t: seq<Relation.Row>)
  {
    forall l, r, r' ::
      (0 <= l < |conds| && r in conds[l] && r' in conds[l] &&
       r < |t| && r' < |t| && Col(conds, r, l) < |t[r]| && Col(conds, r', l) < |t[r']|) ==>
      t[r][Col(conds, r, l)] == t[r'][Col(conds, r', l)]
  }

  /** Every tuple the join reports at a binding satisfies the join
      conditions. */
  lemma ResultSound(ts: seq<Table>, ws: seq<nat>, conds: seq<seq<nat>>, j: Join)
    requires Settled(ts, ws, conds, j) && !j.overallAtEnd
    ensures Joined(conds, ResultTuple(ts, ws, conds, j))
  {
    SettledAgreed(ts, ws, conds, j);
    hide Settled, Inv, Unary.AllSorted, Unary.CursorsValid, LevelOk;
    var t := ResultTuple(ts, ws, conds, j);
    forall l, r, r' | 0 <= l < |conds| && r in conds[l] && r' in conds[l] &&
        r < |t| && r' < |t| && Col(conds, r, l) < |t[r]| && Col(conds, r', l) < |t[r']|
      ensures t[r][Col(conds, r, l)] == t[r'][Col(conds, r', l)]
    {
      assert Val(ts, ws, conds, j.cursors, r, l) == Val(ts, ws, conds, j.cursors, r', l);
    }
  }

  /** At a reported binding every level has a binding, so the relations
      of every condition agree. */
  lemma SettledAgreed(ts: seq<Table>, ws: seq<nat>, conds: seq<seq<nat>>, j: Join)
    requires Settled(ts, ws, conds, j) && !j.overallAtEnd
    ensures Wf(ts, ws, conds, j)
    ensures forall l :: 0 <= l < |conds| ==> Agreed(ts, ws, conds, j.cursors, l)
  {
  }

  /** A relation that no condition names keeps its cursor on its first
      row. */
  lemma ResultUnused(ts: seq<Table>, ws: seq<nat>, conds: seq<seq<nat>>, j: Join, r: nat)
    requires Inv(ts, ws, conds, j) && r < |ts| && Unused(conds, r)
    ensures ResultTuple(ts, ws, conds, j)[r] == ts[r][0]
  {
    assert j.cursors[r] == Cursor.Fresh();
  }

  /** The tuples reported from j on: the result tuple of each binding, then
      overallNext(), until the join has ended. */
  function Results(ts: seq<Table>, ws: seq<nat>, conds: seq<seq<nat>>, j: Join): seq<seq<Relation.Row>>
    requires Settled(ts, ws, conds, j)
    decreases Measure(ts, ws, conds, j)
  {
    if j.overallAtEnd then []
    else
      OverallNextProgress(ts, ws, conds, j);
      [ResultTuple(ts, ws, conds, j)] + Results(ts, ws, conds, OverallNext(ts, ws, conds, j))
  }

  /** The whole enumeration: init(), then overallNext() until the end. */
  function Enumerate(ts: seq<Table>, ws: seq<nat>, conds: seq<seq<nat>>): seq<seq<Relation.Row>>
    requires Schema(ts, ws, conds) && Unary.AllSorted(ts)
  {
    Results(ts, ws, conds, Init(ts, ws, conds))
  }

  /** Every reported tuple has one row per relation and satisfies the join
      conditions. */
  lemma {:induction false} ResultsSound(ts: seq<Table>, ws: seq<nat>, conds: seq<seq<nat>>, j: Join)
    requires Settled(ts, ws, conds, j)
    ensures forall i :: 0 <= i < |Results(ts, ws, conds, j)| ==>
              |Results(ts, ws, conds, j)[i]| == |ts| && Joined(conds, Results(ts, ws, conds, j)[i])
    decreases Measure(ts, ws, conds, j)
  {
    if !j.overallAtEnd {
      OverallNextProgress(ts, ws, conds, j);
      var j' := OverallNext(ts, ws, conds, j);
      ResultSound(ts, ws, conds, j);
      ResultsSound(ts, ws, conds, j');
      var rs := Results(ts, ws, conds, j);
      assert rs == [ResultTuple(ts, ws, conds, j)] + Results(ts, ws, conds, j');
      forall i | 0 <= i < |rs| ensures |rs[i]| == |ts| && Joined(conds, rs[i]) {
        if i > 0 {
          assert rs[i] == Results(ts, ws, conds, j')[i - 1];
        }
      }
    }
  }

  /** Every tuple of the whole enumeration satisfies the join conditions. */
  lemma EnumerateSound(ts: seq<Table>, ws: seq<nat>, conds: seq<seq<nat>>)
    requires Schema(ts, ws, conds) && Unary.AllSorted(ts)
    ensures forall t :: t in Enumerate(ts, ws, conds) ==> |t| == |ts| && Joined(conds, t)
  {
    ResultsSound(ts, ws, conds, Init(ts, ws, conds));
  }
}

=== FILE: unary.dfy ===
/** The unary Leapfrog join (UnaryLeapfrogTriejoin): the intersection of
    one column over several cursors, found by letting the cursor with the
    smallest key seek to the largest one in turn. The cursors live in one
    shared sequence indexed by relation; a unary join names the relations
    it uses (its members) and keeps the turn p and an end flag. */
module Unary {
  import opened Seqs
  import Relation
  import Cursor

  type Cur = Cursor.Cursor

  datatype Unary = Unary(members: seq<nat>, p: int, atEnd: bool)

  /** The cursors after an operation, with the join's new state. */
  datatype Step = Step(cursors: seq<Cur>, u: Unary)

  /** Relation r's table has rows of width ws[r]. */
  predicate Tables(ts: seq<Cursor.Table>, ws: seq<nat>)
  {
    |ts| == |ws| && forall r :: 0 <= r < |ts| ==> Cursor.Rect(ts[r], ws[r])
  }

  /** One valid cursor per table. */
  predicate CursorsValid(ts: seq<Cursor.Table>, ws: seq<nat>, cs: seq<Cur>)
  {
    Tables(ts, ws) && |cs| == |ts| && forall r :: 0 <= r < |cs| ==> Cursor.Valid(ts[r], ws[r], cs[r])
  }

  /** Every member names a cursor that has a bound column. */
  predicate Ready(ts: seq<Cursor.Table>, ws: seq<nat>, cs: seq<Cur>, ms: seq<nat>)
  {
    CursorsValid(ts, ws, cs) && |ms| > 0 &&
    forall i :: 0 <= i < |ms| ==> ms[i] < |cs| && cs[ms[i]].depth >= 0
  }

  function KeyAt(ts: seq<Cursor.Table>, ws: seq<nat>, cs: seq<Cur>, r: nat): int
    requires CursorsValid(ts, ws, cs) && r < |cs| && cs[r].depth >= 0
  {
    Cursor.Key(ts[r], ws[r], cs[r])
  }

  /** The members' keys, in member order. */
  function Keys(ts: seq<Cursor.Table>, ws: seq<nat>, cs: seq<Cur>, ms: seq<nat>): (ks: seq<int>)
    requires Ready(ts, ws, cs, ms)
    ensures |ks| == |ms|
  {
    seq(|ms|, i requires 0 <= i < |ms| => KeyAt(ts, ws, cs, ms[i]))
  }

  // ---------------------------------------------------------------------
  // Turn arithmetic
  // ---------------------------------------------------------------------

  /** Math.floorMod(p + 1, k) for a turn p in [0, k). */
  function Succ(p: int, k: int): int
  {
    if p + 1 == k then 0 else p + 1
  }

  /** Math.floorMod(p - 1, k) for a turn p in [0, k). */
  function Pred(p: int, k: int): int
  {
    if p == 0 then k - 1 else p - 1
  }

  /** Both agree with the floored remainder the source computes. */
  lemma TurnsAreFloorMod(p: int, k: int)
    requires 0 <= p < k
    ensures Succ(p, k) == (p + 1) % k && 0 <= Succ(p, k) < k
    ensures Pred(p, k) == (p - 1) % k && 0 <= Pred(p, k) < k
  {
    if p == 0 {
      assert -1 == (-1) * k + (k - 1);
    }
  }

  /** x reduced into [0, k) for x in [0, 2k). */
  function Wrap(x: int, k: int): int
  {
    if x < k then x else x - k
  }

  /** The keys read cyclically from turn p. */
  function Rot(ks: seq<int>, p: int): (r: seq<int>)
    requires 0 <= p < |ks|
    ensures |r| == |ks|
  {
    seq(|ks|, i requires 0 <= i < |ks| => ks[Wrap(p + i, |ks|)])
  }

  predicate NonDecreasing(s: seq<int>)
  {
    forall i, j :: 0 <= i <= j < |s| ==> s[i] <= s[j]
  }

  /** The keys are non-decreasing read cyclically from turn p: the order the
      search keeps, which makes key p the least and key p - 1 the greatest. */
  predicate CyclicSorted(ks: seq<int>, p: int)
    requires 0 <= p < |ks|
  {
    NonDecreasing(Rot(ks, p))
  }

  // ---------------------------------------------------------------------
  // Termination measure
  // ---------------------------------------------------------------------

  /** The largest of a sequence (0 when empty). */
  function MaxOf(s: seq<int>): (m: int)
    ensures forall i :: 0 <= i < |s| ==> s[i] <= m
  {
    if |s| == 0 then 0
    else
      var m := MaxOf(s[..|s| - 1]);
      assert forall i :: 0 <= i < |s| - 1 ==> s[..|s| - 1][i] == s[i];
      if s[|s| - 1] > m then s[|s| - 1] else m
  }

  /** A bound on every entry of every table. */
  function MaxEntry(ts: seq<Cursor.Table>): (m: int)
    ensures forall r, i, j :: 0 <= r < |ts| && 0 <= i < |ts[r]| && 0 <= j < |ts[r][i]| ==> ts[r][i][j] <= m
  {
    var rows := seq(|ts|, r requires 0 <= r < |ts| => MaxOf(seq(|ts[r]|, i requires 0 <= i < |ts[r]| => MaxOf(ts[r][i]))));
    var m := MaxOf(rows);
    assert forall r, i, j :: 0 <= r < |ts| && 0 <= i < |ts[r]| && 0 <= j < |ts[r][i]| ==> ts[r][i][j] <= m by {
      forall r, i, j | 0 <= r < |ts| && 0 <= i < |ts[r]| && 0 <= j < |ts[r][i]| ensures ts[r][i][j] <= m {
        var inner := seq(|ts[r]|, i requires 0 <= i < |ts[r]| => MaxOf(ts[r][i]));
        assert ts[r][i][j] <= inner[i] <= rows[r];
      }
    }
    m
  }

  /** The rows still ahead of all cursors. */
  function Potential(ts: seq<Cursor.Table>, cs: seq<Cur>, n: nat): nat
    requires n <= |cs| <= |ts|
    requires forall r :: 0 <= r < |cs| ==> 0 <= cs[r].pos < |ts[r]|
  {
    if n == 0 then 0 else Potential(ts, cs, n - 1) + (|ts[n - 1]| - cs[n - 1].pos)
  }

  /** Moving one cursor forward lowers the potential by the distance moved. */
  lemma {:induction false} PotentialUpdate(ts: seq<Cursor.Table>, cs: seq<Cur>, r: nat, c: Cur, n: nat)
    requires n <= |cs| <= |ts| && r < |cs|
    requires forall q :: 0 <= q < |cs| ==> 0 <= cs[q].pos < |ts[q]|
    requires cs[r].pos <= c.pos < |ts[r]|
    ensures Potential(ts, cs[r := c], n) == Potential(ts, cs, n) - (if r < n then c.pos - cs[r].pos else 0)
  {
    if n > 0 {
      PotentialUpdate(ts, cs, r, c, n - 1);
    }
  }

  // ---------------------------------------------------------------------
  // Search
  // ---------------------------------------------------------------------

  /** leapfrogSearch's loop, entered with x1 the key of the member before
      the turn: when the turn's key equals x1 the search is done; otherwise
      that cursor seeks x1, and either ends the join or hands its new key on
      to the next turn. */
  function Search(ts: seq<Cursor.Table>, ws: seq<nat>, cs: seq<Cur>, u: Unary, x1: int): (s: Step)
    requires Ready(ts, ws, cs, u.members) && 0 <= u.p < |u.members|
    requires x1 == KeyAt(ts, ws, cs, u.members[Pred(u.p, |u.members|)])
    ensures Ready(ts, ws, s.cursors, u.members)
    ensures s.u.members == u.members && 0 <= s.u.p < |u.members|
    ensures forall r :: 0 <= r < |cs| ==> s.cursors[r].depth == cs[r].depth
    decreases Potential(ts, cs, |cs|), MaxEntry(ts) - x1
  {
    hide Seqs.Distinct, Relation.Sorted, Relation.Compare, Cursor.Seek, Potential, MaxEntry;
    var ms := u.members;
    var k := |ms|;
    var r := ms[u.p];
    var x := KeyAt(ts, ws, cs, r);
    if x == x1 then Step(cs, u)
    else
      var c := Cursor.Seek(ts[r], ws[r], cs[r], x1);
      var cs' := cs[r := c];
      if c.atEnd then Step(cs', u.(atEnd := true))
      else
        PotentialUpdate(ts, cs, r, c, |cs|);
        TurnsAreFloorMod(u.p, k);
        assert Pred(Succ(u.p, k), k) == u.p;
        Search(ts, ws, cs', u.(p := Succ(u.p, k)), Cursor.Key(ts[r], ws[r], c))
  }

  /** One round of the search: done, ended by the seek, or handed on to the
      next turn with a smaller measure. */
  lemma SearchUnfold(ts: seq<Cursor.Table>, ws: seq<nat>, cs: seq<Cur>, u: Unary, x1: int)
    requires Ready(ts, ws, cs, u.members) && 0 <= u.p < |u.members|
    requires x1 == KeyAt(ts, ws, cs, u.members[Pred(u.p, |u.members|)])
    ensures var r := u.members[u.p];
      CursorsValid(ts, ws, cs) && |ts| == |ws| == |cs| && r < |cs| && cs[r].depth >= 0 && Cursor.Keyed(ts[r], ws[r], cs[r])
    ensures var r := u.members[u.p];
      KeyAt(ts, ws, cs, r) == x1 ==> Search(ts, ws, cs, u, x1) == Step(cs, u)
    ensures var r := u.members[u.p];
      KeyAt(ts, ws, cs, r) != x1 ==>
        var c := Cursor.Seek(ts[r], ws[r], cs[r], x1);
        var cs' := cs[r := c];
        var u' := u.(p := Succ(u.p, |u.members|));
        r < |cs| && cs[r].pos <= c.pos &&
        (c.atEnd ==> Search(ts, ws, cs, u, x1) == Step(cs', u.(atEnd := true))) &&
        (!c.atEnd ==>
           Ready(ts, ws, cs', u.members) && 0 <= u'.p < |u.members| && Pred(u'.p, |u.members|) == u.p &&
           KeyAt(ts, ws, cs', r) == Cursor.Key(ts[r], ws[r], c) &&
           (Potential(ts, cs', |cs'|) < Potential(ts, cs, |cs|) ||
            (Potential(ts, cs', |cs'|) == Potential(ts, cs, |cs|) &&
             0 <= MaxEntry(ts) - Cursor.Key(ts[r], ws[r], c) < MaxEntry(ts) - x1)) &&
           Search(ts, ws, cs, u, x1) == Search(ts, ws, cs', u', Cursor.Key(ts[r], ws[r], c)))
  {
    hide Seqs.Distinct, Relation.Sorted, Relation.Compare, Cursor.Seek, Potential, MaxEntry;
    var k := |u.members|;
    var r := u.members[u.p];
    if KeyAt(ts, ws, cs, r) != x1 {
      var c := Cursor.Seek(ts[r], ws[r], cs[r], x1);
      if !c.atEnd {
        PotentialUpdate(ts, cs, r, c, |cs|);
        TurnsAreFloorMod(u.p, k);
      }
    }
  }

  /** leapfrogSearch: start from the key of the member before the turn. */
  function LeapfrogSearch(ts: seq<Cursor.Table>, ws: seq<nat>, cs: seq<Cur>, u: Unary): (s: Step)
    requires Ready(ts, ws, cs, u.members) && 0 <= u.p < |u.members|
  {
    TurnsAreFloorMod(u.p, |u.members|);
    Search(ts, ws, cs, u, KeyAt(ts, ws, cs, u.members[Pred(u.p, |u.members|)]))
  }

  /** The search only moves member cursors, only forward, and raises the
      join's end flag exactly when the cursor whose turn it is ends. */
  lemma {:induction false} SearchFrame(ts: seq<Cursor.Table>, ws: seq<nat>, cs: seq<Cur>, u: Unary, x1: int)
    requires Ready(ts, ws, cs, u.members) && 0 <= u.p < |u.members|
    requires x1 == KeyAt(ts, ws, cs, u.members[Pred(u.p, |u.members|)])
    ensures var s := Search(ts, ws, cs, u, x1);
      (forall r :: 0 <= r < |cs| ==> cs[r].pos <= s.cursors[r].pos) &&
      (forall r {:trigger s.cursors[r]} :: 0 <= r < |cs| && r !in u.members ==> s.cursors[r] == cs[r]) &&
      (forall r :: 0 <= r < |cs| && s.cursors[r].atEnd && !cs[r].atEnd ==> r == u.members[s.u.p]) &&
      (u.atEnd ==> s.u.atEnd) &&
      (s.u.atEnd && !u.atEnd ==> s.cursors[u.members[s.u.p]].atEnd)
    decreases Potential(ts, cs, |cs|), MaxEntry(ts) - x1
  {
    hide *;
    SearchUnfold(ts, ws, cs, u, x1);
    var r := u.members[u.p];
    if KeyAt(ts, ws, cs, r) != x1 {
      var c := Cursor.Seek(ts[r], ws[r], cs[r], x1);
      if !c.atEnd {
        SearchFrame(ts, ws, cs[r := c], u.(p := Succ(u.p, |u.members|)), Cursor.Key(ts[r], ws[r], c));
      }
    }
  }

  /** When the search returns without ending, the turn's key equals the key
      of the member before it. */
  lemma {:induction false} SearchMatch(ts: seq<Cursor.Table>, ws: seq<nat>, cs: seq<Cur>, u: Unary, x1: int)
    requires Ready(ts, ws, cs, u.members) && 0 <= u.p < |u.members|
    requires x1 == KeyAt(ts, ws, cs, u.members[Pred(u.p, |u.members|)])
    ensures var s := Search(ts, ws, cs, u, x1);
      !s.u.atEnd ==> KeyAt(ts, ws, s.cursors, u.members[s.u.p]) ==
                     KeyAt(ts, ws, s.cursors, u.members[Pred(s.u.p, |u.members|)])
    decreases Potential(ts, cs, |cs|), MaxEntry(ts) - x1
  {
    hide *;
    SearchUnfold(ts, ws, cs, u, x1);
    var r := u.members[u.p];
    if KeyAt(ts, ws, cs, r) != x1 {
      var c := Cursor.Seek(ts[r], ws[r], cs[r], x1);
      if !c.atEnd {
        SearchMatch(ts, ws, cs[r := c], u.(p := Succ(u.p, |u.members|)), Cursor.Key(ts[r], ws[r], c));
      }
    }
  }

  /** All keys are equal. */
  predicate AllEqual(ks: seq<int>)
  {
    forall i, j :: 0 <= i < |ks| && 0 <= j < |ks| ==> ks[i] == ks[j]
  }

  /** Raising the least key (at turn p) to at least the greatest one keeps
      the cyclic order, now read from the next turn. */
  lemma RotStep(ks: seq<int>, p: int, v: int)
    requires 0 <= p < |ks| && CyclicSorted(ks, p)
    requires v >= ks[Pred(p, |ks|)]
    ensures 0 <= Succ(p, |ks|) < |ks| && CyclicSorted(ks[p := v], Succ(p, |ks|))
  {
    var k := |ks|;
    var R := Rot(ks, p);
    var q := Succ(p, k);
    var R' := Rot(ks[p := v], q);
    assert Wrap(p + (k - 1), k) == Pred(p, k);
    assert R[k - 1] == ks[Pred(p, k)];
    forall i | 0 <= i < k - 1 ensures R'[i] == R[i + 1] {
      assert Wrap(q + i, k) == Wrap(p + i + 1, k) && Wrap(p + i + 1, k) != p;
    }
    assert R'[k - 1] == v by {
      assert Wrap(q + k - 1, k) == p;
    }
    forall i, j | 0 <= i <= j < k ensures R'[i] <= R'[j] {
      if j < k - 1 {
        assert R[i + 1] <= R[j + 1];
      } else if i < k - 1 {
        assert R[i + 1] <= R[k - 1];
      }
    }
  }

  /** When the turn's key equals the previous member's in cyclic order, the
      least and greatest keys meet and every key is the same. */
  lemma CyclicMeet(ks: seq<int>, p: int)
    requires 0 <= p < |ks| && CyclicSorted(ks, p) && ks[p] == ks[Pred(p, |ks|)]
    ensures AllEqual(ks)
  {
    var k := |ks|;
    var R := Rot(ks, p);
    assert Wrap(p + 0, k) == p;
    assert R[0] == ks[p];
    assert Wrap(p + (k - 1), k) == Pred(p, k);
    assert R[k - 1] == ks[Pred(p, k)];
    forall i | 0 <= i < k ensures ks[i] == ks[p] {
      var j := if i >= p then i - p else i - p + k;
      assert Wrap(p + j, k) == i;
      assert R[j] == ks[i];
      assert R[0] <= R[j] <= R[k - 1];
    }
  }

  /** Under the cyclic order the search returns, when it does not end, with
      every member on the same key: the leapfrog invariant. Members must be
      distinct relations, so that moving one cursor moves one key. */
  lemma {:induction false} SearchAgrees(ts: seq<Cursor.Table>, ws: seq<nat>, cs: seq<Cur>, u: Unary, x1: int)
    requires Ready(ts, ws, cs, u.members) && 0 <= u.p < |u.members| && Distinct(u.members)
    requires x1 == KeyAt(ts, ws, cs, u.members[Pred(u.p, |u.members|)])
    requires CyclicSorted(Keys(ts, ws, cs, u.members), u.p)
    ensures var s := Search(ts, ws, cs, u, x1);
      !s.u.atEnd ==> AllEqual(Keys(ts, ws, s.cursors, u.members))
    decreases Potential(ts, cs, |cs|), MaxEntry(ts) - x1
  {
    hide Cursor.Seek, MaxEntry, Potential;
    var ms := u.members;
    var k := |ms|;
    var r := ms[u.p];
    var ks := Keys(ts, ws, cs, ms);
    TurnsAreFloorMod(u.p, k);
    if KeyAt(ts, ws, cs, r) == x1 {
      CyclicMeet(ks, u.p);
    } else {
      var c := Cursor.Seek(ts[r], ws[r], cs[r], x1);
      var cs' := cs[r := c];
      if !c.atEnd {
        PotentialUpdate(ts, cs, r, c, |cs|);
        assert Pred(Succ(u.p, k), k) == u.p;
        var v := Cursor.Key(ts[r], ws[r], c);
        RotStep(ks, u.p, v);
        KeysUpdate(ts, ws, cs, ms, u.p, c);
        SearchAgrees(ts, ws, cs', u.(p := Succ(u.p, k)), v);
      }
    }
  }

  /** Every table is sorted in storage order. */
  predicate AllSorted(ts: seq<Cursor.Table>)
  {
    forall r :: 0 <= r < |ts| ==> Relation.Sorted(ts[r])
  }

  /** Over sorted tables the search never lowers a member's key: it only
      seeks forward within each cursor's block. */
  lemma {:induction false} SearchKeysGrow(ts: seq<Cursor.Table>, ws: seq<nat>, cs: seq<Cur>, u: Unary, x1: int)
    requires Ready(ts, ws, cs, u.members) && 0 <= u.p < |u.members| && AllSorted(ts)
    requires x1 == KeyAt(ts, ws, cs, u.members[Pred(u.p, |u.members|)])
    ensures var s := Search(ts, ws, cs, u, x1);
      forall i :: 0 <= i < |u.members| ==> Keys(ts, ws, s.cursors, u.members)[i] >= Keys(ts, ws, cs, u.members)[i]
    decreases Potential(ts, cs, |cs|), MaxEntry(ts) - x1
  {
    hide Cursor.Seek, MaxEntry, Potential;
    var ms := u.members;
    var k := |ms|;
    var r := ms[u.p];
    if KeyAt(ts, ws, cs, r) != x1 {
      var c := Cursor.Seek(ts[r], ws[r], cs[r], x1);
      var cs' := cs[r := c];
      Cursor.SortedColumn(ts[r], ws[r], cs[r].pos, c.pos, c.depth);
      assert forall i :: 0 <= i < k ==> Keys(ts, ws, cs', ms)[i] >= Keys(ts, ws, cs, ms)[i];
      if !c.atEnd {
        PotentialUpdate(ts, cs, r, c, |cs|);
        TurnsAreFloorMod(u.p, k);
        assert Pred(Succ(u.p, k), k) == u.p;
        SearchKeysGrow(ts, ws, cs', u.(p := Succ(u.p, k)), Cursor.Key(ts[r], ws[r], c));
      }
    }
  }

  /** The search moves each cursor only within its block: the row it ends
      on agrees with the row it started on in every column before the
      cursor's depth. */
  lemma {:induction false} SearchPrefix(ts: seq<Cursor.Table>, ws: seq<nat>, cs: seq<Cur>, u: Unary, x1: int)
    requires Ready(ts, ws, cs, u.members) && 0 <= u.p < |u.members|
    requires x1 == KeyAt(ts, ws, cs, u.members[Pred(u.p, |u.members|)])
    ensures var s := Search(ts, ws, cs, u, x1);
      forall r :: 0 <= r < |cs| ==> Cursor.SamePrefix(ts[r], cs[r].pos, s.cursors[r].pos, cs[r].depth)
    decreases Potential(ts, cs, |cs|), MaxEntry(ts) - x1
  {
    hide Cursor.Seek, MaxEntry, Potential;
    var ms := u.members;
    var k := |ms|;
    var r := ms[u.p];
    if KeyAt(ts, ws, cs, r) != x1 {
      var c := Cursor.Seek(ts[r], ws[r], cs[r], x1);
      var cs' := cs[r := c];
      if !c.atEnd {
        PotentialUpdate(ts, cs, r, c, |cs|);
        TurnsAreFloorMod(u.p, k);
        assert Pred(Succ(u.p, k), k) == u.p;
        SearchPrefix(ts, ws, cs', u.(p := Succ(u.p, k)), Cursor.Key(ts[r], ws[r], c));
        var s := Search(ts, ws, cs', u.(p := Succ(u.p, k)), Cursor.Key(ts[r], ws[r], c));
        assert Cursor.SamePrefix(ts[r], cs[r].pos, c.pos, cs[r].depth);
        assert Cursor.SamePrefix(ts[r], c.pos, s.cursors[r].pos, cs[r].depth);
      }
    }
  }

  // ---------------------------------------------------------------------
  // The join's operations
  // ---------------------------------------------------------------------

  /** Every member's cursor can bind one more column. */
  predicate Openable(ts: seq<Cursor.Table>, ws: seq<nat>, cs: seq<Cur>, ms: seq<nat>)
  {
    CursorsValid(ts, ws, cs) && |ms| > 0 && Distinct(ms) &&
    forall i :: 0 <= i < |ms| ==> ms[i] < |cs| && cs[ms[i]].depth + 1 < ws[ms[i]]
  }

  /** Open every member's cursor; the others are left alone. */
  function OpenAll(ts: seq<Cursor.Table>, ws: seq<nat>, cs: seq<Cur>, ms: seq<nat>): (cs': seq<Cur>)
    requires Openable(ts, ws, cs, ms)
    ensures Ready(ts, ws, cs', ms)
    ensures forall r {:trigger cs'[r]} :: 0 <= r < |cs| && r in ms ==> cs'[r] == Cursor.Open(ts[r], ws[r], cs[r])
    ensures forall r {:trigger cs'[r]} :: 0 <= r < |cs| && r !in ms ==> cs'[r] == cs[r]
  {
    seq(|cs|, r requires 0 <= r < |cs| => if r in ms then Cursor.Open(ts[r], ws[r], cs[r]) else cs[r])
  }

  /** Move every member's cursor up; the others are left alone. */
  function UpAll(cs: seq<Cur>, ms: seq<nat>): (cs': seq<Cur>)
    ensures |cs'| == |cs|
    ensures forall r {:trigger cs'[r]} :: 0 <= r < |cs| && r in ms ==> cs'[r] == Cursor.Up(cs[r])
    ensures forall r {:trigger cs'[r]} :: 0 <= r < |cs| && r !in ms ==> cs'[r] == cs[r]
  {
    seq(|cs|, r requires 0 <= r < |cs| => if r in ms then Cursor.Up(cs[r]) else cs[r])
  }

  /** Some member's cursor is at its end. */
  predicate AnyAtEnd(cs: seq<Cur>, ms: seq<nat>)
  {
    exists i :: 0 <= i < |ms| && ms[i] < |cs| && cs[ms[i]].atEnd
  }

  /** init(): the join is at its end when any member is; otherwise search
      from the current turn, which init leaves where it was. */
  function Init(ts: seq<Cursor.Table>, ws: seq<nat>, cs: seq<Cur>, u: Unary): (s: Step)
    requires Ready(ts, ws, cs, u.members) && 0 <= u.p < |u.members|
    ensures Ready(ts, ws, s.cursors, u.members)
    ensures s.u.members == u.members && 0 <= s.u.p < |u.members|
    ensures forall r :: 0 <= r < |cs| ==> s.cursors[r].depth == cs[r].depth
    ensures forall r {:trigger s.cursors[r]} :: 0 <= r < |cs| && r !in u.members ==> s.cursors[r] == cs[r]
    ensures AnyAtEnd(cs, u.members) ==> s == Step(cs, u.(atEnd := true))
  {
    if AnyAtEnd(cs, u.members) then Step(cs, u.(atEnd := true))
    else
      TurnsAreFloorMod(u.p, |u.members|);
      SearchFrame(ts, ws, cs, u.(atEnd := false), KeyAt(ts, ws, cs, u.members[Pred(u.p, |u.members|)]));
      LeapfrogSearch(ts, ws, cs, u.(atEnd := false))
  }

  /** init() over sorted tables, when no member has ended: the search it
      runs keeps the keys common to all members, ends only when there is
      none, and otherwise leaves every member at or below each of them. */
  lemma InitComplete(ts: seq<Cursor.Table>, ws: seq<nat>, cs: seq<Cur>, u: Unary)
    requires Ready(ts, ws, cs, u.members) && 0 <= u.p < |u.members| && AllSorted(ts)
    requires !AnyAtEnd(cs, u.members)
    ensures var s := Init(ts, ws, cs, u);
      (forall v :: Common(ts, ws, cs, u.members, v) <==> Common(ts, ws, s.cursors, u.members, v)) &&
      (s.u.atEnd ==> forall v :: !Common(ts, ws, cs, u.members, v)) &&
      (!s.u.atEnd ==> !AnyAtEnd(s.cursors, u.members)) &&
      (!s.u.atEnd ==> forall v, i :: 0 <= i < |u.members| && Common(ts, ws, cs, u.members, v) ==>
                                     v >= KeyAt(ts, ws, s.cursors, u.members[i]))
  {
    TurnsAreFloorMod(u.p, |u.members|);
    SearchComplete(ts, ws, cs, u.(atEnd := false), KeyAt(ts, ws, cs, u.members[Pred(u.p, |u.members|)]));
  }

  /** open() as written: open every member, then init. */
  function Open(ts: seq<Cursor.Table>, ws: seq<nat>, cs: seq<Cur>, u: Unary): (s: Step)
    requires Openable(ts, ws, cs, u.members) && 0 <= u.p < |u.members|
    ensures Ready(ts, ws, s.cursors, u.members)
    ensures s.u.members == u.members && 0 <= s.u.p < |u.members|
    ensures forall r {:trigger s.cursors[r]} :: 0 <= r < |cs| && r in u.members ==> s.cursors[r].depth == cs[r].depth + 1
    ensures forall r {:trigger s.cursors[r]} :: 0 <= r < |cs| && r !in u.members ==> s.cursors[r] == cs[r]
  {
    Init(ts, ws, OpenAll(ts, ws, cs, u.members), u)
  }

  /** up(): move every member up. The turn and the end flag stay. */
  function Up(cs: seq<Cur>, u: Unary): (s: Step)
    ensures s.u == u && |s.cursors| == |cs|
    ensures forall r {:trigger s.cursors[r]} :: 0 <= r < |cs| ==> s.cursors[r].depth == (if r in u.members then cs[r].depth - 1 else cs[r].depth)
    ensures forall r :: 0 <= r < |cs| ==> s.cursors[r].pos == cs[r].pos
    ensures forall r {:trigger s.cursors[r]} :: 0 <= r < |cs| && r !in u.members ==> s.cursors[r] == cs[r]
  {
    Step(UpAll(cs, u.members), u)
  }

  /** next(): advance the cursor whose turn it is; the join ends with it,
      or the turn passes on and the search starts again. */
  function Next(ts: seq<Cursor.Table>, ws: seq<nat>, cs: seq<Cur>, u: Unary): (s: Step)
    requires Ready(ts, ws, cs, u.members) && 0 <= u.p < |u.members|
    ensures Ready(ts, ws, s.cursors, u.members)
    ensures s.u.members == u.members && 0 <= s.u.p < |u.members|
    ensures forall r :: 0 <= r < |cs| ==> s.cursors[r].depth == cs[r].depth
  {
    var ms := u.members;
    var r := ms[u.p];
    var c := Cursor.Next(ts[r], ws[r], cs[r]);
    var cs' := cs[r := c];
    if c.atEnd then Step(cs', u.(atEnd := true))
    else
      TurnsAreFloorMod(u.p, |ms|);
      LeapfrogSearch(ts, ws, cs', u.(p := Succ(u.p, |ms|)))
  }

  /** With distinct members, moving member p's cursor changes key p only. */
  lemma KeysUpdate(ts: seq<Cursor.Table>, ws: seq<nat>, cs: seq<Cur>, ms: seq<nat>, p: int, c: Cur)
    requires Ready(ts, ws, cs, ms) && 0 <= p < |ms| && Distinct(ms)
    requires Cursor.Valid(ts[ms[p]], ws[ms[p]], c) && c.depth == cs[ms[p]].depth
    ensures Ready(ts, ws, cs[ms[p] := c], ms)
    ensures Keys(ts, ws, cs[ms[p] := c], ms) == Keys(ts, ws, cs, ms)[p := Cursor.Key(ts[ms[p]], ws[ms[p]], c)]
  {
    var cs' := cs[ms[p] := c];
    forall i | 0 <= i < |ms| ensures Keys(ts, ws, cs', ms)[i] == Keys(ts, ws, cs, ms)[p := Cursor.Key(ts[ms[p]], ws[ms[p]], c)][i] {
      if i != p {
        assert ms[i] != ms[p];
      }
    }
  }

  /** Equal keys are in cyclic order from any turn. */
  lemma EqualIsCyclic(ks: seq<int>, p: int)
    requires 0 <= p < |ks| && AllEqual(ks)
    ensures CyclicSorted(ks, p)
  {
    forall i, j | 0 <= i <= j < |ks| ensures Rot(ks, p)[i] <= Rot(ks, p)[j] {
      assert ks[Wrap(p + i, |ks|)] == ks[Wrap(p + j, |ks|)];
    }
  }

  /** next() keeps the leapfrog invariant and moves the join forward: over
      sorted tables, from members that agree on a key, the next agreement
      is on a strictly larger key. */
  lemma NextAdvances(ts: seq<Cursor.Table>, ws: seq<nat>, cs: seq<Cur>, u: Unary)
    requires Ready(ts, ws, cs, u.members) && 0 <= u.p < |u.members|
    requires Distinct(u.members) && AllSorted(ts) && AllEqual(Keys(ts, ws, cs, u.members))
    ensures var s := Next(ts, ws, cs, u);
      !s.u.atEnd ==> AllEqual(Keys(ts, ws, s.cursors, u.members)) &&
                     Keys(ts, ws, s.cursors, u.members)[0] > Keys(ts, ws, cs, u.members)[0]
  {
    hide Search;
    var ms := u.members;
    var k := |ms|;
    var r := ms[u.p];
    var ks := Keys(ts, ws, cs, ms);
    var c := Cursor.Next(ts[r], ws[r], cs[r]);
    var cs' := cs[r := c];
    Cursor.NextIncreases(ts[r], ws[r], cs[r]);
    if !c.atEnd {
      var v := Cursor.Key(ts[r], ws[r], c);
      TurnsAreFloorMod(u.p, k);
      var q := Succ(u.p, k);
      assert Pred(q, k) == u.p;
      EqualIsCyclic(ks, u.p);
      assert v > ks[u.p] == ks[Pred(u.p, k)];
      RotStep(ks, u.p, v);
      KeysUpdate(ts, ws, cs, ms, u.p, c);
      assert KeyAt(ts, ws, cs', ms[Pred(q, k)]) == v;
      SearchAgrees(ts, ws, cs', u.(p := q), v);
      SearchKeysGrow(ts, ws, cs', u.(p := q), v);
      var s := Search(ts, ws, cs', u.(p := q), v);
      assert Next(ts, ws, cs, u) == s;
      if !s.u.atEnd {
        assert Keys(ts, ws, s.cursors, ms)[0] == Keys(ts, ws, s.cursors, ms)[u.p] >= v;
      }
    }
  }

  // ---------------------------------------------------------------------
  // No join result is skipped
  // ---------------------------------------------------------------------

  /** v is a key every member's cursor can still reach within its block:
      a join result still ahead of the unary join. */
  predicate Common(ts: seq<Cursor.Table>, ws: seq<nat>, cs: seq<Cur>, ms: seq<nat>, v: int)
    requires Ready(ts, ws, cs, ms)
  {
    forall i :: 0 <= i < |ms| ==> Cursor.Reaches(ts[ms[i]], ws[ms[i]], cs[ms[i]], v)
  }

  /** The search keeps the join results still ahead, ends only when there
      is none, and otherwise leaves every member at or below each of them.
      Over sorted tables, from cursors none of which has ended. */
  lemma {:induction false} SearchComplete(ts: seq<Cursor.Table>, ws: seq<nat>, cs: seq<Cur>, u: Unary, x1: int)
    requires Ready(ts, ws, cs, u.members) && 0 <= u.p < |u.members| && AllSorted(ts)
    requires !u.atEnd && !AnyAtEnd(cs, u.members)
    requires x1 == KeyAt(ts, ws, cs, u.members[Pred(u.p, |u.members|)])
    ensures var s := Search(ts, ws, cs, u, x1);
      (forall v :: Common(ts, ws, cs, u.members, v) <==> Common(ts, ws, s.cursors, u.members, v)) &&
      (s.u.atEnd ==> forall v :: !Common(ts, ws, cs, u.members, v)) &&
      (!s.u.atEnd ==> !AnyAtEnd(s.cursors, u.members)) &&
      (!s.u.atEnd ==> forall v, i :: 0 <= i < |u.members| && Common(ts, ws, cs, u.members, v) ==>
                                     v >= KeyAt(ts, ws, s.cursors, u.members[i]))
    decreases Potential(ts, cs, |cs|), MaxEntry(ts) - x1
  {
    hide Search, Cursor.Seek, Potential, MaxEntry, Relation.Sorted;
    SearchUnfold(ts, ws, cs, u, x1);
    var ms := u.members;
    var r := ms[u.p];
    var m := ms[Pred(u.p, |ms|)];
    if KeyAt(ts, ws, cs, r) == x1 {
      forall v, i | 0 <= i < |ms| && Common(ts, ws, cs, ms, v) ensures v >= KeyAt(ts, ws, cs, ms[i]) {
        SortedAt(ts, ms[i]);
        Cursor.ReachesAbove(ts[ms[i]], ws[ms[i]], cs[ms[i]], v);
      }
    } else {
      var c := Cursor.Seek(ts[r], ws[r], cs[r], x1);
      var cs' := cs[r := c];
      SortedAt(ts, r);
      SortedAt(ts, m);
      Cursor.SeekReaches(ts[r], ws[r], cs[r], x1);
      assert m != r;
      // Every result still ahead is at least x1, the key of member m.
      forall v | Common(ts, ws, cs, ms, v) ensures v >= x1 {
        assert Cursor.Reaches(ts[m], ws[m], cs[m], v);
        Cursor.ReachesAbove(ts[m], ws[m], cs[m], v);
      }
      if c.atEnd {
        forall v ensures !Common(ts, ws, cs, ms, v) {
          assert !Cursor.Reaches(ts[r], ws[r], c, v);
        }
      } else {
        var u' := u.(p := Succ(u.p, |ms|));
        var x := Cursor.Key(ts[r], ws[r], c);
        forall v ensures Common(ts, ws, cs, ms, v) <==> Common(ts, ws, cs', ms, v) {
          if Common(ts, ws, cs', ms, v) {
            assert Cursor.Reaches(ts[r], ws[r], c, v);
            Cursor.ReachesAbove(ts[r], ws[r], c, v);
          }
        }
        SearchComplete(ts, ws, cs', u', x);
      }
    }
  }

  /** next() from members agreeing on a key keeps the join results above
      that key, ends only when there is none, and otherwise leaves every
      member at or below each of them. */
  lemma NextComplete(ts: seq<Cursor.Table>, ws: seq<nat>, cs: seq<Cur>, u: Unary)
    requires Ready(ts, ws, cs, u.members) && 0 <= u.p < |u.members| && AllSorted(ts)
    requires !u.atEnd && !AnyAtEnd(cs, u.members) && AllEqual(Keys(ts, ws, cs, u.members))
    ensures var s := Next(ts, ws, cs, u);
      var x := Keys(ts, ws, cs, u.members)[0];
      (forall v :: v > x ==> (Common(ts, ws, cs, u.members, v) <==> Common(ts, ws, s.cursors, u.members, v))) &&
      (s.u.atEnd ==> forall v :: v > x ==> !Common(ts, ws, cs, u.members, v)) &&
      (!s.u.atEnd ==> !AnyAtEnd(s.cursors, u.members)) &&
      (!s.u.atEnd ==> forall v, i :: 0 <= i < |u.members| && v > x && Common(ts, ws, cs, u.members, v) ==>
                                     v >= KeyAt(ts, ws, s.cursors, u.members[i]))
  {
    hide Search, Next, Cursor.Next, Relation.Sorted;
    NextUnfold(ts, ws, cs, u);
    var ms := u.members;
    var r := ms[u.p];
    var x := Keys(ts, ws, cs, ms)[0];
    assert KeyAt(ts, ws, cs, r) == Keys(ts, ws, cs, ms)[u.p] == x;
    var c := Cursor.Next(ts[r], ws[r], cs[r]);
    var cs' := cs[r := c];
    SortedAt(ts, r);
    Cursor.NextReaches(ts[r], ws[r], cs[r]);
    if c.atEnd {
      forall v | v > x ensures !Common(ts, ws, cs, ms, v) {
        assert !Cursor.Reaches(ts[r], ws[r], c, v);
      }
    } else {
      var u' := u.(p := Succ(u.p, |ms|));
      assert !AnyAtEnd(cs', ms);
      SearchComplete(ts, ws, cs', u', KeyAt(ts, ws, cs', ms[Pred(u'.p, |ms|)]));
    }
  }

  /** leapfrogSearch finds the next join result: over sorted tables, from
      keys in cyclic order, it ends exactly when no key is common to all
      members, and otherwise stops with every member on the least such
      key. */
  lemma SearchFindsLeast(ts: seq<Cursor.Table>, ws: seq<nat>, cs: seq<Cur>, u: Unary, x1: int)
    requires Ready(ts, ws, cs, u.members) && 0 <= u.p < |u.members| && AllSorted(ts) && Distinct(u.members)
    requires !u.atEnd && !AnyAtEnd(cs, u.members)
    requires x1 == KeyAt(ts, ws, cs, u.members[Pred(u.p, |u.members|)])
    requires CyclicSorted(Keys(ts, ws, cs, u.members), u.p)
    ensures var s := Search(ts, ws, cs, u, x1);
      (s.u.atEnd <==> forall v :: !Common(ts, ws, cs, u.members, v)) &&
      (!s.u.atEnd ==>
         var y := Keys(ts, ws, s.cursors, u.members)[0];
         AllEqual(Keys(ts, ws, s.cursors, u.members)) && Common(ts, ws, cs, u.members, y) &&
         forall v :: Common(ts, ws, cs, u.members, v) ==> y <= v)
  {
    hide Search, Relation.Sorted;
    SearchComplete(ts, ws, cs, u, x1);
    SearchAgrees(ts, ws, cs, u, x1);
    var s := Search(ts, ws, cs, u, x1);
    var ms := u.members;
    if !s.u.atEnd {
      var y := Keys(ts, ws, s.cursors, ms)[0];
      forall i | 0 <= i < |ms| ensures Cursor.Reaches(ts[ms[i]], ws[ms[i]], s.cursors[ms[i]], y) {
        ReadyAt(ts, ws, s.cursors, ms, i);
        Cursor.ReachesKey(ts[ms[i]], ws[ms[i]], s.cursors[ms[i]]);
        assert Keys(ts, ws, s.cursors, ms)[i] == y;
      }
      assert Common(ts, ws, s.cursors, ms, y);
      assert 0 < |ms|;
    }
  }

  /** next() moves to the next join result: over sorted tables, from
      members agreeing on a key, it ends exactly when no larger key is
      common to all members, and otherwise stops with every member on the
      least such key. */
  lemma NextFindsLeast(ts: seq<Cursor.Table>, ws: seq<nat>, cs: seq<Cur>, u: Unary)
    requires Ready(ts, ws, cs, u.members) && 0 <= u.p < |u.members| && AllSorted(ts) && Distinct(u.members)
    requires !u.atEnd && !AnyAtEnd(cs, u.members) && AllEqual(Keys(ts, ws, cs, u.members))
    ensures var s := Next(ts, ws, cs, u);
      var x := Keys(ts, ws, cs, u.members)[0];
      (s.u.atEnd <==> forall v :: v > x ==> !Common(ts, ws, cs, u.members, v)) &&
      (!s.u.atEnd ==>
         var y := Keys(ts, ws, s.cursors, u.members)[0];
         AllEqual(Keys(ts, ws, s.cursors, u.members)) && y > x && Common(ts, ws, cs, u.members, y) &&
         forall v :: x < v && Common(ts, ws, cs, u.members, v) ==> y <= v)
  {
    hide Search, Next, Relation.Sorted;
    NextComplete(ts, ws, cs, u);
    NextAdvances(ts, ws, cs, u);
    var s := Next(ts, ws, cs, u);
    var ms := u.members;
    if !s.u.atEnd {
      var y := Keys(ts, ws, s.cursors, ms)[0];
      forall i | 0 <= i < |ms| ensures Cursor.Reaches(ts[ms[i]], ws[ms[i]], s.cursors[ms[i]], y) {
        ReadyAt(ts, ws, s.cursors, ms, i);
        Cursor.ReachesKey(ts[ms[i]], ws[ms[i]], s.cursors[ms[i]]);
        assert Keys(ts, ws, s.cursors, ms)[i] == y;
      }
      assert Common(ts, ws, s.cursors, ms, y);
      assert 0 < |ms|;
    }
  }

  // ---------------------------------------------------------------------
  // Sorted initialisation
  // ---------------------------------------------------------------------

  /** Every name in ms is a cursor with a bound column. */
  predicate Bound(ts: seq<Cursor.Table>, ws: seq<nat>, cs: seq<Cur>, ms: seq<nat>)
  {
    CursorsValid(ts, ws, cs) && forall i :: 0 <= i < |ms| ==> ms[i] < |cs| && cs[ms[i]].depth >= 0
  }

  /** The key members are ordered by: relation r's key when its cursor has
      one, 0 otherwise (a case the sort is never asked about). */
  function SortKey(ts: seq<Cursor.Table>, ws: seq<nat>, cs: seq<Cur>, r: nat): int
  {
    if r < |cs| && r < |ts| && r < |ws| && Cursor.Keyed(ts[r], ws[r], cs[r]) then Cursor.Key(ts[r], ws[r], cs[r]) else 0
  }

  /** The members' keys are non-decreasing in member order. */
  predicate KeysSorted(ts: seq<Cursor.Table>, ws: seq<nat>, cs: seq<Cur>, ms: seq<nat>)
  {
    forall i, j :: 0 <= i <= j < |ms| ==> SortKey(ts, ws, cs, ms[i]) <= SortKey(ts, ws, cs, ms[j])
  }

  /** Place member m before the first member whose key is not below m's. */
  function InsertMember(ts: seq<Cursor.Table>, ws: seq<nat>, cs: seq<Cur>, m: nat, s: seq<nat>): (r: seq<nat>)
    decreases |s|
  {
    if |s| == 0 then [m]
    else if SortKey(ts, ws, cs, m) <= SortKey(ts, ws, cs, s[0]) then [m] + s
    else [s[0]] + InsertMember(ts, ws, cs, m, s[1..])
  }

  /** The inserted sequence holds m and the members of s, nothing else. */
  lemma {:induction false} InsertMemberElements(ts: seq<Cursor.Table>, ws: seq<nat>, cs: seq<Cur>, m: nat, s: seq<nat>)
    ensures |InsertMember(ts, ws, cs, m, s)| == |s| + 1
    ensures forall x :: x in InsertMember(ts, ws, cs, m, s) <==> x == m || x in s
    decreases |s|
  {
    if |s| > 0 && SortKey(ts, ws, cs, m) > SortKey(ts, ws, cs, s[0]) {
      InsertMemberElements(ts, ws, cs, m, s[1..]);
      assert s == [s[0]] + s[1..];
    }
  }

  /** Insertion into members sorted by key keeps them sorted. */
  lemma {:induction false} InsertMemberSorted(ts: seq<Cursor.Table>, ws: seq<nat>, cs: seq<Cur>, m: nat, s: seq<nat>)
    requires KeysSorted(ts, ws, cs, s)
    ensures KeysSorted(ts, ws, cs, InsertMember(ts, ws, cs, m, s))
    decreases |s|
  {
    if |s| > 0 && SortKey(ts, ws, cs, m) > SortKey(ts, ws, cs, s[0]) {
      var t := InsertMember(ts, ws, cs, m, s[1..]);
      InsertMemberSorted(ts, ws, cs, m, s[1..]);
      InsertMemberElements(ts, ws, cs, m, s[1..]);
      forall j | 0 <= j < |t| ensures SortKey(ts, ws, cs, s[0]) <= SortKey(ts, ws, cs, t[j]) {
        if t[j] != m {
          assert t[j] in t;
          assert t[j] in s[1..];
          var i :| 0 <= i < |s[1..]| && s[1..][i] == t[j];
          assert s[i + 1] == t[j];
        }
      }
    }
  }

  /** Inserting a new member into distinct members keeps them distinct. */
  lemma {:induction false} InsertMemberDistinct(ts: seq<Cursor.Table>, ws: seq<nat>, cs: seq<Cur>, m: nat, s: seq<nat>)
    requires Distinct(s) && m !in s
    ensures Distinct(InsertMember(ts, ws, cs, m, s))
    decreases |s|
  {
    if |s| > 0 && SortKey(ts, ws, cs, m) > SortKey(ts, ws, cs, s[0]) {
      var t := InsertMember(ts, ws, cs, m, s[1..]);
      assert Distinct(s[1..]) && m !in s[1..];
      InsertMemberDistinct(ts, ws, cs, m, s[1..]);
      InsertMemberElements(ts, ws, cs, m, s[1..]);
      assert s[0] !in s[1..];
      assert s[0] !in t;
      assert InsertMember(ts, ws, cs, m, s) == [s[0]] + t;
    }
  }

  /** Order members by their cursors' keys (stable insertion sort). */
  function SortMembers(ts: seq<Cursor.Table>, ws: seq<nat>, cs: seq<Cur>, ms: seq<nat>): (r: seq<nat>)
    decreases |ms|
  {
    if |ms| == 0 then []
    else InsertMember(ts, ws, cs, ms[0], SortMembers(ts, ws, cs, ms[1..]))
  }

  /** The sorted members are the same members, ordered by key, and stay
      distinct. */
  lemma {:induction false} SortMembersSpec(ts: seq<Cursor.Table>, ws: seq<nat>, cs: seq<Cur>, ms: seq<nat>)
    ensures var r := SortMembers(ts, ws, cs, ms);
      |r| == |ms| && (forall x :: x in r <==> x in ms) && KeysSorted(ts, ws, cs, r) &&
      (Distinct(ms) ==> Distinct(r))
    decreases |ms|
  {
    if |ms| > 0 {
      var t := SortMembers(ts, ws, cs, ms[1..]);
      SortMembersSpec(ts, ws, cs, ms[1..]);
      InsertMemberElements(ts, ws, cs, ms[0], t);
      assert ms == [ms[0]] + ms[1..];
      InsertMemberSorted(ts, ws, cs, ms[0], t);
      if Distinct(ms) {
        assert ms[0] !in ms[1..];
        InsertMemberDistinct(ts, ws, cs, ms[0], t);
      }
    }
  }

  /** Any arrangement of ready members is ready. */
  lemma MembersReady(ts: seq<Cursor.Table>, ws: seq<nat>, cs: seq<Cur>, ms: seq<nat>, ms': seq<nat>)
    requires Ready(ts, ws, cs, ms) && |ms'| == |ms| && forall r :: r in ms' <==> r in ms
    ensures Ready(ts, ws, cs, ms')
  {
    forall i | 0 <= i < |ms'| ensures ms'[i] < |cs| && cs[ms'[i]].depth >= 0 {
      assert ms'[i] in ms;
    }
  }

  /** open() with the initialisation the Leapfrog Triejoin paper gives:
      open every member, order the members by key and start at turn 0. */
  function OpenSorted(ts: seq<Cursor.Table>, ws: seq<nat>, cs: seq<Cur>, u: Unary): (s: Step)
    requires Openable(ts, ws, cs, u.members)
    ensures Ready(ts, ws, s.cursors, s.u.members) && 0 <= s.u.p < |s.u.members|
    ensures |s.u.members| == |u.members| && Distinct(s.u.members)
    ensures forall r :: r in s.u.members <==> r in u.members
    ensures forall r {:trigger s.cursors[r]} :: 0 <= r < |cs| && r in u.members ==> s.cursors[r].depth == cs[r].depth + 1
    ensures forall r {:trigger s.cursors[r]} :: 0 <= r < |cs| && r !in u.members ==> s.cursors[r] == cs[r]
  {
    hide SortMembers, Search, LeapfrogSearch, Cursor.Seek, Cursor.Open, MaxEntry, Potential, Relation.Sorted,
      Relation.Compare, KeysSorted, SortKey;
    var cs' := OpenAll(ts, ws, cs, u.members);
    var ms := SortMembers(ts, ws, cs', u.members);
    SortMembersSpec(ts, ws, cs', u.members);
    MembersReady(ts, ws, cs', u.members, ms);
    Init(ts, ws, cs', Unary(ms, 0, u.atEnd))
  }

  /** With the members ordered by key the search starts in cyclic order, so
      a join that has not ended has every member on the same key. */
  lemma OpenSortedAgrees(ts: seq<Cursor.Table>, ws: seq<nat>, cs: seq<Cur>, u: Unary)
    requires Openable(ts, ws, cs, u.members)
    ensures var s := OpenSorted(ts, ws, cs, u);
      !s.u.atEnd ==> AllEqual(Keys(ts, ws, s.cursors, s.u.members))
  {
    hide Search, SortMembers;
    var cs' := OpenAll(ts, ws, cs, u.members);
    var ms := SortMembers(ts, ws, cs', u.members);
    SortMembersSpec(ts, ws, cs', u.members);
    MembersReady(ts, ws, cs', u.members, ms);
    var ks := Keys(ts, ws, cs', ms);
    if !AnyAtEnd(cs', ms) {
      assert CyclicSorted(ks, 0) by {
        forall i | 0 <= i < |ks| ensures Rot(ks, 0)[i] == ks[i] {
          assert Wrap(0 + i, |ks|) == i;
        }
        forall i, j | 0 <= i <= j < |ks| ensures ks[i] <= ks[j] {
          assert SortKey(ts, ws, cs', ms[i]) <= SortKey(ts, ws, cs', ms[j]);
        }
      }
      TurnsAreFloorMod(0, |ms|);
      SearchAgrees(ts, ws, cs', Unary(ms, 0, false), KeyAt(ts, ws, cs', ms[Pred(0, |ms|)]));
    }
  }

  // ---------------------------------------------------------------------
  // The unsorted initialisation, on three one-column tables
  // ---------------------------------------------------------------------

  function ExampleTables(): seq<Cursor.Table>
  {
    [[[5]], [[1], [5]], [[5]]]
  }

  function ExampleWidths(): seq<nat>
  {
    [1, 1, 1]
  }

  function ExampleCursors(): seq<Cur>
  {
    [Cursor.Fresh(), Cursor.Fresh(), Cursor.Fresh()]
  }

  function ExampleOpened(): seq<Cur>
  {
    [Cursor.Cursor(0, 0, false), Cursor.Cursor(0, 0, false), Cursor.Cursor(0, 0, false)]
  }

  /** The example tables are sorted, rectangular and freshly positioned. */
  lemma ExampleOpenable()
    ensures AllSorted(ExampleTables())
    ensures Openable(ExampleTables(), ExampleWidths(), ExampleCursors(), [0, 1, 2])
  {
    var ts, ws, cs := ExampleTables(), ExampleWidths(), ExampleCursors();
    assert Relation.Compare([1], [5]) < 0;
    assert Cursor.Rect(ts[0], 1) && Cursor.Rect(ts[1], 1) && Cursor.Rect(ts[2], 1);
    assert Tables(ts, ws);
    assert CursorsValid(ts, ws, cs);
  }

  /** Opening the example binds each first row. */
  lemma ExampleOpens()
    ensures AllSorted(ExampleTables())
    ensures Openable(ExampleTables(), ExampleWidths(), ExampleCursors(), [0, 1, 2])
    ensures OpenAll(ExampleTables(), ExampleWidths(), ExampleCursors(), [0, 1, 2]) == ExampleOpened()
  {
    hide AllSorted, Openable;
    var ts, ws, cs := ExampleTables(), ExampleWidths(), ExampleCursors();
    ExampleOpenable();
    Cursor.FreshOpen(ts[0], 1);
    Cursor.FreshOpen(ts[1], 1);
    Cursor.FreshOpen(ts[2], 1);
  }

  lemma OpenIsInit(ts: seq<Cursor.Table>, ws: seq<nat>, cs: seq<Cur>, u: Unary)
    requires Openable(ts, ws, cs, u.members) && 0 <= u.p < |u.members|
    ensures Ready(ts, ws, OpenAll(ts, ws, cs, u.members), u.members)
    ensures Open(ts, ws, cs, u) == Init(ts, ws, OpenAll(ts, ws, cs, u.members), u)
  {
  }

  lemma ExampleOpenedReady()
    ensures Ready(ExampleTables(), ExampleWidths(), ExampleOpened(), [0, 1, 2])
    ensures Keys(ExampleTables(), ExampleWidths(), ExampleOpened(), [0, 1, 2]) == [5, 1, 5]
  {
    ExampleOpens();
  }

  /** From turn 0 the example's first key already equals the last, so
      init stops at once. */
  lemma ExampleInitStops()
    ensures Ready(ExampleTables(), ExampleWidths(), ExampleOpened(), [0, 1, 2])
    ensures Init(ExampleTables(), ExampleWidths(), ExampleOpened(), Unary([0, 1, 2], 0, false))
         == Step(ExampleOpened(), Unary([0, 1, 2], 0, false))
  {
    hide SortMembers, Cursor.Seek, Cursor.Open, OpenAll, Openable, AllSorted, Tables, Cursor.Rect,
      MaxEntry, Potential, Seqs.Distinct, Relation.Sorted, Relation.Compare, Keys;
    var ts, ws, cs' := ExampleTables(), ExampleWidths(), ExampleOpened();
    ExampleOpenedReady();
    assert !AnyAtEnd(cs', [0, 1, 2]);
    assert KeyAt(ts, ws, cs', 2) == 5 == KeyAt(ts, ws, cs', 0);
    assert Pred(0, 3) == 2;
  }

  /** Opened as written, the join over {5}, {1, 5} and {5} reports that it
      has not ended, with its members on keys 5, 1 and 5: the first member
      already matches the last, so the search stops at once and the member
      on key 1 is never moved. */
  lemma OpenAsWrittenDisagrees()
    ensures AllSorted(ExampleTables()) && Openable(ExampleTables(), ExampleWidths(), ExampleCursors(), [0, 1, 2])
    ensures var s := Open(ExampleTables(), ExampleWidths(), ExampleCursors(), Unary([0, 1, 2], 0, false));
      !s.u.atEnd && Keys(ExampleTables(), ExampleWidths(), s.cursors, [0, 1, 2]) == [5, 1, 5]
  {
    hide *;
    ExampleOpens();
    OpenIsInit(ExampleTables(), ExampleWidths(), ExampleCursors(), Unary([0, 1, 2], 0, false));
    ExampleInitStops();
    ExampleOpenedReady();
  }


  /** Ordered by key, the example's members are 1, 0, 2. */
  lemma ExampleSorts()
    ensures SortMembers(ExampleTables(), ExampleWidths(), ExampleOpened(), [0, 1, 2]) == [1, 0, 2]
  {
    var ts, ws, cs := ExampleTables(), ExampleWidths(), ExampleOpened();
    assert SortKey(ts, ws, cs, 0) == 5 && SortKey(ts, ws, cs, 1) == 1 && SortKey(ts, ws, cs, 2) == 5;
    assert [0, 1, 2][1..] == [1, 2] && [1, 2][1..] == [2] && [2][1..] == [];
  }

  /** The sorted initialisation of the example searches from turn 0 over
      the members ordered 1, 0, 2. */
  lemma ExampleSortedStart()
    ensures Ready(ExampleTables(), ExampleWidths(), ExampleOpened(), [1, 0, 2])
    ensures OpenSorted(ExampleTables(), ExampleWidths(), ExampleCursors(), Unary([0, 1, 2], 0, false))
         == LeapfrogSearch(ExampleTables(), ExampleWidths(), ExampleOpened(), Unary([1, 0, 2], 0, false))
  {
    hide Search;
    var ts, ws, cs := ExampleTables(), ExampleWidths(), ExampleCursors();
    ExampleOpens();
    ExampleSorts();
    assert !AnyAtEnd(ExampleOpened(), [1, 0, 2]);
  }

  /** Member 1 seeks from key 1 to key 5 on its second row. */
  lemma ExampleSeek()
    ensures Cursor.Seek(ExampleTables()[1], 1, Cursor.Cursor(0, 0, false), 5) == Cursor.Cursor(1, 0, false)
  {
    var t := ExampleTables()[1];
    assert Cursor.Rect(t, 1);
    assert Cursor.Next(t, 1, Cursor.Cursor(0, 0, false)) == Cursor.Cursor(1, 0, false);
  }

  /** The sorted initialisation agrees on 5 for the same tables. */
  lemma OpenSortedExample()
    ensures var s := OpenSorted(ExampleTables(), ExampleWidths(), ExampleCursors(), Unary([0, 1, 2], 0, false));
      !s.u.atEnd && Keys(ExampleTables(), ExampleWidths(), s.cursors, s.u.members) == [5, 5, 5]
  {
    hide OpenSorted, MaxEntry, Potential;
    var ts, ws := ExampleTables(), ExampleWidths();
    var cs' := ExampleOpened();
    ExampleSortedStart();
    var u := Unary([1, 0, 2], 0, false);
    assert Pred(0, 3) == 2 && Succ(0, 3) == 1 && Pred(1, 3) == 0;
    ExampleSeek();
    var cs'' := cs'[1 := Cursor.Cursor(1, 0, false)];
    assert Search(ts, ws, cs', u, 5) == Search(ts, ws, cs'', u.(p := 1), 5);
    assert Search(ts, ws, cs'', u.(p := 1), 5) == Step(cs'', u.(p := 1));
  }

  /** next() moves only member cursors, each only within its block. */
  lemma NextPrefix(ts: seq<Cursor.Table>, ws: seq<nat>, cs: seq<Cur>, u: Unary)
    requires Ready(ts, ws, cs, u.members) && 0 <= u.p < |u.members|
    ensures var s := Next(ts, ws, cs, u);
      (forall r :: 0 <= r < |cs| ==> Cursor.SamePrefix(ts[r], cs[r].pos, s.cursors[r].pos, cs[r].depth)) &&
      (forall r {:trigger s.cursors[r]} :: 0 <= r < |cs| && r !in u.members ==> s.cursors[r] == cs[r])
  {
    hide Search;
    var ms := u.members;
    var r := ms[u.p];
    var c := Cursor.Next(ts[r], ws[r], cs[r]);
    var cs' := cs[r := c];
    if !c.atEnd {
      TurnsAreFloorMod(u.p, |ms|);
      var u' := u.(p := Succ(u.p, |ms|));
      SearchPrefix(ts, ws, cs', u', KeyAt(ts, ws, cs', ms[Pred(u'.p, |ms|)]));
      SearchFrame(ts, ws, cs', u', KeyAt(ts, ws, cs', ms[Pred(u'.p, |ms|)]));
      var s := Next(ts, ws, cs, u);
      assert Cursor.SamePrefix(ts[r], cs[r].pos, c.pos, cs[r].depth);
      assert Cursor.SamePrefix(ts[r], c.pos, s.cursors[r].pos, cs[r].depth);
    }
  }

  /** The initial search keeps every cursor within the block of the
      columns it has bound. */
  lemma InitPrefix(ts: seq<Cursor.Table>, ws: seq<nat>, cs: seq<Cur>, u: Unary)
    requires Ready(ts, ws, cs, u.members) && 0 <= u.p < |u.members|
    ensures var s := Init(ts, ws, cs, u);
      forall r :: 0 <= r < |cs| ==> Cursor.SamePrefix(ts[r], cs[r].pos, s.cursors[r].pos, cs[r].depth)
  {
    hide Search;
    if !AnyAtEnd(cs, u.members) {
      TurnsAreFloorMod(u.p, |u.members|);
      SearchPrefix(ts, ws, cs, u.(atEnd := false), KeyAt(ts, ws, cs, u.members[Pred(u.p, |u.members|)]));
    }
  }

  /** The sorted open rewinds each member within the block of its bound
      columns and then searches within the new block: the row it ends on
      agrees with the row it started on in every column bound before. */
  lemma OpenSortedPrefix(ts: seq<Cursor.Table>, ws: seq<nat>, cs: seq<Cur>, u: Unary)
    requires Openable(ts, ws, cs, u.members)
    ensures var s := OpenSorted(ts, ws, cs, u);
      forall r :: 0 <= r < |cs| ==> Cursor.SamePrefix(ts[r], cs[r].pos, s.cursors[r].pos, cs[r].depth + 1)
  {
    hide Search, SortMembers, Init, Seqs.Distinct, Relation.Sorted, Relation.Compare;
    var cs' := OpenAll(ts, ws, cs, u.members);
    var ms := SortMembers(ts, ws, cs', u.members);
    SortMembersSpec(ts, ws, cs', u.members);
    MembersReady(ts, ws, cs', u.members, ms);
    var s := OpenSorted(ts, ws, cs, u);
    assert s == Init(ts, ws, cs', Unary(ms, 0, u.atEnd));
    InitPrefix(ts, ws, cs', Unary(ms, 0, u.atEnd));
    forall r | 0 <= r < |cs| ensures Cursor.SamePrefix(ts[r], cs[r].pos, s.cursors[r].pos, cs[r].depth + 1) {
      if r in u.members {
        assert Cursor.SamePrefix(ts[r], cs'[r].pos, cs[r].pos, cs[r].depth + 1);
        assert Cursor.SamePrefix(ts[r], cs'[r].pos, s.cursors[r].pos, cs'[r].depth);
      }
    }
  }

  /** One call of next(): the turn's cursor steps, then either the join
      ends or the search starts from the next turn. */
  lemma NextUnfold(ts: seq<Cursor.Table>, ws: seq<nat>, cs: seq<Cur>, u: Unary)
    requires Ready(ts, ws, cs, u.members) && 0 <= u.p < |u.members|
    ensures var r := u.members[u.p];
      |ts| == |ws| == |cs| && r < |cs| && Cursor.Keyed(ts[r], ws[r], cs[r])
    ensures var r := u.members[u.p];
      var c := Cursor.Next(ts[r], ws[r], cs[r]);
      var cs' := cs[r := c];
      var u' := u.(p := Succ(u.p, |u.members|));
      (c.atEnd ==> Next(ts, ws, cs, u) == Step(cs', u.(atEnd := true))) &&
      (!c.atEnd ==>
         Ready(ts, ws, cs', u.members) && 0 <= u'.p < |u.members| && Pred(u'.p, |u.members|) == u.p &&
         Next(ts, ws, cs, u) == Search(ts, ws, cs', u', KeyAt(ts, ws, cs', u.members[Pred(u'.p, |u.members|)])))
  {
    hide Search;
    TurnsAreFloorMod(u.p, |u.members|);
  }

  /** What Ready says about one member's cursor. */
  lemma ReadyAt(ts: seq<Cursor.Table>, ws: seq<nat>, cs: seq<Cur>, ms: seq<nat>, i: int)
    requires Ready(ts, ws, cs, ms) && 0 <= i < |ms|
    ensures CursorsValid(ts, ws, cs) && |ts| == |ws| == |cs| && ms[i] < |cs|
    ensures Cursor.Keyed(ts[ms[i]], ws[ms[i]], cs[ms[i]]) && 0 <= cs[ms[i]].pos < |ts[ms[i]]|
  {
  }

  lemma SortedAt(ts: seq<Cursor.Table>, r: nat)
    requires AllSorted(ts) && r < |ts|
    ensures Relation.Sorted(ts[r])
  {
  }

  /** next() moves no cursor back and, over sorted tables, either ends the
      join or takes the cursor whose turn it was past the block of its
      current key. */
  lemma NextLeaves(ts: seq<Cursor.Table>, ws: seq<nat>, cs: seq<Cur>, u: Unary)
    requires Ready(ts, ws, cs, u.members) && 0 <= u.p < |u.members| && AllSorted(ts)
    ensures forall q :: 0 <= q < |cs| ==> cs[q].pos <= Next(ts, ws, cs, u).cursors[q].pos
    ensures var r := u.members[u.p];
      Cursor.Next(ts[r], ws[r], cs[r]).atEnd ==> Next(ts, ws, cs, u).u.atEnd
    ensures var r := u.members[u.p];
      !Cursor.Next(ts[r], ws[r], cs[r]).atEnd ==>
        Cursor.BlockEnd(ts[r], Next(ts, ws, cs, u).cursors[r].pos, cs[r].depth + 1) > Cursor.BlockEnd(ts[r], cs[r].pos, cs[r].depth + 1)
  {
    hide *;
    NextUnfold(ts, ws, cs, u);
    var ms := u.members;
    var r := ms[u.p];
    var c := Cursor.Next(ts[r], ws[r], cs[r]);
    var cs' := cs[r := c];
    var s := Next(ts, ws, cs, u);
    SortedAt(ts, r);
    Cursor.NextLeavesBlock(ts[r], ws[r], cs[r]);
    if !c.atEnd {
      var u' := u.(p := Succ(u.p, |ms|));
      ReadyAt(ts, ws, cs', ms, u.p);
      var x1 := KeyAt(ts, ws, cs', r);
      SearchFrame(ts, ws, cs', u', x1);
      ReadyAt(ts, ws, s.cursors, ms, u.p);
      Cursor.BlockEndMonotone(ts[r], c.pos, s.cursors[r].pos, cs[r].depth + 1);
    }
  }

}
